=== FILE: README.md ===
# Tension-Analysis job pipeline, in Dafny

Tension-Analysis takes interview transcripts and marks the answers that show tension. A Flask front end stores each visitor's input under a per-user folder and drops a marker file into a queue folder. Background workers claim markers by renaming them, run the analysis, and write two artifacts: a `percentage` file with the progress or an error message, and a `result.csv` table.

This project models that pipeline as pure functions over an immutable, map-based filesystem. It covers:

- **The atomic per-user store** (`app/storage.py`, module `UserStore`).
  - Reads clear a stray directory or symbolic link, then open the artifact; every failure is `CannotOpen`.
  - Writes go to `<name>.tmp`, which a clean exit renames onto the artifact; every failure while opening is `CannotSave`.
- **The legacy CSV store** (`app/tension_analysis/storage.py`, module `CsvStore`). It follows the same protocol without the typed exceptions.
- **The marker-file job queue** (`app/storage.py`, module `JobQueue`).
  - `add_to_queue` stamps a fresh empty marker.
  - `take_from_queue` tries the names `^[0-9a-f]{32}$` matches, oldest first, and claims one by renaming it to `<uid>.<pid>`. As Python's `$` also matches before a final newline, a name of 32 hex digits followed by "\n" is a candidate too.
  - Release deletes only that claim file.
- **The worker task** (`app/tension_analysis_worker/__init__.py`, module `Worker`). It maps every failure to a message in the `percentage` artifact, and writes "100" only after the result has been installed.
- **One turn of the worker loop** (`app/run_worker.py`, module `WorkerLoop`).
- **The user-id cookie rule** (`app/tension_analysis/decorators.py`, module `UserId`). It keeps a cookie that matches the same pattern, so a "<32 hex>\n" cookie is kept as well.
- **The tension decision logic** of `process.py` (module `Tension`):
  - the question-type bucketing and the per-bucket statistics;
  - `is_boosting`, with its index -1 wrap-around;
  - the labelling rule, the row layout of the CSV table, and the progress formula.
- **The CSV writer** the table is written with (module `Csv`).
- **Hedge detection** (module `Hedge`):
  - the contraction rewrite and the 1- to 5-gram phrases;
  - the Jaccard threshold, as an integer test;
  - the per-word disambiguation rules, over a given dependency parse, tagger and lemmatizer.
- **The token-cleaning pipeline** of `clean_texts` (module `Emotion`).
- **The line-parsing rules** of the lexicon loaders (module `Lexicon`).
- **The CoreNLP wrapper**: its validators and its shaping of server answers (module `CoreNlp`).

Python's string built-ins live in `Text`, and the filesystem in `FileSystem`. `Base` holds `Option`, `Result` and the error kinds.

Some things are not computed here but passed in as parameters:

- the storage root;
- the worker's process identifier;
- the order `iterdir()` lists the queue in;
- the freshly generated user id;
- the NLP collaborators: the sentence splitter, the emotion model, the hedge detector, the word counter, the tokenizer, the parser and the lemmatizer;
- `float()` on lexicon fields;
- the CoreNLP server's answers.

The analysis a task runs is a `JobRun`: the progress reports and result text it produces, and the exception it ends with, if any. `Tension.AnalysisRun` builds the `JobRun` of `tension_analysis`.

Each rename, unlink, touch or write is one atomic transition of the abstract state. The filesystem has a clock `now`, which stamps modification times and advances with every change.

Notes on what the code does:

- **Not every store failure is `CannotOpen` or `CannotSave`.**
  - The final rename of a write scope is not wrapped, so its error escapes as an `OSError`.
  - An empty user id fails the store's assertion.
  - `UserStore.EndWrite` and `UserStore.WriteArtifact` model both.
- **The analysis itself reports 100.** Its progress callback is not limited to 1..99: the report after the last pair is `int(1 + n/n*99.0) = 100`. So "100" appears once before the result is installed and once after (`Tension.HundredBeforeInstall`).
- **The legacy CSV store has no `CannotOpen` wrapper.** A missing `result.csv` raises the filesystem's own error (`CsvStore.ReadCsv`).
- **No progress marker of -1 or 0 is ever written** by the code shown. The model writes only what the worker writes.

## Model

| member | source | states |
|---|---|---|
| Base.AnyOf | app/tension_analysis_worker/process.py:130-138 | A flag set inside a loop over a list holds exactly when some element satisfies the test |
| Base.FirstWhere | app/storage.py:155-161 | The loop stops at the first element passing the test: that element passes, every earlier one fails, and `None` means none passes |
| Text.Lower | app/tension_analysis_worker/process.py:60 | `str.lower()` on ASCII letters: keeps the length and lower-cases each capital A-Z, leaving every other character alone (non-ASCII case mapping is left out) |
| Text.Has | app/tension_analysis_worker/process.py:92 | The left-to-right scan for `word in s` agrees with "the substring occurs at some position" |
| Text.ReplaceAllAbsent | app/tension_analysis_worker/utils/hedge_detection.py:128-131 | `replace` leaves a text without the pattern unchanged |
| Text.ReplaceAllFirst | app/tension_analysis_worker/utils/hedge_detection.py:129 | `replace` works left to right: when no occurrence starts before it, the first occurrence becomes the replacement and the rest of the text is rewritten after it |
| Text.RemoveChar | app/tension_analysis/utils/emotion_helpers.py:35 | `word.replace('#', '')` holds no '#', and every other character as often as the word did; its length drops by the number of '#' |
| Text.RemoveCharAppend | app/tension_analysis/utils/emotion_helpers.py:35 | Deleting works piecewise, so the characters kept stay in their order: the result for `a + b` is the result for `a` followed by that for `b` |
| Text.Strip | app/tension_analysis/preload.py:47-48 | `line.strip()` is the slice of the line between its leading and its trailing white space (Python's `str.isspace()` set), has no white space at either end, and keeps every other character |
| Text.TrimLeft | app/tension_analysis/preload.py:47-48 | The left half of `strip()`: drops exactly the leading white space |
| Text.TrimRight | app/tension_analysis/preload.py:47-48 | The right half of `strip()`: drops exactly the trailing white space |
| Text.Split | app/tension_analysis_worker/process.py:93 | `s.split()` yields only non-empty words without white space (Python's `str.isspace()` set); with `Text.SplitAllSpace`, `Text.SplitWord` and `Text.SplitAtSpace` these are the maximal runs, in order |
| Text.TakeWordOf | app/tension_analysis_worker/process.py:93 | A run of non-space characters that ends at a space, or at the end, is read as one word |
| Text.SplitWordThen | app/tension_analysis_worker/process.py:93 | `(w + rest).split()` is `w` followed by the words of `rest` |
| Text.SplitLeadingSpace | app/tension_analysis_worker/process.py:93 | A leading white-space character does not change `split()` |
| Text.SplitAllSpace | app/tension_analysis_worker/process.py:93 | White space alone splits into no words |
| Text.SplitWord | app/tension_analysis_worker/process.py:93 | A non-empty run without white space splits into itself |
| Text.SplitAtSpace | app/tension_analysis_worker/process.py:93 | Any white-space character separates: the words of `a + [c] + b` are those of `a` followed by those of `b` |
| Text.Find | app/tension_analysis/preload.py:156 | Finds the first separator: `None` exactly when there is none |
| Text.SplitOn | app/tension_analysis/preload.py:88 | `split('\t')` gives one more field than the line has tabs, no field holds a tab, and the fields joined by tabs give the line back |
| Text.SplitOnce | app/tension_analysis/preload.py:156 | `split(',', 1)` gives two parts exactly when there is a comma, joined by that first comma, the first part comma-free; otherwise the line itself |
| Text.IndexOf | app/tension_analysis_worker/process.py:95 | `list.index(x)` is the first position holding `x`, and fails exactly when `x` is absent |
| Text.Prefix | app/tension_analysis_worker/__init__.py:19 | `user_id[:6]` is a prefix of the id, of length 6 or the whole id when shorter |
| Text.NatToString | app/tension_analysis_worker/__init__.py:27 | `str(n)` is a digit string without a leading zero (except "0") |
| Text.NatToStringRoundTrip | app/tension_analysis_worker/__init__.py:27 | The digits of `str(n)` read back as `n` |
| Text.IntToStringRoundTrip | app/tension_analysis_worker/__init__.py:27 | `int(str(p)) == p`: the percentage text written reads back as the number reported |
| FileSystem.Child | app/storage.py:64-68 | `folder / name` is one component longer than the folder and has the folder as parent; joining the empty name gives the folder |
| FileSystem.Resolve | app/storage.py:55 | `stat` follows symbolic links and never ends on a link |
| FileSystem.ReadFile | app/storage.py:76 | Opening for reading works exactly on a path that denotes a file, and yields the content of a regular file |
| FileSystem.MTime | app/storage.py:154 | `st_mtime` is available exactly when `stat` succeeds |
| FileSystem.Rmtree | app/storage.py:56 | `shutil.rmtree(p)` removes `p` and everything below it and nothing else |
| FileSystem.Unlink | app/storage.py:58 | `unlink` removes exactly a file or link and refuses a directory or a missing path |
| FileSystem.MakeDirs | app/storage.py:100-101 | `mkdir(parents=True)` succeeds exactly when no existing component is a non-directory; then `p` is a directory and only directories on the way to `p` are added |
| FileSystem.AddDir | app/storage.py:101 | The last step of `mkdir(parents=True)` creates `p` itself, once its parent exists |
| FileSystem.WriteTarget | app/storage.py:104 | An open for writing lands on the path itself unless it is a link, and never on a link |
| FileSystem.CreateEmpty | app/storage.py:104 | `open(p, 'w')` works exactly when the parent is a directory and `p` is not one; it leaves an empty file stamped now |
| FileSystem.Append | app/tension_analysis_worker/__init__.py:27 | `f.write(text)` appends `text` to the open regular file |
| FileSystem.Touch | app/storage.py:133 | `touch` on a missing path in an existing folder creates an empty file stamped now |
| FileSystem.Rename | app/storage.py:115 | `rename` moves a non-directory entry and replaces a file or link at the destination; it fails on a missing source or a directory in the way |
| FileSystem.RemoveIfNotRegular | app/storage.py:54-58 | Leaves a regular file alone, removes a real directory recursively, and unlinks a link (even one to a directory) without touching its target; nothing outside `p` changes |
| FileSystem.ChangesOnlyKeepsPath | app/storage.py:95-115 | A change confined to two artifacts of a folder keeps the path to the folder made of directories and touches nothing beside it |
| UserStore.ReadUserFile | app/storage.py:70-78 | The read path succeeds exactly on a regular file and returns its content; every other failure is CannotOpen; an empty id fails the assertion |
| UserStore.EnsureFolder | app/storage.py:100-101 | The user folder exists afterwards whenever no non-directory is in the way; only directories on the way to it are added |
| UserStore.ClearStray | app/storage.py:102-103 | After both clean-ups neither the artifact nor its `.tmp` is a directory or link; a regular artifact is kept |
| UserStore.ClearStrayInFolder | app/storage.py:100-103 | Making the folder and clearing strays keeps everything outside the folder and a regular artifact |
| UserStore.BeginWrite | app/storage.py:95-106 | Opening a write scope succeeds whenever the folder can be made; it then holds an empty new `.tmp` and the artifact as it was (if regular); every failure is CannotSave |
| UserStore.OpenTmp | app/storage.py:102-106 | After the folder exists, the strays are cleared and the temporary file opens empty; any failure is CannotSave |
| UserStore.CreatedTmp | app/storage.py:102-104 | The temporary file created in a prepared folder is new, empty and next to the artifact, and nothing outside the folder changes |
| UserStore.CreateTmpIn | app/storage.py:104 | Creating the `.tmp` once strays are cleared opens the scope without disturbing the artifact |
| UserStore.BeginWriteKeepsRead | app/storage.py:95-106 | Opening a write scope, even one that fails half-way, does not change what a reader of the artifact gets |
| UserStore.BeginWriteChangesOnly | app/storage.py:95-106 | Opening a write scope touches only the artifact, its `.tmp` and new directories on the way to the folder |
| UserStore.EndWrite | app/storage.py:111-115 | A clean exit moves the `.tmp` onto the artifact, and its rename error is not wrapped; an exceptional exit changes nothing |
| UserStore.OpenUserFile | app/storage.py:29-51 | Unknown file codes and an empty id fail an assertion; the mode takes the write path exactly when it holds 'w', 'a' or '+', otherwise the read path |
| UserStore.WriteArtifact | app/storage.py:95-115 | A full write changes only the artifact, its `.tmp` and the folder path; it fails only with CannotSave or the final rename's error |
| UserStore.ChunkChangesOnly | app/storage.py:108-109 | Writing to the scope's file touches only the `.tmp` |
| UserStore.EndChangesOnly | app/storage.py:111-115 | Closing a scope touches only the `.tmp` and the artifact |
| UserStore.CleanExitInstalls | app/storage.py:113-115 | A clean exit installs exactly the temporary file's content at the artifact path |
| UserStore.WriteThenRead | app/storage.py:95-115 | Round trip: after a successful write of `text`, reading the artifact yields exactly `text` |
| UserStore.WriteSucceeds | app/storage.py:95-115 | The write always succeeds for a non-empty id when nothing but directories lies on the way to the folder |
| UserStore.AbortKeepsPreviousRead | app/storage.py:111-115 | An exceptional exit keeps what a reader of the artifact sees, and leaves the `.tmp` holding the text |
| CsvStore.ReadCsv | app/tension_analysis/storage.py:23-27 | Reading `result.csv` clears strays and succeeds exactly on a regular file; a failure is the raw OS error; an empty id fails the assertion |
| CsvStore.BeginCsvWrite | app/tension_analysis/storage.py:45-52 | The CSV write scope succeeds whenever the folder can be made; it clears strays at both names and opens `tmp.result.csv` empty, keeps `result.csv` if regular and touches nothing outside the folder; a failure is the raw OS error |
| CsvStore.OpenCsvTmp | app/tension_analysis/storage.py:50-52 | Once the folder exists, clearing strays and opening the temporary file always succeeds |
| CsvStore.CreatedCsvTmp | app/tension_analysis/storage.py:50-52 | The new `tmp.result.csv` is empty and nothing outside the folder changes |
| CsvStore.CreateCsvTmpIn | app/tension_analysis/storage.py:52 | Creating `tmp.result.csv` after the clean-ups keeps a regular `result.csv` |
| CsvStore.ClearCsvStray | app/tension_analysis/storage.py:48-51 | The clean-ups keep everything outside the folder, and a regular `result.csv` afterwards was regular before |
| CsvStore.CsvWriteThenRead | app/tension_analysis/storage.py:45-61 | A clean exit installs `tmp.result.csv` as `result.csv`, which then reads as the written text |
| CsvStore.CsvAbortKeepsResult | app/tension_analysis/storage.py:57-61 | An exceptional exit leaves `result.csv` as a reader saw it before the write began |
| UserId.TrailingNewlineAccepted | app/tension_analysis/decorators.py:9 | The pattern as written accepts 32 hex digits followed by a newline, which is not a 32-hex id |
| UserId.AcceptedIdsAreBare | app/tension_analysis/decorators.py:9 | With the intended pattern (32 hex digits, nothing after), an accepted id has no newline and no dot, so neither "<id>\n" nor a claim name is accepted |
| UserId.MatchedNamesHaveNoDot | app/storage.py:119 | A name the pattern as written matches is 32 or 33 characters long and holds no dot, so no claim name `<name>.<pid>` matches; every 32-hex id matches |
| UserId.ChooseUserId | app/tension_analysis/decorators.py:16-18 | The cookie is kept exactly when it is 32 lower-case hex digits; otherwise, including a missing cookie, the fresh id is used; the result always matches |
| UserId.ChooseUserIdAsWritten | app/tension_analysis/decorators.py:16-18 | As written, the cookie is kept exactly when `^[0-9a-f]{32}$` matches it, a trailing newline included; otherwise, a missing cookie included, the fresh id is used; the result always matches |
| UserId.NewlineCookieKeptAsWritten | app/tension_analysis/decorators.py:16-18 | As written, a cookie with a trailing newline is kept, and the id is not 32 hex digits |
| UserId.ChooseUserIdIdempotent | app/tension_analysis/decorators.py:16-18 | Choosing again from the chosen id returns it unchanged |
| UserId.EnsureUserCookie | app/tension_analysis/decorators.py:12-22 | The view runs with the chosen id and the response always sets cookie `uid` to it; a cookie matching the pattern as written, "<32 hex>\n" included, is kept, any other is replaced by the fresh id |
| UserId.EnsureUserCookieCorrected | app/tension_analysis/decorators.py:12-22 | With the intended pattern, the cookie set is always 32 hex digits: the old one when it is such, the fresh id otherwise |
| UserId.CookieRoundTrip | app/tension_analysis/decorators.py:12-22 | The cookie a response sets is kept on the next request, whatever id that request generates, and the view sees the same id again (both patterns) |
| UserId.NewlineCookieReset | app/tension_analysis/decorators.py:16-21 | A "<32 hex>\n" cookie is kept and set again as written, and replaced by the fresh id with the intended pattern |
| JobQueue.ClaimName | app/storage.py:160 | A claim name `<uid>.<pid>` is never itself a queue candidate |
| JobQueue.InitQueueFolder | app/storage.py:121-123 | The queue folder is created when missing, and nothing existing changes |
| JobQueue.AddToQueue | app/storage.py:126-133 | Enqueuing a non-empty id succeeds exactly when the queue folder exists; it leaves an empty regular marker stamped now and touches nothing outside the marker |
| JobQueue.EnqueuedIsNewest | app/storage.py:126-133 | A freshly enqueued marker is strictly newer than every other entry |
| JobQueue.Candidates | app/storage.py:153 | The candidates are exactly the listed names `_UUID_REGEX.match` accepts, a "<32 hex>\n" name included |
| JobQueue.CorrectedCandidates | app/storage.py:153 | With the intended pattern, the candidates are exactly the listed names of 32 hex digits |
| JobQueue.CandidatesAsWrittenKeepMore | app/storage.py:153 | Every name the intended filter keeps is kept as written; a "<32 hex>\n" marker is kept as written only |
| JobQueue.StatKeys | app/storage.py:154 | Each candidate gets its `st_mtime` as key; a candidate that cannot be stat'ed makes the dequeue raise |
| JobQueue.Insert | app/storage.py:154 | One insertion step of the sort adds the element and keeps the others |
| JobQueue.InsertSorted | app/storage.py:154 | Inserting into a list sorted by mtime keeps it sorted |
| JobQueue.SortByKey | app/storage.py:154 | `sort(key=mtime)` is a permutation ordered oldest first |
| JobQueue.FirstClaimable | app/storage.py:155-161 | The first candidate of the order that is a file and can be renamed to its claim name |
| JobQueue.TryClaims | app/storage.py:155-163 | The loop renames the first claimable candidate and stops; when none is claimable nothing changes |
| JobQueue.FirstClaimableTail | app/storage.py:155-163 | Past an unclaimable first name, the search continues in the rest |
| JobQueue.ClaimOrder | app/storage.py:153-154 | The claiming order holds exactly the listed children the pattern as written matches, each with its mtime, sorted oldest first |
| JobQueue.OrderedNamesAreClean | app/storage.py:153-160 | Names in claiming order are non-empty and dot-free, so `with_suffix` appends the pid |
| JobQueue.ClaimOutcome | app/storage.py:155-167 | The loop either renames the first claimable name away (its marker path is then free) or changes nothing |
| JobQueue.RenamedAway | app/storage.py:160 | After the claim rename, the marker's own path is empty |
| JobQueue.TakeFromQueue | app/storage.py:152-169 | A dequeue returns a listed key, matching the pattern as written, that was claimable; the marker is renamed to its claim file, which then exists, and the marker path is empty; it fails with NothingTaken or a stat error, the latter changing nothing |
| JobQueue.TakeInOrder | app/storage.py:155-169 | Over the sorted candidates the dequeue returns the claimed key or NothingTaken |
| JobQueue.TakeIsOldestFirst | app/storage.py:153-161 | Oldest first: every candidate older than the returned one was not claimable; when none is claimable, nothing is taken and nothing changes |
| JobQueue.OldestFirst | app/storage.py:154-161 | No candidate older than the first claimable one in sorted order was claimable |
| JobQueue.EarlierPosition | app/storage.py:154 | A candidate older than the k-th of the sorted order sits before position k |
| JobQueue.Release | app/storage.py:171-175 | Release leaves no claim file and changes nothing else |
| JobQueue.RegularMarkerIsTaken | app/storage.py:152-169 | A queue of plain marker files with one not blocked at its claim name always hands out a job |
| JobQueue.TakeWhenClaimed | app/storage.py:165-168 | The dequeue succeeds exactly with the renamed key when the claim file verifies |
| JobQueue.RegularIsClaimable | app/storage.py:156-160 | A regular marker whose claim name is not a directory can be claimed |
| JobQueue.RenamedMarkerIsFile | app/storage.py:160-167 | A renamed regular marker verifies as a file under its claim name |
| JobQueue.OrderOfRegularMarkers | app/storage.py:153-154 | When every hex-named entry is a plain file, listing and stat'ing cannot fail |
| JobQueue.AbsentMarkerNotTaken | app/storage.py:155-169 | A key whose marker is gone is never handed out |
| JobQueue.NoDoubleClaim | app/storage.py:152-175 | Two claims in turn, with the first released and no enqueue between, never return the same key |
| JobQueue.ReleasedMarkerGone | app/storage.py:171-175 | Release does not bring back the marker the claim was renamed from |
| Worker.UpdatePercentage | app/tension_analysis_worker/__init__.py:25-27 | In a healthy folder a progress write succeeds and the percentage then reads as the text; it touches only the percentage artifact and its `.tmp` |
| Worker.RunSteps | app/tension_analysis_worker/__init__.py:28-30 | The analysis inside the result scope never changes the result artifact; without a failure its trace is its reports; a failure is CannotSave or an OS error |
| Worker.RunStepsTrace | app/tension_analysis_worker/__init__.py:28-30 | The events of the analysis body are a prefix of its progress reports, and none is an install |
| Worker.ReportsAreProgress | app/tension_analysis_worker/process.py:107 | Every report of a run is a progress write |
| Worker.RunStepsSucceeds | app/tension_analysis_worker/__init__.py:25-30 | In a healthy folder no store effect fails, and the temporary result file ends up holding exactly the emitted text |
| Worker.ReportKeepsReady | app/tension_analysis_worker/__init__.py:25-27 | A progress write keeps the result scope usable and its temporary file unchanged |
| Worker.EmitKeepsReady | app/tension_analysis_worker/process.py:108-114 | Writing a row appends to the temporary result file and keeps the scope usable |
| Worker.PercentageKeepsResult | app/tension_analysis_worker/__init__.py:25-27 | A progress write leaves the result artifact and its temporary file as they were |
| Worker.AppendKeepsResult | app/tension_analysis_worker/__init__.py:29-30 | Writing result text changes only the temporary result file |
| Worker.StepKeepsFolder | app/tension_analysis_worker/__init__.py:25-30 | Neither a progress write nor result text disturbs the path to the user folder |
| Worker.WriteError | app/tension_analysis_worker/__init__.py:44-46 | `_write_error` records the message (it then reads back in a healthy folder) or lets its failure escape; the result artifact is untouched |
| Worker.InputReadKeeps | app/tension_analysis_worker/__init__.py:15-17 | Reading the input changes nothing a later step looks at |
| Worker.ResultScopeReady | app/tension_analysis_worker/__init__.py:29 | Opening the result scope in a healthy folder gives an empty temporary file |
| Worker.ResultInstall | app/tension_analysis_worker/__init__.py:29-30 | The clean exit of the result scope installs the temporary file |
| Worker.TaskSuccess | app/tension_analysis_worker/__init__.py:13-41 | A job that analyses cleanly shows its own reports, then the install, then "100"; the result reads as the emitted text and the percentage as "100" |
| Worker.AnalyseSuccess | app/tension_analysis_worker/__init__.py:28-41 | The second `try` of the task, on success: reports, install, then "100" |
| Worker.InScopeSuccess | app/tension_analysis_worker/__init__.py:29-41 | Inside a ready scope a clean analysis ends installed and at "100" |
| Worker.ResultReadsAs | app/storage.py:70-78 | A regular result artifact reads as its content |
| Worker.WriteErrorWellEnded | app/tension_analysis_worker/__init__.py:44-46 | Recording an error after no install ends the task well |
| Worker.ProcessingMessageIsError | app/tension_analysis_worker/__init__.py:31-39 | Both processing messages, CannotSave's and any other exception's, are error messages |
| Worker.InScopeWellEnded | app/tension_analysis_worker/__init__.py:29-41 | Every outcome of the result scope ends well |
| Worker.InstallEndsWell | app/tension_analysis_worker/__init__.py:40-41 | An install followed by "100" (or by its escaping failure) ends the task well |
| Worker.TaskWellEnded | app/tension_analysis_worker/__init__.py:13-41 | Every task installs the result at most once, and only as the step just before its own final "100" (or as its last step when that write escapes); a task that installs nothing and does not escape ends with an error message |
| Worker.SameEntrySameRead | app/storage.py:70-78 | Equal entries at the artifact give equal reads |
| Worker.InScopeKeepsResult | app/tension_analysis_worker/__init__.py:29-39 | Unless it installs, the result scope leaves the result artifact as it was |
| Worker.TaskKeepsResultUnlessInstalled | app/tension_analysis_worker/__init__.py:13-41 | Crash safety: unless the trace records an install, the result artifact reads after the task exactly as before |
| Worker.AnalyseKeepsOpened | app/tension_analysis_worker/__init__.py:29-39 | After the scope is opened nothing before the install touches the result artifact |
| Worker.AnalyseKeepsResult | app/tension_analysis_worker/__init__.py:28-39 | Without an install the result reads as before the second `try` |
| Worker.TaskWithoutUserId | app/tension_analysis_worker/__init__.py:13-23 | An empty id fails the store's assertion, again in `_write_error`, and escapes with nothing changed |
| Worker.TaskOpenFailure | app/tension_analysis_worker/__init__.py:15-20 | An input that cannot be opened leaves only the "Cannot open input file" message; nothing is analysed or installed |
| Worker.TaskParseFailure | app/tension_analysis_worker/__init__.py:21-23 | An input that opens but does not parse leaves only the "Cannot read input file" message |
| Worker.TaskAnalysisFailure | app/tension_analysis_worker/__init__.py:28-39 | An analysis raising `e` shows its reports then the message for `e`; the result reads as before |
| Worker.AnalyseFailure | app/tension_analysis_worker/__init__.py:31-39 | A failing analysis ends with its reports then the processing message |
| Worker.EndWriteFrame | app/storage.py:111-115 | Installing the result touches nothing outside the user folder |
| Worker.InScopeFrame | app/tension_analysis_worker/__init__.py:29-41 | The result scope touches nothing outside the user folder |
| Worker.TaskFrame | app/tension_analysis_worker/__init__.py:13-46 | A task touches nothing outside its user's folder: no other user's artifacts and no queue marker |
| Worker.ErrorMessageIsNotPercentage | app/tension_analysis_worker/__init__.py:19-38 | No error message reads as an integer, so a reader can tell an error from progress |
| Worker.ErrorMessageHead | app/tension_analysis_worker/__init__.py:19-38 | Every error message starts with "C" or "U" |
| Worker.CodedHead | app/tension_analysis_worker/__init__.py:19 | A coded message starts with its head |
| Worker.MessagesRevealOnlyReportCode | app/tension_analysis_worker/__init__.py:19-38 | Messages reveal the id only through `user_id[:6]`: ids agreeing there get the same messages, each ending with those characters |
| WorkerLoop.Iterate | app/run_worker.py:12-21 | NothingTaken idles; an OS error from the dequeue is logged with nothing changed; a run handles a claimed listed key matching the pattern as written, and its claim file is gone afterwards |
| WorkerLoop.QueueOutsideUserFolder | app/storage.py:121 | The queue folder lies outside every user folder a task can touch |
| WorkerLoop.RanTouchesOnlyItsClaim | app/run_worker.py:14-16 | A turn runs the task once with the claimed key; the only queue entries it changes are that marker (gone) and its claim file |
| WorkerLoop.ClaimTaskRelease | app/storage.py:160-175 | Claim, task and release leave the queue as before except the claimed marker, which is gone |
| WorkerLoop.ReenqueuedJobSurvivesRelease | app/storage.py:171-175 | A key enqueued again while its job runs keeps its marker through the release |
| WorkerLoop.NonEmptyQueueRuns | app/run_worker.py:14-18 | A queue of plain, unblocked markers never lets a turn sleep |
| WorkerLoop.IssuedIdIsCandidate | app/tension_analysis/decorators.py:9 | With the pattern as written on both sides, an issued id (a kept "<32 hex>\n" cookie included), once enqueued, is a candidate of the queue sitting there as a plain marker |
| WorkerLoop.IssuedIdIsCandidateCorrected | app/tension_analysis/decorators.py:9 | With the intended pattern on both sides, an issued id, once enqueued, is a candidate sitting there as a plain marker |
| WorkerLoop.EnqueuedIsListed | app/storage.py:126-133 | An enqueued marker appears in every listing of the queue folder as a plain file |
| Csv.Double | app/tension_analysis_worker/process.py:108-113 | Doubling the quote characters never shortens a field |
| Csv.EncodeField | app/tension_analysis_worker/process.py:108-113 | QUOTE_MINIMAL leaves a plain field as it is and wraps one needing quotes in quote characters |
| Csv.QuotedBody | app/tension_analysis_worker/process.py:108-113 | Reading a quoted body always consumes input |
| Csv.PlainField | app/tension_analysis_worker/process.py:108-113 | An unquoted field and what follows make up the input |
| Csv.ParseField | app/tension_analysis_worker/process.py:108-113 | Reading a field never lengthens the rest |
| Csv.QuotedBodyOfDouble | app/tension_analysis_worker/process.py:108-113 | A doubled body followed by its closing quote reads back as the field |
| Csv.PlainFieldOf | app/tension_analysis_worker/process.py:108-113 | A field needing no quotes reads back up to the next delimiter or line end |
| Csv.FieldRoundTrip | app/tension_analysis_worker/process.py:108-113 | Every written field reads back exactly, and reading stops where the field ended |
| Csv.QuotedRoundTrip | app/tension_analysis_worker/process.py:108-113 | A quoted field reads back exactly |
| Csv.EncodeQuoted | app/tension_analysis_worker/process.py:108-113 | A field needing quotes is written as quote, doubled body, quote |
| Csv.ParseQuoted | app/tension_analysis_worker/process.py:108-113 | A quoted, doubled field reads back up to its closing quote |
| Csv.PlainRoundTrip | app/tension_analysis_worker/process.py:108-113 | A plain field reads back exactly |
| Csv.JoinRoundTrip | app/tension_analysis_worker/process.py:108-113 | A delimited line of fields reads back as those fields |
| Csv.ParseRowLast | app/tension_analysis_worker/process.py:108-113 | A field followed by the line terminator is the last of its row |
| Csv.ParseRowCons | app/tension_analysis_worker/process.py:108-113 | A field followed by a delimiter heads the row of the fields after it |
| Csv.RowRoundTrip | app/tension_analysis_worker/process.py:114 | `writerow(fields)` reads back as the same fields |
| Tension.Matches | app/tension_analysis_worker/process.py:64-67 | The matching types are exactly the listed types occurring in the question |
| Tension.ScanCountsMatches | app/tension_analysis_worker/process.py:62-67 | The counting loop counts the matching types and remembers the last one |
| Tension.MatchesDistinct | app/tension_analysis_worker/process.py:19 | Distinct types give distinct matches |
| Tension.Bucket | app/tension_analysis_worker/process.py:59-74 | Every question lands in one of the eight types |
| Tension.BucketNoType | app/tension_analysis_worker/process.py:69-70 | No type in the lower-cased question: "yesno" |
| Tension.BucketOneType | app/tension_analysis_worker/process.py:71-72 | Exactly one type in the question: that type |
| Tension.BucketSeveralTypes | app/tension_analysis_worker/process.py:73-74 | Two or more types in the question: "mixed" |
| Tension.QuesTypesDistinct | app/tension_analysis_worker/process.py:19 | The eight type names are distinct |
| Tension.ClassifyOne | app/tension_analysis_worker/process.py:64-72 | With distinct types, a single occurring type is the bucket |
| Tension.ClassifySeveral | app/tension_analysis_worker/process.py:64-74 | Two occurring types make the bucket "mixed" |
| Tension.TwoMatches | app/tension_analysis_worker/process.py:64-67 | Two occurring types count at least two |
| Tension.OnlyMatch | app/tension_analysis_worker/process.py:64-67 | A single occurring type is the only match |
| Tension.NoMatch | app/tension_analysis_worker/process.py:64-67 | No occurring type, no match |
| Tension.EmptyGroups | app/tension_analysis_worker/process.py:49 | `d` starts with one list per type and no other key |
| Tension.GroupFromColumns | app/tension_analysis_worker/process.py:59-74 | The grouping loop appends to each bucket exactly the answer lengths of its pairs, in order |
| Tension.GroupFromKeys | app/tension_analysis_worker/process.py:59-74 | The grouping never adds a key outside the types |
| Tension.BucketIsType | app/tension_analysis_worker/process.py:69-74 | The bucketing always names a key of `d` |
| Tension.GroupsAreColumns | app/tension_analysis_worker/process.py:49-74 | Every type has an entry listing exactly the answer lengths of the pairs bucketed to it, in input order |
| Tension.ColumnSizesStep | app/tension_analysis_worker/process.py:59-74 | One more pair adds one to exactly one bucket's size |
| Tension.ColumnSizesEmpty | app/tension_analysis_worker/process.py:49 | No pairs, empty buckets |
| Tension.BucketsPartitionPairs | app/tension_analysis_worker/process.py:59-74 | Every pair lands in exactly one bucket: the bucket sizes add up to the number of pairs |
| Tension.MomentsOf | app/tension_analysis_worker/process.py:76-79 | The moments of a bucket count its lengths |
| Tension.QuesStatistics | app/tension_analysis_worker/process.py:48-84 | The statistics have an entry for every one of the eight types |
| Tension.ThreeSigma | app/tension_analysis_worker/process.py:167 | Lying more than three deviations away on either side is the square exceeding nine variances |
| Tension.OutlierIsThreeSigma | app/tension_analysis_worker/process.py:148-168 | The integer outlier test is `n > mean + 3*std or n < mean - 3*std` with the bucket's mean and population deviation |
| Tension.IsBoosting | app/tension_analysis_worker/process.py:90-101 | `is_boosting` returns None exactly when no booster occurs as a substring |
| Tension.FirstBoosterDecides | app/tension_analysis_worker/process.py:91-101 | The first occurring booster decides: it boosts unless the word read before it is "not" or "without" |
| Tension.BoosterInsideWordBoosts | app/tension_analysis_worker/process.py:94-97 | A booster found only inside a longer word has no previous word and boosts |
| Tension.EmptyBoosterBoostsEverything | app/tension_analysis/preload.py:44-48 | A blank booster line (kept as "") at the head of the list marks every sentence boosting |
| Tension.NegatedBoosterDoesNotBoost | app/tension_analysis_worker/process.py:95-99 | "not" right before the booster makes it not boost |
| Tension.PreviousOfSecond | app/tension_analysis_worker/process.py:95 | The word before the second of two words is the first |
| Tension.WrapAroundDoesNotBoost | app/tension_analysis_worker/process.py:95 | Index 0 - 1 wraps to the last word: a sentence ending in "not" cancels a booster at its start |
| Tension.FirstFive | app/tension_analysis_worker/process.py:130 | `sentences[:5]` is the first up to five sentences |
| Tension.AnyOccurs | app/tension_analysis_worker/process.py:140-142 | A cue flag holds exactly when some cue occurs in the answer |
| Tension.SentenceSignals | app/tension_analysis_worker/process.py:119-138 | Emotion, hedging and boosting each hold exactly when one of the first five sentences of the lower-cased answer shows it |
| Tension.FirstFiveAny | app/tension_analysis_worker/process.py:130 | A sentence of `sentences[:5]` passes exactly when one of index below 5 does |
| Tension.AnswerSignals | app/tension_analysis_worker/process.py:140-168 | Cues search the whole answer; the question needs '?' and a wh-word in the first sentence; the outlier uses the statistics of the question's own bucket |
| Tension.Label | app/tension_analysis_worker/process.py:170-177 | The verdict is "Tension" or "No Tension" |
| Tension.LabelByHedging | app/tension_analysis_worker/process.py:170-177 | Without hedging only a question or an outlier gives tension; with it, any of the five signals does |
| Tension.LabelMonotone | app/tension_analysis_worker/process.py:170-177 | More signals never remove tension |
| Tension.PercentRange | app/tension_analysis_worker/process.py:178 | `int(1 + i/total*99)` lies in 1..100 and is 100 exactly at the last pair |
| Tension.PercentMonotone | app/tension_analysis_worker/process.py:178 | Progress never goes backwards |
| Tension.Body | app/tension_analysis_worker/process.py:118-177 | Two three-column rows per pair |
| Tension.Table | app/tension_analysis_worker/process.py:114-177 | Every row has three columns |
| Tension.TableAt | app/tension_analysis_worker/process.py:114-177 | The table is the header, then for pair k its question row at 2k+1 and its answer row with its verdict at 2k+2: 1 + 2n rows |
| Tension.PairStepsOfOne | app/tension_analysis_worker/process.py:122-178 | One pair writes its two rows and reports one number |
| Tension.PercentagesAppend | app/tension_analysis_worker/process.py:107-178 | The reports of consecutive stretches of a run are concatenated |
| Tension.EmittedAppend | app/tension_analysis_worker/process.py:114-177 | The text of consecutive stretches of a run is concatenated |
| Tension.ReportsArePercentages | app/tension_analysis_worker/__init__.py:25-27 | Each report of a run sets the percentage text to `str` of the reported number |
| Tension.PairPercentages | app/tension_analysis_worker/process.py:118-178 | The pairs report, in order, the progress after each of them |
| Tension.PairPercentRun | app/tension_analysis_worker/process.py:118-178 | The reports of pairs i.. are the percentages after each |
| Tension.PairReportsItsPercent | app/tension_analysis_worker/process.py:178 | The first pair reports the percentage after it |
| Tension.PercentsFrom | app/tension_analysis_worker/process.py:178 | The report after pair i, ahead of those after the later pairs |
| Tension.PercentRunAt | app/tension_analysis_worker/process.py:178 | The run of percentages after pairs i, i+1, ... position by position |
| Tension.TableProgress | app/tension_analysis_worker/process.py:107-178 | Progress starts at 1, reads the percentage of k pairs after pair k, never decreases, stays in 1..100, and is 100 only after the last pair; an empty interview reports only 1 |
| Tension.TableReports | app/tension_analysis_worker/process.py:107-178 | The progress values of an analysis position by position |
| Tension.AfterTheHeader | app/tension_analysis_worker/process.py:107-118 | After the first report of 1 come the per-pair reports |
| Tension.TableStartsAtOne | app/tension_analysis_worker/process.py:107-114 | The first report is 1, before any pair is looked at |
| Tension.ReportThenEmit | app/tension_analysis_worker/process.py:107-114 | The header row reports nothing |
| Tension.ProgressShape | app/tension_analysis_worker/process.py:178 | A run starting at 1 and reading the percentage of k pairs after pair k is monotone, in 1..100, and 100 only at the end |
| Tension.EmittedIsTable | app/tension_analysis_worker/process.py:108-177 | The result text is exactly the table in CSV form, row after row |
| Tension.PairsEmitted | app/tension_analysis_worker/process.py:118-177 | The pairs write exactly the body rows |
| Tension.PairEmitsItsRows | app/tension_analysis_worker/process.py:122-177 | A pair writes its question row then its answer row |
| Tension.BodyEncoding | app/tension_analysis_worker/process.py:122-177 | The body starts with the two rows of the first pair |
| Tension.EncodePairRows | app/tension_analysis_worker/process.py:122-177 | Two rows ahead of a table are encoded ahead of its encoding |
| Tension.HundredBeforeInstall | app/tension_analysis_worker/__init__.py:28-41 | On a non-empty interview the progress reads "100" first from the analysis's last report, then the result is installed, then "100" again; no earlier report is "100" |
| Tension.ReportsEndAtHundred | app/tension_analysis_worker/process.py:107-178 | A non-empty interview gives n + 1 progress texts, of which only the last is "100" |
| Hedge.Normalise | app/tension_analysis_worker/utils/hedge_detection.py:126-131 | A text without either contraction is only lower-cased; what the rewrite puts in place of a contraction is stated by `Hedge.NormaliseRewritesAscii`, `Hedge.NormaliseRewritesCurly` and `Hedge.NormaliseLeavesCurly` |
| Hedge.NormaliseRewritesAscii | app/tension_analysis_worker/utils/hedge_detection.py:126-129 | The first "n't" of the lower-cased text becomes " not", and the rewrite goes on after it |
| Hedge.NormaliseRewritesCurly | app/tension_analysis_worker/utils/hedge_detection.py:126-131 | Without any "n't", the first "n’t" becomes " not", and the rewrite goes on after it |
| Hedge.NormaliseLeavesCurly | app/tension_analysis_worker/utils/hedge_detection.py:126-131 | "n’t" survives normalisation exactly when the text holds both "n't" and "n’t" |
| Hedge.NormaliseRemovesAscii | app/tension_analysis_worker/utils/hedge_detection.py:126-131 | The normalised text never holds "n't" |
| Hedge.RewriteCreatesNone | app/tension_analysis_worker/utils/hedge_detection.py:128-131 | Rewriting one form of the contraction leaves none of that form and creates none of the other |
| Hedge.RewriteKeeps | app/tension_analysis_worker/utils/hedge_detection.py:128-129 | Rewriting "n't" keeps every "n’t" |
| Hedge.NoContractionAfterSpacedNot | app/tension_analysis_worker/utils/hedge_detection.py:129 | " not" in front of a text without a contraction creates none |
| Hedge.NoContractionAfterChar | app/tension_analysis_worker/utils/hedge_detection.py:129 | One character in front of a text without a contraction creates none unless it is the 'n' of one |
| Hedge.ApostropheAfterRewrite | app/tension_analysis_worker/utils/hedge_detection.py:129 | A rewritten text starting with an apostrophe and 't' started with them before |
| Hedge.KeepsFirst | app/tension_analysis_worker/utils/hedge_detection.py:129 | The rewrite keeps a first character that is not a space |
| Hedge.NoContractionInSuffix | app/tension_analysis_worker/utils/hedge_detection.py:130-131 | A text without a contraction has none in any suffix |
| Hedge.NGrams | app/tension_analysis_worker/utils/hedge_detection.py:139 | `ngrams(tokens, n)` is every run of n consecutive tokens, left to right |
| Hedge.PhrasesFromSlices | app/tension_analysis_worker/utils/hedge_detection.py:138-139 | The phrases from n up to 5 are exactly the runs of n to 5 tokens |
| Hedge.PhrasesAreSlices | app/tension_analysis_worker/utils/hedge_detection.py:138-139 | The phrases are exactly the runs of one to five consecutive tokens |
| Hedge.PhrasesFromCount | app/tension_analysis_worker/utils/hedge_detection.py:138-139 | Each n contributes max(0, len - n + 1) phrases |
| Hedge.PhrasesCount | app/tension_analysis_worker/utils/hedge_detection.py:138-139 | There are the sum over n = 1..5 of max(0, len - n + 1) phrases |
| Hedge.JaccardThreshold | app/tension_analysis_worker/utils/hedge_detection.py:152-153 | `1 - jaccard_distance >= 0.8` is exactly 5·I >= 4·U for intersection I and union U |
| Hedge.SimilarSizes | app/tension_analysis_worker/utils/hedge_detection.py:152-153 | A marker and a matching phrase have comparable numbers of distinct words |
| Hedge.OneTokenMissesLongMarker | app/tension_analysis_worker/utils/hedge_detection.py:152-153 | A marker of two or more words never matches one token |
| Hedge.SameWordsMatch | app/tension_analysis_worker/utils/hedge_detection.py:152-153 | A phrase with exactly the marker's words matches |
| Hedge.DisjointMisses | app/tension_analysis_worker/utils/hedge_detection.py:152-153 | A phrase sharing no word with the marker does not match |
| Hedge.MarkerFound | app/tension_analysis_worker/utils/hedge_detection.py:149-158 | The nested marker search succeeds exactly when some marker matches some phrase |
| Hedge.MatchesSome | app/tension_analysis_worker/utils/hedge_detection.py:151-155 | The inner loop succeeds exactly when the marker matches some phrase |
| Hedge.FirstTree | app/tension_analysis_worker/utils/hedge_detection.py:18-19 | `parse_trees[0]` fails with IndexError exactly when there is no sentence |
| Hedge.FirstTag | app/tension_analysis_worker/utils/hedge_detection.py:71-72 | `tag[0][1]` fails with IndexError exactly on an empty answer |
| Hedge.NounHead | app/tension_analysis_worker/utils/hedge_detection.py:69-73 | Finds a non-ROOT triple attaching the token to a noun-tagged governor; false means every such governor is tagged otherwise |
| Hedge.LikelyNoun | app/tension_analysis_worker/utils/hedge_detection.py:66-74 | True means a noun governor was found for a word "likely" modifies; false means none |
| Hedge.ThinkFollowedByIn | app/tension_analysis_worker/utils/hedge_detection.py:87-93 | Finds a "think" token followed by an "IN"-tagged token; the last token is not looked at |
| Hedge.StripPunctuation | app/tension_analysis_worker/utils/hedge_detection.py:77 | No punctuation is left |
| Hedge.Rather | app/tension_analysis_worker/utils/hedge_detection.py:76-83 | With punctuation removed, the word after the first "rather" decides: false exactly when it is "than"; the lookup fails exactly when there is no "rather" or the first one is the last word |
| Hedge.LastSubject | app/tension_analysis_worker/utils/hedge_detection.py:100-106 | The remembered subject is the last nsubj triple of the hedge that is not its ROOT triple |
| Hedge.VerbOfHedge | app/tension_analysis_worker/utils/hedge_detection.py:112-114 | Some tag marks a word lemmatizing to the hedge as a verb |
| Hedge.TrueHedge | app/tension_analysis_worker/utils/hedge_detection.py:14-120 | Disambiguation fails only with the IndexError or ValueError of the lookups |
| Hedge.AssumeRule | app/tension_analysis_worker/utils/hedge_detection.py:17-23 | "assume" is true exactly when a ccomp triple's governor lemmatizes to it |
| Hedge.AppearRule | app/tension_analysis_worker/utils/hedge_detection.py:25-31 | "appear" is true exactly when an xcomp or ccomp triple's governor lemmatizes to it |
| Hedge.TendRule | app/tension_analysis_worker/utils/hedge_detection.py:44-50 | "tend" is true exactly when an xcomp triple's governor lemmatizes to it |
| Hedge.SupposeRule | app/tension_analysis_worker/utils/hedge_detection.py:33-42 | "suppose" is true unless one of its xcomp dependents is marked by "to" |
| Hedge.ShouldRule | app/tension_analysis_worker/utils/hedge_detection.py:52-61 | "should" is true unless the word it is auxiliary to also governs "have" |
| Hedge.LikelyRule | app/tension_analysis_worker/utils/hedge_detection.py:63-74 | "likely" is false when it modifies a word attached to a noun-tagged governor, true when every such governor is tagged otherwise |
| Hedge.ThinkRule | app/tension_analysis_worker/utils/hedge_detection.py:85-93 | "think" is false when followed by an "IN" token, true when every "think" before the last token is followed by something else |
| Hedge.UnruledWordIsFalse | app/tension_analysis_worker/utils/hedge_detection.py:95-120 | A word outside every rule gives None, read as false |
| Hedge.FeelFamilyRule | app/tension_analysis_worker/utils/hedge_detection.py:95-120 | The "feel" family is true exactly when the hedge is a root, has an nsubj, is tagged as a verb, and its last subject is "i" or "we" |
| Hedge.FeelRuleMeaning | app/tension_analysis_worker/utils/hedge_detection.py:98-120 | The same rule stated over one dependency tree |
| Hedge.HedgeScan | app/tension_analysis_worker/utils/hedge_detection.py:142-145 | The hedge-word loop stops at the first in-token word judged true; false means every in-token word is judged false |
| Hedge.ScanFindsTrue | app/tension_analysis_worker/utils/hedge_detection.py:142-145 | An in-token word judged true, after words judged without error, makes the scan true |
| Hedge.MarkerFoundOnRuns | app/tension_analysis_worker/utils/hedge_detection.py:138-158 | The marker search over the n-grams is a search over runs of one to five tokens |
| Hedge.IsHedged | app/tension_analysis_worker/utils/hedge_detection.py:125-160 | A sentence is hedged exactly when a hedge word among its tokens is judged true or a marker matches some phrase; a failure is the failure of judging some hedge word |
| Hedge.MarkersDecideWithoutHedgeWords | app/tension_analysis_worker/utils/hedge_detection.py:149-160 | Without a hedge word among its tokens, only the markers decide |
| Hedge.TrueHedgeWordSettles | app/tension_analysis_worker/utils/hedge_detection.py:142-149 | A true hedge word settles the sentence before any marker is looked at |
| Emotion.RunLength | app/tension_analysis/utils/emotion_helpers.py:10-11 | The leading run of a character is maximal |
| Emotion.MarkRuns | app/tension_analysis/utils/emotion_helpers.py:10-11 | `re.sub('(c){2,}', marker, s)` is empty exactly when `s` is, and keeps a first character that starts no run; `Emotion.MarkRunsAtRun` states that each maximal run of two or more becomes the marker |
| Emotion.ConcatNoDoubled | app/tension_analysis/utils/emotion_helpers.py:10-11 | Joining two run-free texts at a non-doubling seam is run-free |
| Emotion.MarkRunsLeavesNoDouble | app/tension_analysis/utils/emotion_helpers.py:10-11 | After the substitution no two copies of the character are adjacent |
| Emotion.MarkRunsKeepsNoDouble | app/tension_analysis/utils/emotion_helpers.py:10-11 | Substituting '?' runs keeps a text free of "!!" |
| Emotion.MarkRunsKeepsPlainText | app/tension_analysis/utils/emotion_helpers.py:10-11 | A text without runs is left as it is |
| Emotion.MarkRunsAppend | app/tension_analysis/utils/emotion_helpers.py:10-11 | The substitution works piecewise wherever no run of the character crosses the seam |
| Emotion.MarkRunsOfRun | app/tension_analysis/utils/emotion_helpers.py:10-11 | A leading maximal run of two or more copies becomes one marker; a lone copy stays |
| Emotion.MarkRunsAtRun | app/tension_analysis/utils/emotion_helpers.py:10-11 | Each maximal run of two or more copies, wherever it sits, becomes the marker, and the text on either side is rewritten on its own |
| Emotion.RepeatMarksLeaveNoRuns | app/tension_analysis/utils/emotion_helpers.py:10-11 | After lines 10-11 the text holds neither "!!" nor "??" |
| Emotion.HasEmoji | app/tension_analysis/utils/emotion_helpers.py:172-176 | `text_has_emoji` is true exactly when some character is in the emoji table |
| Emotion.SplitEmoji | app/tension_analysis/utils/emotion_helpers.py:20-29 | Every token goes to exactly one side; the tokens kept are exactly those neither emoji nor emoticon |
| Emotion.SplitHashtags | app/tension_analysis/utils/emotion_helpers.py:32-39 | Tokens holding '#' leave the tokens and go aside with every '#' removed; the others stay |
| Emotion.SplitEmojiSide | app/tension_analysis/utils/emotion_helpers.py:20-29 | The side list holds the name of every emoji token and every emoticon token, and each of its entries is the name of some emoji token or some emoticon token |
| Emotion.SplitEmojiAppend | app/tension_analysis/utils/emotion_helpers.py:22-29 | Splitting `a + b` keeps the tokens of `a` then those of `b`, and sends aside the entries of `a` then those of `b`: the loop works in token order |
| Emotion.SplitHashtagsSide | app/tension_analysis/utils/emotion_helpers.py:33-39 | Each side entry is some token holding '#', with every '#' removed |
| Emotion.SplitHashtagsAppend | app/tension_analysis/utils/emotion_helpers.py:33-39 | Splitting `a + b` keeps the tokens of `a` then those of `b`, and sends aside the tags of `a` then those of `b` |
| Emotion.ExpandWord | app/tension_analysis/utils/emotion_helpers.py:43-49 | A token that is neither slang nor negated stays itself |
| Emotion.ExpandKeepsPlainWords | app/tension_analysis/utils/emotion_helpers.py:42-50 | A list without slang or negated forms passes unchanged |
| Emotion.ExpandCons | app/tension_analysis/utils/emotion_helpers.py:42-50 | The expansion handles the first token first |
| Emotion.ExpandAppend | app/tension_analysis/utils/emotion_helpers.py:42-50 | The expansion works token by token: expanding a concatenation concatenates the expansions |
| Emotion.ExpandAppendStep | app/tension_analysis/utils/emotion_helpers.py:42-50 | One induction step of the token-by-token expansion |
| Emotion.SlangWinsOverNegation | app/tension_analysis/utils/emotion_helpers.py:44-47 | A word both slang and negated expands as slang, split on white space |
| Emotion.ReplaceUsers | app/tension_analysis/utils/emotion_helpers.py:53 | Exactly the tokens holding '@' become "<user>" |
| Emotion.ReplaceNumbers | app/tension_analysis/utils/emotion_helpers.py:56 | Exactly the digit tokens become "<number>" |
| Emotion.BlankLinks | app/tension_analysis/utils/emotion_helpers.py:59 | Exactly the tokens holding "http" become empty |
| Emotion.DropStopwords | app/tension_analysis/utils/emotion_helpers.py:65 | What remains are input tokens that are not stop words |
| Emotion.DropShort | app/tension_analysis/utils/emotion_helpers.py:68 | What remains are input tokens longer than one character |
| Emotion.NoLinkWithoutH | app/tension_analysis/utils/emotion_helpers.py:59 | A token without 'h' holds no link text |
| Emotion.PlaceholdersAreClean | app/tension_analysis/utils/emotion_helpers.py:53-59 | The placeholders are not caught by the later passes |
| Emotion.Normalised | app/tension_analysis/utils/emotion_helpers.py:53-59 | After the three replacing passes a token holds no '@' or "http" and is no digit string; a clean token is left alone |
| Emotion.Finish | app/tension_analysis/utils/emotion_helpers.py:53-68 | Every token left is long enough, no stop word, and holds no '@', "http" or bare number |
| Emotion.ReplacingPasses | app/tension_analysis/utils/emotion_helpers.py:53-59 | The three replacing passes act token by token |
| Emotion.DroppingPasses | app/tension_analysis/utils/emotion_helpers.py:65-68 | The two dropping passes are one filter |
| Emotion.FinishIsKeepOnly | app/tension_analysis/utils/emotion_helpers.py:53-68 | The single pass is the filter over the normalised tokens |
| Emotion.PassesAreOnePass | app/tension_analysis/utils/emotion_helpers.py:53-68 | The five list passes equal the single pass |
| Emotion.CleanText | app/tension_analysis/utils/emotion_helpers.py:9-71 | Every token a cleaned text keeps passes the final filters |
| Emotion.CleanTextTokens | app/tension_analysis/utils/emotion_helpers.py:53-68 | Every kept token is longer than one character, no stop word, and free of '@', "http" and bare numbers |
| Emotion.HashtagsGoAside | app/tension_analysis/utils/emotion_helpers.py:32-39 | Without emojis, the side list holds no '#', holds the tag of every token with '#', and each entry is the tag of some such token |
| Emotion.CleanTextSide | app/tension_analysis/utils/emotion_helpers.py:20-39 | The side list is the emoji split's side list (nothing when the text has no emoji), then the tags of the tokens that split kept |
| Emotion.EmojisThenHashtags | app/tension_analysis/utils/emotion_helpers.py:20-39 | With emojis, the side list starts with the emoji split's side list, and every later entry is the tag of some kept token holding '#' |
| Emotion.CleanTexts | app/tension_analysis/utils/emotion_helpers.py:4-73 | One token list and one side list per text, in order |
| Emotion.CleanEach | app/tension_analysis/utils/emotion_helpers.py:5-8 | The loop collects each text's two lists side by side |
| Emotion.MaxLength | app/tension_analysis/utils/emotion_helpers.py:160-161 | The maximum length, attained by some line; ValueError on an empty list |
| Lexicon.StripAll | app/tension_analysis/preload.py:150-152 | The stop-word and emoticon loaders keep every stripped line |
| Lexicon.KeepUncommented | app/tension_analysis/preload.py:44-54 | Booster and cue loaders keep exactly the stripped lines without '#', blanks included |
| Lexicon.HashTestOnStripped | app/tension_analysis/preload.py:183 | Testing '#' on the raw line agrees with testing the stripped line |
| Lexicon.KeepEntries | app/tension_analysis/preload.py:180-193 | Hedge-word and marker loaders keep exactly the non-blank lines without '#' |
| Lexicon.DropBlank | app/tension_analysis/preload.py:185-186 | Blank entries are dropped |
| Lexicon.EntriesAreUncommentedWithoutBlanks | app/tension_analysis/preload.py:180-193 | The hedge lists are the booster-style lists without blanks |
| Lexicon.BlankLineGivesEmptyWord | app/tension_analysis/preload.py:44-48 | A blank line in a booster file becomes the empty booster |
| Lexicon.Fields | app/tension_analysis/preload.py:88 | Splitting a line always gives a first field |
| Lexicon.Rows | app/tension_analysis/preload.py:87-88 | One split row per line |
| Lexicon.LoadFirstWinsKeys | app/tension_analysis/preload.py:87-97 | A first-wins load keeps seeded entries and files exactly the seeded words and the words some line names |
| Lexicon.FirstLineWins | app/tension_analysis/preload.py:89-90 | A word is filed with the value of the first line naming it |
| Lexicon.SkipHeader | app/tension_analysis/preload.py:86 | `f.readline()` drops the header line |
| Lexicon.Unhashed | app/tension_analysis/preload.py:119 | A hashtag word is filed without '#' |
| Lexicon.Column | app/tension_analysis/preload.py:91 | `float(splitted[i])`: IndexError past the end, otherwise the parsed value or a refusal |
| Lexicon.AffectOf | app/tension_analysis/preload.py:90-97 | The six emotions come from columns 1, 3, 4, 5, 8 and 9, and all must parse |
| Lexicon.Second | app/tension_analysis/preload.py:135 | `splitted[1]` exists exactly on a line with a tab |
| Lexicon.AfinnOf | app/tension_analysis/preload.py:146-148 | A score in [-5, 5] is moved to [0, 1] |
| Lexicon.LoadNrc | app/tension_analysis/preload.py:85-97 | The NRC table files exactly the first fields of the lines after the header |
| Lexicon.NrcHeaderIgnored | app/tension_analysis/preload.py:86 | Whatever the header says, it is never filed |
| Lexicon.LoadHashtags | app/tension_analysis/preload.py:115-128 | No filed hashtag word holds '#' |
| Lexicon.BingLiuWins | app/tension_analysis/preload.py:131-140 | A BingLiu word keeps the label of its first BingLiu line, whatever MPQA says |
| Lexicon.LoadAfinn | app/tension_analysis/preload.py:142-148 | AFINN files exactly the first fields of its lines |
| Lexicon.CommaSplits | app/tension_analysis/preload.py:156 | Each stripped line splits at its first comma into one or two parts |
| Lexicon.LoadLastWins | app/tension_analysis/preload.py:154-162 | Fails with IndexError exactly when a line has no comma; otherwise files exactly the seeded and named words |
| Lexicon.LastLineWins | app/tension_analysis/preload.py:157 | A word gets the text after the first comma of the last line naming it |
| Lexicon.LastWinsKeeps | app/tension_analysis/preload.py:157 | A word no line names keeps its value |
| Lexicon.LoadPairs | app/tension_analysis/preload.py:154-157 | The slang table fails exactly when some line has no comma |
| Lexicon.RatingOf | app/tension_analysis/preload.py:79-82 | A Warriner row reads columns 2, 5 and 8; a valence in [1, 9] moves to [0, 1] |
| Lexicon.LoadRatings | app/tension_analysis/preload.py:77-82 | The load succeeds exactly when every row reads, and keeps seeded words filed |
| Lexicon.LoadWarriner | app/tension_analysis/preload.py:72-82 | The header row is skipped; the table files exactly the key column of every later row |
| Lexicon.RatingsCoverRows | app/tension_analysis/preload.py:77-82 | Every row's key is filed |
| Lexicon.RatingsKeysFromRows | app/tension_analysis/preload.py:77-82 | Every filed key comes from a row or the seed |
| Lexicon.LastRatingWins | app/tension_analysis/preload.py:77-82 | `ratings[rows[i][1]] = …` overwrites: a word holds the rating of the last row that names it |
| Lexicon.RatingKeeps | app/tension_analysis/preload.py:77-82 | A seeded word that no row names keeps its seeded rating |
| Lexicon.WarrinerLastRowWins | app/tension_analysis/preload.py:72-82 | After the header row, every word of the Warriner table carries the valence, arousal and dominance read from the last row naming it |
| CoreNlp.Connect | app/preload.py:195-270 | A host starting with "http" gives url host + ":" + str(port); otherwise a local server on port 9999; lang and memory are kept; the url always starts with "http" |
| CoreNlp.SharedClientUrl | app/preload.py:423 | The worker's client URL is "http://stanford_nlp:9999:9999" |
| CoreNlp.CheckLanguageAsWritten | app/preload.py:418-421 | Accepts exactly en, zh, ar, fr, de, es; the refusal names the client's current language |
| CoreNlp.CheckLanguage | app/preload.py:418-421 | Accepts exactly the six languages; the refusal names the refused one |
| CoreNlp.SwitchLanguage | app/preload.py:394-396 | A refused language leaves the client as it was, and the message of the check as written names the client's current language; an accepted one replaces `lang` only |
| CoreNlp.SwitchLanguageCorrected | app/preload.py:394-396 | The same switch with the refusal naming the refused language |
| CoreNlp.RefusalNamesCurrentLanguage | app/preload.py:418-421 | As written, refusing "xx" on an English client, by the check or by `switch_language`, reports "lang=en"; corrected, it reports "lang=xx" |
| CoreNlp.CheckArgs | app/preload.py:413-416 | Accepted exactly when the language is supported and memory starts with one digit ('0'-'9') then 'g'; the language is checked first |
| CoreNlp.MemoryPatternExamples | app/preload.py:415 | "16g" is refused, "4gb" and "4g" accepted |
| CoreNlp.Send | app/preload.py:398-411 | A missing text fails on `encode` before anything is sent; otherwise the server's answer decides |
| CoreNlp.SendWithoutDataIgnoresServer | app/preload.py:398-400 | A missing text fails the same way whatever the server would answer |
| CoreNlp.SendAfterSwitch | app/preload.py:394-405 | After an accepted `switch_language`, every request carries the new pipeline language |
| CoreNlp.AllTokens | app/preload.py:353-354 | No sentences, no tokens |
| CoreNlp.AllTokensAppend | app/preload.py:353-354 | The tokens of consecutive sentences are concatenated |
| CoreNlp.AllTokensCount | app/preload.py:353-354 | The token count is the sum over the sentences |
| CoreNlp.PosTag | app/preload.py:349-357 | (originalText, pos) for every token of every sentence, in order |
| CoreNlp.Ner | app/preload.py:359-367 | (originalText, ner) for every token of every sentence, in order |
| CoreNlp.Parse | app/preload.py:369-371 | The parse of the first sentence; IndexError when there is none |
| CoreNlp.DependencyParse | app/preload.py:373-381 | One list of (dep, governorGloss, dependentGloss) triples per sentence, in order |
| CoreNlp.WordsAgree | app/preload.py:337-367 | On one answer, the tags, the entities and the tokens list the same words, as many as the answer has tokens |
| CoreNlp.SameAnswerSameWords | app/preload.py:337-367 | When the server answers alike, `pos_tag`, `ner` and `word_tokenize` succeed together and list the same words, one per token |
| CoreNlp.AnswersAppend | app/preload.py:337-381 | Answers for consecutive sentences concatenate: tags, entities, tokens, spans and dependency lists of `a + b` are those of `a` followed by those of `b` |
| CoreNlp.TreesMatchDependencies | app/preload.py:369-381 | On one answer, `parse` raises IndexError exactly when `dependency_parse` returns no list; both read one item per sentence |
| CoreNlp.ParseFailsExactlyWithoutDependencies | app/preload.py:369-381 | When the server answers both requests alike and successfully, `parse` raises IndexError exactly when `dependency_parse` returns [] |
| CoreNlp.TokensAndSpans | app/preload.py:339-347 | The token texts and, when asked, one span per token |
| CoreNlp.WordTokenizeAsWritten | app/preload.py:337-347 | As written, the call always fails on `None.encode` |
| CoreNlp.WordTokenize | app/preload.py:337-347 | The intended call gives the tokens in order, and equally many spans when asked |
| CoreNlp.WordTokenizeNeverReachesServer | app/preload.py:337-338 | Where the intended call returns a one-token answer, the call as written fails |

## Left out

- Concurrency is left out. Several workers racing on one queue are modelled only as claims taken one after another. Rename atomicity is taken as given.
- A claim orphaned by a worker that crashes mid-job stays forever. There is no lease or reclaim, as in the code.
- Real I/O is left out, including the file modes other than the w/a/+ dispatch. So are `time.sleep`, logging and `uuid.uuid4()`, whose value is a parameter.
- The Flask app, its routes and templates are left out. So is any producer-side initialisation of the progress marker to -1 or 0, which no code shown writes.
- Symbolic links are followed only as the last component of a path. Directories on the way are looked up literally.
- Renaming a directory is not modelled. The code renames only files.
- The Keras model, pickle loading, `encode_text`, the Vader analyser and `feature_generation` are left out. They are floating-point and foreign work. The emotion verdict, the hedge verdict, the sentence splitter and the word count are parameters of `Tension.SignalsOf`.
- The NLTK and CoreNLP tokenizers, the tagger, the parser and the lemmatizer are parameters.
- The CoreNLP server launch, Java and model-file checks, socket polling, HTTP requests, `annotate`, `tregex`, `tokensregex`, `semgrex`, `coref` and the psutil clean-up in `close` are left out. They are process and network work.
- `_check_args` is modelled, but `__init__` never calls it: the call is commented out.
- Missing JSON keys in a CoreNLP answer (KeyError) are not modelled. Answers are typed documents.
- Lexicon.Column: `float()` on a lexicon field is the parameter `num`, so which strings parse is not modelled.
- Lexicon.AfinnOf: only the range of the rescaled score is stated, not its floating-point value.
- Lexicon.RatingOf: only the range of the rescaled valence is stated, not the floating-point values of the three ratings.
- Tension.QuesStatistics: keeps each bucket's count, sum and sum of squares exactly, not the float mean and standard deviation. The outlier test is decided exactly over the reals (`Tension.OutlierIsThreeSigma`), not with `np.std` rounding.
- Tension.PercentRange: the progress formula `int(1 + float(i) / total * 99.0)` is computed with exact integer floor division. A float rounding just below an integer could report one less.
- Tension.AnalysisRun: the collaborators' exceptions (model, parser, tokenizer) are not part of the run. The failure paths of the task are modelled through `Worker.Task`'s `JobRun` parameter.
- Hedge.TrueHedge: its own contract states only the error kinds. The meaning of each rule is stated by the rule lemmas (`Hedge.AssumeRule` … `Hedge.FeelFamilyRule`).
- Emotion.CleanText: the TweetTokenizer (with its length reduction) is the parameter `tokenize`.
- The lexicon loaders of `app/preload.py` (lines 39-183) apply the same rules as those of `app/tension_analysis/preload.py`. They are modelled once, citing the latter.
- CoreNlp.CheckArgs: the `\d` of `re.match('\dg', memory)` is taken as '0'-'9'. On a `str` pattern Python's `\d` matches any Unicode decimal digit, so a memory setting such as "٤g" or "４g" is accepted by the code and refused here.
- Text.Lower: case mapping covers ASCII only. Python's `str.lower()` also lowers non-ASCII capitals ('É' to 'é') and can lengthen a string ('İ' becomes two characters); here such characters are left as they are.
- Emotion.ReplaceNumbers: a digit is '0'-'9' here. `str.isdigit()` also accepts other Unicode digits such as '²' or '٣', which the code turns into "<number>" and the model keeps.
- The Python csv writer is modelled only for the rows it writes here: QUOTE_MINIMAL, delimiter ',', quote '"' and terminator "\r\n". This matches `app/global_config.py` and Python's default.

## Findings

| source | as written | input that shows it | evidently intended | confidence | as-written member | corrected member |
|---|---|---|---|---|---|---|
| app/tension_analysis/decorators.py:9 | `re.match('^[0-9a-f]{32}$', ...)`: `$` also matches before a final newline; the queue filter at app/storage.py:119 and :153 uses the same pattern | cookie `"000…0\n"` (32 zeros then a newline) is kept as the user id and set again; a marker of that name is a queue candidate | accept exactly 32 lower-case hex digits (`\Z` or `fullmatch`); the model's cookie rule and queue follow the code as written, the corrected members state the intended rule | medium, not executed | UserId.ChooseUserIdAsWritten, UserId.NewlineCookieKeptAsWritten, UserId.EnsureUserCookie, UserId.NewlineCookieReset, JobQueue.Candidates, JobQueue.CandidatesAsWrittenKeepMore | UserId.ChooseUserId, UserId.EnsureUserCookieCorrected, JobQueue.CorrectedCandidates, WorkerLoop.IssuedIdIsCandidateCorrected |
| app/preload.py:337-338 | `self._request('ssplit,tokenize', sentence)` puts the annotators in `url` and the text in `annotators`, leaving `data` None | any call `word_tokenize("a")`: `None.encode` raises AttributeError before the request | `self._request(self.url, 'ssplit,tokenize', sentence)` | high, not executed | CoreNlp.WordTokenizeAsWritten, CoreNlp.WordTokenizeNeverReachesServer | CoreNlp.WordTokenize |
| app/preload.py:420 | the refusal message concatenates `self.lang` | `switch_language("xx")` on an English client says "lang=en not supported" | name the refused language: `'lang=' + lang` | high, not executed | CoreNlp.CheckLanguageAsWritten, CoreNlp.SwitchLanguage, CoreNlp.RefusalNamesCurrentLanguage | CoreNlp.CheckLanguage, CoreNlp.SwitchLanguageCorrected |

=== FILE: base.dfy ===
/** Failure-carrying result types and the exception vocabulary of the modelled
    Python code. A Python `raise` becomes a `Failure`; the exception classes the
    code catches or lets escape are the constructors of `Error`. */
module Base {

  datatype Option<+T> = None | Some(value: T)

  datatype Result<+T> = Success(value: T) | Failure(error: Error) {
    predicate IsFailure() { Failure? }

    function PropagateFailure<U>(): Result<U>
      requires Failure?
    {
      Failure(error)
    }

    function Extract(): T
      requires Success?
    {
      value
    }
  }

  /** The exceptions that cross the boundaries of the modelled functions. */
  datatype Error =
    | CannotOpen                      // storage.CannotOpen (source side of the file store)
    | CannotSave                      // storage.CannotSave (destination side of the file store)
    | NothingTaken                    // storage.NothingTaken (empty queue signal)
    | OsError(reason: string)         // OSError and its subclasses, raised by the filesystem
    | AssertionError(message: string) // a failed `assert`
    | ValueError(message: string)
    | IndexError                      // list index out of range
    | AttributeError(message: string)
    | ZeroDivisionError
    | Raised(text: string)            // an exception of a foreign collaborator, by its str()

  /** Python's `str(e)` for the modelled exceptions. */
  function Describe(e: Error): string
  {
    match e
    case CannotOpen => ""
    case CannotSave => ""
    case NothingTaken => ""
    case OsError(reason) => reason
    case AssertionError(message) => message
    case ValueError(message) => message
    case IndexError => "list index out of range"
    case AttributeError(message) => message
    case ZeroDivisionError => "division by zero"
    case Raised(text) => text
  }

  /** Python's `any(f(x) for x in xs)`, scanned left to right. */
  function AnyOf<T>(xs: seq<T>, f: T -> bool): (r: bool)
    ensures r <==> exists i :: 0 <= i < |xs| && f(xs[i])
  {
    if xs == [] then false
    else if f(xs[0]) then true
    else
      var r := AnyOf(xs[1..], f);
      assert forall i :: 1 <= i < |xs| ==> xs[i] == xs[1..][i - 1];
      r
  }

  /** The position of the first element of `xs` satisfying `f`, if any. */
  function FirstWhere<T>(xs: seq<T>, f: T -> bool): (k: Option<nat>)
    ensures k.Some? ==> k.value < |xs| && f(xs[k.value])
    ensures k.Some? ==> forall j :: 0 <= j < k.value ==> !f(xs[j])
    ensures k.None? ==> forall j :: 0 <= j < |xs| ==> !f(xs[j])
  {
    if xs == [] then None
    else if f(xs[0]) then Some(0)
    else
      assert forall j :: 0 <= j < |xs| - 1 ==> xs[1..][j] == xs[j + 1];
      match FirstWhere(xs[1..], f)
      case None => None
      case Some(k) => Some(k + 1)
  }
}

=== FILE: corenlp.dfy ===
/** The pure parts of the Stanford CoreNLP client class in app/preload.py: the argument and
    language checks, the server URL, `switch_language`, the request wrapper, and the way
    the JSON answer of the server is turned into the token, tag, tree and dependency lists
    the rest of the program reads. The HTTP exchange itself is a parameter `server` that
    answers a request with a parsed document (or an exception). */
module CoreNlp {
  import opened Base
  import opened Text
  import Hedge

  const Languages: seq<string> := ["en", "zh", "ar", "fr", "de", "es"]
  const LocalPort: int := 9999
  const LanguageHint: string := " not supported. Use English(en), Chinese(zh), Arabic(ar), French(fr), German(de), Spanish(es)."
  const MemoryHint: string := " not supported. Use 4g, 6g, 8g and etc. "
  const NoEncode: string := "'NoneType' object has no attribute 'encode'"

  /** The client's state: `url`, `port`, `memory` and `lang`. */
  datatype Client = Client(url: string, port: Option<int>, memory: string, lang: string)

  // ---------------------------------------------------------------- JSON answers

  datatype Token = Token(originalText: string, pos: string, ner: string, begin: int, end: int)
  datatype Dependency = Dependency(dep: string, governorGloss: string, dependentGloss: string)
  datatype Sentence = Sentence(tokens: seq<Token>, parse: string, basicDependencies: seq<Dependency>)
  datatype Document = Document(sentences: seq<Sentence>)

  /** What `_request` sends: the target, the annotators, the pipeline language and the
      UTF-8 data. */
  datatype Request = Request(url: string, annotators: string, lang: string, data: string)

  // ---------------------------------------------------------------- construction

  /** `str(port)`; the default port `None` prints as "None". */
  function PortText(port: Option<int>): string
  {
    match port
    case None => "None"
    case Some(p) => IntToString(p)
  }

  /** `__init__`, lines 195-270, on the side of the URL: a host beginning with "http" is used
      as it is, with the port appended; otherwise a local server is started on port 9999.
      (The Java and model-file checks, the launch and the wait for the socket are not part
      of this model.) */
  function Connect(pathOrHost: string, port: Option<int>, memory: string, lang: string): (c: Client)
    ensures StartsWith(pathOrHost, "http") ==> c.url == pathOrHost + ":" + PortText(port) && c.port == port
    ensures !StartsWith(pathOrHost, "http") ==> c.url == "http://localhost:" + IntToString(LocalPort) && c.port == Some(LocalPort)
    ensures c.lang == lang && c.memory == memory
    ensures StartsWith(c.url, "http")
  {
    if StartsWith(pathOrHost, "http") then
      var url := pathOrHost + ":" + PortText(port);
      assert url[..4] == pathOrHost[..4];
      Client(url, port, memory, lang)
    else Client("http://localhost:" + IntToString(LocalPort), Some(LocalPort), memory, lang)
  }

  /** The client the worker builds (app/preload.py line 423). */
  lemma SharedClientUrl()
    ensures Connect("http://stanford_nlp:9999", Some(9999), "4g", "en").url == "http://stanford_nlp:9999:9999"
  {
    assert StartsWith("http://stanford_nlp:9999", "http");
    assert NatToString(9999) == NatToString(999) + ['9'];
    assert NatToString(999) == NatToString(99) + ['9'];
    assert NatToString(99) == NatToString(9) + ['9'];
  }

  // ---------------------------------------------------------------- checks

  /** `_check_language(lang)`, lines 418-421, as written: the message quotes the client's
      current language, not the one that was refused. */
  function CheckLanguageAsWritten(c: Client, lang: string): (r: Result<()>)
    ensures r.Success? <==> lang in Languages
    ensures r.Failure? ==> r.error == ValueError("lang=" + c.lang + LanguageHint)
  {
    if lang in Languages then Success(()) else Failure(ValueError("lang=" + c.lang + LanguageHint))
  }

  /** The check with the message naming the refused language. */
  function CheckLanguage(c: Client, lang: string): (r: Result<()>)
    ensures r.Success? <==> lang in Languages
    ensures r.Failure? ==> r.error == ValueError("lang=" + lang + LanguageHint)
  {
    if lang in Languages then Success(()) else Failure(ValueError("lang=" + lang + LanguageHint))
  }

  /** `switch_language(language)`, lines 394-396: a refused language leaves the client as it
      was, with the message of the check as written; an accepted one replaces `lang` and
      nothing else. */
  function SwitchLanguage(c: Client, language: string): (r: Result<Client>)
    ensures r.Success? <==> language in Languages
    ensures r.Success? ==> r.value == c.(lang := language)
    ensures r.Failure? ==> r.error == ValueError("lang=" + c.lang + LanguageHint)
  {
    var _ :- CheckLanguageAsWritten(c, language);
    Success(c.(lang := language))
  }

  /** `switch_language` with the refusal naming the refused language. */
  function SwitchLanguageCorrected(c: Client, language: string): (r: Result<Client>)
    ensures r.Success? <==> language in Languages
    ensures r.Success? ==> r.value == c.(lang := language)
    ensures r.Failure? ==> r.error == ValueError("lang=" + language + LanguageHint)
  {
    var _ :- CheckLanguage(c, language);
    Success(c.(lang := language))
  }

  /** As written, refusing "xx" on an English client reports "lang=en". */
  lemma RefusalNamesCurrentLanguage(c: Client)
    requires c.lang == "en"
    ensures CheckLanguageAsWritten(c, "xx") == Failure(ValueError("lang=en" + LanguageHint))
    ensures CheckLanguage(c, "xx") == Failure(ValueError("lang=xx" + LanguageHint))
    ensures CheckLanguageAsWritten(c, "xx") != CheckLanguage(c, "xx")
    ensures SwitchLanguage(c, "xx") == Failure(ValueError("lang=en" + LanguageHint))
    ensures SwitchLanguageCorrected(c, "xx") == Failure(ValueError("lang=xx" + LanguageHint))
  {
    assert ("lang=en" + LanguageHint)[5] == 'e';
    assert ("lang=xx" + LanguageHint)[5] == 'x';
  }

  /** `re.match('\dg', memory)`: a digit ('0'-'9' only) then 'g' at the start; the rest is
      not looked at. */
  predicate MemoryMatches(memory: string)
  {
    |memory| >= 2 && IsDigit(memory[0]) && memory[1] == 'g'
  }

  /** `_check_args()`, lines 413-416: the language first, then the memory setting. */
  function CheckArgs(c: Client): (r: Result<()>)
    ensures r.Success? <==> c.lang in Languages && MemoryMatches(c.memory)
    ensures c.lang !in Languages ==> r == Failure(ValueError("lang=" + c.lang + LanguageHint))
    ensures c.lang in Languages && !MemoryMatches(c.memory) ==> r == Failure(ValueError("memory=" + c.memory + MemoryHint))
  {
    var _ :- CheckLanguageAsWritten(c, c.lang);
    if MemoryMatches(c.memory) then Success(()) else Failure(ValueError("memory=" + c.memory + MemoryHint))
  }

  /** The memory pattern is matched at the start only and for one digit: "16g" is refused,
      "4gb" is accepted. */
  lemma MemoryPatternExamples()
    ensures !MemoryMatches("16g") && MemoryMatches("4gb") && MemoryMatches("4g")
  {
  }

  // ---------------------------------------------------------------- requests

  /** `_request(url, annotators, data)`, lines 398-411: `data.encode('utf-8')` fails on a
      missing text before anything is sent; otherwise the answer of the server decides. */
  function Send(c: Client, url: string, annotators: string, data: Option<string>,
                server: Request -> Result<Document>): (r: Result<Document>)
    ensures data.None? ==> r == Failure(AttributeError(NoEncode))
    ensures data.Some? ==> r == server(Request(url, annotators, c.lang, data.value))
  {
    match data
    case None => Failure(AttributeError(NoEncode))
    case Some(d) => server(Request(url, annotators, c.lang, d))
  }

  /** Every token of every sentence, in order. */
  function AllTokens(sentences: seq<Sentence>): (r: seq<Token>)
    ensures sentences == [] ==> r == []
  {
    if sentences == [] then [] else sentences[0].tokens + AllTokens(sentences[1..])
  }

  lemma {:induction false} AllTokensAppend(a: seq<Sentence>, b: seq<Sentence>)
    ensures AllTokens(a + b) == AllTokens(a) + AllTokens(b)
    decreases |a|
  {
    if a != [] {
      assert (a + b)[0] == a[0];
      assert (a + b)[1..] == a[1..] + b;
      AllTokensAppend(a[1..], b);
    } else {
      assert a + b == b;
    }
  }

  /** The token count of a document is the sum of its sentences' token counts. */
  function TokenCount(sentences: seq<Sentence>): nat
  {
    if sentences == [] then 0 else |sentences[0].tokens| + TokenCount(sentences[1..])
  }

  lemma {:induction false} AllTokensCount(sentences: seq<Sentence>)
    ensures |AllTokens(sentences)| == TokenCount(sentences)
    decreases |sentences|
  {
    if sentences != [] {
      AllTokensCount(sentences[1..]);
    }
  }

  /** A missing text fails the same way whatever the server would answer. */
  lemma SendWithoutDataIgnoresServer(c: Client, url: string, annotators: string,
                                     server1: Request -> Result<Document>, server2: Request -> Result<Document>)
    ensures Send(c, url, annotators, None, server1) == Send(c, url, annotators, None, server2)
    ensures Send(c, url, annotators, None, server1).Failure?
  {
  }

  /** After an accepted `switch_language`, every request carries the new language and
      nothing else about it changes. */
  lemma SendAfterSwitch(c: Client, language: string, url: string, annotators: string, d: string,
                        server: Request -> Result<Document>)
    requires language in Languages
    ensures SwitchLanguage(c, language).Success?
    ensures Send(SwitchLanguage(c, language).value, url, annotators, Some(d), server)
         == server(Request(url, annotators, language, d))
  {
  }

  /** The (original text, tag) pairs of an answer, for every token in order. */
  function TaggedOf(doc: Document): seq<Hedge.Tagged>
  {
    var ts := AllTokens(doc.sentences);
    seq(|ts|, i requires 0 <= i < |ts| => Hedge.Tagged(ts[i].originalText, ts[i].pos))
  }

  /** The (original text, entity tag) pairs of an answer, for every token in order. */
  function EntitiesOf(doc: Document): seq<(string, string)>
  {
    var ts := AllTokens(doc.sentences);
    seq(|ts|, i requires 0 <= i < |ts| => (ts[i].originalText, ts[i].ner))
  }

  /** `[s['parse'] for s in sentences]`. */
  function TreesOf(doc: Document): seq<string>
  {
    seq(|doc.sentences|, i requires 0 <= i < |doc.sentences| => doc.sentences[i].parse)
  }

  /** `[...][0]` over the trees: IndexError when the answer has no sentence. */
  function FirstTree(doc: Document): Result<string>
  {
    var trees := TreesOf(doc);
    if trees == [] then Failure(IndexError) else Success(trees[0])
  }

  function TripleOf(d: Dependency): Hedge.Triple
  {
    Hedge.Triple(d.dep, d.governorGloss, d.dependentGloss)
  }

  /** One list of triples per sentence of an answer. */
  function TriplesOf(doc: Document): seq<seq<Hedge.Triple>>
  {
    var ss := doc.sentences;
    seq(|ss|, i requires 0 <= i < |ss| =>
      seq(|ss[i].basicDependencies|, j requires 0 <= j < |ss[i].basicDependencies| => TripleOf(ss[i].basicDependencies[j])))
  }

  /** `pos_tag(sentence)`, lines 349-357: (original text, tag) for every token in order. */
  function PosTag(c: Client, sentence: string, server: Request -> Result<Document>): (r: Result<seq<Hedge.Tagged>>)
    ensures r.Failure? <==> server(Request(c.url, "pos", c.lang, sentence)).Failure?
    ensures r.Success? ==> var ts := AllTokens(server(Request(c.url, "pos", c.lang, sentence)).value.sentences);
      |r.value| == |ts| && forall i :: 0 <= i < |ts| ==> r.value[i] == Hedge.Tagged(ts[i].originalText, ts[i].pos)
  {
    var doc :- Send(c, c.url, "pos", Some(sentence), server);
    Success(TaggedOf(doc))
  }

  /** `ner(sentence)`, lines 359-367: (original text, entity tag) for every token in order. */
  function Ner(c: Client, sentence: string, server: Request -> Result<Document>): (r: Result<seq<(string, string)>>)
    ensures r.Failure? <==> server(Request(c.url, "ner", c.lang, sentence)).Failure?
    ensures r.Success? ==> var ts := AllTokens(server(Request(c.url, "ner", c.lang, sentence)).value.sentences);
      |r.value| == |ts| && forall i :: 0 <= i < |ts| ==> r.value[i] == (ts[i].originalText, ts[i].ner)
  {
    var doc :- Send(c, c.url, "ner", Some(sentence), server);
    Success(EntitiesOf(doc))
  }

  /** `parse(sentence)`, lines 369-371: the tree of the first sentence; IndexError when the
      answer has no sentence. */
  function Parse(c: Client, sentence: string, server: Request -> Result<Document>): (r: Result<string>)
    ensures var answer := server(Request(c.url, "pos,parse", c.lang, sentence));
      && (answer.Success? && answer.value.sentences != [] ==> r == Success(answer.value.sentences[0].parse))
      && (answer.Success? && answer.value.sentences == [] ==> r == Failure(IndexError))
      && (answer.Failure? ==> r == answer.PropagateFailure())
  {
    var doc :- Send(c, c.url, "pos,parse", Some(sentence), server);
    FirstTree(doc)
  }

  /** `dependency_parse(text)`, lines 373-381: one list of (relation, governor, dependent)
      triples per sentence, sentences and triples in order. */
  function DependencyParse(c: Client, text: string, server: Request -> Result<Document>): (r: Result<seq<seq<Hedge.Triple>>>)
    ensures r.Failure? <==> server(Request(c.url, "depparse", c.lang, text)).Failure?
    ensures r.Success? ==> var ss := server(Request(c.url, "depparse", c.lang, text)).value.sentences;
      && |r.value| == |ss|
      && (forall i :: 0 <= i < |ss| ==> |r.value[i]| == |ss[i].basicDependencies|)
      && (forall i, j :: 0 <= i < |ss| && 0 <= j < |ss[i].basicDependencies| ==>
            r.value[i][j] == TripleOf(ss[i].basicDependencies[j]))
  {
    var doc :- Send(c, c.url, "depparse", Some(text), server);
    Success(TriplesOf(doc))
  }

  /** On one answer, the tags, the entities and the tokens list the same words, one per
      token of the answer. */
  lemma WordsAgree(doc: Document)
    ensures |TaggedOf(doc)| == |EntitiesOf(doc)| == |TokensAndSpans(doc, false).0| == TokenCount(doc.sentences)
    ensures forall i :: 0 <= i < |TaggedOf(doc)| ==>
      TaggedOf(doc)[i].word == EntitiesOf(doc)[i].0 == TokensAndSpans(doc, false).0[i]
  {
    AllTokensCount(doc.sentences);
  }

  /** When the server answers the three requests alike, `pos_tag`, `ner` and
      `word_tokenize` succeed together and then list the same words, as many as the answer
      has tokens. */
  lemma SameAnswerSameWords(c: Client, sentence: string, server: Request -> Result<Document>)
    requires server(Request(c.url, "pos", c.lang, sentence)) == server(Request(c.url, "ner", c.lang, sentence))
    requires server(Request(c.url, "pos", c.lang, sentence)) == server(Request(c.url, "ssplit,tokenize", c.lang, sentence))
    ensures PosTag(c, sentence, server).Success? == Ner(c, sentence, server).Success?
                                                == WordTokenize(c, sentence, false, server).Success?
    ensures PosTag(c, sentence, server).Success? ==>
      var tags := PosTag(c, sentence, server).value;
      var ents := Ner(c, sentence, server).value;
      var words := WordTokenize(c, sentence, false, server).value.0;
      && |tags| == |ents| == |words| == TokenCount(server(Request(c.url, "pos", c.lang, sentence)).value.sentences)
      && forall i :: 0 <= i < |tags| ==> tags[i].word == ents[i].0 == words[i]
  {
    var answer := server(Request(c.url, "pos", c.lang, sentence));
    if answer.Success? {
      WordsAgree(answer.value);
    }
  }

  /** Answers for consecutive sentences concatenate: the tags, entities, token texts and
      spans, and dependency lists of sentences `a + b` are those of `a` followed by those
      of `b`. */
  lemma AnswersAppend(a: seq<Sentence>, b: seq<Sentence>)
    ensures TaggedOf(Document(a + b)) == TaggedOf(Document(a)) + TaggedOf(Document(b))
    ensures EntitiesOf(Document(a + b)) == EntitiesOf(Document(a)) + EntitiesOf(Document(b))
    ensures TokensAndSpans(Document(a + b), true).0 == TokensAndSpans(Document(a), true).0 + TokensAndSpans(Document(b), true).0
    ensures TokensAndSpans(Document(a + b), true).1 == TokensAndSpans(Document(a), true).1 + TokensAndSpans(Document(b), true).1
    ensures TriplesOf(Document(a + b)) == TriplesOf(Document(a)) + TriplesOf(Document(b))
  {
    TaggedAppend(a, b);
    EntitiesAppend(a, b);
    TokensAppend(a, b);
    TriplesAppend(a, b);
  }

  lemma TaggedAppend(a: seq<Sentence>, b: seq<Sentence>)
    ensures TaggedOf(Document(a + b)) == TaggedOf(Document(a)) + TaggedOf(Document(b))
  {
    AllTokensAppend(a, b);
    var ta, tb := AllTokens(a), AllTokens(b);
    var l, r := TaggedOf(Document(a + b)), TaggedOf(Document(a)) + TaggedOf(Document(b));
    assert |l| == |r|;
    forall i | 0 <= i < |l| ensures l[i] == r[i] {
      if i >= |ta| { assert (ta + tb)[i] == tb[i - |ta|]; }
    }
  }

  lemma EntitiesAppend(a: seq<Sentence>, b: seq<Sentence>)
    ensures EntitiesOf(Document(a + b)) == EntitiesOf(Document(a)) + EntitiesOf(Document(b))
  {
    AllTokensAppend(a, b);
    var ta, tb := AllTokens(a), AllTokens(b);
    var l, r := EntitiesOf(Document(a + b)), EntitiesOf(Document(a)) + EntitiesOf(Document(b));
    assert |l| == |r|;
    forall i | 0 <= i < |l| ensures l[i] == r[i] {
      if i >= |ta| { assert (ta + tb)[i] == tb[i - |ta|]; }
    }
  }

  lemma TokensAppend(a: seq<Sentence>, b: seq<Sentence>)
    ensures TokensAndSpans(Document(a + b), true).0 == TokensAndSpans(Document(a), true).0 + TokensAndSpans(Document(b), true).0
    ensures TokensAndSpans(Document(a + b), true).1 == TokensAndSpans(Document(a), true).1 + TokensAndSpans(Document(b), true).1
  {
    AllTokensAppend(a, b);
    var ta, tb := AllTokens(a), AllTokens(b);
    var l, la, lb := TokensAndSpans(Document(a + b), true), TokensAndSpans(Document(a), true), TokensAndSpans(Document(b), true);
    assert |l.0| == |la.0 + lb.0| && |l.1| == |la.1 + lb.1|;
    forall i | 0 <= i < |l.0| ensures l.0[i] == (la.0 + lb.0)[i] && l.1[i] == (la.1 + lb.1)[i] {
      if i >= |ta| { assert (ta + tb)[i] == tb[i - |ta|]; }
    }
  }

  lemma TriplesAppend(a: seq<Sentence>, b: seq<Sentence>)
    ensures TriplesOf(Document(a + b)) == TriplesOf(Document(a)) + TriplesOf(Document(b))
  {
    var l, r := TriplesOf(Document(a + b)), TriplesOf(Document(a)) + TriplesOf(Document(b));
    assert |l| == |r|;
    forall i | 0 <= i < |l| ensures l[i] == r[i] {
      if i >= |a| { assert (a + b)[i] == b[i - |a|]; }
    }
  }

  /** On one answer, `parse` raises IndexError exactly when `dependency_parse` returns no
      list, and otherwise both read the same number of sentences. */
  lemma TreesMatchDependencies(doc: Document)
    ensures FirstTree(doc) == Failure(IndexError) <==> TriplesOf(doc) == []
    ensures |TreesOf(doc)| == |TriplesOf(doc)| == |doc.sentences|
  {
  }

  /** When the server answers both requests alike and successfully, `parse` fails with
      IndexError exactly when `dependency_parse` returns the empty list. */
  lemma ParseFailsExactlyWithoutDependencies(c: Client, text: string, server: Request -> Result<Document>)
    requires server(Request(c.url, "pos,parse", c.lang, text)) == server(Request(c.url, "depparse", c.lang, text))
    requires server(Request(c.url, "depparse", c.lang, text)).Success?
    ensures Parse(c, text, server) == Failure(IndexError) <==> DependencyParse(c, text, server) == Success([])
  {
    TreesMatchDependencies(server(Request(c.url, "depparse", c.lang, text)).value);
  }

  // ---------------------------------------------------------------- word_tokenize

  /** The token texts of a document and, when asked for, the character span of each. */
  function TokensAndSpans(doc: Document, span: bool): (r: (seq<string>, seq<(int, int)>))
    ensures var ts := AllTokens(doc.sentences);
      && |r.0| == |ts|
      && (forall i :: 0 <= i < |ts| ==> r.0[i] == ts[i].originalText)
      && (span ==> |r.1| == |r.0| && forall i :: 0 <= i < |ts| ==> r.1[i] == (ts[i].begin, ts[i].end))
      && (!span ==> r.1 == [])
  {
    var ts := AllTokens(doc.sentences);
    (seq(|ts|, i requires 0 <= i < |ts| => ts[i].originalText),
     if span then seq(|ts|, i requires 0 <= i < |ts| => (ts[i].begin, ts[i].end)) else [])
  }

  /** `word_tokenize(sentence, span)`, lines 337-347, as written: `_request('ssplit,tokenize',
      sentence)` fills `url` with the annotators and `annotators` with the text, and leaves
      `data` at None, whose `encode` raises before any request is made. */
  function WordTokenizeAsWritten(c: Client, sentence: string, span: bool, server: Request -> Result<Document>)
    : (r: Result<(seq<string>, seq<(int, int)>)>)
    ensures r == Failure(AttributeError(NoEncode))
  {
    match Send(c, "ssplit,tokenize", sentence, None, server)
    case Failure(e) => Failure(e)
    case Success(doc) => Success(TokensAndSpans(doc, span))
  }

  /** The call with the arguments in their places: the tokens in order and, when asked
      for, a span for each. */
  function WordTokenize(c: Client, sentence: string, span: bool, server: Request -> Result<Document>)
    : (r: Result<(seq<string>, seq<(int, int)>)>)
    ensures r.Failure? <==> server(Request(c.url, "ssplit,tokenize", c.lang, sentence)).Failure?
    ensures r.Success? ==> var ts := AllTokens(server(Request(c.url, "ssplit,tokenize", c.lang, sentence)).value.sentences);
      && |r.value.0| == |ts|
      && (forall i :: 0 <= i < |ts| ==> r.value.0[i] == ts[i].originalText)
      && (span ==> |r.value.1| == |r.value.0| && forall i :: 0 <= i < |ts| ==> r.value.1[i] == (ts[i].begin, ts[i].end))
  {
    var doc :- Send(c, c.url, "ssplit,tokenize", Some(sentence), server);
    Success(TokensAndSpans(doc, span))
  }

  /** A server that answers every request with one sentence holding the token `t`. */
  function OneTokenServer(t: Token): Request -> Result<Document>
  {
    (q: Request) => Success(Document([Sentence([t], "", [])]))
  }

  /** Whatever the server would answer, the call as written fails where the intended one
      returns the tokens of a one-token answer. */
  lemma WordTokenizeNeverReachesServer(c: Client, t: Token)
    ensures WordTokenizeAsWritten(c, "a", false, OneTokenServer(t)).Failure?
    ensures WordTokenize(c, "a", false, OneTokenServer(t)) == Success(([t.originalText], []))
  {
    var doc := Document([Sentence([t], "", [])]);
    assert OneTokenServer(t)(Request(c.url, "ssplit,tokenize", c.lang, "a")) == Success(doc);
    assert AllTokens(doc.sentences) == [t] by {
      assert doc.sentences[1..] == [];
    }
    var r := TokensAndSpans(doc, false);
    assert |r.0| == 1 && r.0[0] == t.originalText;
    assert r.0 == [t.originalText];
    assert r.1 == [];
  }
}

=== FILE: csv.dfy ===
/** The row format of the result file: Python's `csv.writer` with delimiter ',', quote
    character '"' and `QUOTE_MINIMAL` (app/global_config.py fixes the two characters), and
    the default line terminator "\r\n". A field is quoted exactly when it holds the
    delimiter, the quote character or a line-terminator character; quote characters inside a
    quoted field are doubled. A reader for that format is given too, as the encoder's
    inverse. */
module Csv {
  import opened Base

  const Delimiter: char := ','
  const QuoteChar: char := '"'
  const LineTerminator: string := "\r\n"

  predicate IsSpecial(c: char)
  {
    c == Delimiter || c == QuoteChar || c == '\r' || c == '\n'
  }

  predicate NeedsQuotes(f: string)
  {
    exists i :: 0 <= i < |f| && IsSpecial(f[i])
  }

  /** Every quote character written twice. */
  function Double(f: string): (r: string)
    ensures |r| >= |f|
  {
    if f == [] then [] else (if f[0] == QuoteChar then [QuoteChar, QuoteChar] else [f[0]]) + Double(f[1..])
  }

  function EncodeField(f: string): (r: string)
    ensures !NeedsQuotes(f) ==> r == f
    ensures NeedsQuotes(f) ==> |r| >= 2 && r[0] == QuoteChar && r[|r| - 1] == QuoteChar
  {
    if NeedsQuotes(f) then [QuoteChar] + Double(f) + [QuoteChar] else f
  }

  function JoinFields(fields: seq<string>): string
    requires fields != []
  {
    if |fields| == 1 then EncodeField(fields[0])
    else EncodeField(fields[0]) + [Delimiter] + JoinFields(fields[1..])
  }

  /** `writer.writerow(fields)`: one line, terminated. A row whose only field is empty is
      written as a quoted empty field, so that it is not mistaken for an empty line. */
  function EncodeRow(fields: seq<string>): string
    requires fields != []
  {
    if fields == [""] then [QuoteChar, QuoteChar] + LineTerminator
    else JoinFields(fields) + LineTerminator
  }

  // ---------------------------------------------------------------- reading back

  /** The body of a quoted field after its opening quote: a doubled quote stands for one
      quote, a single quote closes the field. Returns the field and what follows the
      closing quote. */
  function QuotedBody(s: string, acc: string): (r: Option<(string, string)>)
    ensures r.Some? ==> |r.value.1| < |s|
    decreases |s|
  {
    if s == [] then None
    else if s[0] == QuoteChar then
      if |s| > 1 && s[1] == QuoteChar then QuotedBody(s[2..], acc + [QuoteChar])
      else Some((acc, s[1..]))
    else QuotedBody(s[1..], acc + [s[0]])
  }

  /** An unquoted field runs up to the next delimiter or line-terminator character. */
  function PlainField(s: string): (r: (string, string))
    ensures r.0 + r.1 == s
  {
    if s == [] || s[0] == Delimiter || s[0] == '\r' || s[0] == '\n' then ([], s)
    else
      var (f, rest) := PlainField(s[1..]);
      ([s[0]] + f, rest)
  }

  function ParseField(s: string): (r: Option<(string, string)>)
    ensures r.Some? ==> |r.value.1| <= |s|
  {
    if s != [] && s[0] == QuoteChar then QuotedBody(s[1..], []) else Some(PlainField(s))
  }

  /** The fields of one line, which must end with the line terminator. */
  function ParseRow(s: string): Option<seq<string>>
    decreases |s|
  {
    match ParseField(s)
    case None => None
    case Some((f, rest)) =>
      if rest == LineTerminator then Some([f])
      else if rest != [] && rest[0] == Delimiter then
        match ParseRow(rest[1..])
        case None => None
        case Some(fs) => Some([f] + fs)
      else None
  }

  // ---------------------------------------------------------------- round trip

  /** What may follow a field on a written line. */
  predicate FieldEnd(tail: string)
  {
    tail == LineTerminator || (tail != [] && tail[0] == Delimiter)
  }

  lemma {:induction false} QuotedBodyOfDouble(f: string, acc: string, tail: string)
    requires tail == [] || tail[0] != QuoteChar
    ensures QuotedBody(Double(f) + [QuoteChar] + tail, acc) == Some((acc + f, tail))
    decreases |f|
  {
    var s := Double(f) + [QuoteChar] + tail;
    if f == [] {
      assert s == [QuoteChar] + tail;
      assert s[1..] == tail;
      assert acc + f == acc;
    } else if f[0] == QuoteChar {
      assert s == [QuoteChar, QuoteChar] + (Double(f[1..]) + [QuoteChar] + tail);
      QuotedBodyOfDouble(f[1..], acc + [QuoteChar], tail);
      assert acc + [QuoteChar] + f[1..] == acc + f;
    } else {
      assert s == [f[0]] + (Double(f[1..]) + [QuoteChar] + tail);
      QuotedBodyOfDouble(f[1..], acc + [f[0]], tail);
      assert acc + [f[0]] + f[1..] == acc + f;
    }
  }

  lemma {:induction false} PlainFieldOf(f: string, tail: string)
    requires !NeedsQuotes(f) && FieldEnd(tail)
    ensures PlainField(f + tail) == (f, tail)
    decreases |f|
  {
    if f == [] {
      assert f + tail == tail;
      assert tail[0] == Delimiter || tail[0] == '\r';
    } else {
      assert !IsSpecial(f[0]);
      assert (f + tail)[0] == f[0];
      assert (f + tail)[1..] == f[1..] + tail;
      assert !NeedsQuotes(f[1..]) by {
        forall i | 0 <= i < |f[1..]| ensures !IsSpecial(f[1..][i]) {
          assert f[1..][i] == f[i + 1];
        }
      }
      PlainFieldOf(f[1..], tail);
      assert [f[0]] + f[1..] == f;
    }
  }

  /** A written field is read back exactly, and reading stops where the field ended. */
  lemma FieldRoundTrip(f: string, tail: string)
    requires FieldEnd(tail)
    ensures ParseField(EncodeField(f) + tail) == Some((f, tail))
  {
    if NeedsQuotes(f) {
      QuotedRoundTrip(f, tail);
    } else {
      PlainRoundTrip(f, tail);
    }
  }

  lemma QuotedRoundTrip(f: string, tail: string)
    requires FieldEnd(tail) && NeedsQuotes(f)
    ensures ParseField(EncodeField(f) + tail) == Some((f, tail))
  {
    EncodeQuoted(f, tail);
    FieldEndIsNoQuote(tail);
    ParseQuoted(f, tail);
  }

  lemma EncodeQuoted(f: string, tail: string)
    requires NeedsQuotes(f)
    ensures EncodeField(f) + tail == [QuoteChar] + (Double(f) + [QuoteChar] + tail)
  {
  }

  lemma FieldEndIsNoQuote(tail: string)
    requires FieldEnd(tail)
    ensures tail != [] && tail[0] != QuoteChar
  {
  }

  /** A quoted field with its quotes doubled is read back up to its closing quote. */
  lemma ParseQuoted(f: string, tail: string)
    requires tail == [] || tail[0] != QuoteChar
    ensures ParseField([QuoteChar] + (Double(f) + [QuoteChar] + tail)) == Some((f, tail))
  {
    var s := [QuoteChar] + (Double(f) + [QuoteChar] + tail);
    assert s[0] == QuoteChar && s[1..] == Double(f) + [QuoteChar] + tail;
    QuotedBodyOfDouble(f, [], tail);
    assert [] + f == f;
  }

  lemma PlainRoundTrip(f: string, tail: string)
    requires FieldEnd(tail) && !NeedsQuotes(f)
    ensures ParseField(EncodeField(f) + tail) == Some((f, tail))
  {
    var s := f + tail;
    if f != [] {
      assert !IsSpecial(f[0]);
      assert s[0] == f[0];
    } else {
      assert s == tail;
    }
    PlainFieldOf(f, tail);
  }

  lemma {:induction false} JoinRoundTrip(fields: seq<string>)
    requires fields != []
    ensures ParseRow(JoinFields(fields) + LineTerminator) == Some(fields)
    decreases |fields|
  {
    if |fields| == 1 {
      FieldRoundTrip(fields[0], LineTerminator);
      ParseRowLast(EncodeField(fields[0]) + LineTerminator, fields[0]);
      assert fields == [fields[0]];
    } else {
      var rest := JoinFields(fields[1..]) + LineTerminator;
      JoinFieldsCons(fields);
      FieldRoundTrip(fields[0], [Delimiter] + rest);
      JoinRoundTrip(fields[1..]);
      ParseRowCons(EncodeField(fields[0]) + ([Delimiter] + rest), fields[0], rest, fields[1..]);
      assert [fields[0]] + fields[1..] == fields;
    }
  }

  lemma JoinFieldsCons(fields: seq<string>)
    requires |fields| > 1
    ensures JoinFields(fields) + LineTerminator
         == EncodeField(fields[0]) + ([Delimiter] + (JoinFields(fields[1..]) + LineTerminator))
  {
  }

  /** A field followed by the line terminator is the last field of the row. */
  lemma ParseRowLast(s: string, f: string)
    requires ParseField(s) == Some((f, LineTerminator))
    ensures ParseRow(s) == Some([f])
  {
  }

  /** A field followed by a delimiter starts the row whose remaining fields follow. */
  lemma ParseRowCons(s: string, f: string, rest: string, fs: seq<string>)
    requires ParseField(s) == Some((f, [Delimiter] + rest))
    requires ParseRow(rest) == Some(fs)
    ensures ParseRow(s) == Some([f] + fs)
  {
    var tail := [Delimiter] + rest;
    assert tail != LineTerminator && tail[0] == Delimiter && tail[1..] == rest;
  }

  /** Reading a written row gives back its fields. */
  lemma RowRoundTrip(fields: seq<string>)
    requires fields != []
    ensures ParseRow(EncodeRow(fields)) == Some(fields)
  {
    if fields == [""] {
      var s := EncodeRow(fields);
      assert s[1..] == [QuoteChar] + LineTerminator;
      assert QuotedBody(s[1..], []) == Some(([], LineTerminator));
    } else {
      JoinRoundTrip(fields);
    }
  }
}

=== FILE: csv_store.dfy ===
/** The older result store of app/tension_analysis/storage.py: the same
    write-to-temporary-then-rename protocol for one `result.csv` per user, but
    with a fixed temporary name and no typed exceptions: filesystem errors
    escape as they are. */
module CsvStore {
  import opened Base
  import opened FileSystem
  import UserStore

  const CsvFileName := "result.csv"
  const TmpCsvFileName := "tmp.result.csv"

  function CsvPath(root: Path, uid: string): Path { Child(Child(root, uid), CsvFileName) }

  function TmpCsvPath(root: Path, uid: string): Path { Child(Child(root, uid), TmpCsvFileName) }

  /** `open_user_csv_r`: clear a stray directory or link at `result.csv`, then open it;
      a missing file raises the filesystem's own error. */
  function ReadCsv(fs: FS, root: Path, uid: string): (r: Effect<string>)
    ensures uid == "" ==> r == Effect(Failure(UserStore.EmptyUserId), fs)
    ensures uid != "" ==>
      var p := CsvPath(root, uid);
      && (r.result.Success? <==> IsRegular(fs, p))
      && (r.result.Success? ==> r.result.value == fs.entries[p].content)
      && (r.result.Failure? ==> r.result.error.OsError?)
      && r.fs == RemoveIfNotRegular(fs, p)
  {
    if uid == "" then Effect(Failure(UserStore.EmptyUserId), fs)
    else
      var p := CsvPath(root, uid);
      var fs1 := RemoveIfNotRegular(fs, p);
      Effect(ReadFile(fs1, p), fs1)
  }

  /** What opening a CSV write scope leaves: a new empty `tmp.result.csv`, and `result.csv`
      as it was when it was a regular file and gone otherwise. */
  ghost predicate CsvScopeOpened(fs: FS, fs': FS, root: Path, uid: string)
  {
    var p := CsvPath(root, uid);
    && fs'.now >= 1 && Lookup(fs', TmpCsvPath(root, uid)) == Some(File("", fs'.now - 1))
    && (IsRegular(fs, p) ==> Lookup(fs', p) == Lookup(fs, p))
    && (!IsRegular(fs, p) ==> p !in fs'.entries)
  }

  /** `open_user_csv_w.__init__`: make the folder if needed, clear stray entries at
      `result.csv` and `tmp.result.csv`, and hand out `tmp.result.csv` opened empty. */
  function BeginCsvWrite(fs: FS, root: Path, uid: string): (r: Effect<UserStore.Session>)
    ensures uid == "" ==> r == Effect(Failure(UserStore.EmptyUserId), fs)
    ensures uid != "" && r.result.Failure? ==> r.result.error.OsError?
    ensures uid != "" && PrefixesAreDirs(fs, Child(root, uid)) ==> r.result.Success?
    ensures r.result.Success? ==>
      r.result.value == UserStore.Session(TmpCsvPath(root, uid), CsvPath(root, uid)) && CsvScopeOpened(fs, r.fs, root, uid)
    ensures SameOutside(fs, r.fs, Child(root, uid))
  {
    if uid == "" then Effect(Failure(UserStore.EmptyUserId), fs)
    else
      var folder := Child(root, uid);
      var p := CsvPath(root, uid);
      var tmp := TmpCsvPath(root, uid);
      match UserStore.EnsureFolder(fs, folder)
      case Failure(e) => Effect(Failure(e), fs)
      case Success(fs1) => OpenCsvTmp(fs, fs1, root, uid)
  }

  /** The part of `open_user_csv_w.__init__` after the folder exists: clear the strays and
      open the temporary file empty. */
  function OpenCsvTmp(fs: FS, fs1: FS, root: Path, uid: string): (r: Effect<UserStore.Session>)
    requires uid != "" && UserStore.EnsureFolder(fs, Child(root, uid)) == Success(fs1)
    ensures r.result.Failure? ==> r.result.error.OsError?
    ensures DirExists(fs1, Child(root, uid)) ==> r.result.Success?
    ensures r.result.Success? ==>
      r.result.value == UserStore.Session(TmpCsvPath(root, uid), CsvPath(root, uid)) && CsvScopeOpened(fs, r.fs, root, uid)
    ensures SameOutside(fs, r.fs, Child(root, uid))
  {
    var folder := Child(root, uid);
    var p := CsvPath(root, uid);
    var tmp := TmpCsvPath(root, uid);
    var fs3 := UserStore.ClearStray(fs1, p, tmp);
    CreatedCsvTmp(fs, fs1, root, uid);
    match CreateEmpty(fs3, tmp)
    case Failure(e) => Effect(Failure(e), fs3)
    case Success((fs4, t)) => Effect(Success(UserStore.Session(tmp, p)), fs4)
  }

  /** The temporary file created in a prepared folder is empty and new, and leaves the rest
      of the tree alone. */
  lemma CreatedCsvTmp(fs: FS, fs1: FS, root: Path, uid: string)
    requires uid != "" && UserStore.EnsureFolder(fs, Child(root, uid)) == Success(fs1)
    ensures var fs3 := UserStore.ClearStray(fs1, CsvPath(root, uid), TmpCsvPath(root, uid));
      var c := CreateEmpty(fs3, TmpCsvPath(root, uid));
      && SameOutside(fs, fs3, Child(root, uid))
      && (c.Failure? ==> c.error.OsError?)
      && (DirExists(fs1, Child(root, uid)) ==> c.Success?)
      && (c.Success? ==> CsvScopeOpened(fs, c.value.0, root, uid) && SameOutside(fs, c.value.0, Child(root, uid)))
  {
    var folder := Child(root, uid);
    var p := CsvPath(root, uid);
    var tmp := TmpCsvPath(root, uid);
    var fs3 := UserStore.ClearStray(fs1, p, tmp);
    ClearCsvStray(fs, fs1, root, uid);
    if CreateEmpty(fs3, tmp).Success? {
      CreateCsvTmpIn(fs, fs3, root, uid);
    }
  }

  /** Creating the empty temporary file once the strays are cleared opens the scope. */
  lemma CreateCsvTmpIn(fs: FS, fs3: FS, root: Path, uid: string)
    requires uid != ""
    requires var p := CsvPath(root, uid);
      && SameOutside(fs, fs3, Child(root, uid))
      && (IsRegular(fs, p) ==> Lookup(fs3, p) == Lookup(fs, p))
      && (!IsRegular(fs, p) ==> p !in fs3.entries)
    requires !IsSymlink(fs3, TmpCsvPath(root, uid)) && CreateEmpty(fs3, TmpCsvPath(root, uid)).Success?
    ensures var fs4 := CreateEmpty(fs3, TmpCsvPath(root, uid)).value.0;
      CsvScopeOpened(fs, fs4, root, uid) && SameOutside(fs, fs4, Child(root, uid))
  {
    var folder := Child(root, uid);
    var p := CsvPath(root, uid);
    var tmp := TmpCsvPath(root, uid);
    var fs4 := CreateEmpty(fs3, tmp).value.0;
    assert SameOutside(fs3, fs4, folder) by {
      assert !IsPrefix(tmp, folder);
    }
    SameOutsideTrans(fs, fs3, fs4, folder);
    assert Lookup(fs4, p) == Lookup(fs3, p);
  }

  /** Clearing the strays of a freshly ensured folder keeps everything outside the folder
      and keeps `result.csv` when it is a regular file. */
  lemma ClearCsvStray(fs: FS, fs1: FS, root: Path, uid: string)
    requires uid != "" && UserStore.EnsureFolder(fs, Child(root, uid)) == Success(fs1)
    ensures var p := CsvPath(root, uid);
      var fs3 := UserStore.ClearStray(fs1, p, TmpCsvPath(root, uid));
      && SameOutside(fs, fs3, Child(root, uid))
      && (IsRegular(fs1, p) ==> IsRegular(fs, p))
  {
    var folder := Child(root, uid);
    var p := CsvPath(root, uid);
    var tmp := TmpCsvPath(root, uid);
    var fs3 := UserStore.ClearStray(fs1, p, tmp);
    forall q | !IsPrefix(folder, q) && !IsPrefix(q, folder) ensures Lookup(fs3, q) == Lookup(fs, q) {
      assert !IsPrefix(p, q) && !IsPrefix(tmp, q);
    }
    assert IsRegular(fs1, p) ==> IsRegular(fs, p) by {
      assert !IsPrefix(p, folder);
    }
  }

  /** `with open_user_csv_w(uid) as f: f.write(text)`, with the body raising or not. */
  function WriteCsv(fs: FS, root: Path, uid: string, text: string, clean: bool): Effect<()>
  {
    var b := BeginCsvWrite(fs, root, uid);
    match b.result
    case Failure(e) => Effect(Failure(e), b.fs)
    case Success(s) =>
      match UserStore.WriteChunk(b.fs, s, text)
      case Failure(e) => Effect(Failure(e), b.fs)
      case Success(fs1) =>
        match UserStore.EndWrite(fs1, s, clean)
        case Failure(e) => Effect(Failure(e), fs1)
        case Success(fs2) => Effect(if clean then Success(()) else Failure(Raised("")), fs2)
  }

  /** A clean exit installs `tmp.result.csv` as `result.csv`: reading it back gives the text. */
  lemma CsvWriteThenRead(fs: FS, root: Path, uid: string, text: string)
    requires uid != "" && PrefixesAreDirs(fs, Child(root, uid))
    ensures WriteCsv(fs, root, uid, text, true).result.Success?
    ensures ReadCsv(WriteCsv(fs, root, uid, text, true).fs, root, uid).result == Success(text)
  {
    var b := BeginCsvWrite(fs, root, uid);
    var s := b.result.value;
    var fs1 := UserStore.WriteChunk(b.fs, s, text).value;
    assert Lookup(fs1, s.final) == Lookup(b.fs, s.final);
    UserStore.CleanExitInstalls(fs1, s);
    assert IsRegular(fs1, s.tmp) && fs1.entries[s.tmp].content == text;
    var fs2 := UserStore.EndWrite(fs1, s, true).value;
    assert Lookup(fs2, s.final) == Lookup(fs1, s.tmp);
    assert WriteCsv(fs, root, uid, text, true).fs == fs2;
  }

  /** An exceptional exit leaves `result.csv` as a reader saw it before the write began. */
  lemma CsvAbortKeepsResult(fs: FS, root: Path, uid: string, text: string)
    requires BeginCsvWrite(fs, root, uid).result.Success?
    ensures ReadCsv(WriteCsv(fs, root, uid, text, false).fs, root, uid).result == ReadCsv(fs, root, uid).result
  {
    var b := BeginCsvWrite(fs, root, uid);
    var s := b.result.value;
    var fs1 := UserStore.WriteChunk(b.fs, s, text).value;
    assert Lookup(fs1, s.final) == Lookup(b.fs, s.final);
  }
}

=== FILE: emotion.dfy ===
/** The text cleaning of app/tension_analysis/utils/emotion_helpers.py that runs before an
    answer is scored for emotion: repeated '!' and '?' become markers, the tweet tokenizer
    splits the lower-cased text, emojis, emoticons and hashtags move to a side list, slang
    and negated forms are expanded, user names, numbers and links are normalised, and stop
    words and one-character tokens are dropped. The tokenizer is foreign; it comes in as a
    function. The lexicons are the maps and sets the loaders build. */
module Emotion {
  import opened Base
  import opened Text

  const Bang: char := '!'
  const Query: char := '?'
  const BangMarker: string := " <!repeat> "
  const QueryMarker: string := " <?repeat> "
  const UserToken: string := "<user>"
  const NumberToken: string := "<number>"
  const LinkText: string := "http"

  /** What `clean_texts` reads besides the text: `slangs`, `negated`, `stopwords`,
      `emoji.UNICODE_EMOJI` (emoji character to name) and `emoticons`. */
  datatype Lexicons = Lexicons(
    slangs: map<string, string>,
    negated: map<string, string>,
    stopwords: set<string>,
    emoji: map<string, string>,
    emoticons: set<string>)

  // ---------------------------------------------------------------- repeat markers

  /** The number of leading copies of `c`. */
  function RunLength(s: string, c: char): (n: nat)
    ensures n <= |s|
    ensures forall i :: 0 <= i < n ==> s[i] == c
    ensures n < |s| ==> s[n] != c
  {
    if s == [] || s[0] != c then 0 else 1 + RunLength(s[1..], c)
  }

  /** `re.sub('(c){2,}', marker, s)`: every maximal run of two or more `c` becomes `marker`. */
  function MarkRuns(s: string, c: char, marker: string): (r: string)
    requires marker != []
    ensures r == [] <==> s == []
    ensures r != [] ==> r[0] == s[0] || r[0] == marker[0]
    ensures s != [] && s[0] != c ==> r[0] == s[0]
    decreases |s|
  {
    if s == [] then []
    else
      var n := RunLength(s, c);
      if n >= 2 then marker + MarkRuns(s[n..], c, marker)
      else [s[0]] + MarkRuns(s[1..], c, marker)
  }

  /** No two adjacent copies of `c`. */
  predicate NoDoubled(s: string, c: char)
  {
    forall i :: 0 <= i < |s| - 1 ==> !(s[i] == c && s[i + 1] == c)
  }

  lemma ConcatNoDoubled(a: string, b: string, c: char)
    requires NoDoubled(a, c) && NoDoubled(b, c)
    requires a != [] && b != [] ==> !(a[|a| - 1] == c && b[0] == c)
    ensures NoDoubled(a + b, c)
  {
    var s := a + b;
    forall i | 0 <= i < |s| - 1 ensures !(s[i] == c && s[i + 1] == c) {
      if i + 1 < |a| {
        assert s[i] == a[i] && s[i + 1] == a[i + 1];
      } else if i >= |a| {
        assert s[i] == b[i - |a|] && s[i + 1] == b[i + 1 - |a|];
      }
    }
  }

  /** After the substitution no two copies of `c` are adjacent, provided the marker does
      not begin or end with `c` nor hold two of them. */
  lemma {:induction false} MarkRunsLeavesNoDouble(s: string, c: char, marker: string)
    requires marker != [] && marker[0] != c && marker[|marker| - 1] != c && NoDoubled(marker, c)
    ensures NoDoubled(MarkRuns(s, c, marker), c)
    decreases |s|
  {
    if s != [] {
      var n := RunLength(s, c);
      if n >= 2 {
        MarkRunsLeavesNoDouble(s[n..], c, marker);
        ConcatNoDoubled(marker, MarkRuns(s[n..], c, marker), c);
      } else {
        MarkRunsLeavesNoDouble(s[1..], c, marker);
        if s[0] == c && |s| > 1 {
          assert s[1..][0] != c;
        }
        ConcatNoDoubled([s[0]], MarkRuns(s[1..], c, marker), c);
      }
    }
  }

  /** Substituting runs of `c` keeps a string free of doubled `d`, for a marker free of them. */
  lemma {:induction false} MarkRunsKeepsNoDouble(s: string, c: char, d: char, marker: string)
    requires c != d && NoDoubled(s, d)
    requires marker != [] && marker[0] != d && marker[|marker| - 1] != d && NoDoubled(marker, d)
    ensures NoDoubled(MarkRuns(s, c, marker), d)
    decreases |s|
  {
    if s != [] {
      var n := RunLength(s, c);
      if n >= 2 {
        assert NoDoubled(s[n..], d) by {
          forall i | 0 <= i < |s[n..]| - 1 ensures !(s[n..][i] == d && s[n..][i + 1] == d) {
            assert s[n..][i] == s[n + i] && s[n..][i + 1] == s[n + i + 1];
          }
        }
        MarkRunsKeepsNoDouble(s[n..], c, d, marker);
        ConcatNoDoubled(marker, MarkRuns(s[n..], c, marker), d);
      } else {
        assert NoDoubled(s[1..], d) by {
          forall i | 0 <= i < |s[1..]| - 1 ensures !(s[1..][i] == d && s[1..][i + 1] == d) {
            assert s[1..][i] == s[i + 1] && s[1..][i + 1] == s[i + 2];
          }
        }
        MarkRunsKeepsNoDouble(s[1..], c, d, marker);
        if s[0] == d && |s| > 1 {
          assert s[1..][0] != d;
        }
        ConcatNoDoubled([s[0]], MarkRuns(s[1..], c, marker), d);
      }
    }
  }

  /** A string without a doubled `c` is left as it is. */
  lemma {:induction false} MarkRunsKeepsPlainText(s: string, c: char, marker: string)
    requires marker != [] && NoDoubled(s, c)
    ensures MarkRuns(s, c, marker) == s
    decreases |s|
  {
    if s != [] {
      assert RunLength(s, c) < 2 by {
        if |s| > 1 { assert !(s[0] == c && s[1] == c); }
      }
      assert NoDoubled(s[1..], c) by {
        forall i | 0 <= i < |s[1..]| - 1 ensures !(s[1..][i] == c && s[1..][i + 1] == c) {
          assert s[1..][i] == s[i + 1] && s[1..][i + 1] == s[i + 2];
        }
      }
      MarkRunsKeepsPlainText(s[1..], c, marker);
      assert s == [s[0]] + s[1..];
    }
  }

  /** `n` copies of `c`. */
  function Repeat(c: char, n: nat): string
  {
    seq(n, i => c)
  }

  /** A run that stops inside `a`, or that nothing of `b` continues, is measured in `a`. */
  lemma {:induction false} RunLengthAppend(a: string, b: string, c: char)
    requires RunLength(a, c) < |a| || b == [] || b[0] != c
    ensures RunLength(a + b, c) == RunLength(a, c)
    decreases |a|
  {
    if a == [] {
      assert a + b == b;
    } else {
      assert (a + b)[0] == a[0] && (a + b)[1..] == a[1..] + b;
      if a[0] == c {
        RunLengthAppend(a[1..], b, c);
      }
    }
  }

  /** The substitution works piecewise when no run of `c` crosses the seam. */
  lemma {:induction false} MarkRunsAppend(a: string, b: string, c: char, marker: string)
    requires marker != []
    requires a == [] || b == [] || a[|a| - 1] != c || b[0] != c
    ensures MarkRuns(a + b, c, marker) == MarkRuns(a, c, marker) + MarkRuns(b, c, marker)
    decreases |a|, 1
  {
    if a == [] {
      assert a + b == b;
    } else {
      RunLengthAppend(a, b, c);
      MarkRunsAppendStep(a, b, c, marker);
    }
  }

  /** One step of `MarkRunsAppend`: the first run or character of `a` is the first of
      `a + b`. */
  lemma {:induction false} MarkRunsAppendStep(a: string, b: string, c: char, marker: string)
    requires marker != [] && a != []
    requires a[|a| - 1] != c || b == [] || b[0] != c
    requires RunLength(a + b, c) == RunLength(a, c)
    ensures MarkRuns(a + b, c, marker) == MarkRuns(a, c, marker) + MarkRuns(b, c, marker)
    decreases |a|, 0
  {
    var n := RunLength(a, c);
    var k := if n >= 2 then n else 1;
    var head := if n >= 2 then marker else [a[0]];
    var t := a[k..];
    assert MarkRuns(a + b, c, marker) == head + MarkRuns(t + b, c, marker) by {
      assert (a + b)[0] == a[0] && (a + b)[k..] == t + b;
      MarkRunsFirst(a + b, c, marker);
    }
    assert MarkRuns(a, c, marker) == head + MarkRuns(t, c, marker) by {
      MarkRunsFirst(a, c, marker);
    }
    assert MarkRuns(t + b, c, marker) == MarkRuns(t, c, marker) + MarkRuns(b, c, marker) by {
      assert t != [] ==> t[|t| - 1] == a[|a| - 1];
      MarkRunsAppend(t, b, c, marker);
    }
    ConcatAssoc(head, MarkRuns(t, c, marker), MarkRuns(b, c, marker));
  }

  /** How the substitution starts: the first run of two or more `c` becomes the marker,
      any other first character is copied. */
  lemma MarkRunsFirst(s: string, c: char, marker: string)
    requires marker != [] && s != []
    ensures var n := RunLength(s, c);
      MarkRuns(s, c, marker)
      == if n >= 2 then marker + MarkRuns(s[n..], c, marker) else [s[0]] + MarkRuns(s[1..], c, marker)
  {
  }

  /** A maximal run of two or more `c` becomes one marker; a lone `c` stays. */
  lemma MarkRunsOfRun(n: nat, b: string, c: char, marker: string)
    requires marker != [] && n >= 1
    requires b == [] || b[0] != c
    ensures MarkRuns(Repeat(c, n) + b, c, marker)
         == (if n >= 2 then marker else [c]) + MarkRuns(b, c, marker)
  {
    var s := Repeat(c, n) + b;
    assert forall i :: 0 <= i < n ==> s[i] == c;
    assert n < |s| ==> s[n] == b[0];
    assert RunLength(s, c) == n;
    if n >= 2 {
      assert s[n..] == b;
    } else {
      assert s[0] == c && s[1..] == b;
    }
  }

  /** `re.sub('(c){2,}', marker, ·)` maps each maximal run of two or more `c` to `marker`
      and leaves the text on either side of the run to be rewritten on its own. */
  lemma MarkRunsAtRun(a: string, n: nat, b: string, c: char, marker: string)
    requires marker != [] && n >= 1
    requires a == [] || a[|a| - 1] != c
    requires b == [] || b[0] != c
    ensures MarkRuns(a + Repeat(c, n) + b, c, marker)
         == MarkRuns(a, c, marker) + (if n >= 2 then marker else [c]) + MarkRuns(b, c, marker)
  {
    var run := Repeat(c, n);
    assert (run + b)[0] == c;
    ConcatAssoc(a, run, b);
    MarkRunsAppend(a, run + b, c, marker);
    MarkRunsOfRun(n, b, c, marker);
    ConcatAssoc(MarkRuns(a, c, marker), if n >= 2 then marker else [c], MarkRuns(b, c, marker));
  }

  /** Lines 10-11: the '!' runs, then the '?' runs. */
  function RepeatMarks(text: string): (r: string)
  {
    MarkRuns(MarkRuns(text, Bang, BangMarker), Query, QueryMarker)
  }

  /** After lines 10-11 the text holds neither "!!" nor "??". */
  lemma RepeatMarksLeaveNoRuns(text: string)
    ensures NoDoubled(RepeatMarks(text), Bang) && NoDoubled(RepeatMarks(text), Query)
  {
    var once := MarkRuns(text, Bang, BangMarker);
    MarkRunsLeavesNoDouble(text, Bang, BangMarker);
    MarkRunsKeepsNoDouble(once, Query, Bang, QueryMarker);
    MarkRunsLeavesNoDouble(once, Query, QueryMarker);
  }

  // ---------------------------------------------------------------- emojis and hashtags

  /** `text_has_emoji(text)`, lines 172-176: some character of the text is an emoji. */
  function HasEmoji(text: string, emoji: map<string, string>): (r: bool)
    ensures r <==> exists i :: 0 <= i < |text| && [text[i]] in emoji
  {
    if text == [] then false
    else if [text[0]] in emoji then true
    else
      var r := HasEmoji(text[1..], emoji);
      assert forall i :: 1 <= i < |text| ==> text[i] == text[1..][i - 1];
      r
  }

  /** `char_is_emoji(word)`, lines 169-170. */
  predicate IsEmoji(word: string, emoji: map<string, string>)
  {
    word in emoji
  }

  /** Lines 21-29: emojis go to the side list as their names, emoticons as themselves, the
      rest stays. */
  function SplitEmoji(tokens: seq<string>, emoji: map<string, string>, emoticons: set<string>): (r: (seq<string>, seq<string>))
    ensures |r.0| + |r.1| == |tokens|
    ensures forall k :: 0 <= k < |r.0| ==> r.0[k] in tokens && !IsEmoji(r.0[k], emoji) && r.0[k] !in emoticons
    ensures forall k :: 0 <= k < |tokens| && !IsEmoji(tokens[k], emoji) && tokens[k] !in emoticons ==> tokens[k] in r.0
  {
    if tokens == [] then ([], [])
    else
      var (kept, found) := SplitEmoji(tokens[1..], emoji, emoticons);
      var w := tokens[0];
      assert forall k :: 1 <= k < |tokens| ==> tokens[k] == tokens[1..][k - 1];
      if IsEmoji(w, emoji) then (kept, [emoji[w]] + found)
      else if w in emoticons then (kept, [w] + found)
      else ([w] + kept, found)
  }

  /** Lines 32-39: a token holding '#' goes to the side list with every '#' removed. */
  function SplitHashtags(tokens: seq<string>): (r: (seq<string>, seq<string>))
    ensures |r.0| + |r.1| == |tokens|
    ensures forall k :: 0 <= k < |r.0| ==> '#' !in r.0[k] && r.0[k] in tokens
    ensures forall k :: 0 <= k < |r.1| ==> '#' !in r.1[k]
    ensures forall k :: 0 <= k < |tokens| && '#' !in tokens[k] ==> tokens[k] in r.0
    ensures forall k :: 0 <= k < |tokens| && '#' in tokens[k] ==> RemoveChar(tokens[k], '#') in r.1
  {
    if tokens == [] then ([], [])
    else
      var (kept, tags) := SplitHashtags(tokens[1..]);
      var w := tokens[0];
      assert forall k :: 1 <= k < |tokens| ==> tokens[k] == tokens[1..][k - 1];
      if '#' in w then (kept, [RemoveChar(w, '#')] + tags) else ([w] + kept, tags)
  }

  /** What an emoji token or an emoticon sends to the side list. */
  predicate SentAside(w: string, side: string, emoji: map<string, string>, emoticons: set<string>)
  {
    (IsEmoji(w, emoji) && side == emoji[w]) || (!IsEmoji(w, emoji) && w in emoticons && side == w)
  }

  /** The side entry of one token, if it has one. */
  function EmojiSide(w: string, emoji: map<string, string>, emoticons: set<string>): (r: seq<string>)
    ensures |r| <= 1 && (r != [] ==> SentAside(w, r[0], emoji, emoticons))
    ensures r == [] <==> !IsEmoji(w, emoji) && w !in emoticons
  {
    if IsEmoji(w, emoji) then [emoji[w]] else if w in emoticons then [w] else []
  }

  /** One step of the emoji split: the first token is kept or sent aside, then the rest. */
  lemma SplitEmojiStep(tokens: seq<string>, emoji: map<string, string>, emoticons: set<string>)
    requires tokens != []
    ensures var w := tokens[0];
      && SplitEmoji(tokens, emoji, emoticons).0
         == (if EmojiSide(w, emoji, emoticons) == [] then [w] else []) + SplitEmoji(tokens[1..], emoji, emoticons).0
      && SplitEmoji(tokens, emoji, emoticons).1 == EmojiSide(w, emoji, emoticons) + SplitEmoji(tokens[1..], emoji, emoticons).1
  {
  }

  /** The side list of the emoji split holds the name of every emoji token and every
      emoticon token, and nothing else. */
  lemma {:induction false} SplitEmojiSide(tokens: seq<string>, emoji: map<string, string>, emoticons: set<string>)
    ensures var side := SplitEmoji(tokens, emoji, emoticons).1;
      && (forall k :: 0 <= k < |tokens| && IsEmoji(tokens[k], emoji) ==> emoji[tokens[k]] in side)
      && (forall k :: 0 <= k < |tokens| && !IsEmoji(tokens[k], emoji) && tokens[k] in emoticons ==> tokens[k] in side)
      && (forall k :: 0 <= k < |side| ==> AsideFrom(tokens, side[k], emoji, emoticons))
    decreases |tokens|
  {
    if tokens != [] {
      var rest := tokens[1..];
      SplitEmojiSide(rest, emoji, emoticons);
      SplitEmojiStep(tokens, emoji, emoticons);
      var pre := EmojiSide(tokens[0], emoji, emoticons);
      var found := SplitEmoji(rest, emoji, emoticons).1;
      var side := SplitEmoji(tokens, emoji, emoticons).1;
      assert side == pre + found;
      forall k | 0 <= k < |tokens| && (IsEmoji(tokens[k], emoji) || tokens[k] in emoticons)
        ensures EmojiSide(tokens[k], emoji, emoticons)[0] in side
      {
        if k > 0 {
          assert tokens[k] == rest[k - 1];
          assert EmojiSide(tokens[k], emoji, emoticons)[0] in found;
        }
      }
      forall k | 0 <= k < |side| ensures AsideFrom(tokens, side[k], emoji, emoticons) {
        if k < |pre| {
          assert SentAside(tokens[0], side[k], emoji, emoticons);
        } else {
          IndexAfter(pre, found, k);
          SentAsideFromTail(tokens, side[k], emoji, emoticons);
        }
      }
    }
  }

  /** `side` is what some token of `tokens` sends aside. */
  predicate AsideFrom(tokens: seq<string>, side: string, emoji: map<string, string>, emoticons: set<string>)
  {
    exists j :: 0 <= j < |tokens| && SentAside(tokens[j], side, emoji, emoticons)
  }

  /** A side entry that comes from a token of the tail comes from a token of the whole list. */
  lemma SentAsideFromTail(tokens: seq<string>, t: string, emoji: map<string, string>, emoticons: set<string>)
    requires tokens != []
    requires AsideFrom(tokens[1..], t, emoji, emoticons)
    ensures AsideFrom(tokens, t, emoji, emoticons)
  {
    var j :| 0 <= j < |tokens| - 1 && SentAside(tokens[1..][j], t, emoji, emoticons);
    assert tokens[j + 1] == tokens[1..][j];
  }

  /** The side entry of one token for the hashtag split. */
  function HashtagSide(w: string): (r: seq<string>)
    ensures r == [] <==> '#' !in w
  {
    if '#' in w then [RemoveChar(w, '#')] else []
  }

  /** One step of the hashtag split. */
  lemma SplitHashtagsStep(tokens: seq<string>)
    requires tokens != []
    ensures var w := tokens[0];
      && SplitHashtags(tokens).0 == (if '#' in w then [] else [w]) + SplitHashtags(tokens[1..]).0
      && SplitHashtags(tokens).1 == HashtagSide(w) + SplitHashtags(tokens[1..]).1
  {
  }

  lemma IndexAfter<T>(pre: seq<T>, rest: seq<T>, k: int)
    requires |pre| <= k < |pre| + |rest|
    ensures (pre + rest)[k] == rest[k - |pre|]
  {
  }

  /** `tag` is the hashtag `w` with its '#' removed. */
  predicate TagOf(w: string, tag: string)
  {
    '#' in w && tag == RemoveChar(w, '#')
  }

  /** `tag` is some '#' token of `tokens` with its '#' removed. */
  predicate TagFrom(tokens: seq<string>, tag: string)
  {
    exists j :: 0 <= j < |tokens| && TagOf(tokens[j], tag)
  }

  /** A tag that comes from a token of the tail comes from a token of the whole list. */
  lemma TagFromTail(tokens: seq<string>, t: string)
    requires tokens != []
    requires TagFrom(tokens[1..], t)
    ensures TagFrom(tokens, t)
  {
    var j :| 0 <= j < |tokens| - 1 && TagOf(tokens[1..][j], t);
    assert tokens[j + 1] == tokens[1..][j];
  }

  /** Every entry of the hashtag side list is some '#' token with its '#' removed. */
  lemma {:induction false} SplitHashtagsSide(tokens: seq<string>)
    ensures var tags := SplitHashtags(tokens).1;
      forall k :: 0 <= k < |tags| ==> TagFrom(tokens, tags[k])
    decreases |tokens|
  {
    if tokens != [] {
      var rest := tokens[1..];
      SplitHashtagsSide(rest);
      SplitHashtagsStep(tokens);
      var pre := HashtagSide(tokens[0]);
      var found := SplitHashtags(rest).1;
      var tags := SplitHashtags(tokens).1;
      assert tags == pre + found;
      TagsOfParts(tokens, found);
    }
  }

  /** If every tag in `found` comes from a token of the tail, every entry of the first
      token's side entry followed by `found` comes from a token of the whole list. */
  lemma TagsOfParts(tokens: seq<string>, found: seq<string>)
    requires tokens != []
    requires forall k :: 0 <= k < |found| ==> TagFrom(tokens[1..], found[k])
    ensures var tags := HashtagSide(tokens[0]) + found;
      forall k :: 0 <= k < |tags| ==> TagFrom(tokens, tags[k])
  {
    var pre := HashtagSide(tokens[0]);
    var tags := pre + found;
    forall k | 0 <= k < |tags| ensures TagFrom(tokens, tags[k]) {
      if k < |pre| {
        assert TagOf(tokens[0], tags[k]);
      } else {
        IndexAfter(pre, found, k);
        TagFromTail(tokens, tags[k]);
      }
    }
  }

  /** The emoji split keeps token order on both sides: splitting `a + b` gives the split of
      `a` followed by that of `b`, side by side. */
  lemma {:induction false} SplitEmojiAppend(a: seq<string>, b: seq<string>, emoji: map<string, string>, emoticons: set<string>)
    ensures SplitEmoji(a + b, emoji, emoticons).0 == SplitEmoji(a, emoji, emoticons).0 + SplitEmoji(b, emoji, emoticons).0
    ensures SplitEmoji(a + b, emoji, emoticons).1 == SplitEmoji(a, emoji, emoticons).1 + SplitEmoji(b, emoji, emoticons).1
    decreases |a|
  {
    if a == [] {
      assert a + b == b;
    } else {
      var w := a[0];
      assert (a + b)[1..] == a[1..] + b && (a + b)[0] == w;
      SplitEmojiAppend(a[1..], b, emoji, emoticons);
      SplitEmojiStep(a + b, emoji, emoticons);
      SplitEmojiStep(a, emoji, emoticons);
      var head := if EmojiSide(w, emoji, emoticons) == [] then [w] else [];
      ConcatAssoc(head, SplitEmoji(a[1..], emoji, emoticons).0, SplitEmoji(b, emoji, emoticons).0);
      ConcatAssoc(EmojiSide(w, emoji, emoticons), SplitEmoji(a[1..], emoji, emoticons).1, SplitEmoji(b, emoji, emoticons).1);
    }
  }

  /** The hashtag split keeps token order on both sides. */
  lemma {:induction false} SplitHashtagsAppend(a: seq<string>, b: seq<string>)
    ensures SplitHashtags(a + b).0 == SplitHashtags(a).0 + SplitHashtags(b).0
    ensures SplitHashtags(a + b).1 == SplitHashtags(a).1 + SplitHashtags(b).1
    decreases |a|
  {
    if a == [] {
      assert a + b == b;
    } else {
      var w := a[0];
      assert (a + b)[1..] == a[1..] + b && (a + b)[0] == w;
      SplitHashtagsAppend(a[1..], b);
      SplitHashtagsStep(a + b);
      SplitHashtagsStep(a);
      var head := if '#' in w then [] else [w];
      ConcatAssoc(head, SplitHashtags(a[1..]).0, SplitHashtags(b).0);
      ConcatAssoc(HashtagSide(w), SplitHashtags(a[1..]).1, SplitHashtags(b).1);
    }
  }

  // ---------------------------------------------------------------- slang and negation

  /** Lines 42-50 for one token: a slang entry wins over a negated one; either expansion is
      split on whitespace. */
  function ExpandWord(w: string, slangs: map<string, string>, negated: map<string, string>): (r: seq<string>)
    ensures w !in slangs && w !in negated ==> r == [w]
  {
    if w in slangs then Split(slangs[w])
    else if w in negated then Split(negated[w])
    else [w]
  }

  function Expand(tokens: seq<string>, slangs: map<string, string>, negated: map<string, string>): seq<string>
  {
    if tokens == [] then []
    else ExpandWord(tokens[0], slangs, negated) + Expand(tokens[1..], slangs, negated)
  }

  /** Tokens that are neither slang nor negated forms pass through unchanged. */
  lemma {:induction false} ExpandKeepsPlainWords(tokens: seq<string>, slangs: map<string, string>, negated: map<string, string>)
    requires forall k :: 0 <= k < |tokens| ==> tokens[k] !in slangs && tokens[k] !in negated
    ensures Expand(tokens, slangs, negated) == tokens
    decreases |tokens|
  {
    if tokens != [] {
      assert tokens[0] !in slangs && tokens[0] !in negated;
      assert forall k :: 0 <= k < |tokens| - 1 ==> tokens[1..][k] == tokens[k + 1];
      ExpandKeepsPlainWords(tokens[1..], slangs, negated);
      assert tokens == [tokens[0]] + tokens[1..];
    }
  }

  lemma ExpandCons(tokens: seq<string>, slangs: map<string, string>, negated: map<string, string>)
    requires tokens != []
    ensures Expand(tokens, slangs, negated)
         == ExpandWord(tokens[0], slangs, negated) + Expand(tokens[1..], slangs, negated)
  {
  }

  /** The expansion works token by token: expanding a concatenation concatenates the
      expansions. */
  lemma {:induction false} ExpandAppend(a: seq<string>, b: seq<string>, slangs: map<string, string>, negated: map<string, string>)
    ensures Expand(a + b, slangs, negated) == Expand(a, slangs, negated) + Expand(b, slangs, negated)
    decreases |a|
  {
    if a == [] {
      assert a + b == b;
    } else {
      ExpandAppend(a[1..], b, slangs, negated);
      ExpandAppendStep(a, b, slangs, negated);
    }
  }

  /** One step of the induction: the first token's expansion comes first on both sides. */
  lemma ExpandAppendStep(a: seq<string>, b: seq<string>, slangs: map<string, string>, negated: map<string, string>)
    requires a != []
    requires Expand(a[1..] + b, slangs, negated) == Expand(a[1..], slangs, negated) + Expand(b, slangs, negated)
    ensures Expand(a + b, slangs, negated) == Expand(a, slangs, negated) + Expand(b, slangs, negated)
  {
    var ab := a + b;
    var w := ExpandWord(a[0], slangs, negated);
    var x := Expand(a[1..], slangs, negated);
    var y := Expand(b, slangs, negated);
    assert ab[0] == a[0] && ab[1..] == a[1..] + b;
    calc {
      Expand(ab, slangs, negated);
      { ExpandCons(ab, slangs, negated); }
      w + Expand(a[1..] + b, slangs, negated);
      w + (x + y);
      { ConcatAssoc(w, x, y); }
      (w + x) + y;
      { ExpandCons(a, slangs, negated); }
      Expand(a, slangs, negated) + y;
    }
  }

  /** A word that is both slang and a negated form is read as slang. */
  lemma SlangWinsOverNegation(w: string, slangs: map<string, string>, negated: map<string, string>)
    requires w in slangs && w in negated
    ensures Expand([w], slangs, negated) == Split(slangs[w])
  {
    assert [w][1..] == [];
    assert Split(slangs[w]) + [] == Split(slangs[w]);
  }

  // ---------------------------------------------------------------- normalising and filtering

  /** Line 53. */
  function ReplaceUsers(tokens: seq<string>): (r: seq<string>)
    ensures |r| == |tokens|
    ensures forall k :: 0 <= k < |r| ==> r[k] == (if '@' in tokens[k] then UserToken else tokens[k])
  {
    seq(|tokens|, k requires 0 <= k < |tokens| => if '@' in tokens[k] then UserToken else tokens[k])
  }

  /** Line 56. */
  function ReplaceNumbers(tokens: seq<string>): (r: seq<string>)
    ensures |r| == |tokens|
    ensures forall k :: 0 <= k < |r| ==> r[k] == (if IsDigits(tokens[k]) then NumberToken else tokens[k])
  {
    seq(|tokens|, k requires 0 <= k < |tokens| => if IsDigits(tokens[k]) then NumberToken else tokens[k])
  }

  /** Line 59: a token holding "http" is blanked (and dropped at line 68). */
  function BlankLinks(tokens: seq<string>): (r: seq<string>)
    ensures |r| == |tokens|
    ensures forall k :: 0 <= k < |r| ==> r[k] == (if Has(tokens[k], LinkText) then "" else tokens[k])
  {
    seq(|tokens|, k requires 0 <= k < |tokens| => if Has(tokens[k], LinkText) then "" else tokens[k])
  }

  /** Line 65. */
  function DropStopwords(tokens: seq<string>, stopwords: set<string>): (r: seq<string>)
    ensures forall k :: 0 <= k < |r| ==> r[k] !in stopwords && r[k] in tokens
  {
    if tokens == [] then []
    else (if tokens[0] in stopwords then [] else [tokens[0]]) + DropStopwords(tokens[1..], stopwords)
  }

  /** Line 68. */
  function DropShort(tokens: seq<string>): (r: seq<string>)
    ensures forall k :: 0 <= k < |r| ==> |r[k]| > 1 && r[k] in tokens
  {
    if tokens == [] then []
    else (if |tokens[0]| > 1 then [tokens[0]] else []) + DropShort(tokens[1..])
  }

  /** A string without an 'h' holds no link text. */
  lemma NoLinkWithoutH(s: string)
    requires 'h' !in s
    ensures !Has(s, LinkText)
  {
    forall i | 0 <= i ensures !OccursAt(s, LinkText, i) {
      if i + |LinkText| <= |s| {
        assert s[i] != 'h';
        assert LinkText[0] == 'h';
      }
    }
  }

  /** The two placeholders are neither digit strings nor links, and hold no '@'. */
  lemma PlaceholdersAreClean()
    ensures !IsDigits(UserToken) && !IsDigits(NumberToken)
    ensures !Has(UserToken, LinkText) && !Has(NumberToken, LinkText)
    ensures '@' !in UserToken && '@' !in NumberToken
  {
    assert !IsDigit(UserToken[0]) && !IsDigit(NumberToken[0]);
    NoLinkWithoutH(UserToken);
    NoLinkWithoutH(NumberToken);
  }

  /** Lines 53-59 for one token: a user name, a number or a link is replaced; what comes
      out holds no '@', no "http" and is not a digit string, and a token that held none of
      them is left alone. */
  function Normalised(w: string): (r: string)
    ensures '@' !in r && !Has(r, LinkText) && !IsDigits(r)
    ensures '@' !in w && !IsDigits(w) && !Has(w, LinkText) ==> r == w
  {
    PlaceholdersAreClean();
    assert !Has("", LinkText);
    if '@' in w then UserToken
    else if IsDigits(w) then NumberToken
    else if Has(w, LinkText) then ""
    else w
  }

  /** Lines 65-68 for one token. */
  predicate Kept(w: string, stopwords: set<string>)
  {
    w !in stopwords && |w| > 1
  }

  /** Lines 53-68 as one pass over the expanded tokens. */
  function Finish(tokens: seq<string>, stopwords: set<string>): (r: seq<string>)
    ensures forall k :: 0 <= k < |r| ==> Kept(r[k], stopwords)
    ensures forall k :: 0 <= k < |r| ==> '@' !in r[k] && !Has(r[k], LinkText) && !IsDigits(r[k])
  {
    if tokens == [] then []
    else
      var w := Normalised(tokens[0]);
      (if Kept(w, stopwords) then [w] else []) + Finish(tokens[1..], stopwords)
  }

  /** The three replacing passes, one token at a time. */
  lemma ReplacingPasses(tokens: seq<string>)
    ensures BlankLinks(ReplaceNumbers(ReplaceUsers(tokens)))
      == seq(|tokens|, k requires 0 <= k < |tokens| => Normalised(tokens[k]))
  {
    PlaceholdersAreClean();
  }

  /** The two dropping passes as one filter. */
  function KeepOnly(xs: seq<string>, stopwords: set<string>): seq<string>
  {
    if xs == [] then [] else (if Kept(xs[0], stopwords) then [xs[0]] else []) + KeepOnly(xs[1..], stopwords)
  }

  lemma {:induction false} DroppingPasses(xs: seq<string>, stopwords: set<string>)
    ensures DropShort(DropStopwords(xs, stopwords)) == KeepOnly(xs, stopwords)
    decreases |xs|
  {
    if xs != [] {
      DroppingPasses(xs[1..], stopwords);
      var rest := DropStopwords(xs[1..], stopwords);
      if xs[0] !in stopwords {
        assert ([xs[0]] + rest)[1..] == rest;
      } else {
        assert DropStopwords(xs, stopwords) == rest;
      }
    }
  }

  lemma {:induction false} FinishIsKeepOnly(tokens: seq<string>, stopwords: set<string>)
    ensures Finish(tokens, stopwords)
      == KeepOnly(seq(|tokens|, k requires 0 <= k < |tokens| => Normalised(tokens[k])), stopwords)
    decreases |tokens|
  {
    if tokens != [] {
      var ns := seq(|tokens|, k requires 0 <= k < |tokens| => Normalised(tokens[k]));
      assert ns[1..] == seq(|tokens| - 1, k requires 0 <= k < |tokens| - 1 => Normalised(tokens[1..][k]));
      FinishIsKeepOnly(tokens[1..], stopwords);
    }
  }

  /** The five successive list passes of lines 53-68 are the single pass `Finish`. */
  lemma PassesAreOnePass(tokens: seq<string>, stopwords: set<string>)
    ensures DropShort(DropStopwords(BlankLinks(ReplaceNumbers(ReplaceUsers(tokens))), stopwords))
      == Finish(tokens, stopwords)
  {
    ReplacingPasses(tokens);
    DroppingPasses(BlankLinks(ReplaceNumbers(ReplaceUsers(tokens))), stopwords);
    FinishIsKeepOnly(tokens, stopwords);
  }

  // ---------------------------------------------------------------- one text, many texts

  datatype Cleaned = Cleaned(tokens: seq<string>, hashEmo: seq<string>)

  /** The loop body of `clean_texts`, lines 9-71, for one text. */
  function CleanText(text: string, lex: Lexicons, tokenize: string -> seq<string>): (r: Cleaned)
    ensures forall k :: 0 <= k < |r.tokens| ==> Kept(r.tokens[k], lex.stopwords)
  {
    var marked := RepeatMarks(text);
    var tokens := tokenize(Lower(marked));
    var (plain, emos) := if HasEmoji(marked, lex.emoji) then SplitEmoji(tokens, lex.emoji, lex.emoticons) else (tokens, []);
    var (words, tags) := SplitHashtags(plain);
    var expanded := Expand(words, lex.slangs, lex.negated);
    var finished := DropShort(DropStopwords(BlankLinks(ReplaceNumbers(ReplaceUsers(expanded))), lex.stopwords));
    Cleaned(finished, emos + tags)
  }

  /** Every token a cleaned text keeps is longer than one character, no stop word, and
      free of '@', "http" and bare digit strings; its side list holds no '#'. */
  lemma CleanTextTokens(text: string, lex: Lexicons, tokenize: string -> seq<string>)
    ensures var r := CleanText(text, lex, tokenize);
      forall k :: 0 <= k < |r.tokens| ==>
        |r.tokens[k]| > 1 && r.tokens[k] !in lex.stopwords
        && '@' !in r.tokens[k] && !Has(r.tokens[k], LinkText) && !IsDigits(r.tokens[k])
  {
    var marked := RepeatMarks(text);
    var tokens := tokenize(Lower(marked));
    var (plain, emos) := if HasEmoji(marked, lex.emoji) then SplitEmoji(tokens, lex.emoji, lex.emoticons) else (tokens, []);
    var (words, tags) := SplitHashtags(plain);
    var expanded := Expand(words, lex.slangs, lex.negated);
    PassesAreOnePass(expanded, lex.stopwords);
  }

  /** The side list of a cleaned text: the emoji split's side list (empty when the text
      has no emoji), then the hashtags of the tokens the emoji split kept. */
  lemma CleanTextSide(text: string, lex: Lexicons, tokenize: string -> seq<string>)
    ensures var tokens := tokenize(Lower(RepeatMarks(text)));
      var split := if HasEmoji(RepeatMarks(text), lex.emoji) then SplitEmoji(tokens, lex.emoji, lex.emoticons) else (tokens, []);
      CleanText(text, lex, tokenize).hashEmo == split.1 + SplitHashtags(split.0).1
  {
  }

  /** A text without emojis sends exactly its hashtags to the side list, '#' removed. */
  lemma HashtagsGoAside(text: string, lex: Lexicons, tokenize: string -> seq<string>)
    requires !HasEmoji(RepeatMarks(text), lex.emoji)
    ensures var tokens := tokenize(Lower(RepeatMarks(text)));
      var side := CleanText(text, lex, tokenize).hashEmo;
      && (forall k :: 0 <= k < |side| ==> '#' !in side[k])
      && (forall k :: 0 <= k < |tokens| && '#' in tokens[k] ==> RemoveChar(tokens[k], '#') in side)
      && (forall k :: 0 <= k < |side| ==> TagFrom(tokens, side[k]))
  {
    var tokens := tokenize(Lower(RepeatMarks(text)));
    CleanTextSide(text, lex, tokenize);
    assert CleanText(text, lex, tokenize).hashEmo == SplitHashtags(tokens).1;
    SplitHashtagsSide(tokens);
  }

  /** A text with emojis sends aside first the emoji names and emoticons, in token order,
      then the hashtags of the tokens left, '#' removed (lines 20-39). */
  lemma EmojisThenHashtags(text: string, lex: Lexicons, tokenize: string -> seq<string>)
    requires HasEmoji(RepeatMarks(text), lex.emoji)
    ensures var tokens := tokenize(Lower(RepeatMarks(text)));
      var (plain, emos) := SplitEmoji(tokens, lex.emoji, lex.emoticons);
      var side := CleanText(text, lex, tokenize).hashEmo;
      && |emos| <= |side| && side[..|emos|] == emos
      && (forall k :: |emos| <= k < |side| ==> TagFrom(plain, side[k]))
  {
    var tokens := tokenize(Lower(RepeatMarks(text)));
    var (plain, emos) := SplitEmoji(tokens, lex.emoji, lex.emoticons);
    CleanTextSide(text, lex, tokenize);
    SplitHashtagsSide(plain);
    TagsAfter(emos, SplitHashtags(plain).1, plain);
  }

  /** Tags that each come from a '#' token of `plain` still do so when placed after `emos`. */
  lemma TagsAfter(emos: seq<string>, tags: seq<string>, plain: seq<string>)
    requires forall k :: 0 <= k < |tags| ==> TagFrom(plain, tags[k])
    ensures (emos + tags)[..|emos|] == emos
    ensures forall k :: |emos| <= k < |emos + tags| ==> TagFrom(plain, (emos + tags)[k])
  {
    var side := emos + tags;
    assert side[..|emos|] == emos;
    forall k | |emos| <= k < |side| ensures TagFrom(plain, side[k]) {
      IndexAfter(emos, tags, k);
    }
  }

  /** `clean_texts(texts)`: one token list and one side list per text, in order. */
  method CleanTexts(texts: seq<string>, lex: Lexicons, tokenize: string -> seq<string>)
    returns (cleaned: seq<seq<string>>, hashEmos: seq<seq<string>>)
    ensures |cleaned| == |texts| && |hashEmos| == |texts|
    ensures forall i :: 0 <= i < |texts| ==>
      cleaned[i] == CleanText(texts[i], lex, tokenize).tokens && hashEmos[i] == CleanText(texts[i], lex, tokenize).hashEmo
    ensures forall i, k :: 0 <= i < |texts| && 0 <= k < |cleaned[i]| ==> Kept(cleaned[i][k], lex.stopwords)
  {
    var clean := (t: string) => CleanText(t, lex, tokenize);
    cleaned, hashEmos := CleanEach(texts, clean);
    forall i, k | 0 <= i < |texts| && 0 <= k < |cleaned[i]| ensures Kept(cleaned[i][k], lex.stopwords) {
      assert cleaned[i] == CleanText(texts[i], lex, tokenize).tokens;
    }
  }

  /** The loop of `clean_texts`: each text is cleaned on its own and the two lists of each
      result are collected side by side. */
  method CleanEach(texts: seq<string>, clean: string -> Cleaned)
    returns (cleaned: seq<seq<string>>, hashEmos: seq<seq<string>>)
    ensures |cleaned| == |texts| && |hashEmos| == |texts|
    ensures forall i :: 0 <= i < |texts| ==> cleaned[i] == clean(texts[i]).tokens && hashEmos[i] == clean(texts[i]).hashEmo
  {
    cleaned, hashEmos := [], [];
    var i := 0;
    while i < |texts|
      invariant 0 <= i <= |texts|
      invariant |cleaned| == i && |hashEmos| == i
      invariant forall j :: 0 <= j < i ==> cleaned[j] == clean(texts[j]).tokens && hashEmos[j] == clean(texts[j]).hashEmo
    {
      var c := clean(texts[i]);
      cleaned := cleaned + [c.tokens];
      hashEmos := hashEmos + [c.hashEmo];
      i := i + 1;
    }
  }

  // ---------------------------------------------------------------- lengths

  /** `max_length(lines)`, lines 160-161: `max` of an empty list raises ValueError. */
  function MaxLength<T>(lines: seq<seq<T>>): (r: Result<nat>)
    ensures r.Failure? <==> lines == []
    ensures r.Failure? ==> r.error.ValueError?
    ensures r.Success? ==> forall i :: 0 <= i < |lines| ==> |lines[i]| <= r.value
    ensures r.Success? ==> exists i :: 0 <= i < |lines| && |lines[i]| == r.value
  {
    if lines == [] then Failure(ValueError("max() arg is an empty sequence"))
    else if |lines| == 1 then Success(|lines[0]|)
    else
      var rest := MaxLength(lines[1..]).value;
      assert forall i :: 1 <= i < |lines| ==> lines[i] == lines[1..][i - 1];
      Success(if |lines[0]| >= rest then |lines[0]| else rest)
  }
}

=== FILE: fs.dfy ===
/** An abstract POSIX filesystem: a map from absolute paths to entries, plus a
    clock that stamps modification times. Every operation below is one atomic
    transition of this state (one `rename`, `unlink`, `touch`, ... call). */
module FileSystem {
  import opened Base

  /** An absolute path as its sequence of components; `[]` is the filesystem root. */
  type Path = seq<string>

  datatype Entry =
    | File(content: string, mtime: nat)
    | Dir(mtime: nat)
    | Symlink(target: Path)

  datatype FS = FS(entries: map<Path, Entry>, now: nat)

  /** What a step that may raise leaves behind: its result and the state after its side effects. */
  datatype Effect<+T> = Effect(result: Result<T>, fs: FS)

  /** Linux gives up resolving a path after 40 symbolic links (ELOOP). */
  const MaxSymlinkHops: nat := 40

  const NoSuchFile := OsError("No such file or directory")
  const IsADirectory := OsError("Is a directory")
  const NotADirectory := OsError("Not a directory")
  const FileExists := OsError("File exists")
  const TooManyLinks := OsError("Too many levels of symbolic links")

  predicate IsPrefix(p: Path, q: Path) { |p| <= |q| && q[..|p|] == p }

  function Parent(p: Path): Path
    requires |p| > 0
  {
    p[..|p| - 1]
  }

  /** pathlib's `dir / name`: joining the empty name yields `dir` itself. */
  function Child(dir: Path, name: string): (p: Path)
    ensures name != "" ==> |p| == |dir| + 1 && Parent(p) == dir && p[|dir|] == name
    ensures name == "" ==> p == dir
  {
    if name == "" then dir else dir + [name]
  }

  function Lookup(fs: FS, p: Path): Option<Entry>
  {
    if p in fs.entries then Some(fs.entries[p]) else None
  }

  /** Entries at paths neither under `area` nor on the way to it are the same in both states. */
  ghost predicate SameOutside(fs: FS, fs': FS, area: Path)
  {
    forall q :: !IsPrefix(area, q) && !IsPrefix(q, area) ==> Lookup(fs', q) == Lookup(fs, q)
  }

  /** Entries outside the subtrees at `a` and `b` that existed are kept, and the only entries
      that appear outside them are directories on the way to `along`. */
  ghost predicate ChangesOnly(fs: FS, fs': FS, a: Path, b: Path, along: Path)
  {
    forall q :: !IsPrefix(a, q) && !IsPrefix(b, q) ==>
      && (q in fs.entries ==> Lookup(fs', q) == Lookup(fs, q))
      && (q in fs'.entries && q !in fs.entries ==> IsPrefix(q, along) && fs'.entries[q].Dir?)
  }

  lemma SameOutsideTrans(fs1: FS, fs2: FS, fs3: FS, area: Path)
    requires SameOutside(fs1, fs2, area) && SameOutside(fs2, fs3, area)
    ensures SameOutside(fs1, fs3, area)
  {
  }

  lemma ChangesOnlyTrans(fs1: FS, fs2: FS, fs3: FS, a: Path, b: Path, along: Path)
    requires ChangesOnly(fs1, fs2, a, b, along) && ChangesOnly(fs2, fs3, a, b, along)
    ensures ChangesOnly(fs1, fs3, a, b, along)
  {
    forall q | !IsPrefix(a, q) && !IsPrefix(b, q)
      ensures q in fs3.entries && q !in fs1.entries ==> IsPrefix(q, along) && fs3.entries[q].Dir?
    {
      if q in fs3.entries && q !in fs1.entries && q in fs2.entries {
        assert Lookup(fs3, q) == Lookup(fs2, q);
      }
    }
  }

  /** A change confined below `along` keeps the path to `along` made of directories, and
      leaves alone everything that is neither on that path nor below it. */
  lemma ChangesOnlyKeepsPath(fs: FS, fs': FS, a: Path, b: Path, along: Path)
    requires ChangesOnly(fs, fs', a, b, along)
    requires IsPrefix(along, a) && IsPrefix(along, b) && |a| > |along| && |b| > |along|
    ensures PrefixesAreDirs(fs, along) ==> PrefixesAreDirs(fs', along)
    ensures forall q :: !IsPrefix(along, q) && !IsPrefix(q, along) ==> Lookup(fs', q) == Lookup(fs, q)
  {
    if PrefixesAreDirs(fs, along) {
      forall k | 1 <= k <= |along| && along[..k] in fs'.entries ensures fs'.entries[along[..k]].Dir? {
        var q := along[..k];
        assert !IsPrefix(a, q) && !IsPrefix(b, q);
      }
    }
  }

  /** Every modification time lies in the past of the clock. */
  ghost predicate ClockAhead(fs: FS)
  {
    forall q :: q in fs.entries && !fs.entries[q].Symlink? ==> fs.entries[q].mtime < fs.now
  }

  predicate DirExists(fs: FS, d: Path)
  {
    d == [] || (d in fs.entries && fs.entries[d].Dir?)
  }

  // ---------------------------------------------------------------- queries

  /** `stat(p)`: the entry `p` denotes after following symbolic links. */
  function Resolve(fs: FS, p: Path, hops: nat): (r: Option<Entry>)
    ensures r.Some? ==> !r.value.Symlink?
    decreases hops
  {
    if p !in fs.entries then (if p == [] then Some(Dir(0)) else None)
    else match fs.entries[p]
      case Symlink(t) => if hops == 0 then None else Resolve(fs, t, hops - 1)
      case e => Some(e)
  }

  function Stat(fs: FS, p: Path): Option<Entry> { Resolve(fs, p, MaxSymlinkHops) }

  /** `Path.is_file()` (follows symbolic links). */
  predicate IsFile(fs: FS, p: Path) { Stat(fs, p).Some? && Stat(fs, p).value.File? }

  /** `Path.is_dir()` (follows symbolic links). */
  predicate IsDir(fs: FS, p: Path) { Stat(fs, p).Some? && Stat(fs, p).value.Dir? }

  /** `Path.is_symlink()` (does not follow). */
  predicate IsSymlink(fs: FS, p: Path) { p in fs.entries && fs.entries[p].Symlink? }

  /** A regular file at `p` itself, not reached through a link. */
  predicate IsRegular(fs: FS, p: Path) { p in fs.entries && fs.entries[p].File? }

  /** The names listed by `os.listdir(d)` for a directory reached by its own path. */
  function Children(fs: FS, d: Path): set<string>
  {
    set q | q in fs.entries && |q| == |d| + 1 && q[..|d|] == d :: q[|d|]
  }

  /** Reading a file opened with mode 'r'. */
  function ReadFile(fs: FS, p: Path): (r: Result<string>)
    ensures r.Success? <==> IsFile(fs, p)
    ensures IsRegular(fs, p) ==> r == Success(fs.entries[p].content)
  {
    match Stat(fs, p)
    case None => Failure(NoSuchFile)
    case Some(e) =>
      if e.File? then Success(e.content) else Failure(IsADirectory)
  }

  /** `st_mtime` of `stat(p)`. */
  function MTime(fs: FS, p: Path): (r: Result<nat>)
    ensures r.Success? <==> Stat(fs, p).Some?
  {
    match Stat(fs, p)
    case None => Failure(NoSuchFile)
    case Some(e) => Success(e.mtime)
  }

  // ---------------------------------------------------------------- removal

  /** `shutil.rmtree(p)`: `p` and everything below it disappear; link targets are untouched. */
  function Rmtree(fs: FS, p: Path): (r: FS)
    ensures forall q :: Lookup(r, q) == if IsPrefix(p, q) then None else Lookup(fs, q)
    ensures r.now == fs.now
  {
    FS(map q | q in fs.entries && !IsPrefix(p, q) :: fs.entries[q], fs.now)
  }

  /** `Path.unlink()`: removes a file or a link (not its target); refuses directories. */
  function Unlink(fs: FS, p: Path): (r: Result<FS>)
    ensures r.Success? <==> p in fs.entries && !fs.entries[p].Dir?
    ensures r.Success? ==> r.value == FS(fs.entries - {p}, fs.now)
  {
    if p !in fs.entries then Failure(NoSuchFile)
    else if fs.entries[p].Dir? then Failure(IsADirectory)
    else Success(FS(fs.entries - {p}, fs.now))
  }

  // ---------------------------------------------------------------- creation

  /** No component of `p` that exists is anything but a directory. */
  predicate PrefixesAreDirs(fs: FS, p: Path)
  {
    forall k :: 1 <= k <= |p| && p[..k] in fs.entries ==> fs.entries[p[..k]].Dir?
  }

  /** What creating the directories on the way to `p` may do: entries that existed are kept,
      new entries are directories on the way to `p`, and the clock does not go back. */
  ghost predicate GrowsToward(fs: FS, r: FS, p: Path)
  {
    && (forall q :: q in fs.entries ==> Lookup(r, q) == Lookup(fs, q))
    && (forall q :: q in r.entries && q !in fs.entries ==> IsPrefix(q, p) && r.entries[q].Dir?)
    && r.now >= fs.now
    && (ClockAhead(fs) ==> ClockAhead(r))
  }

  /** `Path.mkdir(parents=True)`, called by the store only for a path that is not a directory:
      creates every missing directory on the way to `p`, outermost first. An existing ancestor
      that is not a directory makes it fail. */
  function MakeDirs(fs: FS, p: Path): (r: Result<FS>)
    ensures r.Success? ==> DirExists(r.value, p) && GrowsToward(fs, r.value, p)
    ensures r.Failure? ==> !PrefixesAreDirs(fs, p) && r.error.OsError?
    ensures PrefixesAreDirs(fs, p) ==> r.Success?
    decreases |p|
  {
    if p == [] then Success(fs)
    else if p in fs.entries then
      if fs.entries[p].Dir? then Success(fs)
      else
        assert p[..|p|] == p;
        Failure(FileExists)
    else
      assert PrefixesAreDirs(fs, p) ==> PrefixesAreDirs(fs, Parent(p)) by {
        forall k | 1 <= k <= |Parent(p)| ensures Parent(p)[..k] == p[..k] { }
      }
      match MakeDirs(fs, Parent(p))
      case Failure(e) =>
        assert !PrefixesAreDirs(fs, p) by {
          var k :| 1 <= k <= |Parent(p)| && Parent(p)[..k] in fs.entries && !fs.entries[Parent(p)[..k]].Dir?;
          assert Parent(p)[..k] == p[..k];
        }
        Failure(e)
      case Success(fs1) =>
        AddDir(fs, fs1, p);
        Success(FS(fs1.entries[p := Dir(fs1.now)], fs1.now + 1))
  }

  /** The last step of `MakeDirs`: the directory `p` itself is added once its parent exists. */
  lemma AddDir(fs: FS, fs1: FS, p: Path)
    requires p != [] && p !in fs.entries && GrowsToward(fs, fs1, Parent(p))
    ensures var r := FS(fs1.entries[p := Dir(fs1.now)], fs1.now + 1);
      DirExists(r, p) && GrowsToward(fs, r, p)
  {
    var r := FS(fs1.entries[p := Dir(fs1.now)], fs1.now + 1);
    forall q | q in r.entries && q !in fs.entries ensures IsPrefix(q, p) && r.entries[q].Dir? {
      if q != p {
        assert IsPrefix(q, Parent(p));
        assert p[..|q|] == Parent(p)[..|q|];
      }
    }
  }

  /** The path an `open(p, 'w')` or `touch` lands on: symbolic links at `p` are followed
      (None when they loop). */
  function WriteTarget(fs: FS, p: Path, hops: nat): (t: Option<Path>)
    ensures t.Some? ==> !IsSymlink(fs, t.value)
    ensures !IsSymlink(fs, p) ==> t == Some(p)
    decreases hops
  {
    if p in fs.entries && fs.entries[p].Symlink? then
      if hops == 0 then None else WriteTarget(fs, fs.entries[p].target, hops - 1)
    else Some(p)
  }

  /** `open(p, 'w')`: the file `p` denotes is created or truncated to empty. */
  function CreateEmpty(fs: FS, p: Path): (r: Result<(FS, Path)>)
    ensures r.Failure? ==> r.error.OsError?
    ensures !IsSymlink(fs, p) ==>
      (r.Success? <==> |p| > 0 && DirExists(fs, Parent(p)) && !(p in fs.entries && fs.entries[p].Dir?))
    ensures r.Success? ==> var (fs', t) := r.value;
      && |t| > 0
      && fs'.entries == fs.entries[t := File("", fs.now)]
      && fs'.now == fs.now + 1
      && (!IsSymlink(fs, p) ==> t == p)
  {
    match WriteTarget(fs, p, MaxSymlinkHops)
    case None => Failure(TooManyLinks)
    case Some(t) =>
      if t == [] then Failure(IsADirectory)
      else if t in fs.entries && fs.entries[t].Dir? then Failure(IsADirectory)
      else if !DirExists(fs, Parent(t)) then Failure(NoSuchFile)
      else Success((FS(fs.entries[t := File("", fs.now)], fs.now + 1), t))
  }

  /** `f.write(text)` on a file object open for writing at `p`. */
  function Append(fs: FS, p: Path, text: string): (r: Result<FS>)
    ensures r.Success? <==> IsRegular(fs, p)
    ensures r.Success? ==>
      r.value == FS(fs.entries[p := File(fs.entries[p].content + text, fs.now)], fs.now + 1)
    ensures r.Failure? ==> r.error.OsError?
  {
    if IsRegular(fs, p) then
      Success(FS(fs.entries[p := File(fs.entries[p].content + text, fs.now)], fs.now + 1))
    else Failure(NoSuchFile)
  }

  /** `Path.touch()`: an existing file or directory gets a fresh modification time; a
      missing one is created empty. */
  function Touch(fs: FS, p: Path): (r: Result<FS>)
    ensures p != [] && p !in fs.entries ==> (r.Success? <==> DirExists(fs, Parent(p)))
    ensures p != [] && p !in fs.entries && r.Success? ==>
      r.value == FS(fs.entries[p := File("", fs.now)], fs.now + 1)
  {
    match WriteTarget(fs, p, MaxSymlinkHops)
    case None => Failure(TooManyLinks)
    case Some(t) =>
      if t in fs.entries then
        match fs.entries[t]
        case File(c, _) => Success(FS(fs.entries[t := File(c, fs.now)], fs.now + 1))
        case Dir(_) => Success(FS(fs.entries[t := Dir(fs.now)], fs.now + 1))
        case Symlink(_) => Failure(TooManyLinks)
      else if t == [] then Success(FS(fs.entries, fs.now + 1))
      else if !DirExists(fs, Parent(t)) then Failure(NoSuchFile)
      else Success(FS(fs.entries[t := File("", fs.now)], fs.now + 1))
  }

  /** `os.rename(src, dst)` for a source that is not a directory: the entry moves and
      replaces whatever file or link was at `dst`. */
  function Rename(fs: FS, src: Path, dst: Path): (r: Result<FS>)
    ensures r.Success? <==>
      && src in fs.entries && !fs.entries[src].Dir?
      && (src == dst || (|dst| > 0 && DirExists(fs, Parent(dst)) && !(dst in fs.entries && fs.entries[dst].Dir?)))
    ensures r.Success? && src != dst ==>
      r.value == FS((fs.entries - {src})[dst := fs.entries[src]], fs.now)
    ensures r.Success? && src == dst ==> r.value == fs
  {
    if src !in fs.entries then Failure(NoSuchFile)
    else if fs.entries[src].Dir? then Failure(IsADirectory)
    else if src == dst then Success(fs)
    else if dst == [] || (dst in fs.entries && fs.entries[dst].Dir?) then Failure(IsADirectory)
    else if !DirExists(fs, Parent(dst)) then Failure(NoSuchFile)
    else Success(FS((fs.entries - {src})[dst := fs.entries[src]], fs.now))
  }

  /** `_remove_if_not_regular_file(p)`: a real directory is removed recursively, a link
      (to anything) is unlinked without touching its target, anything else is left. */
  function RemoveIfNotRegular(fs: FS, p: Path): (r: FS)
    ensures Lookup(r, p).None? || Lookup(r, p).value.File?
    ensures r.now == fs.now
    ensures IsRegular(fs, p) || (p !in fs.entries && p != []) ==> r == fs
    ensures IsSymlink(fs, p) ==> r.entries == fs.entries - {p}
    ensures p in fs.entries && fs.entries[p].Dir? ==>
      forall q :: Lookup(r, q) == if IsPrefix(p, q) then None else Lookup(fs, q)
    ensures forall q :: !IsPrefix(p, q) ==> Lookup(r, q) == Lookup(fs, q)
    ensures ClockAhead(fs) ==> ClockAhead(r)
  {
    if IsDir(fs, p) && !IsSymlink(fs, p) then
      assert IsPrefix(p, p);
      Rmtree(fs, p)
    else if IsSymlink(fs, p) then
      FS(fs.entries - {p}, fs.now)
    else
      fs
  }
}

=== FILE: hedge.dfy ===
/** The decision logic of app/tension_analysis_worker/utils/hedge_detection.py: the
    contraction rewrite, the 1- to 5-gram phrases, the Jaccard test against discourse
    markers, and the per-word disambiguation rules. Tokenizing, dependency parsing, part of
    speech tagging and lemmatizing are foreign; they come in as a `Parser` value. */
module Hedge {
  import opened Base
  import opened Text

  /** A dependency triple `(relation, governor, dependent)` as CoreNLP's wrapper returns it. */
  datatype Triple = Triple(rel: string, gov: string, dep: string)

  /** A (token, tag) pair of `pos_tag`. */
  datatype Tagged = Tagged(word: string, tag: string)

  /** The foreign collaborators: `word_tokenize`, `nlp.dependency_parse` (one tree per
      sentence), `lmtzr.lemmatize(w, 'v')`, `lmtzr.lemmatize(w)` and `nlp.pos_tag`. */
  datatype Parser = Parser(
    tokenize: string -> seq<string>,
    dependencies: string -> seq<seq<Triple>>,
    lemmaVerb: string -> string,
    lemmaNoun: string -> string,
    posTag: string -> seq<Tagged>)

  /** `HEDGE_DETECTION_THRESHOLD = 0.8` of app/global_config.py, as the fraction 4/5. */
  const ThresholdNum: nat := 4
  const ThresholdDen: nat := 5

  // ---------------------------------------------------------------- contraction rewrite

  /** "n" + q + "t": a negative contraction written with the apostrophe `q`. */
  function NotWith(q: char): string { ['n', q, 't'] }

  /** The ASCII and the curly (U+2019) apostrophe. */
  predicate IsApostrophe(q: char) { q == '\'' || q == '’' }

  const AsciiNot: string := NotWith('\'')
  const CurlyNot: string := NotWith('’')
  const SpacedNot: string := " not"

  /** Lines 126-131: lower-case, then rewrite "n't" to " not"; the curly form is rewritten
      only when the text has no ASCII form. */
  function Normalise(text: string): (t: string)
    ensures !Contains(Lower(text), AsciiNot) && !Contains(Lower(text), CurlyNot) ==> t == Lower(text)
  {
    var l := Lower(text);
    if Has(l, AsciiNot) then ReplaceAll(l, AsciiNot, SpacedNot)
    else if Has(l, CurlyNot) then ReplaceAll(l, CurlyNot, SpacedNot)
    else (ReplaceAllAbsent(l, CurlyNot, SpacedNot); l)
  }

  /** The first "n't" of the lower-cased text becomes " not", and the rewrite goes on
      after it. */
  lemma NormaliseRewritesAscii(text: string, a: string, b: string)
    requires Lower(text) == a + AsciiNot + b
    requires forall j :: 0 <= j < |a| ==> !OccursAt(Lower(text), AsciiNot, j)
    ensures Normalise(text) == a + SpacedNot + ReplaceAll(b, AsciiNot, SpacedNot)
  {
    var l := Lower(text);
    assert l[|a|..|a| + 3] == AsciiNot;
    assert OccursAt(l, AsciiNot, |a|);
    ReplaceAllFirst(a, b, AsciiNot, SpacedNot);
  }

  /** Without any "n't", the first "n’t" becomes " not", and the rewrite goes on after it. */
  lemma NormaliseRewritesCurly(text: string, a: string, b: string)
    requires !Contains(Lower(text), AsciiNot)
    requires Lower(text) == a + CurlyNot + b
    requires forall j :: 0 <= j < |a| ==> !OccursAt(Lower(text), CurlyNot, j)
    ensures Normalise(text) == a + SpacedNot + ReplaceAll(b, CurlyNot, SpacedNot)
  {
    var l := Lower(text);
    assert l[|a|..|a| + 3] == CurlyNot;
    assert OccursAt(l, CurlyNot, |a|);
    ReplaceAllFirst(a, b, CurlyNot, SpacedNot);
  }

  /** The curly form survives exactly when the text holds both forms: the ASCII rule
      leaves it alone, and the curly rule removes it. */
  lemma NormaliseLeavesCurly(text: string)
    ensures Contains(Normalise(text), CurlyNot)
        <==> Contains(Lower(text), AsciiNot) && Contains(Lower(text), CurlyNot)
  {
    var l := Lower(text);
    if Has(l, AsciiNot) {
      if Has(l, CurlyNot) {
        RewriteKeeps(l, '\'', '’');
      } else {
        RewriteCreatesNone(l, '\'', '’');
      }
    } else if Has(l, CurlyNot) {
      RewriteCreatesNone(l, '’', '’');
    }
  }

  /** The normalised text never holds "n't". */
  lemma NormaliseRemovesAscii(text: string)
    ensures !Contains(Normalise(text), AsciiNot)
  {
    var l := Lower(text);
    if Has(l, AsciiNot) {
      RewriteCreatesNone(l, '\'', '\'');
    } else if Has(l, CurlyNot) {
      RewriteCreatesNone(l, '’', '\'');
    }
  }

  /** Rewriting the `p` form leaves no contraction of the `q` form behind, unless the text
      already had one of another form: " not" holds no apostrophe, and neither ends in 'n'
      nor starts with an apostrophe. */
  lemma {:induction false} RewriteCreatesNone(s: string, p: char, q: char)
    requires IsApostrophe(p) && IsApostrophe(q)
    requires p == q || !Contains(s, NotWith(q))
    ensures !Contains(ReplaceAll(s, NotWith(p), SpacedNot), NotWith(q))
    decreases |s|
  {
    var pat := NotWith(p);
    if |s| >= 3 {
      if s[..3] == pat {
        if p != q { NoContractionInSuffix(s, 3, q); }
        RewriteCreatesNone(s[3..], p, q);
        NoContractionAfterSpacedNot(ReplaceAll(s[3..], pat, SpacedNot), q);
      } else {
        if p != q { NoContractionInSuffix(s, 1, q); }
        var rest := ReplaceAll(s[1..], pat, SpacedNot);
        RewriteCreatesNone(s[1..], p, q);
        ApostropheAfterRewrite(s[1..], p, q);
        assert s[1..][1..] == s[2..];
        assert !OccursAt(s, NotWith(q), 0);
        NoContractionAfterChar(s[0], rest, q);
      }
    }
  }

  /** Rewriting the `p` form keeps every contraction of the other form. */
  lemma {:induction false} RewriteKeeps(s: string, p: char, q: char)
    requires IsApostrophe(p) && IsApostrophe(q) && p != q
    requires Contains(s, NotWith(q))
    ensures Contains(ReplaceAll(s, NotWith(p), SpacedNot), NotWith(q))
    decreases |s|
  {
    var pat := NotWith(p);
    var i :| OccursAt(s, NotWith(q), i);
    if s[..3] == pat {
      assert i >= 3 by {
        assert s[i] == 'n' && s[i + 1] == q && s[i + 2] == 't' by { assert s[i..i + 3] == NotWith(q); }
        assert s[0] == 'n' && s[1] == p && s[2] == 't' by { assert s[..3] == pat; }
      }
      ShiftOccurrence(s, 3, NotWith(q), i);
      RewriteKeeps(s[3..], p, q);
      ContainedAfter(SpacedNot, ReplaceAll(s[3..], pat, SpacedNot), NotWith(q));
    } else if i == 0 {
      KeepsLeadingContraction(s, p, q);
    } else {
      assert ReplaceAll(s, pat, SpacedNot) == [s[0]] + ReplaceAll(s[1..], pat, SpacedNot);
      ShiftOccurrence(s, 1, NotWith(q), i);
      RewriteKeeps(s[1..], p, q);
      ContainedAfter([s[0]], ReplaceAll(s[1..], pat, SpacedNot), NotWith(q));
    }
  }

  /** An occurrence at or after `k` is one in the suffix from `k`. */
  lemma ShiftOccurrence(s: string, k: nat, w: string, i: int)
    requires k <= i && OccursAt(s, w, i)
    ensures OccursAt(s[k..], w, i - k)
  {
    assert s[k..][i - k..i - k + |w|] == s[i..i + |w|];
  }

  /** Whatever a text contains, a longer text ending with it contains too. */
  lemma ContainedAfter(pre: string, rest: string, w: string)
    requires Contains(rest, w)
    ensures Contains(pre + rest, w)
  {
    var j :| OccursAt(rest, w, j);
    assert (pre + rest)[|pre| + j..|pre| + j + |w|] == rest[j..j + |w|];
    assert OccursAt(pre + rest, w, |pre| + j);
  }

  /** A text that starts with the other contraction keeps it at the front. */
  lemma KeepsLeadingContraction(s: string, p: char, q: char)
    requires IsApostrophe(p) && IsApostrophe(q) && p != q
    requires OccursAt(s, NotWith(q), 0)
    ensures OccursAt(ReplaceAll(s, NotWith(p), SpacedNot), NotWith(q), 0)
  {
    var pat := NotWith(p);
    assert s[0] == 'n' && s[1] == q && s[2] == 't' by { assert s[..3] == NotWith(q); }
    assert s[..3] != pat by { assert s[..3][1] == q != p == pat[1]; }
    assert ReplaceAll(s, pat, SpacedNot) == [s[0]] + ReplaceAll(s[1..], pat, SpacedNot);
    ReplaceAllSkip(s[1..], pat, SpacedNot);
    assert s[1..][1..] == s[2..];
    ReplaceAllSkip(s[2..], pat, SpacedNot);
    var out := ReplaceAll(s, pat, SpacedNot);
    assert out[..3] == NotWith(q);
  }

  /** " not" in front of a text without a `q` contraction makes none. */
  lemma NoContractionAfterSpacedNot(rest: string, q: char)
    requires IsApostrophe(q) && !Contains(rest, NotWith(q))
    ensures !Contains(SpacedNot + rest, NotWith(q))
  {
    var out := SpacedNot + rest;
    forall i | 0 <= i ensures !OccursAt(out, NotWith(q), i) {
      if i >= 4 && i + 3 <= |out| {
        assert out[i..i + 3] == rest[i - 4..i - 4 + 3];
        assert !OccursAt(rest, NotWith(q), i - 4);
      } else if i + 3 <= |out| {
        assert out[i] != 'n' || out[i + 1] != q;
      }
    }
  }

  /** One character in front of a text without a `q` contraction makes none, unless it is
      an 'n' before the apostrophe and 't'. */
  lemma NoContractionAfterChar(c: char, rest: string, q: char)
    requires !Contains(rest, NotWith(q))
    requires |rest| >= 2 ==> !(c == 'n' && rest[0] == q && rest[1] == 't')
    ensures !Contains([c] + rest, NotWith(q))
  {
    var out := [c] + rest;
    forall i | 0 <= i ensures !OccursAt(out, NotWith(q), i) {
      if i >= 1 && i + 3 <= |out| {
        assert out[i..i + 3] == rest[i - 1..i - 1 + 3];
        assert !OccursAt(rest, NotWith(q), i - 1);
      } else if i + 3 <= |out| {
        assert out[0] == c && out[1] == rest[0] && out[2] == rest[1];
      }
    }
  }

  /** A rewritten text starting with an apostrophe and 't' started with them before. */
  lemma ApostropheAfterRewrite(x: string, p: char, q: char)
    requires IsApostrophe(p) && IsApostrophe(q)
    ensures var r := ReplaceAll(x, NotWith(p), SpacedNot);
      |r| >= 2 && r[0] == q && r[1] == 't' ==> |x| >= 2 && x[0] == q && x[1] == 't'
  {
    var r := ReplaceAll(x, NotWith(p), SpacedNot);
    if |r| >= 2 && r[0] == q && r[1] == 't' {
      KeepsFirst(x, p);
      ReplaceAllSkip(x, NotWith(p), SpacedNot);
      KeepsFirst(x[1..], p);
    }
  }

  /** A rewritten text that does not start with a space starts as the original did. */
  lemma KeepsFirst(x: string, p: char)
    requires IsApostrophe(p)
    ensures var r := ReplaceAll(x, NotWith(p), SpacedNot);
      r != [] && r[0] != ' ' ==> x != [] && r[0] == x[0]
  {
  }

  lemma NoContractionInSuffix(s: string, k: nat, q: char)
    requires k <= |s| && !Contains(s, NotWith(q))
    ensures !Contains(s[k..], NotWith(q))
  {
    forall i | 0 <= i ensures !OccursAt(s[k..], NotWith(q), i) {
      if i + 3 <= |s[k..]| {
        assert s[k..][i..i + 3] == s[i + k..i + k + 3];
        assert !OccursAt(s, NotWith(q), i + k);
      }
    }
  }

  // ---------------------------------------------------------------- phrases

  /** `ngrams(tokens, n)`: every run of `n` consecutive tokens, left to right. */
  function NGrams(ts: seq<string>, n: nat): (r: seq<seq<string>>)
    requires n >= 1
    ensures |r| == if |ts| >= n then |ts| - n + 1 else 0
    ensures forall i :: 0 <= i < |r| ==> r[i] == ts[i..i + n]
  {
    if |ts| < n then [] else seq(|ts| - n + 1, i requires 0 <= i < |ts| - n + 1 => ts[i..i + n])
  }

  /** The n-grams for n from `n` to 5, in that order (line 138 runs n over 1..5). */
  function PhrasesFrom(ts: seq<string>, n: nat): seq<seq<string>>
    requires n >= 1
    decreases 6 - n
  {
    if n > 5 then [] else NGrams(ts, n) + PhrasesFrom(ts, n + 1)
  }

  function Phrases(ts: seq<string>): seq<seq<string>>
  {
    PhrasesFrom(ts, 1)
  }

  /** How many n-grams a list of `len` tokens has. */
  function GramCount(len: nat, n: nat): nat
  {
    if len >= n then len - n + 1 else 0
  }

  /** `p` is the run of `m` tokens starting at index `i`. */
  predicate GramAt(ts: seq<string>, m: nat, i: nat, p: seq<string>)
  {
    i + m <= |ts| && p == ts[i..i + m]
  }

  lemma {:induction false} PhrasesFromSlices(ts: seq<string>, n: nat, p: seq<string>)
    requires n >= 1
    ensures p in PhrasesFrom(ts, n) <==> exists m: nat, i: nat :: n <= m <= 5 && GramAt(ts, m, i, p)
    decreases 6 - n
  {
    if n <= 5 {
      PhrasesFromSlices(ts, n + 1, p);
      var g := NGrams(ts, n);
      assert PhrasesFrom(ts, n) == g + PhrasesFrom(ts, n + 1);
      if p in g {
        var i :| 0 <= i < |g| && g[i] == p;
        assert GramAt(ts, n, i, p);
      }
      if exists i: nat :: GramAt(ts, n, i, p) {
        var i: nat :| GramAt(ts, n, i, p);
        assert g[i] == p;
      }
    }
  }

  /** The phrases are exactly the runs of one to five consecutive tokens. */
  lemma PhrasesAreSlices(ts: seq<string>, p: seq<string>)
    ensures p in Phrases(ts) <==> exists m: nat, i: nat :: 1 <= m <= 5 && GramAt(ts, m, i, p)
  {
    PhrasesFromSlices(ts, 1, p);
  }

  lemma {:induction false} PhrasesFromCount(ts: seq<string>, n: nat)
    requires n >= 1
    ensures |PhrasesFrom(ts, n)| == if n > 5 then 0 else GramCount(|ts|, n) + |PhrasesFrom(ts, n + 1)|
  {
  }

  /** There are sum over n = 1..5 of max(0, len - n + 1) phrases. */
  lemma PhrasesCount(ts: seq<string>)
    ensures |Phrases(ts)| == GramCount(|ts|, 1) + GramCount(|ts|, 2) + GramCount(|ts|, 3)
                           + GramCount(|ts|, 4) + GramCount(|ts|, 5)
  {
    PhrasesFromCount(ts, 1);
    PhrasesFromCount(ts, 2);
    PhrasesFromCount(ts, 3);
    PhrasesFromCount(ts, 4);
    PhrasesFromCount(ts, 5);
    PhrasesFromCount(ts, 6);
  }

  // ---------------------------------------------------------------- discourse markers

  function WordSet(ws: seq<string>): set<string>
  {
    set w | w in ws
  }

  /** `1 - jaccard_distance(set(A.split()), set(B)) >= 0.8`, in integers: with I the size of
      the intersection and U the size of the union, 5 * I >= 4 * U. */
  predicate Similar(marker: string, phrase: seq<string>)
  {
    var a := WordSet(Split(marker));
    var b := WordSet(phrase);
    ThresholdDen * |a * b| >= ThresholdNum * |a + b|
  }

  /** The integer test is the rational one: `1 - (U - I) / U >= 0.8` exactly when
      5 * I >= 4 * U, for a non-empty union. */
  lemma JaccardThreshold(i: nat, u: nat)
    requires 0 < u && i <= u
    ensures (1.0 - (u - i) as real / u as real >= 0.8) <==> ThresholdDen * i >= ThresholdNum * u
  {
    var ur := u as real;
    var d := (u - i) as real;
    var q := d / ur;
    assert q * ur == d;
    assert 1.0 - q >= 0.8 <==> q <= 0.2;
    assert q <= 0.2 <==> q * ur <= 0.2 * ur by {
      ScaleReal(q, 0.2, ur);
    }
    assert d <= 0.2 * ur <==> 5.0 * d <= ur;
    assert 5.0 * d == (5 * (u - i)) as real;
    assert 5.0 * d <= ur <==> 5 * (u - i) <= u;
    assert 5 * (u - i) <= u <==> ThresholdDen * i >= ThresholdNum * u;
  }

  lemma ScaleReal(a: real, b: real, k: real)
    requires k > 0.0
    ensures a <= b <==> a * k <= b * k
  {
    if a <= b {
      assert (b - a) * k >= 0.0;
    } else {
      assert (a - b) * k > 0.0;
    }
  }

  lemma {:induction false} CardSubset<T>(a: set<T>, b: set<T>)
    requires a <= b
    ensures |a| <= |b|
    decreases |a|
  {
    if a != {} {
      var x :| x in a;
      CardSubset(a - {x}, b - {x});
    }
  }

  /** A marker and a phrase that match have comparable numbers of distinct words: neither
      has more than 5/4 times the other's. */
  lemma SimilarSizes(marker: string, phrase: seq<string>)
    requires Similar(marker, phrase)
    ensures ThresholdNum * |WordSet(Split(marker))| <= ThresholdDen * |WordSet(phrase)|
    ensures ThresholdNum * |WordSet(phrase)| <= ThresholdDen * |WordSet(Split(marker))|
  {
    var a := WordSet(Split(marker));
    var b := WordSet(phrase);
    CardSubset(a * b, a);
    CardSubset(a * b, b);
    CardSubset(a, a + b);
    CardSubset(b, a + b);
  }

  /** A marker of two or more distinct words never matches a single token. */
  lemma OneTokenMissesLongMarker(marker: string, w: string)
    requires |WordSet(Split(marker))| >= 2
    ensures !Similar(marker, [w])
  {
    assert WordSet([w]) == {w};
    if Similar(marker, [w]) {
      SimilarSizes(marker, [w]);
    }
  }

  /** A phrase holding exactly the marker's words matches it. */
  lemma SameWordsMatch(marker: string, phrase: seq<string>)
    requires WordSet(Split(marker)) == WordSet(phrase)
    ensures Similar(marker, phrase)
  {
    var a := WordSet(phrase);
    assert a * a == a && a + a == a;
  }

  /** A phrase sharing no word with the marker does not match it. */
  lemma DisjointMisses(marker: string, phrase: seq<string>)
    requires phrase != []
    requires WordSet(Split(marker)) * WordSet(phrase) == {}
    ensures !Similar(marker, phrase)
  {
    var a := WordSet(Split(marker));
    var b := WordSet(phrase);
    assert phrase[0] in a + b;
    CardSubset({phrase[0]}, a + b);
  }

  /** Lines 150-158: some marker matches some phrase; markers and phrases are tried in
      order and the first match stops the search, which does not change the answer. */
  function MarkerFound(markers: seq<string>, phrases: seq<seq<string>>): (r: bool)
    ensures r <==> exists a, b :: 0 <= a < |markers| && 0 <= b < |phrases| && Similar(markers[a], phrases[b])
  {
    AnyOf(markers, (m: string) => MatchesSome(m, phrases))
  }

  function MatchesSome(marker: string, phrases: seq<seq<string>>): (r: bool)
    ensures r <==> exists b :: 0 <= b < |phrases| && Similar(marker, phrases[b])
  {
    AnyOf(phrases, (ph: seq<string>) => Similar(marker, ph))
  }

  // ---------------------------------------------------------------- disambiguation

  const NounTags: seq<string> := ["NN", "NNS", "NNP", "NNPS"]
  const VerbTags: seq<string> := ["VB", "VBD", "VBG", "VBN", "VBP", "VBZ"]
  const FeelWords: seq<string> := ["feel", "suggest", "believe", "consider", "doubt", "guess", "presume", "hope"]

  /** `parse_trees[0]`: the tree of the first sentence; an empty parse is an IndexError. */
  function FirstTree(p: Parser, text: string): (r: Result<seq<Triple>>)
    ensures r.Failure? <==> p.dependencies(text) == []
    ensures r.Failure? ==> r.error == IndexError
  {
    var trees := p.dependencies(text);
    if trees == [] then Failure(IndexError) else Success(trees[0])
  }

  /** The first tag of a `pos_tag` answer, `tag[0][1]`; an empty answer is an IndexError. */
  function FirstTag(tags: seq<Tagged>): (r: Result<string>)
    ensures r.Failure? <==> tags == []
    ensures r.Failure? ==> r.error == IndexError
  {
    if tags == [] then Failure(IndexError) else Success(tags[0].tag)
  }

  /** "likely", inner loop: some triple names `token` as its dependent, has a governor other
      than "ROOT", and that governor is tagged as a noun. Tags are looked up in order; the
      first empty answer is an IndexError. */
  function NounHead(tree: seq<Triple>, all: seq<Triple>, token: string, p: Parser): (r: Result<bool>)
    ensures r.Success? && r.value ==> exists j :: (0 <= j < |tree| && tree[j].dep == token
      && tree[j].gov != "ROOT" && FirstTag(p.posTag(tree[j].gov)) in NounResults())
    ensures r == Success(false) ==>
      forall j :: 0 <= j < |tree| && tree[j].dep == token && tree[j].gov != "ROOT" ==>
        FirstTag(p.posTag(tree[j].gov)).Success? && FirstTag(p.posTag(tree[j].gov)) !in NounResults()
    ensures r.Failure? ==> r.error == IndexError
  {
    if tree == [] then Success(false)
    else
      var t := tree[0];
      var rest := NounHead(tree[1..], all, token, p);
      assert forall j :: 1 <= j < |tree| ==> tree[j] == tree[1..][j - 1];
      if t.dep == token && t.gov != "ROOT" then
        match FirstTag(p.posTag(t.gov))
        case Failure(e) => Failure(e)
        case Success(tag) => if tag in NounTags then Success(true) else rest
      else rest
  }

  /** The first-tag answers that are noun tags. */
  function NounResults(): set<Result<string>>
  {
    set t | t in NounTags :: Success(t)
  }

  /** "likely", outer loop over the triples whose dependent is the hedge. `Success(true)`
      means a noun was found, which makes the hedge false. */
  function LikelyNoun(tree: seq<Triple>, all: seq<Triple>, hedge: string, p: Parser): (r: Result<bool>)
    ensures r.Failure? ==> r.error == IndexError
    ensures r == Success(true) ==> exists i, j :: (0 <= i < |tree| && 0 <= j < |all| && tree[i].dep == hedge
      && all[j].dep == tree[i].gov && all[j].gov != "ROOT" && FirstTag(p.posTag(all[j].gov)) in NounResults())
    ensures r == Success(false) ==>
      forall i :: 0 <= i < |tree| && tree[i].dep == hedge ==> NounHead(all, all, tree[i].gov, p) == Success(false)
  {
    if tree == [] then Success(false)
    else if tree[0].dep == hedge then
      match NounHead(all, all, tree[0].gov, p)
      case Failure(e) => Failure(e)
      case Success(found) =>
        if found then Success(true)
        else
          var r := LikelyNoun(tree[1..], all, hedge, p);
          assert forall i :: 1 <= i < |tree| ==> tree[i] == tree[1..][i - 1];
          r
    else
      var r := LikelyNoun(tree[1..], all, hedge, p);
      assert forall i :: 1 <= i < |tree| ==> tree[i] == tree[1..][i - 1];
      r
  }

  /** "think": some token "think" is followed by a token tagged "IN" (the last token is not
      looked at). The first empty tag answer met is an IndexError. */
  function ThinkFollowedByIn(words: seq<string>, p: Parser): (r: Result<bool>)
    ensures r.Failure? ==> r.error == IndexError
    ensures r.Success? && r.value ==> exists i :: (0 <= i < |words| - 1 && words[i] == "think"
      && FirstTag(p.posTag(words[i + 1])) == Success("IN"))
    ensures r == Success(false) ==>
      forall i :: 0 <= i < |words| - 1 && words[i] == "think" ==>
        FirstTag(p.posTag(words[i + 1])).Success? && FirstTag(p.posTag(words[i + 1])) != Success("IN")
  {
    if |words| < 2 then Success(false)
    else
      var rest := ThinkFollowedByIn(words[1..], p);
      assert forall i :: 1 <= i < |words| ==> words[i] == words[1..][i - 1];
      if words[0] == "think" then
        match FirstTag(p.posTag(words[1]))
        case Failure(e) => Failure(e)
        case Success(tag) => if tag == "IN" then Success(true) else rest
      else rest
  }

  predicate IsPunctuation(c: char)
  {
    ('!' <= c <= '/') || (':' <= c <= '@') || ('[' <= c <= '`') || ('{' <= c <= '~')
  }

  /** `''.join(ch for ch in text if ch not in string.punctuation)` */
  function StripPunctuation(s: string): (r: string)
    ensures forall i :: 0 <= i < |r| ==> !IsPunctuation(r[i])
  {
    if s == [] then []
    else (if IsPunctuation(s[0]) then [] else [s[0]]) + StripPunctuation(s[1..])
  }

  /** "rather": the word after the first "rather" of the punctuation-free text decides. */
  function Rather(text: string): (r: Result<bool>)
    ensures var ws := Split(StripPunctuation(text));
      && (r.Failure? <==> "rather" !in ws || (ws[|ws| - 1] == "rather" && "rather" !in ws[..|ws| - 1]))
      && (r.Success? ==> exists k :: 0 <= k < |ws| - 1 && ws[k] == "rather" && "rather" !in ws[..k]
                           && (r.value <==> ws[k + 1] != "than"))
  {
    var ws := Split(StripPunctuation(text));
    match IndexOf(ws, "rather")
    case None => Failure(ValueError("'rather' is not in list"))
    case Some(k) =>
      if k + 1 < |ws| then Success(ws[k + 1] != "than")
      else
        assert ws[..|ws| - 1] == ws[..k];
        Failure(IndexError)
  }

  /** The position of the nsubj triple the "feel" rule remembers: the last one whose
      governor lemmatizes to the hedge and which is not itself a ROOT triple of the hedge. */
  function LastSubject(tree: seq<Triple>, hedge: string, p: Parser): (r: Option<nat>)
    ensures r.None? <==> forall i :: 0 <= i < |tree| ==> !SubjectOf(tree[i], hedge, p)
    ensures r.Some? ==> r.value < |tree| && SubjectOf(tree[r.value], hedge, p)
    ensures r.Some? ==> forall j :: r.value < j < |tree| ==> !SubjectOf(tree[j], hedge, p)
  {
    if tree == [] then None
    else if SubjectOf(tree[|tree| - 1], hedge, p) then Some(|tree| - 1)
    else
      var front := tree[..|tree| - 1];
      assert forall i :: 0 <= i < |front| ==> front[i] == tree[i];
      LastSubject(front, hedge, p)
  }

  predicate RootOf(t: Triple, hedge: string, p: Parser)
  {
    p.lemmaNoun(t.dep) == hedge && t.gov == "ROOT"
  }

  predicate SubjectOf(t: Triple, hedge: string, p: Parser)
  {
    !RootOf(t, hedge, p) && p.lemmaNoun(t.gov) == hedge && t.rel == "nsubj"
  }

  /** Some tag of `tags` is a verb tag on a word lemmatizing to the hedge. */
  function VerbOfHedge(tags: seq<Tagged>, hedge: string, p: Parser): (r: bool)
    ensures r <==> exists i :: 0 <= i < |tags| && p.lemmaNoun(tags[i].word) == hedge && tags[i].tag in VerbTags
  {
    if tags == [] then false
    else if p.lemmaNoun(tags[0].word) == hedge && tags[0].tag in VerbTags then true
    else
      var r := VerbOfHedge(tags[1..], hedge, p);
      assert forall i :: 1 <= i < |tags| ==> tags[i] == tags[1..][i - 1];
      r
  }

  /** Some triple with a relation of `rels` has a governor lemmatizing (as a verb) to the
      hedge: the "assume", "appear" and "tend" rules. */
  function Complement(tree: seq<Triple>, rels: seq<string>, hedge: string, p: Parser): bool
  {
    AnyOf(tree, (t: Triple) => t.rel in rels && p.lemmaVerb(t.gov) == hedge)
  }

  /** "suppose" is blocked by an xcomp of the hedge whose dependent has a `mark "to"`. */
  function SupposeBlocked(tree: seq<Triple>, hedge: string, p: Parser): bool
  {
    AnyOf(tree, (t: Triple) => t.rel == "xcomp" && p.lemmaVerb(t.gov) == hedge
      && AnyOf(tree, (m: Triple) => m.rel == "mark" && m.gov == t.dep && m.dep == "to"))
  }

  /** "should" is blocked by an aux "should" whose governor also governs "have". */
  function ShouldBlocked(tree: seq<Triple>, hedge: string): bool
  {
    AnyOf(tree, (t: Triple) => t.rel == "aux" && t.dep == hedge
      && AnyOf(tree, (m: Triple) => m.gov == t.gov && m.dep == "have"))
  }

  /** The "feel" family: the hedge is the root, some nsubj names it, the sentence tags a
      word of the hedge as a verb, and the remembered subject is "i" or "we". */
  function FeelRule(tree: seq<Triple>, text: string, hedge: string, p: Parser): bool
  {
    match LastSubject(tree, hedge, p)
    case None => false
    case Some(i) =>
      var subject := tree[i].dep;
      var tags := p.posTag(text);
      AnyOf(tree, (t: Triple) => RootOf(t, hedge, p))
      && VerbOfHedge(tags, hedge, p) && tags != [] && (Lower(subject) == "i" || Lower(subject) == "we")
  }

  /** `is_true_hedge_term(hedge, text)`, lines 14-120. A word outside the rules gives
      Python's `None`, which the caller reads as false. */
  function TrueHedge(hedge: string, text: string, p: Parser): (r: Result<bool>)
    ensures r.Failure? ==> r.error == IndexError || r.error.ValueError?
  {
    if hedge == "assume" then
      var tree :- FirstTree(p, text);
      Success(Complement(tree, ["ccomp"], hedge, p))
    else if hedge == "appear" then
      var tree :- FirstTree(p, text);
      Success(Complement(tree, ["xcomp", "ccomp"], hedge, p))
    else if hedge == "suppose" then
      var tree :- FirstTree(p, text);
      Success(!SupposeBlocked(tree, hedge, p))
    else if hedge == "tend" then
      var tree :- FirstTree(p, text);
      Success(Complement(tree, ["xcomp"], hedge, p))
    else if hedge == "should" then
      var tree :- FirstTree(p, text);
      Success(!ShouldBlocked(tree, hedge))
    else if hedge == "likely" then
      var tree :- FirstTree(p, text);
      var noun :- LikelyNoun(tree, tree, hedge, p);
      Success(!noun)
    else if hedge == "rather" then
      Rather(text)
    else if hedge == "think" then
      var found :- ThinkFollowedByIn(p.tokenize(text), p);
      Success(!found)
    else if hedge in FeelWords then
      var tree :- FirstTree(p, text);
      Success(FeelRule(tree, text, hedge, p))
    else Success(false)
  }

  // ---------------------------------------------------------------- the rules, one by one

  /** "assume" is a true hedge exactly when some ccomp triple has a governor lemmatizing to
      it; a text without sentences is an IndexError. */
  lemma AssumeRule(text: string, p: Parser)
    ensures var trees := p.dependencies(text);
      && (trees == [] ==> TrueHedge("assume", text, p) == Failure(IndexError))
      && (trees != [] ==> TrueHedge("assume", text, p) == Success(exists i :: (0 <= i < |trees[0]|
            && trees[0][i].rel == "ccomp" && p.lemmaVerb(trees[0][i].gov) == "assume")))
  {
  }

  /** "appear": the same with an xcomp or a ccomp triple. */
  lemma AppearRule(text: string, p: Parser)
    ensures var trees := p.dependencies(text);
      && (trees == [] ==> TrueHedge("appear", text, p) == Failure(IndexError))
      && (trees != [] ==> TrueHedge("appear", text, p) == Success(exists i :: (0 <= i < |trees[0]|
            && (trees[0][i].rel == "xcomp" || trees[0][i].rel == "ccomp") && p.lemmaVerb(trees[0][i].gov) == "appear")))
  {
  }

  /** "tend": the same with an xcomp triple only. */
  lemma TendRule(text: string, p: Parser)
    ensures var trees := p.dependencies(text);
      && (trees == [] ==> TrueHedge("tend", text, p) == Failure(IndexError))
      && (trees != [] ==> TrueHedge("tend", text, p) == Success(exists i :: (0 <= i < |trees[0]|
            && trees[0][i].rel == "xcomp" && p.lemmaVerb(trees[0][i].gov) == "tend")))
  {
  }

  /** "suppose" is a true hedge unless an xcomp of it has a dependent marked by "to"
      ("supposed to"); a tree with no such pair, the empty tree included, says true. */
  lemma SupposeRule(text: string, p: Parser)
    requires p.dependencies(text) != []
    ensures var tree := p.dependencies(text)[0];
      TrueHedge("suppose", text, p) == Success(!exists i, j :: (0 <= i < |tree| && 0 <= j < |tree|
        && tree[i].rel == "xcomp" && p.lemmaVerb(tree[i].gov) == "suppose"
        && tree[j].rel == "mark" && tree[j].gov == tree[i].dep && tree[j].dep == "to"))
  {
    var tree := p.dependencies(text)[0];
    var outer := (t: Triple) => t.rel == "xcomp" && p.lemmaVerb(t.gov) == "suppose"
      && AnyOf(tree, (m: Triple) => m.rel == "mark" && m.gov == t.dep && m.dep == "to");
    assert SupposeBlocked(tree, "suppose", p) == AnyOf(tree, outer);
    forall i | 0 <= i < |tree|
      ensures outer(tree[i]) <==> (tree[i].rel == "xcomp" && p.lemmaVerb(tree[i].gov) == "suppose"
        && exists j :: 0 <= j < |tree| && tree[j].rel == "mark" && tree[j].gov == tree[i].dep && tree[j].dep == "to")
    {
      var inner := (m: Triple) => m.rel == "mark" && m.gov == tree[i].dep && m.dep == "to";
      assert AnyOf(tree, inner) <==> exists j :: 0 <= j < |tree| && inner(tree[j]);
    }
  }

  /** "should" is a true hedge unless the verb it is auxiliary to also governs "have"
      ("should have"). */
  lemma ShouldRule(text: string, p: Parser)
    requires p.dependencies(text) != []
    ensures var tree := p.dependencies(text)[0];
      TrueHedge("should", text, p) == Success(!exists i, j :: (0 <= i < |tree| && 0 <= j < |tree|
        && tree[i].rel == "aux" && tree[i].dep == "should"
        && tree[j].gov == tree[i].gov && tree[j].dep == "have"))
  {
    var tree := p.dependencies(text)[0];
    var outer := (t: Triple) => t.rel == "aux" && t.dep == "should"
      && AnyOf(tree, (m: Triple) => m.gov == t.gov && m.dep == "have");
    assert ShouldBlocked(tree, "should") == AnyOf(tree, outer);
    forall i | 0 <= i < |tree|
      ensures outer(tree[i]) <==> (tree[i].rel == "aux" && tree[i].dep == "should"
        && exists j :: 0 <= j < |tree| && tree[j].gov == tree[i].gov && tree[j].dep == "have")
    {
      var inner := (m: Triple) => m.gov == tree[i].gov && m.dep == "have";
      assert AnyOf(tree, inner) <==> exists j :: 0 <= j < |tree| && inner(tree[j]);
    }
  }

  /** "likely" is a false hedge when it modifies a word that some non-root triple attaches
      to a noun-tagged governor, and true when every such governor is tagged otherwise. */
  lemma LikelyRule(text: string, p: Parser)
    requires p.dependencies(text) != []
    ensures var tree := p.dependencies(text)[0];
      var r := TrueHedge("likely", text, p);
      && (r == Success(false) ==> exists i, j :: (0 <= i < |tree| && 0 <= j < |tree| && tree[i].dep == "likely"
            && tree[j].dep == tree[i].gov && tree[j].gov != "ROOT" && FirstTag(p.posTag(tree[j].gov)) in NounResults()))
      && (r == Success(true) ==> forall i, j :: (0 <= i < |tree| && 0 <= j < |tree| && tree[i].dep == "likely"
            && tree[j].dep == tree[i].gov && tree[j].gov != "ROOT") ==> FirstTag(p.posTag(tree[j].gov)) !in NounResults())
      && (r.Failure? ==> r.error == IndexError)
  {
    var tree := p.dependencies(text)[0];
    var r := TrueHedge("likely", text, p);
    assert r == (match LikelyNoun(tree, tree, "likely", p) case Failure(e) => Failure(e) case Success(n) => Success(!n));
  }

  /** "think" is a false hedge when some "think" token is followed by a token tagged "IN"
      ("think about"), and true when every "think" before the last token is followed by
      something else. */
  lemma ThinkRule(text: string, p: Parser)
    ensures var ws := p.tokenize(text);
      var r := TrueHedge("think", text, p);
      && (r == Success(false) ==> exists i :: (0 <= i < |ws| - 1 && ws[i] == "think"
            && FirstTag(p.posTag(ws[i + 1])) == Success("IN")))
      && (r == Success(true) ==> forall i :: 0 <= i < |ws| - 1 && ws[i] == "think" ==>
            FirstTag(p.posTag(ws[i + 1])) != Success("IN"))
      && (r.Failure? ==> r.error == IndexError)
  {
    var ws := p.tokenize(text);
    assert TrueHedge("think", text, p)
      == (match ThinkFollowedByIn(ws, p) case Failure(e) => Failure(e) case Success(f) => Success(!f));
  }

  /** A word outside the rules is never a true hedge: Python's `None` is falsy. */
  lemma UnruledWordIsFalse(hedge: string, text: string, p: Parser)
    requires hedge !in ["assume", "appear", "suppose", "tend", "should", "likely", "rather", "think"]
    requires hedge !in FeelWords
    ensures TrueHedge(hedge, text, p) == Success(false)
  {
  }

  /** The "feel" family: true exactly when the hedge is a root, an nsubj of it exists, some
      tag marks a form of the hedge as a verb, and the last such subject is "i" or "we". */
  lemma FeelFamilyRule(hedge: string, text: string, p: Parser)
    requires hedge in FeelWords && p.dependencies(text) != []
    ensures var tree := p.dependencies(text)[0];
      var tags := p.posTag(text);
      TrueHedge(hedge, text, p) == Success(
        && (exists i :: 0 <= i < |tree| && RootOf(tree[i], hedge, p))
        && (exists k :: (0 <= k < |tree| && SubjectOf(tree[k], hedge, p)
              && (forall j :: k < j < |tree| ==> !SubjectOf(tree[j], hedge, p))
              && (Lower(tree[k].dep) == "i" || Lower(tree[k].dep) == "we")))
        && (exists i :: 0 <= i < |tags| && p.lemmaNoun(tags[i].word) == hedge && tags[i].tag in VerbTags))
  {
    var tree := p.dependencies(text)[0];
    assert TrueHedge(hedge, text, p) == Success(FeelRule(tree, text, hedge, p)) by {
      assert hedge !in ["assume", "appear", "suppose", "tend", "should", "likely", "rather", "think"];
    }
    FeelRuleMeaning(tree, text, hedge, p);
  }

  /** The rule of the "feel" family on one dependency tree. */
  lemma FeelRuleMeaning(tree: seq<Triple>, text: string, hedge: string, p: Parser)
    ensures var tags := p.posTag(text);
      FeelRule(tree, text, hedge, p) == (
        && (exists i :: 0 <= i < |tree| && RootOf(tree[i], hedge, p))
        && (exists k :: (0 <= k < |tree| && SubjectOf(tree[k], hedge, p)
              && (forall j :: k < j < |tree| ==> !SubjectOf(tree[j], hedge, p))
              && (Lower(tree[k].dep) == "i" || Lower(tree[k].dep) == "we")))
        && (exists i :: 0 <= i < |tags| && p.lemmaNoun(tags[i].word) == hedge && tags[i].tag in VerbTags))
  {
    var root := (t: Triple) => RootOf(t, hedge, p);
    assert AnyOf(tree, root) <==> exists i :: 0 <= i < |tree| && RootOf(tree[i], hedge, p) by {
      assert forall i :: 0 <= i < |tree| ==> (root(tree[i]) <==> RootOf(tree[i], hedge, p));
    }
    match LastSubject(tree, hedge, p)
    case None =>
    case Some(k) =>
      forall k' | 0 <= k' < |tree| && SubjectOf(tree[k'], hedge, p)
          && (forall j :: k' < j < |tree| ==> !SubjectOf(tree[j], hedge, p))
        ensures k' == k
      {
      }
  }

  // ---------------------------------------------------------------- the sentence

  /** The hedge-word loop of lines 142-145, with `judge` standing for the disambiguation of
      one word: the first word of the lexicon that occurs among the tokens and is judged a
      true hedge ends the scan with true; a judgement that raises ends it with its
      exception; otherwise the scan answers false. */
  function HedgeScan(hedges: seq<string>, tokens: seq<string>, judge: string -> Result<bool>): (r: Result<bool>)
    ensures r == Success(false) <==>
      forall k :: 0 <= k < |hedges| && hedges[k] in tokens ==> judge(hedges[k]) == Success(false)
    ensures r == Success(true) ==> exists k :: (0 <= k < |hedges| && hedges[k] in tokens
      && judge(hedges[k]) == Success(true)
      && forall j :: 0 <= j < k && hedges[j] in tokens ==> judge(hedges[j]) == Success(false))
    ensures r.Failure? ==> exists k :: (0 <= k < |hedges| && hedges[k] in tokens && judge(hedges[k]) == r
      && forall j :: 0 <= j < k && hedges[j] in tokens ==> judge(hedges[j]) == Success(false))
  {
    if hedges == [] then Success(false)
    else
      var rest := HedgeScan(hedges[1..], tokens, judge);
      assert forall k :: 1 <= k < |hedges| ==> hedges[k] == hedges[1..][k - 1];
      if hedges[0] !in tokens then rest
      else
        match judge(hedges[0])
        case Failure(e) => Failure(e)
        case Success(b) => if b then Success(true) else rest
  }

  /** An in-token word judged true, with every word before it judged without an exception,
      makes the scan answer true. */
  lemma {:induction false} ScanFindsTrue(hedges: seq<string>, tokens: seq<string>, judge: string -> Result<bool>, k: nat)
    requires k < |hedges| && hedges[k] in tokens && judge(hedges[k]) == Success(true)
    requires forall j :: 0 <= j < k ==> judge(hedges[j]).Success?
    ensures HedgeScan(hedges, tokens, judge) == Success(true)
    decreases k
  {
    if k > 0 {
      assert hedges[1..][k - 1] == hedges[k];
      assert forall j :: 0 <= j < k - 1 ==> hedges[1..][j] == hedges[j + 1];
      ScanFindsTrue(hedges[1..], tokens, judge, k - 1);
      assert judge(hedges[0]).Success?;
    }
  }

  /** A marker similar to the run of `m` tokens starting at `i`. */
  predicate SimilarAt(marker: string, tokens: seq<string>, m: nat, i: nat)
  {
    i + m <= |tokens| && Similar(marker, tokens[i..i + m])
  }

  /** The marker search over the n-gram list is a search over runs of one to five
      consecutive tokens. */
  lemma MarkerFoundOnRuns(markers: seq<string>, tokens: seq<string>)
    ensures MarkerFound(markers, Phrases(tokens))
      <==> exists a, m: nat, i: nat :: 0 <= a < |markers| && 1 <= m <= 5 && SimilarAt(markers[a], tokens, m, i)
  {
    var ph := Phrases(tokens);
    if a, b :| 0 <= a < |markers| && 0 <= b < |ph| && Similar(markers[a], ph[b]) {
      PhrasesAreSlices(tokens, ph[b]);
      var m: nat, i: nat :| 1 <= m <= 5 && GramAt(tokens, m, i, ph[b]);
      assert SimilarAt(markers[a], tokens, m, i);
    }
    if a, m: nat, i: nat :| 0 <= a < |markers| && 1 <= m <= 5 && SimilarAt(markers[a], tokens, m, i) {
      var g := tokens[i..i + m];
      assert GramAt(tokens, m, i, g);
      PhrasesAreSlices(tokens, g);
      var b :| 0 <= b < |ph| && ph[b] == g;
    }
  }

  /** The disambiguation of one word against the normalised text. */
  function Judge(text: string, p: Parser): string -> Result<bool>
  {
    (h: string) => TrueHedge(h, text, p)
  }

  /** `is_hedged_sentence(text)`, lines 125-160: lowercase and rewrite the contraction,
      tokenize, look for a true hedge word, and failing that for a discourse marker similar
      to some n-gram of one to five tokens. */
  function IsHedged(text: string, hedges: seq<string>, markers: seq<string>, p: Parser): (r: Result<bool>)
    ensures var tokens := p.tokenize(Normalise(text));
      r.Success? ==> (r.value <==>
        (exists k :: 0 <= k < |hedges| && hedges[k] in tokens && TrueHedge(hedges[k], Normalise(text), p) == Success(true))
        || MarkerFound(markers, Phrases(tokens)))
    ensures r.Failure? ==> exists k :: (0 <= k < |hedges| && TrueHedge(hedges[k], Normalise(text), p) == r)
  {
    var t := Normalise(text);
    var tokens := p.tokenize(t);
    var found :- HedgeScan(hedges, tokens, Judge(t, p));
    if found then Success(true) else Success(MarkerFound(markers, Phrases(tokens)))
  }

  /** Without a hedge word among its tokens, a sentence is hedged exactly when some marker
      shares enough words with some run of one to five consecutive tokens. */
  lemma MarkersDecideWithoutHedgeWords(text: string, hedges: seq<string>, markers: seq<string>, p: Parser)
    requires forall k :: 0 <= k < |hedges| ==> hedges[k] !in p.tokenize(Normalise(text))
    ensures var tokens := p.tokenize(Normalise(text));
      IsHedged(text, hedges, markers, p) == Success(exists a, m: nat, i: nat ::
        0 <= a < |markers| && 1 <= m <= 5 && SimilarAt(markers[a], tokens, m, i))
  {
    var t := Normalise(text);
    var tokens := p.tokenize(t);
    assert HedgeScan(hedges, tokens, Judge(t, p)) == Success(false);
    MarkerFoundOnRuns(markers, tokens);
  }

  /** A true hedge word in the sentence settles it before any marker is looked at. */
  lemma TrueHedgeWordSettles(text: string, hedges: seq<string>, markers: seq<string>, p: Parser, k: nat)
    requires k < |hedges| && hedges[k] in p.tokenize(Normalise(text))
    requires TrueHedge(hedges[k], Normalise(text), p) == Success(true)
    requires forall j :: 0 <= j < k ==> TrueHedge(hedges[j], Normalise(text), p).Success?
    ensures IsHedged(text, hedges, markers, p) == Success(true)
  {
    var t := Normalise(text);
    ScanFindsTrue(hedges, p.tokenize(t), Judge(t, p), k);
  }
}

=== FILE: job_queue.dfy ===
/** The marker-file job queue of app/storage.py. A pending job is an empty file
    named by its user id in `<root>/queue`; a worker claims it by renaming it to
    `<id>.<process id>` and releases the claim by deleting that file. Each rename,
    unlink and touch is one atomic step of the filesystem model. */
module JobQueue {
  import opened Base
  import opened Text
  import opened FileSystem
  import opened UserId
  import UserStore

  function QueueDir(root: Path): Path { root + ["queue"] }

  /** The name a claimed marker is renamed to: `c.with_suffix('.' + pid)` on a name without a dot. */
  function ClaimName(uid: string, pid: string): (n: string)
    ensures n != "" && !PythonUuidHexMatch(n)
  {
    var n := uid + "." + pid;
    assert n[|uid|] == '.';
    n
  }

  function ClaimPath(root: Path, uid: string, pid: string): Path
  {
    Child(QueueDir(root), ClaimName(uid, pid))
  }

  /** The queue folder is created when the module is first imported. */
  function InitQueueFolder(fs: FS, root: Path): (r: Result<FS>)
    ensures PrefixesAreDirs(fs, QueueDir(root)) ==> r.Success? && DirExists(r.value, QueueDir(root))
    ensures r.Success? ==> forall q :: q in fs.entries ==> Lookup(r.value, q) == Lookup(fs, q)
  {
    UserStore.EnsureFolder(fs, QueueDir(root))
  }

  // ---------------------------------------------------------------- enqueue

  /** `add_to_queue(uid)`: clear a stray directory or link, drop an old marker (ignoring a
      missing one), then create a fresh empty marker stamped with the current time. */
  function AddToQueue(fs: FS, root: Path, uid: string): (r: Result<FS>)
    ensures uid != "" ==> (r.Success? <==> DirExists(fs, QueueDir(root)))
    ensures uid != "" && r.Success? ==>
      var item := Child(QueueDir(root), uid);
      && Lookup(r.value, item) == Some(File("", fs.now))
      && r.value.now == fs.now + 1
      && (forall q :: !IsPrefix(item, q) ==> Lookup(r.value, q) == Lookup(fs, q))
  {
    var item := Child(QueueDir(root), uid);
    var fs1 := RemoveIfNotRegular(fs, item);
    var fs2 := match Unlink(fs1, item) case Success(f) => f case Failure(_) => fs1;
    assert uid != "" ==> item !in fs2.entries && !IsPrefix(item, QueueDir(root));
    Touch(fs2, item)
  }

  /** A freshly enqueued marker is strictly newer than every other entry, so it is tried
      after every job that was already waiting. */
  lemma EnqueuedIsNewest(fs: FS, root: Path, uid: string)
    requires uid != "" && ClockAhead(fs)
    requires AddToQueue(fs, root, uid).Success?
    ensures var fs' := AddToQueue(fs, root, uid).value;
      var item := Child(QueueDir(root), uid);
      && ClockAhead(fs')
      && forall q :: q in fs'.entries && q != item && !fs'.entries[q].Symlink? ==>
           fs'.entries[q].mtime < fs'.entries[item].mtime
  {
    var fs' := AddToQueue(fs, root, uid).value;
    var item := Child(QueueDir(root), uid);
    forall q | q in fs'.entries && q != item
      ensures q in fs.entries && fs'.entries[q] == fs.entries[q]
    {
      assert Lookup(fs', q) != None;
      if IsPrefix(item, q) {
        assert Lookup(fs', q) == Lookup(fs, q) by {
          assert RemoveIfNotRegular(fs, item).entries.Keys <= fs.entries.Keys;
        }
      }
    }
  }

  // ---------------------------------------------------------------- candidates

  /** `listing` is what `iterdir()` produced for `d`: each child exactly once, in an order
      the operating system chooses. */
  predicate IsListingOf(fs: FS, d: Path, listing: seq<string>)
  {
    && (forall i :: 0 <= i < |listing| ==> listing[i] in Children(fs, d))
    && (forall n :: n in Children(fs, d) ==> n in listing)
    && (forall i, j :: 0 <= i < j < |listing| ==> listing[i] != listing[j])
  }

  /** The names `_UUID_REGEX.match` lets through, in listing order; as written this
      includes a name of 32 hex digits followed by a newline. */
  function Candidates(listing: seq<string>): (c: seq<string>)
    ensures forall n :: n in c <==> n in listing && PythonUuidHexMatch(n)
  {
    if listing == [] then []
    else (if PythonUuidHexMatch(listing[0]) then [listing[0]] else []) + Candidates(listing[1..])
  }

  /** The filter with the intended pattern: exactly the names of 32 hex digits. */
  function CorrectedCandidates(listing: seq<string>): (c: seq<string>)
    ensures forall n :: n in c <==> n in listing && IsUuidHex(n)
  {
    if listing == [] then []
    else (if IsUuidHex(listing[0]) then [listing[0]] else []) + CorrectedCandidates(listing[1..])
  }

  /** Every name the intended filter keeps is kept as written; a marker named "<32 hex>\n"
      is kept as written only. */
  lemma CandidatesAsWrittenKeepMore(listing: seq<string>)
    ensures forall n :: n in CorrectedCandidates(listing) ==> n in Candidates(listing)
    ensures ZeroId + "\n" in Candidates([ZeroId + "\n"])
    ensures ZeroId + "\n" !in CorrectedCandidates([ZeroId + "\n"])
  {
    TrailingNewlineAccepted();
  }

  /** `c.stat().st_mtime` for every candidate, as the sort key; a candidate that cannot be
      stat'ed (a dangling link) makes the whole dequeue raise. */
  function StatKeys(fs: FS, qdir: Path, names: seq<string>): (r: Result<seq<(string, nat)>>)
    ensures r.Success? ==> |r.value| == |names|
    ensures r.Success? ==> forall i :: 0 <= i < |names| ==>
      r.value[i].0 == names[i] && MTime(fs, Child(qdir, names[i])) == Success(r.value[i].1)
    ensures r.Failure? ==> r.error.OsError?
    ensures (forall i :: 0 <= i < |names| ==> Stat(fs, Child(qdir, names[i])).Some?) ==> r.Success?
  {
    if names == [] then Success([])
    else
      match MTime(fs, Child(qdir, names[0]))
      case Failure(e) => Failure(NoSuchFile)
      case Success(t) =>
        match StatKeys(fs, qdir, names[1..])
        case Failure(e) => Failure(e)
        case Success(rest) => Success([(names[0], t)] + rest)
  }

  ghost predicate SortedByKey(s: seq<(string, nat)>)
  {
    forall i, j :: 0 <= i < j < |s| ==> s[i].1 <= s[j].1
  }

  /** Insert after every element whose key is not larger: keeps the sort stable. */
  function Insert(x: (string, nat), s: seq<(string, nat)>): (r: seq<(string, nat)>)
    ensures multiset(r) == multiset(s) + multiset{x}
    ensures |r| == |s| + 1
    ensures r != [] && (r[0] == x || (s != [] && r[0] == s[0]))
  {
    if s == [] then [x]
    else if x.1 < s[0].1 then [x] + s
    else
      var rest := Insert(x, s[1..]);
      assert s == [s[0]] + s[1..];
      [s[0]] + rest
  }

  /** Inserting into a sorted list keeps it sorted. */
  lemma {:induction false} InsertSorted(x: (string, nat), s: seq<(string, nat)>)
    requires SortedByKey(s)
    ensures SortedByKey(Insert(x, s))
    decreases |s|
  {
    if s != [] && x.1 >= s[0].1 {
      var rest := Insert(x, s[1..]);
      assert Insert(x, s) == [s[0]] + rest;
      assert SortedByKey(s[1..]);
      InsertSorted(x, s[1..]);
      forall k | 0 <= k < |rest| ensures s[0].1 <= rest[k].1 {
        assert rest[k] in multiset(rest);
        if rest[k] != x {
          assert rest[k] in multiset(s[1..]);
          var j :| 0 <= j < |s[1..]| && s[1..][j] == rest[k];
          assert s[j + 1] == rest[k];
        }
      }
      ConsSorted(s[0], rest);
    } else if s != [] {
      ConsSorted(x, s);
    }
  }

  lemma ConsSorted(h: (string, nat), rest: seq<(string, nat)>)
    requires SortedByKey(rest) && forall k :: 0 <= k < |rest| ==> h.1 <= rest[k].1
    ensures SortedByKey([h] + rest)
  {
    var r := [h] + rest;
    forall i, j | 0 <= i < j < |r| ensures r[i].1 <= r[j].1 {
      assert r[j] == rest[j - 1];
      if i > 0 {
        assert r[i] == rest[i - 1];
      }
    }
  }

  /** `children.sort(key=lambda c: c.stat().st_mtime)`: oldest first. */
  function SortByKey(s: seq<(string, nat)>): (r: seq<(string, nat)>)
    ensures multiset(r) == multiset(s)
    ensures |r| == |s|
    ensures SortedByKey(r)
  {
    if s == [] then []
    else
      assert s == s[..|s| - 1] + [s[|s| - 1]];
      InsertSorted(s[|s| - 1], SortByKey(s[..|s| - 1]));
      Insert(s[|s| - 1], SortByKey(s[..|s| - 1]))
  }

  function Names(s: seq<(string, nat)>): (ns: seq<string>)
    ensures |ns| == |s| && forall i :: 0 <= i < |s| ==> ns[i] == s[i].0
  {
    if s == [] then [] else [s[0].0] + Names(s[1..])
  }

  // ---------------------------------------------------------------- claim

  /** A candidate this worker can take: it is a file and renaming it to its claim name works. */
  ghost predicate Claimable(fs: FS, qdir: Path, c: string, pid: string)
  {
    IsFile(fs, Child(qdir, c)) && Rename(fs, Child(qdir, c), Child(qdir, ClaimName(c, pid))).Success?
  }

  /** The position of the first claimable name of `order`. */
  ghost function FirstClaimable(fs: FS, qdir: Path, order: seq<string>, pid: string): (k: Option<nat>)
    ensures k.Some? ==> k.value < |order| && Claimable(fs, qdir, order[k.value], pid)
    ensures k.Some? ==> forall j :: 0 <= j < k.value ==> !Claimable(fs, qdir, order[j], pid)
    ensures k.None? ==> forall j :: 0 <= j < |order| ==> !Claimable(fs, qdir, order[j], pid)
  {
    FirstWhere(order, (c: string) => Claimable(fs, qdir, c, pid))
  }

  /** The loop of `take_from_queue.__enter__`: for each candidate that is a file, remember its
      name and try to rename it; stop at the first rename that works. A failed rename is
      logged and the loop moves on. */
  function TryClaims(fs: FS, qdir: Path, order: seq<string>, pid: string, last: Option<string>)
    : (r: (FS, Option<string>))
    requires DirExists(fs, qdir)
    requires forall j :: 0 <= j < |order| ==> order[j] != "" && '.' !in order[j]
    ensures FirstClaimable(fs, qdir, order, pid).Some? ==>
      var c := order[FirstClaimable(fs, qdir, order, pid).value];
      r == (Rename(fs, Child(qdir, c), Child(qdir, ClaimName(c, pid))).value, Some(c))
    ensures FirstClaimable(fs, qdir, order, pid).None? ==>
      r.0 == fs && (r.1 == last || (r.1.Some? && !IsFile(fs, Child(qdir, ClaimName(r.1.value, pid)))))
    decreases |order|
  {
    if order == [] then (fs, last)
    else
      var c := order[0];
      var src := Child(qdir, c);
      var dst := Child(qdir, ClaimName(c, pid));
      if IsFile(fs, src) then
        match Rename(fs, src, dst)
        case Success(fs1) =>
          assert FirstClaimable(fs, qdir, order, pid) == Some(0);
          (fs1, Some(c))
        case Failure(_) =>
          assert dst in fs.entries && fs.entries[dst].Dir?;
          FirstClaimableTail(fs, qdir, order, pid);
          TryClaims(fs, qdir, order[1..], pid, Some(c))
      else
        FirstClaimableTail(fs, qdir, order, pid);
        TryClaims(fs, qdir, order[1..], pid, last)
  }

  /** Past an unclaimable first name, the first claimable position is found in the rest. */
  lemma FirstClaimableTail(fs: FS, qdir: Path, order: seq<string>, pid: string)
    requires order != [] && !Claimable(fs, qdir, order[0], pid)
    ensures forall j :: 0 <= j < |order| - 1 ==> order[1..][j] == order[j + 1]
    ensures FirstClaimable(fs, qdir, order, pid).None? <==> FirstClaimable(fs, qdir, order[1..], pid).None?
    ensures FirstClaimable(fs, qdir, order, pid).Some? ==>
      FirstClaimable(fs, qdir, order, pid).value == FirstClaimable(fs, qdir, order[1..], pid).value + 1
  {
  }

  /** The order in which `take_from_queue` tries the candidates: hex-named children sorted by
      modification time, oldest first. */
  function ClaimOrder(fs: FS, root: Path, listing: seq<string>): (r: Result<seq<(string, nat)>>)
    ensures r.Success? ==> SortedByKey(r.value)
    ensures r.Success? ==> forall i :: 0 <= i < |r.value| ==>
      PythonUuidHexMatch(r.value[i].0) && r.value[i].0 in listing
      && MTime(fs, Child(QueueDir(root), r.value[i].0)) == Success(r.value[i].1)
    ensures r.Success? ==> forall n :: n in listing && PythonUuidHexMatch(n) ==>
      exists i :: 0 <= i < |r.value| && r.value[i].0 == n
    ensures r.Failure? ==> r.error.OsError?
  {
    var cands := Candidates(listing);
    match StatKeys(fs, QueueDir(root), cands)
    case Failure(e) => Failure(e)
    case Success(keyed) =>
      var sorted := SortByKey(keyed);
      SortedKeysFacts(fs, QueueDir(root), listing, cands, keyed, sorted);
      Success(sorted)
  }

  lemma SortedKeysFacts(fs: FS, qdir: Path, listing: seq<string>, cands: seq<string>,
                        keyed: seq<(string, nat)>, sorted: seq<(string, nat)>)
    requires forall n :: n in cands <==> n in listing && PythonUuidHexMatch(n)
    requires |keyed| == |cands|
    requires forall i :: 0 <= i < |cands| ==>
      keyed[i].0 == cands[i] && MTime(fs, Child(qdir, cands[i])) == Success(keyed[i].1)
    requires multiset(sorted) == multiset(keyed)
    ensures forall i :: 0 <= i < |sorted| ==>
      PythonUuidHexMatch(sorted[i].0) && sorted[i].0 in listing
      && MTime(fs, Child(qdir, sorted[i].0)) == Success(sorted[i].1)
    ensures forall n :: n in listing && PythonUuidHexMatch(n) ==>
      exists i :: 0 <= i < |sorted| && sorted[i].0 == n
  {
    forall i | 0 <= i < |sorted|
      ensures PythonUuidHexMatch(sorted[i].0) && sorted[i].0 in listing
      ensures MTime(fs, Child(qdir, sorted[i].0)) == Success(sorted[i].1)
    {
      assert sorted[i] in multiset(keyed);
      var j :| 0 <= j < |keyed| && keyed[j] == sorted[i];
      assert cands[j] in cands;
    }
    forall n | n in listing && PythonUuidHexMatch(n)
      ensures exists i :: 0 <= i < |sorted| && sorted[i].0 == n
    {
      var j :| 0 <= j < |cands| && cands[j] == n;
      assert keyed[j] in multiset(sorted);
      var i :| 0 <= i < |sorted| && sorted[i] == keyed[j];
    }
  }

  /** `take_from_queue().__enter__()`: the claimed user id, NothingTaken, or the error of
      listing or stat'ing the queue folder. */
  function TakeFromQueue(fs: FS, root: Path, pid: string, listing: seq<string>): (r: Effect<string>)
    requires IsListingOf(fs, QueueDir(root), listing)
    ensures r.result.Failure? ==> r.result.error == NothingTaken || r.result.error.OsError?
    ensures r.result.Failure? && r.result.error.OsError? ==> r.fs == fs
    ensures r.result.Success? ==>
      var u := r.result.value;
      var src := Child(QueueDir(root), u);
      && PythonUuidHexMatch(u) && u in listing
      && Claimable(fs, QueueDir(root), u, pid)
      && r.fs == Rename(fs, src, ClaimPath(root, u, pid)).value
      && IsFile(r.fs, ClaimPath(root, u, pid))
      && Lookup(r.fs, src) == None
  {
    var qdir := QueueDir(root);
    if !DirExists(fs, qdir) then
      Effect(Failure(if qdir in fs.entries then NotADirectory else NoSuchFile), fs)
    else
      match ClaimOrder(fs, root, listing)
      case Failure(e) => Effect(Failure(e), fs)
      case Success(sorted) => TakeInOrder(fs, root, pid, listing, sorted)
  }

  /** The claiming loop over the sorted candidates, and what `__enter__` makes of it. */
  function TakeInOrder(fs: FS, root: Path, pid: string, listing: seq<string>, sorted: seq<(string, nat)>)
    : (r: Effect<string>)
    requires DirExists(fs, QueueDir(root))
    requires ClaimOrder(fs, root, listing) == Success(sorted)
    ensures r.result.Failure? ==> r.result.error == NothingTaken
    ensures r.result.Success? ==>
      var u := r.result.value;
      var src := Child(QueueDir(root), u);
      && PythonUuidHexMatch(u) && u in listing
      && Claimable(fs, QueueDir(root), u, pid)
      && r.fs == Rename(fs, src, ClaimPath(root, u, pid)).value
      && IsFile(r.fs, ClaimPath(root, u, pid))
      && Lookup(r.fs, src) == None
  {
    var qdir := QueueDir(root);
    var order := Names(sorted);
    ClaimOutcome(fs, root, listing, pid, sorted);
    var (fs1, taken) := TryClaims(fs, qdir, order, pid, None);
    if taken.Some? && taken.value != "" && IsFile(fs1, Child(qdir, ClaimName(taken.value, pid))) then
      Effect(Success(taken.value), fs1)
    else Effect(Failure(NothingTaken), fs1)
  }

  /** The names in claiming order are non-empty and hold no '.'. */
  lemma OrderedNamesAreClean(fs: FS, root: Path, listing: seq<string>, sorted: seq<(string, nat)>)
    requires ClaimOrder(fs, root, listing) == Success(sorted)
    ensures forall j :: 0 <= j < |Names(sorted)| ==> Names(sorted)[j] != "" && '.' !in Names(sorted)[j]
  {
    var order := Names(sorted);
    forall j | 0 <= j < |order| ensures order[j] != "" && '.' !in order[j] {
      MatchedNamesHaveNoDot(order[j], "");
    }
  }

  /** What the claiming loop leaves behind, read off the first claimable name. */
  lemma ClaimOutcome(fs: FS, root: Path, listing: seq<string>, pid: string, sorted: seq<(string, nat)>)
    requires DirExists(fs, QueueDir(root))
    requires ClaimOrder(fs, root, listing) == Success(sorted)
    ensures forall j :: 0 <= j < |Names(sorted)| ==> Names(sorted)[j] != "" && '.' !in Names(sorted)[j]
    ensures
      var qdir := QueueDir(root);
      var (fs1, taken) := TryClaims(fs, qdir, Names(sorted), pid, None);
      var k := FirstClaimable(fs, qdir, Names(sorted), pid);
      && (k.None? ==> fs1 == fs && !(taken.Some? && IsFile(fs1, Child(qdir, ClaimName(taken.value, pid)))))
      && (k.Some? ==>
            var u := Names(sorted)[k.value];
            && taken == Some(u) && PythonUuidHexMatch(u) && u in listing
            && fs1 == Rename(fs, Child(qdir, u), Child(qdir, ClaimName(u, pid))).value
            && Lookup(fs1, Child(qdir, u)) == None)
  {
    var qdir := QueueDir(root);
    var order := Names(sorted);
    OrderedNamesAreClean(fs, root, listing, sorted);
    var k := FirstClaimable(fs, qdir, order, pid);
    if k.Some? {
      var u := order[k.value];
      assert PythonUuidHexMatch(u) && u in listing by {
        assert u == sorted[k.value].0;
      }
      RenamedAway(fs, qdir, u, pid);
    }
  }

  /** After renaming a marker to its claim name, the marker's own path is free. */
  lemma RenamedAway(fs: FS, qdir: Path, u: string, pid: string)
    requires u != "" && Rename(fs, Child(qdir, u), Child(qdir, ClaimName(u, pid))).Success?
    ensures Lookup(Rename(fs, Child(qdir, u), Child(qdir, ClaimName(u, pid))).value, Child(qdir, u)) == None
  {
    assert |ClaimName(u, pid)| > |u|;
    assert Child(qdir, u) != Child(qdir, ClaimName(u, pid)) by {
      assert Child(qdir, u)[|qdir|] == u;
    }
  }

  /** The queue is served oldest first: every candidate stat'ed older than the one handed
      out could not be claimed; and when nothing can be claimed, nothing changes. */
  lemma TakeIsOldestFirst(fs: FS, root: Path, pid: string, listing: seq<string>)
    requires IsListingOf(fs, QueueDir(root), listing)
    ensures var r := TakeFromQueue(fs, root, pid, listing);
      r.result.Success? ==>
        && Stat(fs, Child(QueueDir(root), r.result.value)).Some?
        && forall c ::
             (c in listing && PythonUuidHexMatch(c) && Stat(fs, Child(QueueDir(root), c)).Some?
              && Stat(fs, Child(QueueDir(root), c)).value.mtime
                 < Stat(fs, Child(QueueDir(root), r.result.value)).value.mtime) ==>
             !Claimable(fs, QueueDir(root), c, pid)
    ensures (forall c :: c in listing && PythonUuidHexMatch(c) ==> !Claimable(fs, QueueDir(root), c, pid)) ==>
      TakeFromQueue(fs, root, pid, listing).result.Failure? && TakeFromQueue(fs, root, pid, listing).fs == fs
  {
    var qdir := QueueDir(root);
    if DirExists(fs, qdir) && ClaimOrder(fs, root, listing).Success? {
      var sorted := ClaimOrder(fs, root, listing).value;
      ClaimOutcome(fs, root, listing, pid, sorted);
      OldestFirst(fs, root, listing, pid, sorted);
    }
  }

  /** Whatever the first claimable name of the sorted order is, no older candidate was
      claimable: the queue is served oldest first. */
  lemma OldestFirst(fs: FS, root: Path, listing: seq<string>, pid: string, sorted: seq<(string, nat)>)
    requires DirExists(fs, QueueDir(root))
    requires ClaimOrder(fs, root, listing) == Success(sorted)
    ensures var k := FirstClaimable(fs, QueueDir(root), Names(sorted), pid);
      k.Some? ==>
        var u := sorted[k.value].0;
        && Stat(fs, Child(QueueDir(root), u)).Some?
        && forall c ::
             (c in listing && PythonUuidHexMatch(c) && Stat(fs, Child(QueueDir(root), c)).Some?
              && Stat(fs, Child(QueueDir(root), c)).value.mtime < Stat(fs, Child(QueueDir(root), u)).value.mtime) ==>
             !Claimable(fs, QueueDir(root), c, pid)
    ensures (forall c :: c in listing && PythonUuidHexMatch(c) ==> !Claimable(fs, QueueDir(root), c, pid)) ==>
      FirstClaimable(fs, QueueDir(root), Names(sorted), pid).None?
  {
    var qdir := QueueDir(root);
    var order := Names(sorted);
    var k := FirstClaimable(fs, qdir, order, pid);
    if k.Some? {
      var u := sorted[k.value].0;
      assert MTime(fs, Child(qdir, u)) == Success(sorted[k.value].1);
      forall c | c in listing && PythonUuidHexMatch(c) && Stat(fs, Child(qdir, c)).Some?
          && Stat(fs, Child(qdir, c)).value.mtime < Stat(fs, Child(qdir, u)).value.mtime
        ensures !Claimable(fs, qdir, c, pid)
      {
        var i := EarlierPosition(fs, qdir, listing, sorted, k.value, c);
        assert order[i] == c;
      }
    }
  }

  /** A candidate stat'ed older than the k-th of the sorted order sits before position k. */
  lemma EarlierPosition(fs: FS, qdir: Path, listing: seq<string>, sorted: seq<(string, nat)>, k: nat, c: string)
    returns (i: nat)
    requires SortedByKey(sorted) && k < |sorted|
    requires forall j :: 0 <= j < |sorted| ==> MTime(fs, Child(qdir, sorted[j].0)) == Success(sorted[j].1)
    requires exists j :: 0 <= j < |sorted| && sorted[j].0 == c
    requires Stat(fs, Child(qdir, c)).Some?
    requires Stat(fs, Child(qdir, c)).value.mtime < sorted[k].1
    ensures i < k && sorted[i].0 == c
  {
    i :| 0 <= i < |sorted| && sorted[i].0 == c;
    assert MTime(fs, Child(qdir, c)) == Success(sorted[i].1);
  }

  /** `take_from_queue().__exit__()`: delete this worker's claim file if it is a file. */
  function Release(fs: FS, root: Path, pid: string, uid: string): (r: FS)
    ensures !IsFile(r, ClaimPath(root, uid, pid))
    ensures forall q :: q != ClaimPath(root, uid, pid) ==> Lookup(r, q) == Lookup(fs, q)
    ensures r.now == fs.now
  {
    var p := ClaimPath(root, uid, pid);
    if IsFile(fs, p) then
      match Unlink(fs, p)
      case Success(fs1) => fs1
      case Failure(_) => fs
    else fs
  }

  // ---------------------------------------------------------------- properties

  /** A queue whose hex-named entries are all plain marker files, one of which has no
      directory in the way of its claim name, always hands out a job. */
  lemma RegularMarkerIsTaken(fs: FS, root: Path, pid: string, listing: seq<string>, c: string)
    requires IsListingOf(fs, QueueDir(root), listing)
    requires DirExists(fs, QueueDir(root))
    requires forall n :: n in listing && PythonUuidHexMatch(n) ==> IsRegular(fs, Child(QueueDir(root), n))
    requires c in listing && PythonUuidHexMatch(c)
    requires !(ClaimPath(root, c, pid) in fs.entries && fs.entries[ClaimPath(root, c, pid)].Dir?)
    ensures TakeFromQueue(fs, root, pid, listing).result.Success?
  {
    var qdir := QueueDir(root);
    var sorted := OrderOfRegularMarkers(fs, root, listing);
    var order := Names(sorted);
    var i :| 0 <= i < |sorted| && sorted[i].0 == c;
    assert order[i] == c;
    RegularIsClaimable(fs, qdir, c, pid);
    var k := FirstClaimable(fs, qdir, order, pid);
    ClaimOutcome(fs, root, listing, pid, sorted);
    var u := order[k.value];
    RenamedMarkerIsFile(fs, qdir, u, pid);
    TakeWhenClaimed(fs, root, pid, listing, sorted);
  }

  /** The dequeue succeeds exactly when the loop's rename left a file under the claim name. */
  lemma TakeWhenClaimed(fs: FS, root: Path, pid: string, listing: seq<string>, sorted: seq<(string, nat)>)
    requires IsListingOf(fs, QueueDir(root), listing)
    requires DirExists(fs, QueueDir(root))
    requires ClaimOrder(fs, root, listing) == Success(sorted)
    requires FirstClaimable(fs, QueueDir(root), Names(sorted), pid).Some?
    requires
      var u := Names(sorted)[FirstClaimable(fs, QueueDir(root), Names(sorted), pid).value];
      IsFile(Rename(fs, Child(QueueDir(root), u), ClaimPath(root, u, pid)).value, ClaimPath(root, u, pid))
    ensures TakeFromQueue(fs, root, pid, listing).result
      == Success(Names(sorted)[FirstClaimable(fs, QueueDir(root), Names(sorted), pid).value])
  {
    ClaimOutcome(fs, root, listing, pid, sorted);
  }

  lemma RegularIsClaimable(fs: FS, qdir: Path, c: string, pid: string)
    requires DirExists(fs, qdir) && IsRegular(fs, Child(qdir, c)) && PythonUuidHexMatch(c)
    requires !(Child(qdir, ClaimName(c, pid)) in fs.entries && fs.entries[Child(qdir, ClaimName(c, pid))].Dir?)
    ensures Claimable(fs, qdir, c, pid)
  {
    assert c[0] in c;
    assert |ClaimName(c, pid)| > |c|;
    assert Child(qdir, c) != Child(qdir, ClaimName(c, pid)) by {
      assert Child(qdir, c)[|qdir|] == c;
    }
  }

  lemma RenamedMarkerIsFile(fs: FS, qdir: Path, u: string, pid: string)
    requires IsRegular(fs, Child(qdir, u)) && Claimable(fs, qdir, u, pid)
    ensures IsFile(Rename(fs, Child(qdir, u), Child(qdir, ClaimName(u, pid))).value, Child(qdir, ClaimName(u, pid)))
  {
    var dst := Child(qdir, ClaimName(u, pid));
    var fs1 := Rename(fs, Child(qdir, u), dst).value;
    assert fs1.entries[dst].File?;
  }

  /** When every hex-named entry is a plain file, stat'ing them cannot fail. */
  lemma OrderOfRegularMarkers(fs: FS, root: Path, listing: seq<string>) returns (sorted: seq<(string, nat)>)
    requires forall n :: n in listing && PythonUuidHexMatch(n) ==> IsRegular(fs, Child(QueueDir(root), n))
    ensures ClaimOrder(fs, root, listing) == Success(sorted)
  {
    var qdir := QueueDir(root);
    var cands := Candidates(listing);
    forall i | 0 <= i < |cands| ensures Stat(fs, Child(qdir, cands[i])).Some? {
      assert cands[i] in cands;
    }
    sorted := ClaimOrder(fs, root, listing).value;
  }

  /** A user id whose marker is gone cannot be handed out, whoever asks: a claimed job is
      not claimed a second time until it is enqueued again. */
  lemma AbsentMarkerNotTaken(fs: FS, root: Path, pid: string, listing: seq<string>, u: string)
    requires IsListingOf(fs, QueueDir(root), listing)
    requires Lookup(fs, Child(QueueDir(root), u)) == None
    ensures TakeFromQueue(fs, root, pid, listing).result != Success(u)
  {
    var qdir := QueueDir(root);
    if u in listing && u != "" {
      assert u in Children(fs, qdir);
      var q :| q in fs.entries && |q| == |qdir| + 1 && q[..|qdir|] == qdir && q[|qdir|] == u;
    }
  }

  /** Two workers in turn, the second after the first has released its claim: they never
      both get the same user id. */
  lemma NoDoubleClaim(fs: FS, root: Path, pid1: string, pid2: string,
                      listing1: seq<string>, listing2: seq<string>)
    requires IsListingOf(fs, QueueDir(root), listing1)
    requires TakeFromQueue(fs, root, pid1, listing1).result.Success?
    requires
      var t := TakeFromQueue(fs, root, pid1, listing1);
      IsListingOf(Release(t.fs, root, pid1, t.result.value), QueueDir(root), listing2)
    ensures
      var t := TakeFromQueue(fs, root, pid1, listing1);
      var fs2 := Release(t.fs, root, pid1, t.result.value);
      TakeFromQueue(fs2, root, pid2, listing2).result != t.result
  {
    var t := TakeFromQueue(fs, root, pid1, listing1);
    var u := t.result.value;
    var fs2 := Release(t.fs, root, pid1, u);
    ReleasedMarkerGone(t.fs, root, pid1, u);
    AbsentMarkerNotTaken(fs2, root, pid2, listing2, u);
  }

  /** Releasing a claim does not bring back the marker it was renamed from. */
  lemma ReleasedMarkerGone(fs: FS, root: Path, pid: string, u: string)
    requires Lookup(fs, Child(QueueDir(root), u)) == None
    ensures Lookup(Release(fs, root, pid, u), Child(QueueDir(root), u)) == None
  {
    assert Child(QueueDir(root), u) != ClaimPath(root, u, pid) by {
      assert ClaimName(u, pid)[|u|] == '.';
    }
  }
}

=== FILE: lexicon.dfy ===
/** The line-by-line rules by which app/tension_analysis/preload.py (and its twin,
    app/preload.py) turn the resource files into word lists and lexicon tables. A file is
    the sequence of its lines; `float(.)` is a parameter `num` that may refuse a field,
    which Python reports as a ValueError. */
module Lexicon {
  import opened Base
  import opened Text

  // ---------------------------------------------------------------- word lists

  /** `[line.strip() for line in f]`: every loader looks at its lines stripped; the
      stop-word and emoticon loaders keep exactly these. */
  function StripAll(lines: seq<string>): (r: seq<string>)
    ensures |r| == |lines|
    ensures forall i :: 0 <= i < |lines| ==> r[i] == Strip(lines[i])
  {
    seq(|lines|, i requires 0 <= i < |lines| => Strip(lines[i]))
  }

  /** The booster and cue loaders, over the stripped lines: every line without '#', blank
      lines kept as "". */
  function KeepUncommented(ws: seq<string>): (r: seq<string>)
    ensures |r| <= |ws|
    ensures forall k :: 0 <= k < |r| ==> '#' !in r[k] && r[k] in ws
    ensures forall i :: 0 <= i < |ws| && '#' !in ws[i] ==> ws[i] in r
  {
    if ws == [] then []
    else
      var rest := KeepUncommented(ws[1..]);
      assert forall i :: 1 <= i < |ws| ==> ws[i] == ws[1..][i - 1];
      if '#' !in ws[0] then [ws[0]] + rest else rest
  }

  /** `'#' in line` tests the raw line, but stripping removes only white space, so the
      test agrees with one on the stripped line. */
  lemma HashTestOnStripped(line: string)
    ensures '#' in line <==> '#' in Strip(line)
  {
    assert !IsSpace('#');
  }

  /** The hedge-word and discourse-marker loaders, over the stripped lines (see
      `HashTestOnStripped`): a line holding '#' and a blank line are skipped. */
  function KeepEntries(ws: seq<string>): (r: seq<string>)
    ensures |r| <= |ws|
    ensures forall k :: 0 <= k < |r| ==> '#' !in r[k] && r[k] != [] && r[k] in ws
    ensures forall i :: 0 <= i < |ws| && '#' !in ws[i] && ws[i] != [] ==> ws[i] in r
  {
    if ws == [] then []
    else
      var rest := KeepEntries(ws[1..]);
      assert forall i :: 1 <= i < |ws| ==> ws[i] == ws[1..][i - 1];
      if '#' in ws[0] then rest
      else if ws[0] != [] then [ws[0]] + rest
      else rest
  }

  function DropBlank(ws: seq<string>): (r: seq<string>)
    ensures forall k :: 0 <= k < |r| ==> r[k] != []
  {
    if ws == [] then [] else (if ws[0] == [] then [] else [ws[0]]) + DropBlank(ws[1..])
  }

  /** The hedge lists are the booster-style lists of the same file without their blank
      entries. */
  lemma {:induction false} EntriesAreUncommentedWithoutBlanks(ws: seq<string>)
    ensures KeepEntries(ws) == DropBlank(KeepUncommented(ws))
    decreases |ws|
  {
    if ws != [] {
      EntriesAreUncommentedWithoutBlanks(ws[1..]);
      var rest := KeepUncommented(ws[1..]);
      if '#' !in ws[0] {
        assert DropBlank([ws[0]] + rest) == (if ws[0] == [] then [] else [ws[0]]) + DropBlank(rest) by {
          assert ([ws[0]] + rest)[1..] == rest;
        }
      }
    }
  }

  /** A blank line in a booster file becomes the empty booster. */
  lemma BlankLineGivesEmptyWord(lines: seq<string>, i: nat)
    requires i < |lines| && Strip(lines[i]) == []
    ensures [] in KeepUncommented(StripAll(lines))
  {
    assert StripAll(lines)[i] == [];
  }

  // ---------------------------------------------------------------- first entry wins

  /** `line.strip().split('\t')`. */
  function Fields(line: string): (r: seq<string>)
    ensures |r| >= 1
  {
    SplitOn(Strip(line), '\t')
  }

  /** The split lines of a tab-separated table; Python's `split` never gives an empty list. */
  function Rows(lines: seq<string>): (r: seq<seq<string>>)
    ensures |r| == |lines|
    ensures forall i :: 0 <= i < |r| ==> r[i] == Fields(lines[i]) && |r[i]| >= 1
  {
    seq(|lines|, i requires 0 <= i < |lines| => Fields(lines[i]))
  }

  predicate AllRows(rows: seq<seq<string>>)
  {
    forall i :: 0 <= i < |rows| ==> |rows[i]| >= 1
  }

  /** The loop `if splitted[0] not in table: table[splitted[0]] = value(splitted)`: a word
      already present is skipped without looking at the rest of its line, so only the first
      line of a word can raise. */
  function LoadFirstWins<V>(rows: seq<seq<string>>, key: string -> string, value: seq<string> -> Result<V>,
                            acc: map<string, V>): Result<map<string, V>>
    requires AllRows(rows)
    decreases |rows|
  {
    if rows == [] then Success(acc)
    else
      var k := key(rows[0][0]);
      if k in acc then LoadFirstWins(rows[1..], key, value, acc)
      else
        match value(rows[0])
        case Failure(e) => Failure(e)
        case Success(v) => LoadFirstWins(rows[1..], key, value, acc[k := v])
  }

  /** The loaded table keeps every seeded entry and files exactly the seeded words and the
      words named by some line. */
  lemma {:induction false} LoadFirstWinsKeys<V>(rows: seq<seq<string>>, key: string -> string,
                                                value: seq<string> -> Result<V>, acc: map<string, V>)
    requires AllRows(rows)
    ensures var r := LoadFirstWins(rows, key, value, acc);
      r.Success? ==>
        && (forall k :: k in acc ==> k in r.value && r.value[k] == acc[k])
        && (forall k :: k in r.value <==> (k in acc || exists i :: 0 <= i < |rows| && key(rows[i][0]) == k))
    decreases |rows|
  {
    if rows != [] {
      var tail := rows[1..];
      assert AllRows(tail);
      var k := key(rows[0][0]);
      var acc' := if k in acc then acc else match value(rows[0]) case Success(v) => acc[k := v] case Failure(_) => acc;
      var r := LoadFirstWins(rows, key, value, acc);
      if r.Success? {
        assert value(rows[0]).Success? ==> r == LoadFirstWins(tail, key, value, acc');
        assert r == LoadFirstWins(tail, key, value, acc');
        LoadFirstWinsKeys(tail, key, value, acc');
        forall w
          ensures w in r.value <==> (w in acc || exists i :: 0 <= i < |rows| && key(rows[i][0]) == w)
        {
          if exists i :: 0 <= i < |tail| && key(tail[i][0]) == w {
            var i :| 0 <= i < |tail| && key(tail[i][0]) == w;
            assert tail[i] == rows[i + 1];
          }
          if exists i :: 0 <= i < |rows| && key(rows[i][0]) == w {
            var i :| 0 <= i < |rows| && key(rows[i][0]) == w;
            if i > 0 {
              assert tail[i - 1] == rows[i];
            }
          }
        }
      }
    }
  }

  /** A word not seeded in the accumulator is filed with the value of the first line that
      names it. */
  lemma {:induction false} FirstLineWins<V>(rows: seq<seq<string>>, key: string -> string, value: seq<string> -> Result<V>,
                                           acc: map<string, V>, i: nat)
    requires AllRows(rows) && LoadFirstWins(rows, key, value, acc).Success?
    requires i < |rows| && key(rows[i][0]) !in acc
    requires forall j :: 0 <= j < i ==> key(rows[j][0]) != key(rows[i][0])
    ensures var t := LoadFirstWins(rows, key, value, acc).value;
      key(rows[i][0]) in t && value(rows[i]) == Success(t[key(rows[i][0])])
    decreases |rows|
  {
    var k := key(rows[0][0]);
    if i == 0 {
      var v := value(rows[0]).value;
      var tail := rows[1..];
      assert AllRows(tail);
      assert LoadFirstWins(rows, key, value, acc) == LoadFirstWins(tail, key, value, acc[k := v]);
      LoadFirstWinsKeys(tail, key, value, acc[k := v]);
    } else {
      var tail := rows[1..];
      assert AllRows(tail) && tail[i - 1] == rows[i];
      assert forall j :: 0 <= j < i - 1 ==> key(tail[j][0]) != key(tail[i - 1][0]) by {
        assert forall j :: 0 <= j < i - 1 ==> tail[j] == rows[j + 1];
      }
      if k in acc {
        assert LoadFirstWins(rows, key, value, acc) == LoadFirstWins(tail, key, value, acc);
        FirstLineWins(tail, key, value, acc, i - 1);
      } else {
        var v := value(rows[0]).value;
        assert LoadFirstWins(rows, key, value, acc) == LoadFirstWins(tail, key, value, acc[k := v]);
        assert key(tail[i - 1][0]) !in acc[k := v];
        FirstLineWins(tail, key, value, acc[k := v], i - 1);
      }
    }
  }

  /** `f.readline()` before the loop: the header line is dropped (an empty file has none). */
  function SkipHeader(lines: seq<string>): (r: seq<string>)
    ensures |r| == if lines == [] then 0 else |lines| - 1
    ensures forall i :: 0 <= i < |r| ==> r[i] == lines[i + 1]
  {
    if lines == [] then [] else lines[1..]
  }

  function Identity(w: string): string { w }

  /** The hashtag lexicon files a word with every '#' removed. */
  function Unhashed(w: string): (r: string)
    ensures '#' !in r
  {
    RemoveChar(w, '#')
  }

  // ---------------------------------------------------------------- values

  /** `float(splitted[i])`: IndexError past the end, ValueError on a refused field. */
  function Column(fields: seq<string>, i: nat, num: string -> Option<real>): (r: Result<real>)
    ensures r.Success? <==> i < |fields| && num(fields[i]).Some?
    ensures r.Success? ==> r.value == num(fields[i]).value
    ensures r.Failure? ==> (r.error == IndexError <==> i >= |fields|)
  {
    if i >= |fields| then Failure(IndexError)
    else match num(fields[i])
      case None => Failure(ValueError("could not convert string to float"))
      case Some(v) => Success(v)
  }

  datatype Affect = Affect(anger: real, disgust: real, fear: real, joy: real, sadness: real, surprise: real)

  /** The six emotion columns of the NRC tables, in the order the dictionary display reads
      them: 1, 3, 4, 5, 8 and 9. */
  function AffectOf(fields: seq<string>, num: string -> Option<real>): (r: Result<Affect>)
    ensures r.Success? <==> (|fields| >= 10 && num(fields[1]).Some? && num(fields[3]).Some? && num(fields[4]).Some?
      && num(fields[5]).Some? && num(fields[8]).Some? && num(fields[9]).Some?)
    ensures r.Success? ==> r.value == Affect(num(fields[1]).value, num(fields[3]).value, num(fields[4]).value,
      num(fields[5]).value, num(fields[8]).value, num(fields[9]).value)
  {
    var anger :- Column(fields, 1, num);
    var disgust :- Column(fields, 3, num);
    var fear :- Column(fields, 4, num);
    var joy :- Column(fields, 5, num);
    var sadness :- Column(fields, 8, num);
    var surprise :- Column(fields, 9, num);
    Success(Affect(anger, disgust, fear, joy, sadness, surprise))
  }

  /** `splitted[1]` as a string (the BingLiu and MPQA polarity). */
  function Second(fields: seq<string>): (r: Result<string>)
    ensures r.Success? <==> |fields| >= 2
    ensures r.Success? ==> r.value == fields[1]
    ensures r.Failure? ==> r.error == IndexError
  {
    if |fields| >= 2 then Success(fields[1]) else Failure(IndexError)
  }

  /** The AFINN score, moved from [-5, 5] to [0, 1]. */
  function AfinnOf(fields: seq<string>, num: string -> Option<real>): (r: Result<real>)
    ensures r.Success? <==> |fields| >= 2 && num(fields[1]).Some?
    ensures r.Success? && -5.0 <= num(fields[1]).value <= 5.0 ==> 0.0 <= r.value <= 1.0
  {
    var score :- Column(fields, 1, num);
    Success((score - (-5.0)) / (5.0 - (-5.0)))
  }

  // ---------------------------------------------------------------- the tables

  /** NRC Emotion and NRC Affect Intensity (lines 85-112). */
  function LoadNrc(lines: seq<string>, num: string -> Option<real>): (r: Result<map<string, Affect>>)
    ensures r.Success? ==> forall k :: k in r.value <==>
      exists i :: 0 <= i < |SkipHeader(lines)| && Fields(SkipHeader(lines)[i])[0] == k
  {
    var body := SkipHeader(lines);
    var rows := Rows(body);
    var value := (fs: seq<string>) => AffectOf(fs, num);
    TableKeys(body, value);
    LoadFirstWins(rows, Identity, value, map[])
  }

  /** A table filed under `Identity` holds exactly the first fields of its lines. */
  lemma TableKeys<V>(lines: seq<string>, value: seq<string> -> Result<V>)
    ensures var r := LoadFirstWins(Rows(lines), Identity, value, map[]);
      r.Success? ==> forall k :: k in r.value <==> exists i :: 0 <= i < |lines| && Fields(lines[i])[0] == k
  {
    var rows := Rows(lines);
    var r := LoadFirstWins(rows, Identity, value, map[]);
    LoadFirstWinsKeys(rows, Identity, value, map[]);
    if r.Success? {
      forall k ensures k in r.value <==> exists i :: 0 <= i < |lines| && Fields(lines[i])[0] == k {
        if k in r.value {
          KeyHasLine(lines, k);
        }
        if exists i :: 0 <= i < |lines| && Fields(lines[i])[0] == k {
          LineHasKey(lines, k);
        }
      }
    }
  }

  lemma KeyHasLine(lines: seq<string>, k: string)
    requires exists i :: 0 <= i < |Rows(lines)| && Identity(Rows(lines)[i][0]) == k
    ensures exists i :: 0 <= i < |lines| && Fields(lines[i])[0] == k
  {
    var i :| 0 <= i < |Rows(lines)| && Identity(Rows(lines)[i][0]) == k;
    assert Fields(lines[i])[0] == k;
  }

  lemma LineHasKey(lines: seq<string>, k: string)
    requires exists i :: 0 <= i < |lines| && Fields(lines[i])[0] == k
    ensures exists i :: 0 <= i < |Rows(lines)| && Identity(Rows(lines)[i][0]) == k
  {
    var i :| 0 <= i < |lines| && Fields(lines[i])[0] == k;
    assert Identity(Rows(lines)[i][0]) == k;
  }

  /** Whatever the header line says, it is never filed. */
  lemma NrcHeaderIgnored(header: string, other: string, body: seq<string>, num: string -> Option<real>)
    ensures LoadNrc([header] + body, num) == LoadNrc([other] + body, num)
  {
    assert SkipHeader([header] + body) == body == SkipHeader([other] + body);
  }

  /** NRC Hashtag Emotion (lines 115-128): the word is filed without its '#'. */
  function LoadHashtags(lines: seq<string>, num: string -> Option<real>): (r: Result<map<string, Affect>>)
    ensures r.Success? ==> forall k :: k in r.value ==> '#' !in k
  {
    var rows := Rows(SkipHeader(lines));
    var value := (fs: seq<string>) => AffectOf(fs, num);
    LoadFirstWinsKeys(rows, Unhashed, value, map[]);
    LoadFirstWins(rows, Unhashed, value, map[])
  }

  /** BingLiu then MPQA into one table (lines 131-140). */
  function LoadPolarity(bingLiu: seq<string>, mpqa: seq<string>): (r: Result<map<string, string>>)
  {
    var first :- LoadFirstWins(Rows(bingLiu), Identity, Second, map[]);
    LoadFirstWins(Rows(mpqa), Identity, Second, first)
  }

  /** A word in both polarity files keeps its BingLiu label; a word only in MPQA gets the
      MPQA label of its first line. */
  lemma BingLiuWins(bingLiu: seq<string>, mpqa: seq<string>, i: nat)
    requires LoadPolarity(bingLiu, mpqa).Success?
    requires i < |bingLiu| && forall j :: 0 <= j < i ==> Fields(bingLiu[j])[0] != Fields(bingLiu[i])[0]
    ensures var w := Fields(bingLiu[i])[0];
      w in LoadPolarity(bingLiu, mpqa).value && Second(Fields(bingLiu[i])) == Success(LoadPolarity(bingLiu, mpqa).value[w])
  {
    var rows := Rows(bingLiu);
    var first := LoadFirstWins(rows, Identity, Second, map[]).value;
    FirstLineWins(rows, Identity, Second, map[], i);
    LoadFirstWinsKeys(Rows(mpqa), Identity, Second, first);
  }

  /** AFINN (lines 142-148). */
  function LoadAfinn(lines: seq<string>, num: string -> Option<real>): (r: Result<map<string, real>>)
    ensures r.Success? ==> forall k :: k in r.value <==> exists i :: 0 <= i < |lines| && Fields(lines[i])[0] == k
  {
    var rows := Rows(lines);
    var value := (fs: seq<string>) => AfinnOf(fs, num);
    TableKeys(lines, value);
    LoadFirstWins(rows, Identity, value, map[])
  }

  // ---------------------------------------------------------------- last entry wins

  /** `line.strip().split(',', 1)` for every line. */
  function CommaSplits(lines: seq<string>): (r: seq<seq<string>>)
    ensures |r| == |lines|
    ensures forall i :: 0 <= i < |r| ==> r[i] == SplitOnce(Strip(lines[i]), ',') && 1 <= |r[i]| <= 2
  {
    seq(|lines|, i requires 0 <= i < |lines| => SplitOnce(Strip(lines[i]), ','))
  }

  /** The slang and negated-word loaders (lines 154-162) over the comma splits: a line
      without a comma raises IndexError, and a later line overwrites. */
  function LoadLastWins(parts: seq<seq<string>>, acc: map<string, string>): (r: Result<map<string, string>>)
    requires AllRows(parts)
    ensures r.Failure? <==> exists i :: 0 <= i < |parts| && |parts[i]| < 2
    ensures r.Failure? ==> r.error == IndexError
    ensures r.Success? ==> forall k :: k in r.value <==> (k in acc || exists i :: 0 <= i < |parts| && parts[i][0] == k)
    decreases |parts|
  {
    if parts == [] then Success(acc)
    else
      assert forall i :: 1 <= i < |parts| ==> parts[i] == parts[1..][i - 1];
      if |parts[0]| < 2 then Failure(IndexError)
      else LoadLastWins(parts[1..], acc[parts[0][0] := parts[0][1]])
  }

  /** A word is filed with the text after the first comma of the last line that names it. */
  lemma {:induction false} LastLineWins(parts: seq<seq<string>>, acc: map<string, string>, i: nat)
    requires AllRows(parts) && LoadLastWins(parts, acc).Success?
    requires i < |parts|
    requires forall j :: i < j < |parts| ==> parts[j][0] != parts[i][0]
    ensures |parts[i]| >= 2 && LoadLastWins(parts, acc).value[parts[i][0]] == parts[i][1]
    decreases |parts|
  {
    assert |parts[0]| >= 2;
    var acc' := acc[parts[0][0] := parts[0][1]];
    assert forall j :: 0 <= j < |parts| - 1 ==> parts[1..][j] == parts[j + 1];
    if i == 0 {
      LastWinsKeeps(parts[1..], acc', parts[0][0]);
    } else {
      LastLineWins(parts[1..], acc', i - 1);
    }
  }

  /** A word no later line names keeps its accumulated value. */
  lemma {:induction false} LastWinsKeeps(parts: seq<seq<string>>, acc: map<string, string>, k: string)
    requires AllRows(parts) && LoadLastWins(parts, acc).Success? && k in acc
    requires forall j :: 0 <= j < |parts| ==> parts[j][0] != k
    ensures LoadLastWins(parts, acc).value[k] == acc[k]
    decreases |parts|
  {
    if parts != [] {
      assert |parts[0]| >= 2;
      assert forall j :: 0 <= j < |parts| - 1 ==> parts[1..][j] == parts[j + 1];
      LastWinsKeeps(parts[1..], acc[parts[0][0] := parts[0][1]], k);
    }
  }

  /** The slang table (or the negated-word table) of a file. */
  function LoadPairs(lines: seq<string>): (r: Result<map<string, string>>)
    ensures r.Failure? <==> exists i :: 0 <= i < |lines| && ',' !in Strip(lines[i])
  {
    LoadLastWins(CommaSplits(lines), map[])
  }

  // ---------------------------------------------------------------- ratings

  /** A Warriner rating moved from [1, 9] to [0, 1]. */
  function Rescaled(v: real): real
  {
    (v - 1.0) / (9.0 - 1.0)
  }

  datatype Rating = Rating(valence: real, arousal: real, dominance: real)

  /** One CSV row of the Warriner table: columns 2, 5 and 8, read in that order. */
  function RatingOf(row: seq<string>, num: string -> Option<real>): (r: Result<Rating>)
    ensures r.Success? <==> |row| >= 9 && num(row[2]).Some? && num(row[5]).Some? && num(row[8]).Some?
    ensures r.Success? && 1.0 <= num(row[2]).value <= 9.0 ==> 0.0 <= r.value.valence <= 1.0
  {
    var valence :- Column(row, 2, num);
    var arousal :- Column(row, 5, num);
    var dominance :- Column(row, 8, num);
    Success(Rating(Rescaled(valence), Rescaled(arousal), Rescaled(dominance)))
  }

  /** The loop of lines 77-82: each row is filed under column 1, a later row overwriting
      an earlier one; the first row that cannot be read stops the load. */
  function LoadRatings(rows: seq<seq<string>>, acc: map<string, Rating>, num: string -> Option<real>): (r: Result<map<string, Rating>>)
    ensures r.Success? <==> forall i :: 0 <= i < |rows| ==> RatingOf(rows[i], num).Success?
    ensures r.Success? ==> forall k :: k in acc ==> k in r.value
    decreases |rows|
  {
    if rows == [] then Success(acc)
    else
      var rating :- RatingOf(rows[0], num);
      assert forall i :: 1 <= i < |rows| ==> rows[i] == rows[1..][i - 1];
      LoadRatings(rows[1..], acc[rows[0][1] := rating], num)
  }

  /** Lines 72-82: the Warriner table with its header row skipped. */
  function LoadWarriner(rows: seq<seq<string>>, num: string -> Option<real>): (r: Result<map<string, Rating>>)
    ensures r.Success? <==> forall i :: 1 <= i < |rows| ==> RatingOf(rows[i], num).Success?
    ensures r.Success? ==> forall i :: 1 <= i < |rows| ==> rows[i][1] in r.value
    ensures r.Success? ==> forall k :: k in r.value ==> exists i :: 1 <= i < |rows| && |rows[i]| > 1 && rows[i][1] == k
  {
    if rows == [] then Success(map[])
    else
      assert forall i :: 1 <= i < |rows| ==> rows[i] == rows[1..][i - 1];
      var r := LoadRatings(rows[1..], map[], num);
      if r.Success? then
        RatingsCoverRows(rows[1..], map[], num);
        RatingsKeysFromRows(rows[1..], map[], num);
        r
      else r
  }

  /** The ratings table holds the key column of every row after the header. */
  lemma {:induction false} RatingsCoverRows(rows: seq<seq<string>>, acc: map<string, Rating>, num: string -> Option<real>)
    requires LoadRatings(rows, acc, num).Success?
    ensures forall i :: 0 <= i < |rows| ==> |rows[i]| >= 9 && rows[i][1] in LoadRatings(rows, acc, num).value
    decreases |rows|
  {
    if rows != [] {
      var rating := RatingOf(rows[0], num).value;
      RatingsCoverRows(rows[1..], acc[rows[0][1] := rating], num);
      assert forall i :: 1 <= i < |rows| ==> rows[i] == rows[1..][i - 1];
    }
  }

  /** Every key of the ratings table comes from the starting table or from some row. */
  lemma {:induction false} RatingsKeysFromRows(rows: seq<seq<string>>, acc: map<string, Rating>, num: string -> Option<real>)
    requires LoadRatings(rows, acc, num).Success?
    ensures forall k :: k in LoadRatings(rows, acc, num).value ==>
      k in acc || exists i :: 0 <= i < |rows| && |rows[i]| > 1 && rows[i][1] == k
    decreases |rows|
  {
    if rows != [] {
      var rating := RatingOf(rows[0], num).value;
      RatingsKeysFromRows(rows[1..], acc[rows[0][1] := rating], num);
      forall k | k in LoadRatings(rows, acc, num).value
        ensures k in acc || exists i :: 0 <= i < |rows| && |rows[i]| > 1 && rows[i][1] == k
      {
        if k !in acc && k != rows[0][1] {
          var i :| 0 <= i < |rows[1..]| && |rows[1..][i]| > 1 && rows[1..][i][1] == k;
          assert rows[i + 1] == rows[1..][i];
        }
      }
    }
  }

  /** A word is filed with the rating of the last row that names it. */
  lemma {:induction false} LastRatingWins(rows: seq<seq<string>>, acc: map<string, Rating>, num: string -> Option<real>, i: nat)
    requires LoadRatings(rows, acc, num).Success?
    requires i < |rows|
    requires forall j :: i < j < |rows| ==> |rows[j]| < 2 || |rows[i]| < 2 || rows[j][1] != rows[i][1]
    ensures RatingOf(rows[i], num).Success? && |rows[i]| >= 9 && rows[i][1] in LoadRatings(rows, acc, num).value
    ensures LoadRatings(rows, acc, num).value[rows[i][1]] == RatingOf(rows[i], num).value
    decreases |rows|
  {
    RatingsCoverRows(rows, acc, num);
    var rating := RatingOf(rows[0], num).value;
    var acc' := acc[rows[0][1] := rating];
    assert forall j :: 0 <= j < |rows| - 1 ==> rows[1..][j] == rows[j + 1];
    if i == 0 {
      RatingKeeps(rows[1..], acc', num, rows[0][1]);
    } else {
      LastRatingWins(rows[1..], acc', num, i - 1);
    }
  }

  /** A seeded word no row names keeps its seeded rating. */
  lemma {:induction false} RatingKeeps(rows: seq<seq<string>>, acc: map<string, Rating>, num: string -> Option<real>, k: string)
    requires LoadRatings(rows, acc, num).Success? && k in acc
    requires forall j :: 0 <= j < |rows| ==> |rows[j]| < 2 || rows[j][1] != k
    ensures LoadRatings(rows, acc, num).value[k] == acc[k]
    decreases |rows|
  {
    if rows != [] {
      assert RatingOf(rows[0], num).Success?;
      assert forall j :: 0 <= j < |rows| - 1 ==> rows[1..][j] == rows[j + 1];
      RatingKeeps(rows[1..], acc[rows[0][1] := RatingOf(rows[0], num).value], num, k);
    }
  }

  /** Lines 77-82: after the header, a word carries the rating of the last row naming it. */
  lemma WarrinerLastRowWins(rows: seq<seq<string>>, num: string -> Option<real>, i: nat)
    requires LoadWarriner(rows, num).Success?
    requires 1 <= i < |rows|
    requires forall j :: i < j < |rows| ==> |rows[j]| < 2 || |rows[i]| < 2 || rows[j][1] != rows[i][1]
    ensures |rows[i]| >= 9 && LoadWarriner(rows, num).value[rows[i][1]] == RatingOf(rows[i], num).value
  {
    var body := rows[1..];
    assert forall j :: 0 <= j < |body| ==> body[j] == rows[j + 1];
    LastRatingWins(body, map[], num, i - 1);
  }
}

=== FILE: loop.dfy ===
/** One iteration of the polling loop of app/run_worker.py: take the oldest claimable job,
    run the task on it, and release the claim however the task ended. */
module WorkerLoop {
  import opened Base
  import opened FileSystem
  import opened UserId
  import opened UserStore
  import opened JobQueue
  import opened Worker

  /** What one turn of the loop did: slept on an empty queue, logged an exception of the
      dequeue, or ran the task for a user id (and logged what escaped it, if anything). */
  datatype Turn =
    | Slept
    | Logged(error: Error)
    | Ran(uid: string, trace: seq<Event>, escaped: Option<Error>)

  datatype Iteration = Iteration(fs: FS, turn: Turn)

  /** `with take_from_queue() as user_id: task_tension_analysis(user_id)` inside the loop's
      `try`: NothingTaken sleeps, any other exception is logged; a claimed job's marker is
      released by `__exit__` after the task, whether it returned or raised. */
  function Iterate<I>(fs: FS, root: Path, pid: string, listing: seq<string>,
                      parse: string -> Option<I>, analyse: I -> JobRun): (r: Iteration)
    requires IsListingOf(fs, QueueDir(root), listing)
    ensures r.turn.Slept? <==> TakeFromQueue(fs, root, pid, listing).result == Failure(NothingTaken)
    ensures r.turn.Logged? ==> r.turn.error.OsError? && r.fs == fs
    ensures r.turn.Ran? ==>
      && PythonUuidHexMatch(r.turn.uid) && r.turn.uid in listing
      && Claimable(fs, QueueDir(root), r.turn.uid, pid)
      && !IsFile(r.fs, ClaimPath(root, r.turn.uid, pid))
  {
    var t := TakeFromQueue(fs, root, pid, listing);
    match t.result
    case Failure(e) => if e == NothingTaken then Iteration(t.fs, Slept) else Iteration(t.fs, Logged(e))
    case Success(u) =>
      var r := Task(t.fs, root, u, parse, analyse);
      Iteration(Release(r.fs, root, pid, u), Ran(u, r.trace, r.escaped))
  }

  /** The queue folder lies outside every user folder the task can touch. */
  lemma QueueOutsideUserFolder(root: Path, u: string, q: Path)
    requires PythonUuidHexMatch(u) && IsPrefix(QueueDir(root), q)
    ensures !IsPrefix(Folder(root, u), q) && !IsPrefix(q, Folder(root, u))
  {
    assert Folder(root, u)[|root|] == u;
    assert q[|root|] == "queue";
  }

  /** A turn that ran a job hands the task exactly the claimed id, and the task's effects on
      the queue are nil: the only queue entries the turn changes are the claimed marker,
      which is gone, and its claim file, which is released. */
  lemma RanTouchesOnlyItsClaim<I>(fs: FS, root: Path, pid: string, listing: seq<string>,
                                   parse: string -> Option<I>, analyse: I -> JobRun)
    requires IsListingOf(fs, QueueDir(root), listing)
    ensures var r := Iterate(fs, root, pid, listing, parse, analyse);
      var t := TakeFromQueue(fs, root, pid, listing);
      r.turn.Ran? ==>
        && t.result == Success(r.turn.uid)
        && r.turn.trace == Task(t.fs, root, r.turn.uid, parse, analyse).trace
        && Lookup(r.fs, Child(QueueDir(root), r.turn.uid)) == None
        && forall q :: (IsPrefix(QueueDir(root), q) && q != ClaimPath(root, r.turn.uid, pid)
                        && q != Child(QueueDir(root), r.turn.uid)) ==> Lookup(r.fs, q) == Lookup(fs, q)
  {
    var t := TakeFromQueue(fs, root, pid, listing);
    if t.result.Success? {
      var u := t.result.value;
      var tr := Task(t.fs, root, u, parse, analyse);
      TaskFrame(t.fs, root, u, parse, analyse);
      var r := Iterate(fs, root, pid, listing, parse, analyse);
      assert r.fs == Release(tr.fs, root, pid, u);
      ClaimTaskRelease(fs, t.fs, tr.fs, r.fs, root, pid, u);
    }
  }

  lemma ClaimTaskRelease(fs0: FS, fs1: FS, fs2: FS, fs3: FS, root: Path, pid: string, u: string)
    requires PythonUuidHexMatch(u)
    requires Rename(fs0, Child(QueueDir(root), u), ClaimPath(root, u, pid)) == Success(fs1)
    requires SameOutside(fs1, fs2, Folder(root, u))
    requires fs3 == Release(fs2, root, pid, u)
    ensures Lookup(fs3, Child(QueueDir(root), u)) == None
    ensures forall q :: (IsPrefix(QueueDir(root), q) && q != ClaimPath(root, u, pid)
                         && q != Child(QueueDir(root), u)) ==> Lookup(fs3, q) == Lookup(fs0, q)
  {
    var qdir := QueueDir(root);
    var src := Child(qdir, u);
    var dst := ClaimPath(root, u, pid);
    assert src != dst by {
      assert ClaimName(u, pid)[|u|] == '.';
    }
    QueueOutsideUserFolder(root, u, src);
    forall q | IsPrefix(qdir, q) && q != dst && q != src
      ensures Lookup(fs3, q) == Lookup(fs0, q)
    {
      QueueOutsideUserFolder(root, u, q);
    }
  }

  /** A user id enqueued again while its job is being processed keeps its marker through the
      release: the release deletes only this worker's claim file, so the job runs once more. */
  lemma ReenqueuedJobSurvivesRelease(fs: FS, root: Path, pid: string, u: string)
    requires PythonUuidHexMatch(u)
    requires AddToQueue(fs, root, u).Success?
    ensures IsRegular(Release(AddToQueue(fs, root, u).value, root, pid, u), Child(QueueDir(root), u))
  {
    assert Child(QueueDir(root), u) != ClaimPath(root, u, pid) by {
      assert ClaimName(u, pid)[|u|] == '.';
    }
  }

  /** A queue of plain marker files, none of them blocked by a directory at its claim name,
      never lets a turn sleep: some job runs. */
  lemma NonEmptyQueueRuns<I>(fs: FS, root: Path, pid: string, listing: seq<string>, c: string,
                             parse: string -> Option<I>, analyse: I -> JobRun)
    requires IsListingOf(fs, QueueDir(root), listing)
    requires DirExists(fs, QueueDir(root))
    requires forall n :: n in listing && PythonUuidHexMatch(n) ==> IsRegular(fs, Child(QueueDir(root), n))
    requires c in listing && PythonUuidHexMatch(c)
    requires !(ClaimPath(root, c, pid) in fs.entries && fs.entries[ClaimPath(root, c, pid)].Dir?)
    ensures Iterate(fs, root, pid, listing, parse, analyse).turn.Ran?
  {
    RegularMarkerIsTaken(fs, root, pid, listing, c);
  }

  /** The cookie rule and the queue filter run the same pattern: the id a visitor is given,
      a kept "<32 hex>\n" cookie included, is once enqueued a candidate of every listing of
      the queue, sitting there as a plain marker file. */
  lemma IssuedIdIsCandidate(fs: FS, root: Path, cookie: Option<string>, generated: string, listing: seq<string>)
    requires IsUuidHex(generated)
    requires AddToQueue(fs, root, ChooseUserIdAsWritten(cookie, generated)).Success?
    requires IsListingOf(AddToQueue(fs, root, ChooseUserIdAsWritten(cookie, generated)).value, QueueDir(root), listing)
    ensures var u := ChooseUserIdAsWritten(cookie, generated);
      && u in Candidates(listing)
      && IsRegular(AddToQueue(fs, root, u).value, Child(QueueDir(root), u))
  {
    var u := ChooseUserIdAsWritten(cookie, generated);
    EnqueuedIsListed(fs, root, u, listing);
  }

  /** The same agreement for the intended pattern on both sides. */
  lemma IssuedIdIsCandidateCorrected(fs: FS, root: Path, cookie: Option<string>, generated: string, listing: seq<string>)
    requires IsUuidHex(generated)
    requires AddToQueue(fs, root, ChooseUserId(cookie, generated)).Success?
    requires IsListingOf(AddToQueue(fs, root, ChooseUserId(cookie, generated)).value, QueueDir(root), listing)
    ensures var u := ChooseUserId(cookie, generated);
      && u in CorrectedCandidates(listing)
      && IsRegular(AddToQueue(fs, root, u).value, Child(QueueDir(root), u))
  {
    var u := ChooseUserId(cookie, generated);
    EnqueuedIsListed(fs, root, u, listing);
  }

  /** An enqueued marker appears in every listing of the queue folder. */
  lemma EnqueuedIsListed(fs: FS, root: Path, u: string, listing: seq<string>)
    requires u != "" && AddToQueue(fs, root, u).Success?
    requires IsListingOf(AddToQueue(fs, root, u).value, QueueDir(root), listing)
    ensures u in listing && IsRegular(AddToQueue(fs, root, u).value, Child(QueueDir(root), u))
  {
    var fs' := AddToQueue(fs, root, u).value;
    var item := Child(QueueDir(root), u);
    assert item in fs'.entries && |item| == |QueueDir(root)| + 1 && item[..|QueueDir(root)|] == QueueDir(root);
    assert u in Children(fs', QueueDir(root));
  }
}

=== FILE: store.dfy ===
/** The atomic per-user file store of app/storage.py: one folder per user id under
    the storage root, reads that clear stray non-regular entries first, and writes
    that go to `<name>.tmp` and are renamed onto `<name>` only on a clean exit. */
module UserStore {
  import opened Base
  import opened Text
  import opened FileSystem

  /** FILE_CODES: the artifact codes callers may ask for and their file names. */
  const FileCodes: map<string, string> :=
    map["input" := "input.json", "percentage" := "percentage", "result" := "result.csv"]

  /** The mode test of `open_user_file`: any of 'w', 'a', '+' selects the writable logic. */
  predicate IsWriteMode(mode: string)
  {
    'w' in mode || 'a' in mode || '+' in mode
  }

  function Folder(root: Path, uid: string): Path { Child(root, uid) }

  function ArtifactPath(root: Path, uid: string, name: string): Path
  {
    Child(Folder(root, uid), name)
  }

  function TmpPath(root: Path, uid: string, name: string): Path
  {
    Child(Folder(root, uid), name + ".tmp")
  }

  const EmptyUserId := AssertionError("user_id cannot be empty")

  /** An open write scope: the temporary file being written and the artifact it replaces. */
  datatype Session = Session(tmp: Path, final: Path)

  datatype Opened = ReadOpened(content: string) | WriteOpened(session: Session)

  // ---------------------------------------------------------------- read path

  /** `_open_user_file_r`: clear a stray directory or link at the artifact, then open it.
      Every failure after the user-id assertion is reported as CannotOpen. */
  function ReadUserFile(fs: FS, root: Path, uid: string, name: string): (r: Effect<string>)
    ensures uid == "" ==> r == Effect(Failure(EmptyUserId), fs)
    ensures uid != "" ==>
      var p := ArtifactPath(root, uid, name);
      && (r.result.Success? <==> IsRegular(fs, p))
      && (r.result.Success? ==> r.result.value == fs.entries[p].content)
      && (r.result.Failure? ==> r.result.error == CannotOpen)
      && r.fs == RemoveIfNotRegular(fs, p)
  {
    if uid == "" then Effect(Failure(EmptyUserId), fs)
    else
      var p := ArtifactPath(root, uid, name);
      var fs1 := RemoveIfNotRegular(fs, p);
      match ReadFile(fs1, p)
      case Success(c) => Effect(Success(c), fs1)
      case Failure(_) => Effect(Failure(CannotOpen), fs1)
  }

  // ---------------------------------------------------------------- write path

  /** `if not folder.is_dir(): folder.mkdir(parents=True)` */
  function EnsureFolder(fs: FS, folder: Path): (r: Result<FS>)
    ensures PrefixesAreDirs(fs, folder) ==> r.Success? && DirExists(r.value, folder)
    ensures r.Failure? ==> r.error.OsError?
    ensures r.Success? ==> forall q :: q in fs.entries ==> Lookup(r.value, q) == Lookup(fs, q)
    ensures r.Success? ==> SameOutside(fs, r.value, folder)
    ensures r.Success? ==> forall q :: q in r.value.entries && q !in fs.entries ==>
      IsPrefix(q, folder) && r.value.entries[q].Dir?
    ensures r.Success? ==> r.value.now >= fs.now && (ClockAhead(fs) ==> ClockAhead(r.value))
  {
    if IsDir(fs, folder) then
      assert PrefixesAreDirs(fs, folder) && folder != [] ==> DirExists(fs, folder) by {
        assert folder[..|folder|] == folder;
      }
      Success(fs)
    else MakeDirs(fs, folder)
  }

  /** The two `_remove_if_not_regular_file` calls of the write path. */
  function ClearStray(fs: FS, p: Path, tmp: Path): (r: FS)
    requires |p| > 0 && |tmp| == |p| && Parent(tmp) == Parent(p) && tmp != p
    ensures !IsSymlink(r, tmp) && !(tmp in r.entries && r.entries[tmp].Dir?)
    ensures IsRegular(fs, p) ==> Lookup(r, p) == Lookup(fs, p)
    ensures !IsRegular(fs, p) ==> p !in r.entries
    ensures DirExists(fs, Parent(p)) ==> DirExists(r, Parent(p))
    ensures forall q :: !IsPrefix(p, q) && !IsPrefix(tmp, q) ==> Lookup(r, q) == Lookup(fs, q)
    ensures r.now == fs.now && (ClockAhead(fs) ==> ClockAhead(r))
  {
    assert !IsPrefix(tmp, p) && !IsPrefix(p, tmp);
    assert !IsPrefix(p, Parent(p)) && !IsPrefix(tmp, Parent(p));
    var fs2 := RemoveIfNotRegular(fs, p);
    RemoveIfNotRegular(fs2, tmp)
  }

  /** Clearing the strays of a freshly ensured folder keeps everything outside the folder
      and keeps the artifact when it is a regular file. */
  lemma ClearStrayInFolder(fs: FS, fs1: FS, root: Path, uid: string, name: string)
    requires uid != "" && name != ""
    requires EnsureFolder(fs, Folder(root, uid)) == Success(fs1)
    ensures var p := ArtifactPath(root, uid, name);
      var fs3 := ClearStray(fs1, p, TmpPath(root, uid, name));
      && SameOutside(fs, fs3, Folder(root, uid))
      && (IsRegular(fs, p) ==> Lookup(fs3, p) == Lookup(fs, p))
      && (!IsRegular(fs, p) ==> p !in fs3.entries)
  {
    var folder := Folder(root, uid);
    var p := ArtifactPath(root, uid, name);
    var tmp := TmpPath(root, uid, name);
    var fs3 := ClearStray(fs1, p, tmp);
    forall q | !IsPrefix(folder, q) && !IsPrefix(q, folder) ensures Lookup(fs3, q) == Lookup(fs, q) {
      assert !IsPrefix(p, q) && !IsPrefix(tmp, q);
    }
    assert IsRegular(fs, p) ==> Lookup(fs1, p) == Lookup(fs, p);
    assert IsRegular(fs1, p) ==> IsRegular(fs, p) by {
      assert !IsPrefix(p, folder);
    }
  }

  /** What opening a write scope leaves: the user folder, a new empty temporary file, and
      the artifact as it was when it was a regular file and gone otherwise. */
  ghost predicate ScopeOpened(fs: FS, fs': FS, root: Path, uid: string, name: string)
  {
    var tmp := TmpPath(root, uid, name);
    var p := ArtifactPath(root, uid, name);
    && DirExists(fs', Folder(root, uid))
    && fs'.now >= 1 && tmp in fs'.entries && fs'.entries[tmp] == File("", fs'.now - 1)
    && (IsRegular(fs, p) ==> Lookup(fs', p) == Lookup(fs, p))
    && (!IsRegular(fs, p) ==> p !in fs'.entries)
  }

  /** `_open_user_file_w.__init__`: create the user folder if it is not a directory, clear
      stray non-regular entries at the artifact and at its temporary file, and open the
      temporary file empty. Every failure after the user-id assertion is CannotSave. */
  function BeginWrite(fs: FS, root: Path, uid: string, name: string): (r: Effect<Session>)
    requires name != ""
    ensures uid == "" ==> r == Effect(Failure(EmptyUserId), fs)
    ensures uid != "" && r.result.Failure? ==> r.result.error == CannotSave
    ensures uid != "" && PrefixesAreDirs(fs, Folder(root, uid)) ==> r.result.Success?
    ensures r.result.Success? ==>
      r.result.value == Session(TmpPath(root, uid, name), ArtifactPath(root, uid, name)) && ScopeOpened(fs, r.fs, root, uid, name)
    ensures SameOutside(fs, r.fs, Folder(root, uid))
    ensures r.fs.now >= fs.now
    ensures ClockAhead(fs) ==> ClockAhead(r.fs)
  {
    if uid == "" then Effect(Failure(EmptyUserId), fs)
    else
      var folder := Folder(root, uid);
      var p := ArtifactPath(root, uid, name);
      var tmp := TmpPath(root, uid, name);
      match EnsureFolder(fs, folder)
      case Failure(_) => Effect(Failure(CannotSave), fs)
      case Success(fs1) => OpenTmp(fs, fs1, root, uid, name)
  }

  /** The part of `_open_user_file_w.__init__` after the folder exists: clear the strays and
      create the empty temporary file. */
  function OpenTmp(fs: FS, fs1: FS, root: Path, uid: string, name: string): (r: Effect<Session>)
    requires uid != "" && name != ""
    requires EnsureFolder(fs, Folder(root, uid)) == Success(fs1)
    ensures r.result.Failure? ==> r.result.error == CannotSave
    ensures DirExists(fs1, Folder(root, uid)) ==> r.result.Success?
    ensures r.result.Success? ==>
      r.result.value == Session(TmpPath(root, uid, name), ArtifactPath(root, uid, name)) && ScopeOpened(fs, r.fs, root, uid, name)
    ensures SameOutside(fs, r.fs, Folder(root, uid))
    ensures r.fs.now >= fs.now
    ensures ClockAhead(fs) ==> ClockAhead(r.fs)
  {
    var p := ArtifactPath(root, uid, name);
    var tmp := TmpPath(root, uid, name);
    var fs3 := ClearStray(fs1, p, tmp);
    CreatedTmp(fs, fs1, root, uid, name);
    match CreateEmpty(fs3, tmp)
    case Failure(_) => Effect(Failure(CannotSave), fs3)
    case Success((fs4, t)) => Effect(Success(Session(tmp, p)), fs4)
  }

  /** The temporary file created in a prepared folder is empty and new, sits next to the
      artifact, and leaves the rest of the tree alone. */
  lemma CreatedTmp(fs: FS, fs1: FS, root: Path, uid: string, name: string)
    requires uid != "" && name != ""
    requires EnsureFolder(fs, Folder(root, uid)) == Success(fs1)
    ensures var fs3 := ClearStray(fs1, ArtifactPath(root, uid, name), TmpPath(root, uid, name));
      var c := CreateEmpty(fs3, TmpPath(root, uid, name));
      && SameOutside(fs, fs3, Folder(root, uid))
      && fs3.now >= fs.now && (ClockAhead(fs) ==> ClockAhead(fs3))
      && (DirExists(fs1, Folder(root, uid)) ==> c.Success?)
      && (c.Success? ==>
            && ScopeOpened(fs, c.value.0, root, uid, name)
            && SameOutside(fs, c.value.0, Folder(root, uid))
            && c.value.0.now >= fs.now
            && (ClockAhead(fs) ==> ClockAhead(c.value.0)))
  {
    var folder := Folder(root, uid);
    var p := ArtifactPath(root, uid, name);
    var tmp := TmpPath(root, uid, name);
    var fs3 := ClearStray(fs1, p, tmp);
    ClearStrayInFolder(fs, fs1, root, uid, name);
    if CreateEmpty(fs3, tmp).Success? {
      CreateTmpIn(fs, fs3, root, uid, name);
    }
  }

  /** Creating the empty temporary file once the strays are cleared opens the scope. */
  lemma CreateTmpIn(fs: FS, fs3: FS, root: Path, uid: string, name: string)
    requires uid != "" && name != ""
    requires var p := ArtifactPath(root, uid, name);
      && SameOutside(fs, fs3, Folder(root, uid))
      && (IsRegular(fs, p) ==> Lookup(fs3, p) == Lookup(fs, p))
      && (!IsRegular(fs, p) ==> p !in fs3.entries)
    requires !IsSymlink(fs3, TmpPath(root, uid, name)) && CreateEmpty(fs3, TmpPath(root, uid, name)).Success?
    ensures var fs4 := CreateEmpty(fs3, TmpPath(root, uid, name)).value.0;
      && ScopeOpened(fs, fs4, root, uid, name)
      && SameOutside(fs, fs4, Folder(root, uid))
      && fs4.now == fs3.now + 1
      && (ClockAhead(fs3) ==> ClockAhead(fs4))
  {
    var folder := Folder(root, uid);
    var p := ArtifactPath(root, uid, name);
    var tmp := TmpPath(root, uid, name);
    var fs4 := CreateEmpty(fs3, tmp).value.0;
    assert SameOutside(fs3, fs4, folder) by {
      assert !IsPrefix(tmp, folder);
    }
    SameOutsideTrans(fs, fs3, fs4, folder);
    assert Lookup(fs4, p) == Lookup(fs3, p);
  }

  /** Opening a write scope, whether it succeeds or fails half-way, does not change what a
      reader of the artifact gets. */
  lemma BeginWriteKeepsRead(fs: FS, root: Path, uid: string, name: string)
    requires name != ""
    ensures ReadUserFile(BeginWrite(fs, root, uid, name).fs, root, uid, name).result
         == ReadUserFile(fs, root, uid, name).result
  {
    if uid != "" {
      var folder := Folder(root, uid);
      var p := ArtifactPath(root, uid, name);
      var tmp := TmpPath(root, uid, name);
      if EnsureFolder(fs, folder).Success? {
        var fs1 := EnsureFolder(fs, folder).value;
        var fs3 := ClearStray(fs1, p, tmp);
        assert IsRegular(fs1, p) ==> IsRegular(fs, p) by {
          assert !IsPrefix(p, folder);
        }
        assert IsRegular(fs3, p) <==> IsRegular(fs, p);
        if CreateEmpty(fs3, tmp).Success? {
          var fs4 := CreateEmpty(fs3, tmp).value.0;
          assert Lookup(fs4, p) == Lookup(fs3, p);
        }
      }
    }
  }

  /** Opening a write scope touches nothing but the artifact, its temporary file and the
      directories it creates on the way to the user folder. */
  lemma BeginWriteChangesOnly(fs: FS, root: Path, uid: string, name: string)
    requires name != ""
    ensures ChangesOnly(fs, BeginWrite(fs, root, uid, name).fs,
                        ArtifactPath(root, uid, name), TmpPath(root, uid, name), Folder(root, uid))
  {
    if uid != "" {
      var folder := Folder(root, uid);
      var p := ArtifactPath(root, uid, name);
      var tmp := TmpPath(root, uid, name);
      if EnsureFolder(fs, folder).Success? {
        var fs1 := EnsureFolder(fs, folder).value;
        var fs3 := ClearStray(fs1, p, tmp);
        assert ChangesOnly(fs, fs1, p, tmp, folder);
        assert ChangesOnly(fs1, fs3, p, tmp, folder) by {
          forall q | !IsPrefix(p, q) && !IsPrefix(tmp, q) && q in fs3.entries ensures q in fs1.entries {
            assert Lookup(fs3, q) == Lookup(fs1, q);
          }
        }
        ChangesOnlyTrans(fs, fs1, fs3, p, tmp, folder);
        if CreateEmpty(fs3, tmp).Success? {
          var fs4 := CreateEmpty(fs3, tmp).value.0;
          assert ChangesOnly(fs3, fs4, p, tmp, folder) by {
            assert IsPrefix(tmp, tmp);
          }
          ChangesOnlyTrans(fs, fs3, fs4, p, tmp, folder);
        }
      }
    }
  }

  /** `f.write(text)` inside a write scope: the text goes to the temporary file. */
  function WriteChunk(fs: FS, s: Session, text: string): Result<FS>
  {
    Append(fs, s.tmp, text)
  }

  /** `_open_user_file_w.__exit__`: on a clean exit the temporary file is renamed onto the
      artifact (an error of that rename is raised as it is, not as CannotSave); on an
      exceptional exit nothing happens and the temporary file stays behind. */
  function EndWrite(fs: FS, s: Session, clean: bool): (r: Result<FS>)
    ensures !clean ==> r == Success(fs)
    ensures clean && r.Failure? ==> r.error.OsError?
    ensures clean && r.Success? && s.tmp != s.final ==>
      Lookup(r.value, s.final) == Lookup(fs, s.tmp) && s.tmp !in r.value.entries
  {
    if clean then Rename(fs, s.tmp, s.final) else Success(fs)
  }

  // ---------------------------------------------------------------- dispatch

  /** `open_user_file(user_id, file_code, mode)`. */
  function OpenUserFile(fs: FS, root: Path, uid: string, code: string, mode: string): (r: Effect<Opened>)
    ensures code !in FileCodes ==> r == Effect(Failure(AssertionError("")), fs)
    ensures code in FileCodes && IsWriteMode(mode) ==>
      var w := BeginWrite(fs, root, uid, FileCodes[code]);
      r.fs == w.fs && (r.result.Success? <==> w.result.Success?)
      && (r.result.Success? ==> r.result.value == WriteOpened(w.result.value))
    ensures code in FileCodes && !IsWriteMode(mode) ==>
      var rd := ReadUserFile(fs, root, uid, FileCodes[code]);
      r.fs == rd.fs && (r.result.Success? <==> rd.result.Success?)
      && (r.result.Success? ==> r.result.value == ReadOpened(rd.result.value))
    ensures uid == "" ==> r.result.Failure? && r.result.error.AssertionError?
  {
    if code !in FileCodes then Effect(Failure(AssertionError("")), fs)
    else if IsWriteMode(mode) then
      var w := BeginWrite(fs, root, uid, FileCodes[code]);
      match w.result
      case Success(s) => Effect(Success(WriteOpened(s)), w.fs)
      case Failure(e) => Effect(Failure(e), w.fs)
    else
      var rd := ReadUserFile(fs, root, uid, FileCodes[code]);
      match rd.result
      case Success(c) => Effect(Success(ReadOpened(c)), rd.fs)
      case Failure(e) => Effect(Failure(e), rd.fs)
  }

  /** `with open_user_file(uid, code, mode='w') as f: f.write(text)`. */
  function WriteArtifact(fs: FS, root: Path, uid: string, name: string, text: string): (r: Effect<()>)
    requires name != ""
    ensures uid == "" ==> r == Effect(Failure(EmptyUserId), fs)
    ensures uid != "" && r.result.Failure? ==> r.result.error == CannotSave || r.result.error.OsError?
    ensures ChangesOnly(fs, r.fs, ArtifactPath(root, uid, name), TmpPath(root, uid, name), Folder(root, uid))
    ensures r.fs.now >= fs.now
  {
    var b := BeginWrite(fs, root, uid, name);
    BeginWriteChangesOnly(fs, root, uid, name);
    match b.result
    case Failure(e) => Effect(Failure(e), b.fs)
    case Success(s) =>
      match WriteChunk(b.fs, s, text)
      case Failure(e) => Effect(Failure(e), b.fs)
      case Success(fs1) =>
        ChunkChangesOnly(b.fs, s, text, Folder(root, uid));
        ChangesOnlyTrans(fs, b.fs, fs1, s.final, s.tmp, Folder(root, uid));
        match EndWrite(fs1, s, true)
        case Failure(e) => Effect(Failure(e), fs1)
        case Success(fs2) =>
          EndChangesOnly(fs1, s, Folder(root, uid));
          ChangesOnlyTrans(fs, fs1, fs2, s.final, s.tmp, Folder(root, uid));
          Effect(Success(()), fs2)
  }

  /** Writing to the temporary file touches nothing outside it. */
  lemma ChunkChangesOnly(fs: FS, s: Session, text: string, along: Path)
    requires WriteChunk(fs, s, text).Success?
    ensures ChangesOnly(fs, WriteChunk(fs, s, text).value, s.final, s.tmp, along)
  {
    assert IsPrefix(s.tmp, s.tmp);
  }

  /** Closing a write scope touches nothing outside the temporary file and the artifact. */
  lemma EndChangesOnly(fs: FS, s: Session, along: Path)
    requires EndWrite(fs, s, true).Success?
    ensures ChangesOnly(fs, EndWrite(fs, s, true).value, s.final, s.tmp, along)
  {
    assert IsPrefix(s.tmp, s.tmp) && IsPrefix(s.final, s.final);
  }

  // ---------------------------------------------------------------- properties

  /** A clean exit from a write scope whose temporary file is still a regular file installs
      exactly that file at the artifact path; the rename cannot fail in a sequential run. */
  lemma CleanExitInstalls(fs: FS, s: Session)
    requires IsRegular(fs, s.tmp) && s.tmp != s.final
    requires |s.final| > 0 && DirExists(fs, Parent(s.final))
    requires !(s.final in fs.entries && fs.entries[s.final].Dir?)
    ensures EndWrite(fs, s, true).Success?
    ensures IsRegular(EndWrite(fs, s, true).value, s.final)
    ensures EndWrite(fs, s, true).value.entries[s.final].content == fs.entries[s.tmp].content
  {
  }

  /** Round trip: after a successful write of `text`, reading the artifact yields exactly
      `text`, whatever was there before (including nothing, or a stray directory or link). */
  lemma WriteThenRead(fs: FS, root: Path, uid: string, name: string, text: string)
    requires name != ""
    requires WriteArtifact(fs, root, uid, name, text).result.Success?
    ensures ReadUserFile(WriteArtifact(fs, root, uid, name, text).fs, root, uid, name).result == Success(text)
  {
    var b := BeginWrite(fs, root, uid, name);
    var s := b.result.value;
    var fs1 := WriteChunk(b.fs, s, text).value;
    assert IsRegular(fs1, s.tmp) && fs1.entries[s.tmp].content == text;
    var fs2 := EndWrite(fs1, s, true).value;
    assert Lookup(fs2, s.final) == Lookup(fs1, s.tmp);
  }

  /** The write path never fails once the user folder can be made: a non-empty user id and
      no non-directory on the way to the folder are enough for the write to be installed. */
  lemma WriteSucceeds(fs: FS, root: Path, uid: string, name: string, text: string)
    requires name != "" && uid != ""
    requires PrefixesAreDirs(fs, Folder(root, uid))
    ensures WriteArtifact(fs, root, uid, name, text).result.Success?
  {
    var b := BeginWrite(fs, root, uid, name);
    var s := b.result.value;
    var fs1 := WriteChunk(b.fs, s, text).value;
    assert Lookup(fs1, s.final) == Lookup(b.fs, s.final);
    CleanExitInstalls(fs1, s);
  }

  /** Crash safety: a write scope left by an exception keeps what a reader of the artifact
      sees (the previous content, or CannotOpen), and leaves the temporary file behind. */
  lemma AbortKeepsPreviousRead(fs: FS, root: Path, uid: string, name: string, text: string)
    requires name != ""
    requires BeginWrite(fs, root, uid, name).result.Success?
    ensures var b := BeginWrite(fs, root, uid, name);
      var fs1 := WriteChunk(b.fs, b.result.value, text).value;
      && EndWrite(fs1, b.result.value, false) == Success(fs1)
      && ReadUserFile(fs1, root, uid, name).result == ReadUserFile(fs, root, uid, name).result
      && IsRegular(fs1, TmpPath(root, uid, name))
      && fs1.entries[TmpPath(root, uid, name)].content == text
  {
    var b := BeginWrite(fs, root, uid, name);
    var s := b.result.value;
    var p := ArtifactPath(root, uid, name);
    var fs1 := WriteChunk(b.fs, s, text).value;
    assert Lookup(fs1, p) == Lookup(b.fs, p);
  }
}

=== FILE: tension.dfy ===
/** The decision logic of app/tension_analysis_worker/process.py: question-type bucketing,
    the answer-length statistics per bucket, the booster test, the tension rule, the rows of
    the result table and the progress reports. Sentence splitting, word counting, the
    emotion model and the hedge classifier are foreign; they come in as an `Nlp` value. */
module Tension {
  import opened Base
  import opened Text
  import opened FileSystem
  import opened UserStore
  import opened Worker
  import Csv

  const QuesTypes: seq<string> := ["what", "when", "where", "who", "why", "how", "yesno", "mixed"]

  /** The wh-words of the question test (line 144 lists them again, without the last two). */
  const WhWords: seq<string> := ["what", "when", "where", "who", "why", "how"]

  datatype Pair = Pair(question: string, answer: string)

  /** The foreign collaborators: `sent_tokenize`, `len(word_tokenize(.))`,
      `get_emotion(.) == "negative"` and `is_hedged_sentence`. */
  datatype Nlp = Nlp(
    sentences: string -> seq<string>,
    wordCount: string -> nat,
    negative: string -> bool,
    hedged: string -> bool)

  // ---------------------------------------------------------------- bucketing

  /** `for type in QUES_TYPES: if type in ques: counter += 1; found_type = type` */
  function ScanTypes(types: seq<string>, ques: string, counter: nat, found: string): (r: (nat, string))
    decreases |types|
  {
    if types == [] then (counter, found)
    else if Has(ques, types[0]) then ScanTypes(types[1..], ques, counter + 1, types[0])
    else ScanTypes(types[1..], ques, counter, found)
  }

  /** The types occurring in `ques`, in list order: the reference the scan is measured against. */
  function Matches(types: seq<string>, ques: string): (m: seq<string>)
    ensures forall t :: t in m <==> t in types && Contains(ques, t)
    ensures |m| <= |types|
  {
    if types == [] then []
    else (if Has(ques, types[0]) then [types[0]] else []) + Matches(types[1..], ques)
  }

  predicate Distinct(xs: seq<string>)
  {
    forall i, j :: 0 <= i < j < |xs| ==> xs[i] != xs[j]
  }

  /** The scan counts the matching types and remembers the last of them. */
  lemma {:induction false} ScanCountsMatches(types: seq<string>, ques: string, counter: nat, found: string)
    ensures var m := Matches(types, ques);
      ScanTypes(types, ques, counter, found) == (counter + |m|, if m == [] then found else m[|m| - 1])
    decreases |types|
  {
    if types != [] {
      ScanCountsMatches(types[1..], ques, if Has(ques, types[0]) then counter + 1 else counter,
                        if Has(ques, types[0]) then types[0] else found);
    }
  }

  lemma {:induction false} MatchesDistinct(types: seq<string>, ques: string)
    requires Distinct(types)
    ensures Distinct(Matches(types, ques))
    decreases |types|
  {
    if types != [] {
      MatchesDistinct(types[1..], ques);
      assert types[0] !in types[1..] by {
        forall j | 0 <= j < |types[1..]| ensures types[1..][j] != types[0] {
          assert types[1..][j] == types[j + 1];
        }
      }
    }
  }

  /** The bucket of a question: "yesno" when no type occurs in the lower-cased question, the
      type itself when exactly one does, "mixed" when several do. */
  function Bucket(question: string): (b: string)
    ensures b in QuesTypes
  {
    ScanCountsMatches(QuesTypes, Lower(question), 0, "");
    Classify(QuesTypes, Lower(question))
  }

  /** The bucketing against any list of types that ends with the two default names. */
  function Classify(types: seq<string>, q: string): string
  {
    var (counter, found) := ScanTypes(types, q, 0, "");
    if counter == 0 then "yesno" else if counter == 1 then found else "mixed"
  }

  /** The three cases of the bucketing, stated over the types that occur in the question. */
  lemma BucketNoType(question: string)
    requires forall t :: t in QuesTypes ==> !Contains(Lower(question), t)
    ensures Bucket(question) == "yesno"
  {
    ScanCountsMatches(QuesTypes, Lower(question), 0, "");
    NoMatch(QuesTypes, Lower(question));
  }

  lemma BucketOneType(question: string, t: string)
    requires t in QuesTypes && Contains(Lower(question), t)
    requires forall t' :: t' in QuesTypes && t' != t ==> !Contains(Lower(question), t')
    ensures Bucket(question) == t
  {
    QuesTypesDistinct();
    ClassifyOne(QuesTypes, Lower(question), t);
  }

  lemma BucketSeveralTypes(question: string, t1: string, t2: string)
    requires t1 in QuesTypes && t2 in QuesTypes && t1 != t2
    requires Contains(Lower(question), t1) && Contains(Lower(question), t2)
    ensures Bucket(question) == "mixed"
  {
    ClassifySeveral(QuesTypes, Lower(question), t1, t2);
  }

  lemma QuesTypesDistinct()
    ensures Distinct(QuesTypes)
  {
  }

  lemma ClassifyOne(types: seq<string>, q: string, t: string)
    requires Distinct(types) && t in types && Contains(q, t)
    requires forall x :: x in types && x != t ==> !Contains(q, x)
    ensures Classify(types, q) == t
  {
    ScanCountsMatches(types, q, 0, "");
    OnlyMatch(types, q, t);
  }

  lemma ClassifySeveral(types: seq<string>, q: string, t1: string, t2: string)
    requires t1 in types && t2 in types && t1 != t2 && Contains(q, t1) && Contains(q, t2)
    ensures Classify(types, q) == "mixed"
  {
    ScanCountsMatches(types, q, 0, "");
    TwoMatches(types, q, t1, t2);
  }

  lemma TwoMatches(types: seq<string>, q: string, t1: string, t2: string)
    requires t1 in types && t2 in types && t1 != t2 && Contains(q, t1) && Contains(q, t2)
    ensures |Matches(types, q)| >= 2
  {
    var m := Matches(types, q);
    assert t1 in m && t2 in m;
  }

  /** Exactly one type occurs: it is the only match. */
  lemma {:induction false} OnlyMatch(types: seq<string>, q: string, t: string)
    requires Distinct(types) && t in types && Contains(q, t)
    requires forall x :: x in types && x != t ==> !Contains(q, x)
    ensures Matches(types, q) == [t]
    decreases |types|
  {
    if types[0] == t {
      forall x | x in types[1..] ensures !Contains(q, x) {
        var j :| 0 <= j < |types[1..]| && types[1..][j] == x;
        assert types[j + 1] == x;
      }
      NoMatch(types[1..], q);
    } else {
      OnlyMatch(types[1..], q, t);
    }
  }

  lemma NoMatch(types: seq<string>, q: string)
    requires forall x :: x in types ==> !Contains(q, x)
    ensures Matches(types, q) == []
  {
  }

  // ---------------------------------------------------------------- statistics

  /** The answer lengths of the pairs whose question `key` sends to `k`, in input order. */
  function Column(pairs: seq<Pair>, nlp: Nlp, key: string -> string, k: string): seq<nat>
  {
    if pairs == [] then []
    else (if key(pairs[0].question) == k then [nlp.wordCount(Lower(pairs[0].answer))] else [])
         + Column(pairs[1..], nlp, key, k)
  }

  /** `d`: one list per type, all empty. */
  function EmptyGroups(): (d: map<string, seq<nat>>)
    ensures forall t :: t in d <==> t in QuesTypes
  {
    map t | t in QuesTypes :: []
  }

  /** The list kept under `k`, empty when there is none. */
  function Get(d: map<string, seq<nat>>, k: string): seq<nat>
  {
    if k in d then d[k] else []
  }

  /** The first loop of `ques_statistics`: each pair appends its answer length to the list of
      its question's bucket (`key` is the bucketing function). */
  function GroupFrom(pairs: seq<Pair>, nlp: Nlp, key: string -> string, d: map<string, seq<nat>>)
    : map<string, seq<nat>>
    decreases |pairs|
  {
    if pairs == [] then d
    else
      var k := key(pairs[0].question);
      GroupFrom(pairs[1..], nlp, key, d[k := Get(d, k) + [nlp.wordCount(Lower(pairs[0].answer))]])
  }

  function Groups(pairs: seq<Pair>, nlp: Nlp): map<string, seq<nat>>
  {
    GroupFrom(pairs, nlp, Bucket, EmptyGroups())
  }

  lemma {:induction false} GroupFromColumns(pairs: seq<Pair>, nlp: Nlp, key: string -> string,
                                            d: map<string, seq<nat>>, k: string)
    ensures Get(GroupFrom(pairs, nlp, key, d), k) == Get(d, k) + Column(pairs, nlp, key, k)
    decreases |pairs|
  {
    if pairs != [] {
      var b := key(pairs[0].question);
      var len := nlp.wordCount(Lower(pairs[0].answer));
      var d' := d[b := Get(d, b) + [len]];
      var c0: seq<nat> := if b == k then [len] else [];
      var x := Column(pairs[1..], nlp, key, k);
      assert GroupFrom(pairs, nlp, key, d) == GroupFrom(pairs[1..], nlp, key, d');
      assert Column(pairs, nlp, key, k) == c0 + x;
      assert Get(d', k) == Get(d, k) + c0;
      GroupFromColumns(pairs[1..], nlp, key, d', k);
      ConcatAssoc(Get(d, k), c0, x);
    }
  }

  /** The grouping never adds a key outside the question types, so starting from one list
      per type, the keys stay exactly the types. */
  lemma {:induction false} GroupFromKeys(pairs: seq<Pair>, nlp: Nlp, key: string -> string,
                                         d: map<string, seq<nat>>)
    requires forall q :: key(q) in QuesTypes
    requires forall t :: t in d <==> t in QuesTypes
    ensures forall t :: t in GroupFrom(pairs, nlp, key, d) <==> t in QuesTypes
    decreases |pairs|
  {
    if pairs != [] {
      var b := key(pairs[0].question);
      GroupFromKeys(pairs[1..], nlp, key, d[b := Get(d, b) + [nlp.wordCount(Lower(pairs[0].answer))]]);
    }
  }

  lemma BucketIsType()
    ensures forall q :: Bucket(q) in QuesTypes
  {
    forall q ensures Bucket(q) in QuesTypes {
      var b := Bucket(q);
    }
  }

  /** Every type has an entry, and the entry of `k` lists the answer lengths of exactly the
      pairs bucketed to `k`, in input order. */
  lemma GroupsAreColumns(pairs: seq<Pair>, nlp: Nlp)
    ensures forall t :: t in Groups(pairs, nlp) <==> t in QuesTypes
    ensures forall k :: k in QuesTypes ==> Groups(pairs, nlp)[k] == Column(pairs, nlp, Bucket, k)
  {
    BucketIsType();
    GroupFromKeys(pairs, nlp, Bucket, EmptyGroups());
    forall k | k in QuesTypes ensures Groups(pairs, nlp)[k] == Column(pairs, nlp, Bucket, k) {
      GroupFromColumns(pairs, nlp, Bucket, EmptyGroups(), k);
    }
  }

  /** The sum of the column sizes over a list of keys. */
  function ColumnSizes(pairs: seq<Pair>, nlp: Nlp, key: string -> string, keys: seq<string>): nat
  {
    if keys == [] then 0 else |Column(pairs, nlp, key, keys[0])| + ColumnSizes(pairs, nlp, key, keys[1..])
  }

  lemma {:induction false} ColumnSizesStep(pairs: seq<Pair>, nlp: Nlp, key: string -> string, keys: seq<string>)
    requires pairs != [] && Distinct(keys)
    ensures ColumnSizes(pairs, nlp, key, keys)
         == ColumnSizes(pairs[1..], nlp, key, keys) + (if key(pairs[0].question) in keys then 1 else 0)
    decreases |keys|
  {
    if keys != [] {
      assert Distinct(keys[1..]) by {
        forall i, j | 0 <= i < j < |keys[1..]| ensures keys[1..][i] != keys[1..][j] {
          assert keys[1..][i] == keys[i + 1] && keys[1..][j] == keys[j + 1];
        }
      }
      ColumnSizesStep(pairs, nlp, key, keys[1..]);
      var b := key(pairs[0].question);
      if b == keys[0] {
        assert b !in keys[1..] by {
          forall j | 0 <= j < |keys[1..]| ensures keys[1..][j] != b {
            assert keys[1..][j] == keys[j + 1];
          }
        }
      } else {
        assert b in keys <==> b in keys[1..] by {
          assert keys == [keys[0]] + keys[1..];
        }
      }
    }
  }

  lemma {:induction false} ColumnSizesEmpty(nlp: Nlp, key: string -> string, keys: seq<string>)
    ensures ColumnSizes([], nlp, key, keys) == 0
    decreases |keys|
  {
    if keys != [] {
      ColumnSizesEmpty(nlp, key, keys[1..]);
    }
  }

  /** Every pair lands in exactly one bucket: the buckets' sizes add up to the number of pairs. */
  lemma {:induction false} BucketsPartitionPairs(pairs: seq<Pair>, nlp: Nlp)
    ensures ColumnSizes(pairs, nlp, Bucket, QuesTypes) == |pairs|
    decreases |pairs|
  {
    if pairs == [] {
      ColumnSizesEmpty(nlp, Bucket, QuesTypes);
    } else {
      QuesTypesDistinct();
      ColumnSizesStep(pairs, nlp, Bucket, QuesTypes);
      BucketsPartitionPairs(pairs[1..], nlp);
      var b := Bucket(pairs[0].question);
    }
  }

  /** The count, sum and sum of squares of a list of lengths: what `np.mean` and `np.std`
      are computed from. */
  datatype Moments = Moments(count: nat, sum: nat, squares: nat)

  function MomentsOf(g: seq<nat>): (m: Moments)
    ensures m.count == |g|
  {
    if g == [] then Moments(0, 0, 0)
    else
      var m := MomentsOf(g[1..]);
      Moments(m.count + 1, m.sum + g[0], m.squares + g[0] * g[0])
  }

  /** `ques_statistics(pairs)`, with each bucket's mean and standard deviation kept exactly as
      the moments they are computed from. */
  function QuesStatistics(pairs: seq<Pair>, nlp: Nlp): (stats: map<string, Moments>)
    ensures forall t :: t in stats <==> t in QuesTypes
  {
    var d := Groups(pairs, nlp);
    GroupsAreColumns(pairs, nlp);
    map t | t in QuesTypes :: MomentsOf(d[t])
  }

  /** The bucket mean; an empty bucket has mean 0 (lines 80-82). */
  function Mean(m: Moments): real
  {
    if m.count == 0 then 0.0 else m.sum as real / m.count as real
  }

  /** The square of `np.std` (population variance); 0 for an empty bucket. */
  function Variance(m: Moments): real
  {
    if m.count == 0 then 0.0 else m.squares as real / m.count as real - Mean(m) * Mean(m)
  }

  /** `number_of_words > mean + 3 * std or number_of_words < mean - 3 * std`, decided with
      integers: for a non-empty bucket of size c, sum S and sum of squares Q it is
      (c*n - S)^2 > 9*(c*Q - S^2). */
  predicate IsOutlier(n: nat, m: Moments)
  {
    if m.count == 0 then n != 0
    else
      var c := m.count as int;
      (c * n - m.sum) * (c * n - m.sum) > 9 * (c * m.squares - m.sum * m.sum)
  }

  /** `x` lies more than three standard deviations away, on either side, exactly when its
      square exceeds nine variances. */
  lemma ThreeSigma(x: real, sd: real)
    requires sd >= 0.0
    ensures (x > 3.0 * sd || x < -3.0 * sd) <==> x * x > 9.0 * (sd * sd)
  {
    var t := 3.0 * sd;
    assert 9.0 * (sd * sd) == t * t;
    if x > t {
      MulMono(x, x, t);
    } else if x < -t {
      assert x * x == (-x) * (-x);
      MulMono(-x, -x, t);
    } else {
      assert -t <= x <= t;
      if x >= 0.0 {
        assert x * x <= t * x <= t * t;
      } else {
        assert x * x == (-x) * (-x);
        assert (-x) * (-x) <= t * (-x) <= t * t;
      }
    }
  }

  /** The integer outlier test is the test of line 167: with `mean` and `std` the bucket's
      mean and (population) standard deviation, the answer length lies above
      `mean + 3 * std` or below `mean - 3 * std`. */
  lemma {:induction false} OutlierIsThreeSigma(n: nat, m: Moments, sd: real)
    requires sd >= 0.0 && sd * sd == Variance(m)
    ensures IsOutlier(n, m) <==> (n as real > Mean(m) + 3.0 * sd || n as real < Mean(m) - 3.0 * sd)
  {
    var x := n as real - Mean(m);
    ThreeSigma(x, sd);
    assert (n as real > Mean(m) + 3.0 * sd || n as real < Mean(m) - 3.0 * sd)
       <==> (x > 3.0 * sd || x < -3.0 * sd);
    if m.count != 0 {
      var c := m.count as real;
      var S := m.sum as real;
      var Q := m.squares as real;
      var ci := m.count as int;
      var d := ci * n - m.sum;
      var e := ci * m.squares - m.sum * m.sum;
      assert c > 0.0;
      assert Mean(m) == S / c;
      assert x * c == d as real by {
        assert x * c == n as real * c - (S / c) * c;
        assert (S / c) * c == S;
      }
      assert 9.0 * (sd * sd) * (c * c) == 9.0 * e as real by {
        assert sd * sd == Q / c - (S / c) * (S / c);
        assert (Q / c) * (c * c) == Q * c;
        assert ((S / c) * (S / c)) * (c * c) == S * S;
        assert (Q / c - (S / c) * (S / c)) * (c * c) == Q * c - S * S;
        assert e as real == c * Q - S * S;
      }
      assert (x * c) * (x * c) == (x * x) * (c * c);
      assert (d * d) as real == (d as real) * (d as real);
      ScaleByPositive(x * x, 9.0 * (sd * sd), c * c);
    }
  }

  /** Squaring is strictly monotone on the non-negative reals. */
  lemma MulMono(a: real, b: real, t: real)
    requires a == b && a > t >= 0.0
    ensures a * b > t * t
  {
    assert a * b - t * t == (a - t) * (a + t);
    MulPositive(a - t, a + t);
  }

  lemma MulPositive(p: real, q: real)
    requires p > 0.0 && q > 0.0
    ensures p * q > 0.0
  {
  }

  lemma ScaleByPositive(a: real, b: real, k: real)
    requires k > 0.0
    ensures a > b <==> a * k > b * k
  {
    if a > b {
      assert (a - b) * k > 0.0;
    } else {
      assert (b - a) * k >= 0.0;
    }
  }

  // ---------------------------------------------------------------- boosting

  /** The word `is_boosting` reads as previous to the first whole-word occurrence of `w`:
      `list_of_words[list_of_words.index(word) - 1]`, where index 0 wraps to the last word;
      "" when `w` is not one of the words. */
  function PreviousWord(ws: seq<string>, w: string): string
  {
    match IndexOf(ws, w)
    case None => ""
    case Some(i) => if i == 0 then ws[|ws| - 1] else ws[i - 1]
  }

  predicate Negated(s: string, w: string)
  {
    PreviousWord(Split(s), w) == "not" || PreviousWord(Split(s), w) == "without"
  }

  /** `is_boosting(s)`: the first booster occurring in `s` (as a substring) decides; it boosts
      unless the word before it is "not" or "without". `None` is the function falling off
      its end when no booster occurs. */
  function IsBoosting(s: string, boosters: seq<string>): (r: Option<bool>)
    ensures r.None? <==> forall j :: 0 <= j < |boosters| ==> !Contains(s, boosters[j])
  {
    if boosters == [] then None
    else if Has(s, boosters[0]) then Some(!Negated(s, boosters[0]))
    else
      var r := IsBoosting(s, boosters[1..]);
      assert forall j :: 1 <= j < |boosters| ==> boosters[j] == boosters[1..][j - 1];
      r
  }

  /** The verdict is the one of the first booster occurring in `s`; later boosters are never
      looked at. */
  lemma {:induction false} FirstBoosterDecides(s: string, boosters: seq<string>, j: nat)
    requires j < |boosters| && Contains(s, boosters[j])
    requires forall i :: 0 <= i < j ==> !Contains(s, boosters[i])
    ensures IsBoosting(s, boosters) == Some(!Negated(s, boosters[j]))
    decreases j
  {
    if j > 0 {
      assert !Contains(s, boosters[0]);
      FirstBoosterDecides(s, boosters[1..], j - 1);
    }
  }

  /** A booster occurring inside a longer word has no word before it: it boosts. */
  lemma BoosterInsideWordBoosts(s: string, boosters: seq<string>, j: nat)
    requires j < |boosters| && Contains(s, boosters[j])
    requires forall i :: 0 <= i < j ==> !Contains(s, boosters[i])
    requires boosters[j] !in Split(s)
    ensures IsBoosting(s, boosters) == Some(true)
  {
    FirstBoosterDecides(s, boosters, j);
  }

  /** An empty booster occurs in every sentence and is never a word: a booster list that
      starts with "" marks every sentence as boosting. */
  lemma EmptyBoosterBoostsEverything(s: string, boosters: seq<string>)
    requires boosters != [] && boosters[0] == ""
    ensures IsBoosting(s, boosters) == Some(true)
  {
    assert OccursAt(s, "", 0);
    var ws := Split(s);
    assert "" !in ws by {
      forall k | 0 <= k < |ws| ensures ws[k] != "" {
        assert |ws[k]| > 0;
      }
    }
    FirstBoosterDecides(s, boosters, 0);
  }

  /** A word is a non-empty run of non-space characters. */
  predicate IsWord(w: string)
  {
    w != [] && forall i :: 0 <= i < |w| ==> !IsSpace(w[i])
  }

  /** A booster preceded by "not" does not boost: "not so" is not boosting. */
  lemma NegatedBoosterDoesNotBoost(b: string)
    requires IsWord(b)
    ensures IsBoosting("not " + b, [b]) == Some(false)
  {
    var s := "not " + b;
    SplitNotWord(b);
    PreviousOfSecond(b);
    assert Contains(s, b) by {
      assert s[4..4 + |b|] == b;
      assert OccursAt(s, b, 4);
    }
    FirstBoosterDecides(s, [b], 0);
  }

  lemma SplitNotWord(b: string)
    requires IsWord(b)
    ensures Split("not " + b) == ["not", b]
  {
    var s := "not " + b;
    assert s == "not" + (" " + b);
    SplitWordThen("not", " " + b);
    SplitLeadingSpace(' ', b);
    assert b == b + "";
    SplitWordThen(b, "");
  }

  /** Whatever the second of two words is, the word read as before it is the first. */
  lemma PreviousOfSecond(b: string)
    ensures PreviousWord(["not", b], b) == "not"
  {
    var ws := ["not", b];
    if b != "not" {
      assert IndexOf(ws[1..], b) == Some(0);
      assert IndexOf(ws, b) == Some(1);
    }
  }

  /** The index -1 of Python: a booster that is the first word is judged by the sentence's
      last word, so a sentence ending in "not" cancels a booster at its start: "so not" is
      not boosting. */
  lemma {:induction false} WrapAroundDoesNotBoost(b: string)
    requires IsWord(b)
    ensures IsBoosting(b + " not", [b]) == Some(false)
  {
    var s := b + " not";
    SplitWordNot(b);
    assert IndexOf([b, "not"], b) == Some(0);
    assert Contains(s, b) by {
      assert s[0..|b|] == b;
      assert OccursAt(s, b, 0);
    }
    FirstBoosterDecides(s, [b], 0);
  }

  lemma SplitWordNot(b: string)
    requires IsWord(b)
    ensures Split(b + " not") == [b, "not"]
  {
    var not := "not";
    assert " not" == " " + not;
    SplitWordThen(b, " " + not);
    SplitLeadingSpace(' ', not);
    assert not == not + "";
    SplitWordThen(not, "");
    assert Split(not) == [not] + [];
  }

  // ---------------------------------------------------------------- one pair

  /** What the loop body of `tension_analysis` finds out about one pair. */
  datatype Signals = Signals(negativeEmotion: bool, hedging: bool, boosting: bool,
                             cue: bool, question: bool, outlier: bool)

  /** `sentences[:5]` */
  function FirstFive(ss: seq<string>): (r: seq<string>)
    ensures |r| == if |ss| < 5 then |ss| else 5
    ensures r == ss[..|r|]
  {
    if |ss| <= 5 then ss else ss[..5]
  }

  /** The sentence test of lines 147-155: a booster occurs and is not negated. */
  function BoostsIn(boosters: seq<string>): string -> bool
  {
    s => IsBoosting(s, boosters) == Some(true)
  }

  /** Some string of `subs` occurs in `s`. */
  function AnyOccurs(s: string, subs: seq<string>): (r: bool)
    ensures r <==> exists j :: 0 <= j < |subs| && Contains(s, subs[j])
  {
    AnyOf(subs, (sub: string) => Has(s, sub))
  }

  /** The six flags of one pair (lines 119-168). Emotion, hedging and boosting look at the
      first five sentences of the lower-cased answer; cues look at the whole lower-cased
      answer; the question test looks at its first sentence; the outlier test compares the
      answer's word count with the statistics of the question's bucket. */
  function SignalsOf(p: Pair, nlp: Nlp, boosters: seq<string>, cues: seq<string>,
                     stats: map<string, Moments>): Signals
    requires forall t :: t in stats <==> t in QuesTypes
  {
    var ans := Lower(p.answer);
    var ss := nlp.sentences(ans);
    var five := FirstFive(ss);
    Signals(
      AnyOf(five, nlp.negative),
      AnyOf(five, nlp.hedged),
      AnyOf(five, BoostsIn(boosters)),
      AnyOccurs(ans, cues),
      |ss| > 0 && AnyOccurs(ss[0], WhWords) && Has(ss[0], "?"),
      IsOutlier(nlp.wordCount(ans), stats[Bucket(p.question)]))
  }

  /** The three sentence flags look at the first five sentences of the lower-cased answer
      only: each holds when some one of those sentences shows it. */
  lemma SentenceSignals(p: Pair, nlp: Nlp, boosters: seq<string>, cues: seq<string>,
                        stats: map<string, Moments>)
    requires forall t :: t in stats <==> t in QuesTypes
    ensures var sig := SignalsOf(p, nlp, boosters, cues, stats);
      var ss := nlp.sentences(Lower(p.answer));
      && (sig.negativeEmotion <==> exists i :: 0 <= i < |ss| && i < 5 && nlp.negative(ss[i]))
      && (sig.hedging <==> exists i :: 0 <= i < |ss| && i < 5 && nlp.hedged(ss[i]))
      && (sig.boosting <==> exists i :: 0 <= i < |ss| && i < 5 && IsBoosting(ss[i], boosters) == Some(true))
  {
    var sig := SignalsOf(p, nlp, boosters, cues, stats);
    var ss := nlp.sentences(Lower(p.answer));
    assert sig.negativeEmotion == AnyOf(FirstFive(ss), nlp.negative)
        && sig.hedging == AnyOf(FirstFive(ss), nlp.hedged)
        && sig.boosting == AnyOf(FirstFive(ss), BoostsIn(boosters));
    FirstFiveAny(ss, nlp.negative);
    FirstFiveAny(ss, nlp.hedged);
    FirstFiveAny(ss, BoostsIn(boosters));
  }

  /** A sentence of the first five satisfies `p` exactly when one of index below 5 does. */
  lemma FirstFiveAny(ss: seq<string>, p: string -> bool)
    ensures AnyOf(FirstFive(ss), p) <==> exists i :: 0 <= i < |ss| && i < 5 && p(ss[i])
  {
    var five := FirstFive(ss);
    assert forall i :: 0 <= i < |five| ==> five[i] == ss[i];
  }

  /** Cues are searched in the whole lower-cased answer; the question test needs a "?" and a
      wh-word in the first sentence; the outlier test uses the statistics of the question's
      bucket. */
  lemma AnswerSignals(p: Pair, nlp: Nlp, boosters: seq<string>, cues: seq<string>,
                      stats: map<string, Moments>)
    requires forall t :: t in stats <==> t in QuesTypes
    ensures var sig := SignalsOf(p, nlp, boosters, cues, stats);
      var ss := nlp.sentences(Lower(p.answer));
      && (sig.cue <==> exists j :: 0 <= j < |cues| && Contains(Lower(p.answer), cues[j]))
      && (sig.question <==> |ss| > 0 && Contains(ss[0], "?")
                            && exists j :: 0 <= j < |WhWords| && Contains(ss[0], WhWords[j]))
      && (sig.outlier <==> IsOutlier(nlp.wordCount(Lower(p.answer)), stats[Bucket(p.question)]))
  {
  }

  const Tension: string := "Tension"
  const NoTension: string := "No Tension"

  /** The rule of lines 170-177: hedging combined with a negative emotion, a booster or a
      cue is tension, and so is a question or an outlier answer on its own. */
  function Label(sig: Signals): (l: string)
    ensures l == Tension || l == NoTension
  {
    if (sig.negativeEmotion && sig.hedging) || (sig.boosting && sig.hedging) || (sig.cue && sig.hedging)
       || sig.question || sig.outlier
    then Tension
    else NoTension
  }

  /** Signals `a` all hold in `b` too. */
  predicate Weaker(a: Signals, b: Signals)
  {
    && (a.negativeEmotion ==> b.negativeEmotion) && (a.hedging ==> b.hedging)
    && (a.boosting ==> b.boosting) && (a.cue ==> b.cue)
    && (a.question ==> b.question) && (a.outlier ==> b.outlier)
  }

  /** Hedging is what turns emotion, boosters and cues into tension: without it, only a
      question or an outlier counts; with it, any of the five does. */
  lemma LabelByHedging(sig: Signals)
    ensures !sig.hedging ==> (Label(sig) == Tension <==> sig.question || sig.outlier)
    ensures sig.hedging ==> (Label(sig) == Tension <==>
      sig.negativeEmotion || sig.boosting || sig.cue || sig.question || sig.outlier)
  {
  }

  /** More signals never remove tension. */
  lemma LabelMonotone(a: Signals, b: Signals)
    requires Weaker(a, b)
    ensures Label(a) == Tension ==> Label(b) == Tension
  {
  }

  // ---------------------------------------------------------------- the table and the progress

  const Header: seq<string> := ["Content", "Role", "Predicted Label"]

  /** The row of the question, in its original case. */
  function QuestionRow(p: Pair): seq<string>
  {
    [p.question, "Interviewer", "-"]
  }

  /** The row of the answer, in its original case, with its label. */
  function AnswerRow(p: Pair, verdict: string): seq<string>
  {
    [p.answer, "Interviewee", verdict]
  }

  /** `int(1 + float(i) / total * 99.0)`, computed exactly. */
  function Percent(i: nat, total: nat): int
    requires 1 <= i <= total
  {
    1 + (99 * i) / total
  }

  lemma PositiveFactor(x: int, b: int)
    requires b > 0 && x * b > 0
    ensures x > 0
  {
  }

  lemma DivBelow(a: nat, b: nat, q: nat)
    requires b > 0 && a < q * b
    ensures a / b < q
  {
    var d := a / b;
    assert d * b <= a;
    assert (q - d) * b == q * b - d * b;
    PositiveFactor(q - d, b);
  }

  lemma DivAtLeast(a: nat, b: nat, q: nat)
    requires b > 0 && q * b <= a
    ensures q <= a / b
  {
    var d := a / b;
    assert a < (d + 1) * b;
    assert (d + 1 - q) * b == (d + 1) * b - q * b;
    PositiveFactor(d + 1 - q, b);
  }

  /** The reported percentages lie between 1 and 100 and reach 100 exactly at the last pair. */
  lemma PercentRange(i: nat, total: nat)
    requires 1 <= i <= total
    ensures 1 <= Percent(i, total) <= 100
    ensures Percent(i, total) == 100 <==> i == total
  {
    DivAtLeast(99 * i, total, 0);
    DivBelow(99 * i, total, 100);
    if i == total {
      DivAtLeast(99 * i, total, 99);
    } else {
      assert 99 * i < 99 * total;
      DivBelow(99 * i, total, 99);
    }
  }

  /** Progress never goes backwards. */
  lemma PercentMonotone(i: nat, j: nat, total: nat)
    requires 1 <= i <= j <= total
    ensures Percent(i, total) <= Percent(j, total)
  {
    var q := (99 * i) / total;
    assert q * total <= 99 * i <= 99 * j;
    DivAtLeast(99 * j, total, q);
  }

  /** The steps of the pairs from position `i` (counted from 1) on: the question row, the
      answer row with the pair's verdict, then the progress after the pair. */
  function PairSteps(pairs: seq<Pair>, i: nat, total: nat, verdict: Pair -> string): seq<Step>
    requires 1 <= i && i + |pairs| <= total + 1
    decreases |pairs|
  {
    if pairs == [] then []
    else
      var p := pairs[0];
      [Emit(Csv.EncodeRow(QuestionRow(p))), Emit(Csv.EncodeRow(AnswerRow(p, verdict(p)))),
       Report(Percent(i, total))]
      + PairSteps(pairs[1..], i + 1, total, verdict)
  }

  /** The label of each pair, with the statistics taken over all pairs first. */
  function Verdicts(pairs: seq<Pair>, nlp: Nlp, boosters: seq<string>, cues: seq<string>): Pair -> string
  {
    var stats := QuesStatistics(pairs, nlp);
    p => Label(SignalsOf(p, nlp, boosters, cues, stats))
  }

  /** Progress 1, the header row, then the steps of every pair. */
  function TableSteps(pairs: seq<Pair>, verdict: Pair -> string): seq<Step>
  {
    [Report(1), Emit(Csv.EncodeRow(Header))] + PairSteps(pairs, 1, |pairs|, verdict)
  }

  /** `tension_analysis(ques_ans, output, update_percentage)`. */
  function AnalysisSteps(pairs: seq<Pair>, nlp: Nlp, boosters: seq<string>, cues: seq<string>)
    : seq<Step>
  {
    TableSteps(pairs, Verdicts(pairs, nlp, boosters, cues))
  }

  /** The analysis as the worker runs it. Exceptions of the foreign collaborators are not part
      of this model, so the run never fails. */
  function AnalysisRun(pairs: seq<Pair>, nlp: Nlp, boosters: seq<string>, cues: seq<string>): JobRun
  {
    JobRun(AnalysisSteps(pairs, nlp, boosters, cues), None)
  }

  // ---------------------------------------------------------------- what a run shows

  /** The percentages a run reports, in order. */
  function Percentages(steps: seq<Step>): (ps: seq<int>)
  {
    if steps == [] then []
    else (if steps[0].Report? then [steps[0].percentage] else []) + Percentages(steps[1..])
  }

  /** The rows of the pairs: each question row followed by its answer row. */
  function Body(pairs: seq<Pair>, verdict: Pair -> string): (rows: seq<seq<string>>)
    ensures |rows| == 2 * |pairs|
    ensures forall r :: 0 <= r < |rows| ==> |rows[r]| == 3
  {
    if pairs == [] then []
    else [QuestionRow(pairs[0]), AnswerRow(pairs[0], verdict(pairs[0]))] + Body(pairs[1..], verdict)
  }

  /** The rows of the result table: the header, then the rows of the pairs. */
  function Table(pairs: seq<Pair>, verdict: Pair -> string): (rows: seq<seq<string>>)
    ensures forall r :: 0 <= r < |rows| ==> |rows[r]| == 3
  {
    [Header] + Body(pairs, verdict)
  }

  /** The table by position: the header first, then for pair `k` its question row at 2k+1
      and its answer row, with the pair's verdict, at 2k+2. */
  lemma {:induction false} TableAt(pairs: seq<Pair>, verdict: Pair -> string, k: nat)
    requires k < |pairs|
    ensures |Table(pairs, verdict)| == 1 + 2 * |pairs|
    ensures Table(pairs, verdict)[0] == Header
    ensures Table(pairs, verdict)[1 + 2 * k] == QuestionRow(pairs[k])
    ensures Table(pairs, verdict)[2 + 2 * k] == AnswerRow(pairs[k], verdict(pairs[k]))
    decreases k
  {
    if k > 0 {
      TableAt(pairs[1..], verdict, k - 1);
      assert Body(pairs, verdict)[2..] == Body(pairs[1..], verdict);
    }
  }

  /** A list of rows written one after the other. */
  function EncodeRows(rows: seq<seq<string>>): string
    requires forall r :: 0 <= r < |rows| ==> rows[r] != []
  {
    if rows == [] then "" else Csv.EncodeRow(rows[0]) + EncodeRows(rows[1..])
  }

  /** The steps of one pair write its two rows and report one number. */
  lemma PairStepsOfOne(a: string, b: string, n: int)
    ensures Emitted([Emit(a), Emit(b), Report(n)]) == a + b
    ensures Percentages([Emit(a), Emit(b), Report(n)]) == [n]
  {
    var steps := [Emit(a), Emit(b), Report(n)];
    var t1 := [Emit(b), Report(n)];
    var t2 := [Report(n)];
    assert steps[1..] == t1 && t1[1..] == t2 && t2[1..] == [];
    assert Emitted(t2) == "";
    assert Emitted(t1) == b;
    assert Percentages(t2) == [n];
    assert Percentages(t1) == [n];
  }

  lemma {:induction false} PercentagesAppend(a: seq<Step>, b: seq<Step>)
    ensures Percentages(a + b) == Percentages(a) + Percentages(b)
    decreases |a|
  {
    if a != [] {
      assert (a + b)[0] == a[0] && (a + b)[1..] == a[1..] + b;
      PercentagesAppend(a[1..], b);
    } else {
      assert a + b == b;
    }
  }

  lemma {:induction false} EmittedAppend(a: seq<Step>, b: seq<Step>)
    ensures Emitted(a + b) == Emitted(a) + Emitted(b)
    decreases |a|
  {
    if a != [] {
      assert (a + b)[0] == a[0] && (a + b)[1..] == a[1..] + b;
      EmittedAppend(a[1..], b);
    } else {
      assert a + b == b;
    }
  }

  /** Each progress report of a run sets the percentage text to the decimal form of the
      reported number. */
  lemma {:induction false} ReportsArePercentages(steps: seq<Step>)
    ensures |Reports(steps)| == |Percentages(steps)|
    ensures forall k :: 0 <= k < |Reports(steps)| ==>
      Reports(steps)[k] == ProgressSet(IntToString(Percentages(steps)[k]))
    decreases |steps|
  {
    if steps != [] {
      var rs := Reports(steps[1..]);
      var ps := Percentages(steps[1..]);
      ReportsArePercentages(steps[1..]);
      if steps[0].Report? {
        var r0 := [ProgressSet(IntToString(steps[0].percentage))];
        var p0 := [steps[0].percentage];
        assert Reports(steps) == r0 + rs && Percentages(steps) == p0 + ps;
        forall k | 1 <= k < |Reports(steps)|
          ensures Reports(steps)[k] == ProgressSet(IntToString(Percentages(steps)[k]))
        {
          assert (r0 + rs)[k] == rs[k - 1] && (p0 + ps)[k] == ps[k - 1];
        }
      } else {
        assert Reports(steps) == rs && Percentages(steps) == ps;
      }
    }
  }

  /** The pairs from position `i` on report, in order, the progress after each of them. */
  lemma {:induction false} PairPercentages(pairs: seq<Pair>, i: nat, total: nat, verdict: Pair -> string)
    requires 1 <= i && i + |pairs| <= total + 1
    ensures var ps := Percentages(PairSteps(pairs, i, total, verdict));
      |ps| == |pairs| && forall k :: 0 <= k < |pairs| ==> ps[k] == Percent(i + k, total)
  {
    PairPercentRun(pairs, i, total, verdict);
    PercentRunAt(i, |pairs|, total);
  }

  /** The percentages after pairs `i`, `i + 1`, ..., `i + n - 1`. */
  function PercentRun(i: nat, n: nat, total: nat): seq<int>
    requires 1 <= i && i + n <= total + 1
    decreases n
  {
    if n == 0 then [] else [Percent(i, total)] + PercentRun(i + 1, n - 1, total)
  }

  lemma {:induction false} PairPercentRun(pairs: seq<Pair>, i: nat, total: nat, verdict: Pair -> string)
    requires 1 <= i && i + |pairs| <= total + 1
    ensures Percentages(PairSteps(pairs, i, total, verdict)) == PercentRun(i, |pairs|, total)
    decreases |pairs|
  {
    if pairs != [] {
      PairReportsItsPercent(pairs, i, total, verdict);
      PairPercentRun(pairs[1..], i + 1, total, verdict);
      assert PercentRun(i, |pairs|, total) == [Percent(i, total)] + PercentRun(i + 1, |pairs[1..]|, total);
    }
  }

  /** The steps of the first pair report the percentage after it. */
  lemma PairReportsItsPercent(pairs: seq<Pair>, i: nat, total: nat, verdict: Pair -> string)
    requires pairs != [] && 1 <= i && i + |pairs| <= total + 1
    ensures Percentages(PairSteps(pairs, i, total, verdict))
         == [Percent(i, total)] + Percentages(PairSteps(pairs[1..], i + 1, total, verdict))
  {
    var p := pairs[0];
    var head := [Emit(Csv.EncodeRow(QuestionRow(p))), Emit(Csv.EncodeRow(AnswerRow(p, verdict(p)))),
                 Report(Percent(i, total))];
    var rest := PairSteps(pairs[1..], i + 1, total, verdict);
    assert PairSteps(pairs, i, total, verdict) == head + rest;
    PercentagesAppend(head, rest);
    PairStepsOfOne(Csv.EncodeRow(QuestionRow(p)), Csv.EncodeRow(AnswerRow(p, verdict(p))), Percent(i, total));
  }

  /** The percentage after pair `i` in front of those after pairs `i + 1` on. */
  lemma PercentsFrom(ps: seq<int>, tail: seq<int>, i: nat, total: nat)
    requires 1 <= i && i + |tail| <= total
    requires ps == [Percent(i, total)] + tail
    requires forall k :: 0 <= k < |tail| ==> tail[k] == Percent(i + 1 + k, total)
    ensures forall k :: 0 <= k < |ps| ==> ps[k] == Percent(i + k, total)
  {
    forall k | 1 <= k < |ps| ensures ps[k] == Percent(i + k, total) {
      assert ps[k] == tail[k - 1];
    }
  }

  lemma {:induction false} PercentRunAt(i: nat, n: nat, total: nat)
    requires 1 <= i && i + n <= total + 1
    ensures |PercentRun(i, n, total)| == n
    ensures forall k :: 0 <= k < n ==> PercentRun(i, n, total)[k] == Percent(i + k, total)
    decreases n
  {
    if n > 0 {
      PercentRunAt(i + 1, n - 1, total);
      PercentsFrom(PercentRun(i, n, total), PercentRun(i + 1, n - 1, total), i, total);
    }
  }

  /** The progress of an analysis: 1 first, then after pair k (from 1) the percentage of k
      pairs done; it never decreases, stays between 1 and 100, and is 100 only after the
      last pair. */
  lemma TableProgress(pairs: seq<Pair>, verdict: Pair -> string)
    ensures var ps := Percentages(TableSteps(pairs, verdict));
      && |ps| == |pairs| + 1
      && ps[0] == 1
      && (forall k :: 1 <= k <= |pairs| ==> ps[k] == Percent(k, |pairs|))
      && (forall a, b :: 0 <= a <= b < |ps| ==> ps[a] <= ps[b])
      && (forall k :: 0 <= k < |ps| ==> 1 <= ps[k] <= 100)
      && (forall k :: 0 <= k < |ps| ==> (ps[k] == 100 <==> pairs != [] && k == |pairs|))
  {
    TableReports(pairs, verdict);
    ProgressShape(Percentages(TableSteps(pairs, verdict)), |pairs|);
  }

  /** The progress values of an analysis, position by position. */
  lemma TableReports(pairs: seq<Pair>, verdict: Pair -> string)
    ensures var ps := Percentages(TableSteps(pairs, verdict));
      && |ps| == |pairs| + 1
      && ps[0] == 1
      && forall k :: 1 <= k <= |pairs| ==> ps[k] == Percent(k, |pairs|)
  {
    var n := |pairs|;
    var rest := PairSteps(pairs, 1, n, verdict);
    var ps := Percentages(TableSteps(pairs, verdict));
    TableStartsAtOne(pairs, verdict);
    PairPercentages(pairs, 1, n, verdict);
    AfterTheHeader(ps, Percentages(rest), n);
  }

  lemma AfterTheHeader(ps: seq<int>, qs: seq<int>, n: nat)
    requires ps == [1] + qs && |qs| == n
    requires forall k :: 0 <= k < n ==> qs[k] == Percent(1 + k, n)
    ensures |ps| == n + 1 && ps[0] == 1
    ensures forall k :: 1 <= k <= n ==> ps[k] == Percent(k, n)
  {
    forall k | 1 <= k <= n ensures ps[k] == Percent(k, n) {
      assert ps[k] == qs[k - 1];
    }
  }

  /** The header reports 1 before any pair is looked at. */
  lemma TableStartsAtOne(pairs: seq<Pair>, verdict: Pair -> string)
    ensures Percentages(TableSteps(pairs, verdict)) == [1] + Percentages(PairSteps(pairs, 1, |pairs|, verdict))
  {
    ReportThenEmit(Csv.EncodeRow(Header), PairSteps(pairs, 1, |pairs|, verdict));
  }

  lemma ReportThenEmit(text: string, rest: seq<Step>)
    ensures Percentages([Report(1), Emit(text)] + rest) == [1] + Percentages(rest)
  {
    var head := [Report(1), Emit(text)];
    PercentagesAppend(head, rest);
    assert head[1..][1..] == [];
  }

  /** A run of progress values that starts at 1 and reads the percentage of k pairs after
      pair k never decreases, stays between 1 and 100, and reaches 100 only at the end. */
  lemma ProgressShape(ps: seq<int>, n: nat)
    requires |ps| == n + 1 && ps[0] == 1
    requires forall k :: 1 <= k <= n ==> ps[k] == Percent(k, n)
    ensures forall a, b :: 0 <= a <= b < |ps| ==> ps[a] <= ps[b]
    ensures forall k :: 0 <= k < |ps| ==> 1 <= ps[k] <= 100
    ensures forall k :: 0 <= k < |ps| ==> (ps[k] == 100 <==> n > 0 && k == n)
  {
    forall k | 1 <= k <= n ensures 1 <= ps[k] <= 100 && (ps[k] == 100 <==> k == n) {
      PercentRange(k, n);
    }
    forall a, b | 0 <= a <= b < |ps| ensures ps[a] <= ps[b] {
      if 1 <= a {
        PercentMonotone(a, b, n);
      } else if 1 <= b {
        PercentRange(b, n);
      }
    }
  }

  /** The result text of an analysis is exactly the table, row after row in CSV form. */
  lemma EmittedIsTable(pairs: seq<Pair>, verdict: Pair -> string)
    ensures Emitted(TableSteps(pairs, verdict)) == EncodeRows(Table(pairs, verdict))
  {
    var head := [Report(1), Emit(Csv.EncodeRow(Header))];
    var rest := PairSteps(pairs, 1, |pairs|, verdict);
    EmittedAppend(head, rest);
    assert Emitted(head) == Csv.EncodeRow(Header) by {
      assert head[1..][1..] == [];
    }
    PairsEmitted(pairs, 1, |pairs|, verdict);
    var rows := Table(pairs, verdict);
    assert rows[0] == Header && rows[1..] == Body(pairs, verdict);
  }

  /** The steps of some pairs write their rows. */
  lemma {:induction false} PairsEmitted(pairs: seq<Pair>, i: nat, total: nat, verdict: Pair -> string)
    requires 1 <= i && i + |pairs| <= total + 1
    ensures Emitted(PairSteps(pairs, i, total, verdict)) == EncodeRows(Body(pairs, verdict))
    decreases |pairs|
  {
    if pairs != [] {
      PairEmitsItsRows(pairs, i, total, verdict);
      PairsEmitted(pairs[1..], i + 1, total, verdict);
      BodyEncoding(pairs, verdict);
    }
  }

  /** The steps of the first pair write its question row and its answer row. */
  lemma PairEmitsItsRows(pairs: seq<Pair>, i: nat, total: nat, verdict: Pair -> string)
    requires pairs != [] && 1 <= i && i + |pairs| <= total + 1
    ensures var p := pairs[0];
      Emitted(PairSteps(pairs, i, total, verdict))
      == Csv.EncodeRow(QuestionRow(p)) + Csv.EncodeRow(AnswerRow(p, verdict(p)))
         + Emitted(PairSteps(pairs[1..], i + 1, total, verdict))
  {
    var p := pairs[0];
    var qrow := QuestionRow(p);
    var arow := AnswerRow(p, verdict(p));
    var head := [Emit(Csv.EncodeRow(qrow)), Emit(Csv.EncodeRow(arow)), Report(Percent(i, total))];
    var rest := PairSteps(pairs[1..], i + 1, total, verdict);
    assert PairSteps(pairs, i, total, verdict) == head + rest;
    EmittedAppend(head, rest);
    PairStepsOfOne(Csv.EncodeRow(qrow), Csv.EncodeRow(arow), Percent(i, total));
  }

  /** The table body of the pairs starts with the two rows of the first pair. */
  lemma BodyEncoding(pairs: seq<Pair>, verdict: Pair -> string)
    requires pairs != []
    ensures var p := pairs[0];
      EncodeRows(Body(pairs, verdict))
      == Csv.EncodeRow(QuestionRow(p)) + Csv.EncodeRow(AnswerRow(p, verdict(p))) + EncodeRows(Body(pairs[1..], verdict))
  {
    var p := pairs[0];
    EncodePairRows(Body(pairs, verdict), QuestionRow(p), AnswerRow(p, verdict(p)), Body(pairs[1..], verdict));
  }

  /** Two rows in front of a table are encoded in front of its encoding. */
  lemma EncodePairRows(rows: seq<seq<string>>, a: seq<string>, b: seq<string>, tail: seq<seq<string>>)
    requires rows == [a, b] + tail && a != [] && b != []
    requires forall r :: 0 <= r < |tail| ==> tail[r] != []
    ensures EncodeRows(rows) == Csv.EncodeRow(a) + Csv.EncodeRow(b) + EncodeRows(tail)
  {
    var rest := rows[1..];
    assert EncodeRows(rest) == Csv.EncodeRow(b) + EncodeRows(tail) by {
      assert rest[0] == b && rest[1..] == tail;
    }
    assert EncodeRows(rows) == Csv.EncodeRow(a) + EncodeRows(rest) by {
      assert rows[0] == a;
    }
    ConcatAssoc(Csv.EncodeRow(a), Csv.EncodeRow(b), EncodeRows(tail));
  }


  /** In a job that succeeds on a non-empty interview, the progress reads "100" before the
      result is installed: the analysis's own last report (after the last pair) comes first,
      then the result is installed, then the worker writes "100" again. No earlier report
      is "100". */
  lemma HundredBeforeInstall<I>(fs: FS, root: Path, uid: string, parse: string -> Option<I>,
                                analyse: I -> JobRun, pairs: seq<Pair>, verdict: Pair -> string)
    requires uid != "" && PrefixesAreDirs(fs, Folder(root, uid))
    requires IsRegular(fs, ArtifactPath(root, uid, InputName))
    requires parse(InputContent(fs, root, uid)).Some?
    requires analyse(parse(InputContent(fs, root, uid)).value) == JobRun(TableSteps(pairs, verdict), None)
    requires pairs != []
    ensures var tr := Task(fs, root, uid, parse, analyse).trace;
      && |tr| == |pairs| + 3
      && tr[|pairs|] == ProgressSet("100")
      && tr[|pairs| + 1] == ResultInstalled
      && forall k :: 0 <= k < |pairs| ==> tr[k] != ProgressSet("100")
  {
    TaskSuccess(fs, root, uid, parse, analyse);
    ReportsEndAtHundred(pairs, verdict);
  }

  /** The progress texts of a run over a non-empty interview: one per pair after the first,
      and only the last one is "100". */
  lemma ReportsEndAtHundred(pairs: seq<Pair>, verdict: Pair -> string)
    requires pairs != []
    ensures var rs := Reports(TableSteps(pairs, verdict));
      && |rs| == |pairs| + 1
      && rs[|pairs|] == ProgressSet("100")
      && forall k :: 0 <= k < |pairs| ==> rs[k] != ProgressSet("100")
  {
    var steps := TableSteps(pairs, verdict);
    ReportsArePercentages(steps);
    TableProgress(pairs, verdict);
    var ps := Percentages(steps);
    var rs := Reports(steps);
    assert rs[|pairs|] == ProgressSet(IntToString(100));
    IntToStringRoundTrip(100);
    assert IntToString(100) == "100";
    forall k | 0 <= k < |pairs| ensures rs[k] != ProgressSet("100") {
      assert ps[k] != 100;
      IntToStringRoundTrip(ps[k]);
    }
  }
}

=== FILE: text.dfy ===
/** Python `str` operations the modelled code relies on, over `seq<char>`.
    White space is Python's full `str.isspace()` set; case mapping and digits cover
    ASCII only. */
module Text {
  import opened Base

  // ---------------------------------------------------------------- characters

  /** `c.isspace()`: the controls 9-13 and 28-31, the space, NEL, NO-BREAK SPACE and the
      Unicode space, line and paragraph separators. */
  predicate IsSpace(c: char)
  {
    var n := c as int;
    (9 <= n <= 13) || (28 <= n <= 32) || n == 0x85 || n == 0xA0 || n == 0x1680
    || (0x2000 <= n <= 0x200A) || n == 0x2028 || n == 0x2029 || n == 0x202F
    || n == 0x205F || n == 0x3000
  }

  predicate IsDigit(c: char) { '0' <= c <= '9' }

  predicate IsLowerHex(c: char) { IsDigit(c) || 'a' <= c <= 'f' }

  function LowerChar(c: char): (r: char)
    ensures !('A' <= r <= 'Z')
    ensures !('A' <= c <= 'Z') ==> r == c
  {
    if 'A' <= c <= 'Z' then (c as int - 'A' as int + 'a' as int) as char else c
  }

  /** `s.lower()` */
  function Lower(s: string): (r: string)
    ensures |r| == |s|
    ensures forall i :: 0 <= i < |s| ==> r[i] == LowerChar(s[i])
  {
    if s == [] then [] else [LowerChar(s[0])] + Lower(s[1..])
  }

  // ---------------------------------------------------------------- substrings

  predicate StartsWith(s: string, prefix: string)
  {
    |prefix| <= |s| && s[..|prefix|] == prefix
  }

  /** `sub in s`: `sub` occurs at some position of `s` (the empty string occurs everywhere). */
  predicate OccursAt(s: string, sub: string, i: int)
  {
    0 <= i && i + |sub| <= |s| && s[i..i + |sub|] == sub
  }

  ghost predicate Contains(s: string, sub: string)
  {
    exists i :: OccursAt(s, sub, i)
  }

  /** A left-to-right scan deciding `sub in s`; `ContainsScan` is its contract. */
  function ContainsFrom(s: string, sub: string, i: nat): (r: bool)
    requires i <= |s|
    ensures r <==> exists j :: i <= j && OccursAt(s, sub, j)
    decreases |s| - i
  {
    if i + |sub| > |s| then false
    else if s[i..i + |sub|] == sub then assert OccursAt(s, sub, i); true
    else ContainsFrom(s, sub, i + 1)
  }

  function Has(s: string, sub: string): (r: bool)
    ensures r <==> Contains(s, sub)
  {
    ContainsFrom(s, sub, 0)
  }

  predicate HasChar(s: string, c: char) { c in s }

  // ---------------------------------------------------------------- rewriting

  /** `s.replace(pat, rep)`: leftmost, non-overlapping occurrences, scanned left to right. */
  function ReplaceAll(s: string, pat: string, rep: string): string
    requires |pat| > 0
    decreases |s|
  {
    if |s| < |pat| then s
    else if s[..|pat|] == pat then rep + ReplaceAll(s[|pat|..], pat, rep)
    else [s[0]] + ReplaceAll(s[1..], pat, rep)
  }

  lemma {:induction false} ReplaceAllAbsent(s: string, pat: string, rep: string)
    requires |pat| > 0
    requires !Contains(s, pat)
    ensures ReplaceAll(s, pat, rep) == s
    decreases |s|
  {
    if |s| < |pat| {
    } else {
      assert s[..|pat|] != pat by { if s[..|pat|] == pat { assert OccursAt(s, pat, 0); } }
      assert !Contains(s[1..], pat) by {
        forall i | OccursAt(s[1..], pat, i) ensures false {
          assert s[1..][i..i + |pat|] == s[i + 1..i + 1 + |pat|];
          assert OccursAt(s, pat, i + 1);
        }
      }
      ReplaceAllAbsent(s[1..], pat, rep);
    }
  }

  /** The first occurrence is replaced and the scan resumes after it: when no occurrence
      starts inside `a`, `(a + pat + b).replace(pat, rep)` is `a + rep + b.replace(pat, rep)`. */
  lemma {:induction false} ReplaceAllFirst(a: string, b: string, pat: string, rep: string)
    requires |pat| > 0
    requires forall j :: 0 <= j < |a| ==> !OccursAt(a + pat + b, pat, j)
    ensures ReplaceAll(a + pat + b, pat, rep) == a + rep + ReplaceAll(b, pat, rep)
    decreases |a|
  {
    var s := a + pat + b;
    if a == [] {
      assert s[..|pat|] == pat && s[|pat|..] == b;
    } else {
      assert s[..|pat|] != pat by { assert !OccursAt(s, pat, 0); }
      var t := a[1..] + pat + b;
      assert s[1..] == t;
      forall j | 0 <= j < |a| - 1 ensures !OccursAt(t, pat, j) {
        assert !OccursAt(s, pat, j + 1);
        if j + |pat| <= |t| {
          assert t[j..j + |pat|] == s[j + 1..j + 1 + |pat|];
        }
      }
      ReplaceAllFirst(a[1..], b, pat, rep);
      assert ReplaceAll(s, pat, rep) == [a[0]] + (a[1..] + rep + ReplaceAll(b, pat, rep));
      ConcatAssoc([a[0]], a[1..] + rep, ReplaceAll(b, pat, rep));
      ConcatAssoc([a[0]], a[1..], rep);
      assert [a[0]] + a[1..] == a;
    }
  }

  /** A first character that cannot start the pattern is copied and the scan moves on. */
  lemma ReplaceAllSkip(x: string, pat: string, rep: string)
    requires |pat| > 0 && x != [] && x[0] != pat[0]
    ensures ReplaceAll(x, pat, rep) == [x[0]] + ReplaceAll(x[1..], pat, rep)
  {
    if |x| < |pat| {
      assert x == [x[0]] + x[1..];
    } else {
      assert x[..|pat|][0] == x[0];
    }
  }

  /** `s.replace(c, '')` for a single character. */
  function RemoveChar(s: string, c: char): (r: string)
    ensures c !in r
    ensures forall x :: x != c ==> (x in r <==> x in s)
    ensures multiset(r) == multiset(s)[c := 0]
    ensures |r| == |s| - multiset(s)[c]
  {
    if s == [] then []
    else
      assert s == [s[0]] + s[1..];
      if s[0] == c then RemoveChar(s[1..], c)
      else [s[0]] + RemoveChar(s[1..], c)
  }

  /** Deleting works piecewise, so the characters kept stay in their order. */
  lemma {:induction false} RemoveCharAppend(a: string, b: string, c: char)
    ensures RemoveChar(a + b, c) == RemoveChar(a, c) + RemoveChar(b, c)
    decreases |a|
  {
    if a == [] {
      assert a + b == b;
    } else {
      assert (a + b)[0] == a[0] && (a + b)[1..] == a[1..] + b;
      RemoveCharAppend(a[1..], b, c);
    }
  }

  // ---------------------------------------------------------------- whitespace

  /** The number of whitespace characters `s` starts with. */
  function LeadingSpaces(s: string): (k: nat)
    ensures k <= |s| && (k == |s| || !IsSpace(s[k]))
    ensures forall i :: 0 <= i < k ==> IsSpace(s[i])
  {
    if s != [] && IsSpace(s[0]) then
      var k := LeadingSpaces(s[1..]);
      assert forall i :: 1 <= i < k + 1 ==> s[i] == s[1..][i - 1];
      k + 1
    else 0
  }

  function TrimLeft(s: string): (r: string)
    ensures r == [] || !IsSpace(r[0])
    ensures exists k :: 0 <= k <= |s| && r == s[k..] && forall i :: 0 <= i < k ==> IsSpace(s[i])
  {
    var k := LeadingSpaces(s);
    s[k..]
  }

  function TrimRight(s: string): (r: string)
    ensures r == [] || !IsSpace(r[|r| - 1])
    ensures exists k :: 0 <= k <= |s| && r == s[..k] && forall i :: k <= i < |s| ==> IsSpace(s[i])
  {
    if s != [] && IsSpace(s[|s| - 1]) then
      var p := s[..|s| - 1];
      var r := TrimRight(p);
      var k :| 0 <= k <= |p| && r == p[..k] && forall i :: k <= i < |p| ==> IsSpace(p[i]);
      assert r == s[..k];
      r
    else
      assert s == s[..|s|];
      s
  }

  /** `s.strip()`: the slice of `s` between its leading and its trailing white space. */
  function Strip(s: string): (r: string)
    ensures r == [] || (!IsSpace(r[0]) && !IsSpace(r[|r| - 1]))
    ensures exists i, j :: StrippedSlice(s, r, i, j)
    ensures forall c :: !IsSpace(c) ==> (c in r <==> c in s)
  {
    var l := TrimLeft(s);
    var r := TrimRight(l);
    assert r != [] ==> r[0] == l[0];
    TrimBoth(s, l, r);
    r
  }

  /** `r` is `s[i..j]`, and only white space lies outside `i..j`. */
  predicate StrippedSlice(s: string, r: string, i: int, j: int)
  {
    0 <= i <= j <= |s| && r == s[i..j]
    && (forall k :: 0 <= k < i ==> IsSpace(s[k])) && (forall k :: j <= k < |s| ==> IsSpace(s[k]))
  }

  lemma TrimBoth(s: string, l: string, r: string)
    requires l == TrimLeft(s) && r == TrimRight(l)
    ensures exists i, j :: StrippedSlice(s, r, i, j)
  {
    var i := LeadingSpaces(s);
    var m := |r|;
    TrimRightIsPrefix(l);
    assert l == s[i..];
    assert r == l[..m];
    assert r == s[i..i + m];
    SpaceTailOfSuffix(s, i, m);
    assert StrippedSlice(s, r, i, i + m);
  }

  /** White space after position `m` of the suffix from `i` is white space after `i + m`. */
  lemma SpaceTailOfSuffix(s: string, i: nat, m: nat)
    requires i + m <= |s|
    requires forall k :: m <= k < |s[i..]| ==> IsSpace(s[i..][k])
    ensures forall k :: i + m <= k < |s| ==> IsSpace(s[k])
  {
    forall k | i + m <= k < |s| ensures IsSpace(s[k]) {
      assert s[k] == s[i..][k - i];
    }
  }

  lemma TrimRightIsPrefix(l: string)
    ensures var r := TrimRight(l);
      r == l[..|r|] && forall k :: |r| <= k < |l| ==> IsSpace(l[k])
  {
  }

  /** The first word of `s` (which starts with a non-space character). */
  function TakeWord(s: string): (w: string)
    ensures |w| <= |s| && w == s[..|w|]
    ensures forall i :: 0 <= i < |w| ==> !IsSpace(w[i])
    ensures s != [] && !IsSpace(s[0]) ==> |w| > 0
    ensures |w| < |s| ==> IsSpace(s[|w|])
  {
    if s == [] || IsSpace(s[0]) then [] else [s[0]] + TakeWord(s[1..])
  }

  /** `s.split()`: the maximal runs of non-whitespace characters, in order. */
  function Split(s: string): (ws: seq<string>)
    ensures forall k :: 0 <= k < |ws| ==> |ws[k]| > 0
    ensures forall k, i :: 0 <= k < |ws| && 0 <= i < |ws[k]| ==> !IsSpace(ws[k][i])
    decreases |s|
  {
    if s == [] then []
    else if IsSpace(s[0]) then Split(s[1..])
    else
      var w := TakeWord(s);
      [w] + Split(s[|w|..])
  }

  /** A run of non-space characters followed by a space or by nothing is read as one word. */
  lemma {:induction false} TakeWordOf(w: string, rest: string)
    requires forall i :: 0 <= i < |w| ==> !IsSpace(w[i])
    requires rest == [] || IsSpace(rest[0])
    ensures TakeWord(w + rest) == w
    decreases |w|
  {
    if w != [] {
      assert (w + rest)[0] == w[0];
      assert (w + rest)[1..] == w[1..] + rest;
      TakeWordOf(w[1..], rest);
      assert [w[0]] + w[1..] == w;
    } else {
      assert w + rest == rest;
    }
  }

  /** `(w + rest).split()` starts with `w` when `w` is a word ending where `rest` begins. */
  lemma SplitWordThen(w: string, rest: string)
    requires w != [] && forall i :: 0 <= i < |w| ==> !IsSpace(w[i])
    requires rest == [] || IsSpace(rest[0])
    ensures Split(w + rest) == [w] + Split(rest)
  {
    TakeWordOf(w, rest);
    assert (w + rest)[0] == w[0];
    assert (w + rest)[|w|..] == rest;
  }

  /** A leading white-space character is skipped. */
  lemma SplitLeadingSpace(c: char, rest: string)
    requires IsSpace(c)
    ensures Split([c] + rest) == Split(rest)
  {
    assert ([c] + rest)[0] == c;
    assert ([c] + rest)[1..] == rest;
  }

  /** White space alone has no words. */
  lemma {:induction false} SplitAllSpace(s: string)
    requires forall i :: 0 <= i < |s| ==> IsSpace(s[i])
    ensures Split(s) == []
    decreases |s|
  {
    if s != [] {
      SplitAllSpace(s[1..]);
    }
  }

  /** A run of non-space characters is one word. */
  lemma SplitWord(w: string)
    requires w != [] && forall i :: 0 <= i < |w| ==> !IsSpace(w[i])
    ensures Split(w) == [w]
  {
    SplitWordThen(w, []);
    assert w + [] == w;
  }

  /** A word ends at the first white space, whatever follows it. */
  lemma {:induction false} TakeWordAppend(a: string, x: string)
    requires x == [] || IsSpace(x[0])
    ensures TakeWord(a + x) == TakeWord(a)
    decreases |a|
  {
    if a == [] {
      assert a + x == x;
    } else {
      assert (a + x)[0] == a[0] && (a + x)[1..] == a[1..] + x;
      TakeWordAppend(a[1..], x);
    }
  }

  /** Any white-space character separates: the words of `a + [c] + b` are those of `a`
      followed by those of `b`. With `SplitAllSpace` and `SplitWord` this pins `split()`
      down to the maximal non-space runs, in order. */
  lemma {:induction false} SplitAtSpace(a: string, c: char, b: string)
    requires IsSpace(c)
    ensures Split(a + [c] + b) == Split(a) + Split(b)
    decreases |a|
  {
    var s := a + [c] + b;
    if a == [] {
      assert s == [c] + b;
      SplitLeadingSpace(c, b);
    } else if IsSpace(a[0]) {
      assert s[0] == a[0] && s[1..] == a[1..] + [c] + b;
      SplitAtSpace(a[1..], c, b);
    } else {
      var w := TakeWord(a);
      TakeWordAppend(a, [c] + b);
      assert s == a + ([c] + b);
      assert s[0] == a[0];
      assert s[|w|..] == a[|w|..] + [c] + b;
      SplitAtSpace(a[|w|..], c, b);
    }
  }

  /** The index of the first `sep` in `s`, if any. */
  function Find(s: string, sep: char): (r: Option<nat>)
    ensures r.None? <==> sep !in s
    ensures r.Some? ==> r.value < |s| && s[r.value] == sep && sep !in s[..r.value]
  {
    if s == [] then None
    else if s[0] == sep then Some(0)
    else match Find(s[1..], sep)
      case None => None
      case Some(i) => assert s[..i + 1] == [s[0]] + s[1..][..i]; Some(i + 1)
  }

  /** `sep.join(fs)` for a one-character separator. */
  function JoinOn(fs: seq<string>, sep: char): string
    requires |fs| >= 1
  {
    if |fs| == 1 then fs[0] else fs[0] + [sep] + JoinOn(fs[1..], sep)
  }

  /** `s.split(sep)` with an explicit one-character separator: empty fields are kept,
      so the result always has one more field than `s` has separators, and joining the
      fields with the separator gives `s` back. */
  function SplitOn(s: string, sep: char): (fs: seq<string>)
    ensures |fs| >= 1
    ensures forall k :: 0 <= k < |fs| ==> sep !in fs[k]
    ensures |fs| == multiset(s)[sep] + 1
    ensures JoinOn(fs, sep) == s
    decreases |s|
  {
    match Find(s, sep)
    case None => [s]
    case Some(i) =>
      var fs := [s[..i]] + SplitOn(s[i + 1..], sep);
      assert s == s[..i] + [sep] + s[i + 1..];
      assert fs[1..] == SplitOn(s[i + 1..], sep);
      fs
  }

  /** `s.split(sep, 1)`: at most one split, at the first separator. */
  function SplitOnce(s: string, sep: char): (fs: seq<string>)
    ensures 1 <= |fs| <= 2
    ensures sep !in fs[0]
    ensures |fs| == 2 <==> sep in s
    ensures |fs| == 2 ==> s == fs[0] + [sep] + fs[1]
    ensures |fs| == 1 ==> fs[0] == s
  {
    match Find(s, sep)
    case None => [s]
    case Some(i) =>
      assert s == s[..i] + [sep] + s[i + 1..];
      [s[..i], s[i + 1..]]
  }

  // ---------------------------------------------------------------- lists

  /** `xs.index(x)` (None where Python raises ValueError). */
  function IndexOf<T(==)>(xs: seq<T>, x: T): (r: Option<nat>)
    ensures r.None? <==> x !in xs
    ensures r.Some? ==> r.value < |xs| && xs[r.value] == x && x !in xs[..r.value]
  {
    if xs == [] then None
    else if xs[0] == x then Some(0)
    else match IndexOf(xs[1..], x)
      case None => None
      case Some(i) => assert xs[..i + 1] == [xs[0]] + xs[1..][..i]; Some(i + 1)
  }

  /** `s[:n]` for n >= 0: Python slicing clamps to the length. */
  function Prefix(s: string, n: nat): (r: string)
    ensures |r| == if n <= |s| then n else |s|
    ensures StartsWith(s, r)
  {
    if n <= |s| then s[..n] else s
  }

  // ---------------------------------------------------------------- numbers

  /** `s.isdigit()` for ASCII text: non-empty and only digits. */
  predicate IsDigits(s: string)
  {
    |s| > 0 && forall i :: 0 <= i < |s| ==> IsDigit(s[i])
  }

  function DigitChar(d: nat): (c: char)
    requires d < 10
    ensures IsDigit(c)
  {
    ('0' as int + d) as char
  }

  function DigitValue(c: char): (d: nat)
    requires IsDigit(c)
    ensures d < 10
  {
    c as int - '0' as int
  }

  /** `str(n)` for a natural number. */
  function NatToString(n: nat): (s: string)
    ensures IsDigits(s)
    ensures s[0] == '0' ==> n == 0
    decreases n
  {
    if n < 10 then [DigitChar(n)] else NatToString(n / 10) + [DigitChar(n % 10)]
  }

  /** `str(i)` for an integer. */
  function IntToString(i: int): (s: string)
    ensures |s| > 0
  {
    if i < 0 then "-" + NatToString(-i) else NatToString(i)
  }

  /** The value of a string of decimal digits, most significant first. */
  function DigitsValue(s: string): nat
    requires forall i :: 0 <= i < |s| ==> IsDigit(s[i])
    decreases |s|
  {
    if s == [] then 0 else 10 * DigitsValue(s[..|s| - 1]) + DigitValue(s[|s| - 1])
  }

  /** `int(s)` restricted to an optional minus sign followed by decimal digits
      (None where Python raises ValueError). */
  function ParseInt(s: string): (r: Option<int>)
    ensures r.Some? ==> |s| > 0 && (IsDigit(s[0]) || s[0] == '-')
  {
    if IsDigits(s) then Some(DigitsValue(s))
    else if |s| > 1 && s[0] == '-' && IsDigits(s[1..]) then
      var v: int := DigitsValue(s[1..]);
      Some(-v)
    else None
  }

  lemma {:induction false} NatToStringRoundTrip(n: nat)
    ensures DigitsValue(NatToString(n)) == n
    decreases n
  {
    if n >= 10 {
      var s := NatToString(n);
      NatToStringRoundTrip(n / 10);
      assert s[..|s| - 1] == NatToString(n / 10);
      assert s[|s| - 1] == DigitChar(n % 10);
    }
  }

  /** `int(str(i)) == i`: the progress marker's text form reads back as the number written. */
  lemma IntToStringRoundTrip(i: int)
    ensures ParseInt(IntToString(i)) == Some(i)
  {
    if i < 0 {
      var s := IntToString(i);
      assert s[1..] == NatToString(-i);
      assert !IsDigits(s) by { assert !IsDigit(s[0]); }
      NatToStringRoundTrip(-i);
    } else {
      NatToStringRoundTrip(i);
    }
  }

  /** Concatenation regrouped. */
  lemma ConcatAssoc<T>(x: seq<T>, y: seq<T>, z: seq<T>)
    ensures x + (y + z) == (x + y) + z
  {
  }
}

=== FILE: user_id.dfy ===
/** User identifiers: the `^[0-9a-f]{32}$` pattern shared by the cookie check of
    app/tension_analysis/decorators.py and the queue's candidate filter in
    app/storage.py, and the `ensure_user_cookie` id-selection rule. */
module UserId {
  import opened Base
  import opened Text

  /** Exactly 32 lowercase hexadecimal digits: the form of `uuid.uuid4().hex`. */
  predicate IsUuidHex(s: string)
  {
    |s| == 32 && forall i :: 0 <= i < |s| ==> IsLowerHex(s[i])
  }

  /** What `re.match('^[0-9a-f]{32}$', s)` accepts: Python's `$` also matches just
      before a newline that ends the string, so one trailing "\n" slips through. */
  predicate PythonUuidHexMatch(s: string)
  {
    IsUuidHex(s) || (|s| == 33 && s[32] == '\n' && IsUuidHex(s[..32]))
  }

  const ZeroId: string := "00000000000000000000000000000000"

  /** The pattern as written accepts a 33-character string ending in a newline. */
  lemma TrailingNewlineAccepted()
    ensures PythonUuidHexMatch(ZeroId + "\n")
    ensures !IsUuidHex(ZeroId + "\n")
  {
    assert (ZeroId + "\n")[..32] == ZeroId;
  }

  /** The intended pattern: an accepted id has no newline or dot, so neither an id with a
      trailing newline nor a claim name `<id>.<suffix>` is ever accepted. */
  lemma AcceptedIdsAreBare(s: string, suffix: string)
    requires IsUuidHex(s)
    ensures '\n' !in s && '.' !in s
    ensures !IsUuidHex(s + "\n") && !IsUuidHex(s + "." + suffix)
  {
  }

  /** The pattern as written: a matched name is 32 or 33 characters long and holds no dot,
      so a claim name `<name>.<suffix>` never matches; every intended id matches. */
  lemma MatchedNamesHaveNoDot(s: string, suffix: string)
    requires PythonUuidHexMatch(s)
    ensures '.' !in s && 32 <= |s| <= 33
    ensures !PythonUuidHexMatch(s + "." + suffix)
    ensures forall t :: IsUuidHex(t) ==> PythonUuidHexMatch(t)
  {
    if |s| == 33 {
      assert s == s[..32] + [s[32]];
    }
    var n := s + "." + suffix;
    assert n[|s|] == '.';
  }

  /** The cookie text the check sees: `str(None)` is "None" for a missing cookie. */
  function CookieText(cookie: Option<string>): string
  {
    match cookie
    case None => "None"
    case Some(v) => v
  }

  /** `ensure_user_cookie`'s choice of user id: keep a well-formed cookie, otherwise take
      the freshly generated id (`uuid.uuid4().hex`, passed in as `generated`). */
  function ChooseUserId(cookie: Option<string>, generated: string): (id: string)
    requires IsUuidHex(generated)
    ensures IsUuidHex(id)
    ensures id == CookieText(cookie) <==> IsUuidHex(CookieText(cookie))
    ensures !IsUuidHex(CookieText(cookie)) ==> id == generated
    ensures cookie.None? ==> id == generated
  {
    if IsUuidHex(CookieText(cookie)) then CookieText(cookie) else generated
  }

  /** The same choice with the pattern as written: a cookie is kept exactly when it
      matches, so a "<32 hex>\n" cookie is kept too. */
  function ChooseUserIdAsWritten(cookie: Option<string>, generated: string): (id: string)
    requires IsUuidHex(generated)
    ensures PythonUuidHexMatch(id)
    ensures id == CookieText(cookie) <==> PythonUuidHexMatch(CookieText(cookie))
    ensures !PythonUuidHexMatch(CookieText(cookie)) ==> id == generated
    ensures cookie.None? ==> id == generated
  {
    if PythonUuidHexMatch(CookieText(cookie)) then CookieText(cookie) else generated
  }

  /** As written, a cookie with a trailing newline is kept, so the user id is not 32 hex digits. */
  lemma NewlineCookieKeptAsWritten(generated: string)
    requires IsUuidHex(generated)
    ensures ChooseUserIdAsWritten(Some(ZeroId + "\n"), generated) == ZeroId + "\n"
    ensures !IsUuidHex(ChooseUserIdAsWritten(Some(ZeroId + "\n"), generated))
  {
    TrailingNewlineAccepted();
  }

  /** Choosing again from the chosen id returns it unchanged. */
  lemma ChooseUserIdIdempotent(cookie: Option<string>, generated: string, generated2: string)
    requires IsUuidHex(generated) && IsUuidHex(generated2)
    ensures ChooseUserId(Some(ChooseUserId(cookie, generated)), generated2) == ChooseUserId(cookie, generated)
  {
  }

  const CookieName := "uid"

  datatype Response = Response(body: string, cookieName: string, cookieValue: string)

  /** The decorated view, lines 12-22: the wrapped view runs with the chosen id and the
      response always sets the `uid` cookie to that id; a cookie matching the pattern as
      written, "<32 hex>\n" included, is kept. */
  function EnsureUserCookie(cookie: Option<string>, generated: string, view: string -> string): (r: Response)
    requires IsUuidHex(generated)
    ensures r.cookieName == CookieName && PythonUuidHexMatch(r.cookieValue)
    ensures r.body == view(r.cookieValue)
    ensures PythonUuidHexMatch(CookieText(cookie)) ==> r.cookieValue == CookieText(cookie)
    ensures !PythonUuidHexMatch(CookieText(cookie)) ==> r.cookieValue == generated
  {
    var id := ChooseUserIdAsWritten(cookie, generated);
    Response(view(id), CookieName, id)
  }

  /** The decorated view with the intended pattern: the cookie set is always 32 hex digits. */
  function EnsureUserCookieCorrected(cookie: Option<string>, generated: string, view: string -> string): (r: Response)
    requires IsUuidHex(generated)
    ensures r.cookieName == CookieName && IsUuidHex(r.cookieValue)
    ensures r.body == view(r.cookieValue)
    ensures IsUuidHex(CookieText(cookie)) ==> r.cookieValue == CookieText(cookie)
    ensures !IsUuidHex(CookieText(cookie)) ==> r.cookieValue == generated
  {
    var id := ChooseUserId(cookie, generated);
    Response(view(id), CookieName, id)
  }

  /** The cookie a response sets is kept on the next request, whatever id that request
      would have generated, and the view sees the same user again. */
  lemma CookieRoundTrip(cookie: Option<string>, generated: string, generated2: string, view: string -> string)
    requires IsUuidHex(generated) && IsUuidHex(generated2)
    ensures var r := EnsureUserCookie(cookie, generated, view);
      EnsureUserCookie(Some(r.cookieValue), generated2, view) == r
    ensures var r := EnsureUserCookieCorrected(cookie, generated, view);
      EnsureUserCookieCorrected(Some(r.cookieValue), generated2, view) == r
  {
  }

  /** A "<32 hex>\n" cookie is kept and re-set as written, and replaced by the fresh id
      with the intended pattern. */
  lemma NewlineCookieReset(generated: string, view: string -> string)
    requires IsUuidHex(generated)
    ensures EnsureUserCookie(Some(ZeroId + "\n"), generated, view).cookieValue == ZeroId + "\n"
    ensures EnsureUserCookieCorrected(Some(ZeroId + "\n"), generated, view).cookieValue == generated
  {
    TrailingNewlineAccepted();
  }
}

=== FILE: worker.dfy ===
/** The per-job task of app/tension_analysis_worker/__init__.py and one iteration of the
    worker loop of app/run_worker.py. The analysis itself is abstracted as the sequence of
    store effects it performs (progress reports and result text) and the exception, if any,
    it ends with. */
module Worker {
  import opened Base
  import opened Text
  import opened FileSystem
  import opened UserId
  import opened UserStore
  import opened JobQueue

  const InputName: string := FileCodes["input"]
  const PercentageName: string := FileCodes["percentage"]
  const ResultName: string := FileCodes["result"]

  // ---------------------------------------------------------------- messages

  /** `user_id[:6]`: the only part of the id an error message reveals. */
  function ReportCode(uid: string): string { Prefix(uid, 6) }

  /** `'<head> Please report with code {}'.format(user_id[:6])` */
  function Coded(head: string, uid: string): string
  {
    head + " Please report with code " + ReportCode(uid)
  }

  function OpenFailedMessage(uid: string): string { Coded("Cannot open input file.", uid) }

  function ReadFailedMessage(uid: string): string { Coded("Cannot read input file.", uid) }

  function InitFailedMessage(uid: string): string { Coded("Cannot initialize output file.", uid) }

  function UnexpectedMessage(e: Error, uid: string): string
  {
    Coded("Unexpected error during processing: " + Describe(e) + ".", uid)
  }

  /** The message a processing exception is reported with: `except CannotSave` first. */
  function ProcessingMessage(e: Error, uid: string): string
  {
    if e == CannotSave then InitFailedMessage(uid) else UnexpectedMessage(e, uid)
  }

  /** Every text the task may leave in the percentage artifact when something failed. */
  ghost predicate IsErrorMessage(m: string, uid: string)
  {
    m == OpenFailedMessage(uid) || m == ReadFailedMessage(uid) || m == InitFailedMessage(uid)
    || exists e: Error :: m == UnexpectedMessage(e, uid)
  }

  // ---------------------------------------------------------------- the analysis as effects

  /** What the analysis does to the store: report a percentage, or write result text. */
  datatype Step = Report(percentage: int) | Emit(text: string)

  /** A run of the analysis: its store effects in order, then the exception it raised, if any. */
  datatype JobRun = JobRun(steps: seq<Step>, failure: Option<Error>)

  /** What a reader of the user's artifacts can observe, in order. */
  datatype Event = ProgressSet(text: string) | ResultInstalled

  datatype TaskOutcome = TaskOutcome(fs: FS, trace: seq<Event>, escaped: Option<Error>)

  datatype Progress = Progress(fs: FS, trace: seq<Event>, error: Option<Error>)

  /** The result text a run writes: its Emit steps, concatenated. */
  function Emitted(steps: seq<Step>): string
  {
    if steps == [] then ""
    else (if steps[0].Emit? then steps[0].text else "") + Emitted(steps[1..])
  }

  /** The progress texts a run sets, in order. */
  function Reports(steps: seq<Step>): seq<Event>
  {
    if steps == [] then []
    else (if steps[0].Report? then [ProgressSet(IntToString(steps[0].percentage))] else []) + Reports(steps[1..])
  }

  /** `update_percentage(p)`: a write scope on the percentage artifact holding `str(p)`. */
  function UpdatePercentage(fs: FS, root: Path, uid: string, text: string): (r: Effect<()>)
    ensures uid != "" && PrefixesAreDirs(fs, Folder(root, uid)) ==>
      && r.result.Success?
      && ReadUserFile(r.fs, root, uid, PercentageName).result == Success(text)
      && PrefixesAreDirs(r.fs, Folder(root, uid))
    ensures ChangesOnly(fs, r.fs, ArtifactPath(root, uid, PercentageName), TmpPath(root, uid, PercentageName), Folder(root, uid))
    ensures SameOutside(fs, r.fs, Folder(root, uid))
  {
    var r := WriteArtifact(fs, root, uid, PercentageName, text);
    ChangesOnlyKeepsPath(fs, r.fs, ArtifactPath(root, uid, PercentageName), TmpPath(root, uid, PercentageName), Folder(root, uid));
    assert uid != "" && PrefixesAreDirs(fs, Folder(root, uid)) ==>
      r.result.Success? && ReadUserFile(r.fs, root, uid, PercentageName).result == Success(text) by {
      if uid != "" && PrefixesAreDirs(fs, Folder(root, uid)) {
        WriteSucceeds(fs, root, uid, PercentageName, text);
        WriteThenRead(fs, root, uid, PercentageName, text);
      }
    }
    r
  }

  /** The analysis body inside the result scope: each report is an `update_percentage` (its
      CannotSave or rename error ends the run), each chunk of text goes to the temporary
      result file. */
  function RunSteps(fs: FS, root: Path, uid: string, s: Session, steps: seq<Step>): (r: Progress)
    requires uid != ""
    requires s == Session(TmpPath(root, uid, ResultName), ArtifactPath(root, uid, ResultName))
    ensures Lookup(r.fs, s.final) == Lookup(fs, s.final)
    ensures SameOutside(fs, r.fs, Folder(root, uid))
    ensures r.error.None? ==> r.trace == Reports(steps)
    ensures r.error.Some? ==> r.error.value == CannotSave || r.error.value.OsError?
    decreases |steps|
  {
    if steps == [] then Progress(fs, [], None)
    else
      match steps[0]
      case Report(p) =>
        var w := UpdatePercentage(fs, root, uid, IntToString(p));
        PercentageKeepsResult(fs, root, uid, IntToString(p));
        if w.result.Failure? then Progress(w.fs, [], Some(w.result.error))
        else
          var rest := RunSteps(w.fs, root, uid, s, steps[1..]);
          SameOutsideTrans(fs, w.fs, rest.fs, Folder(root, uid));
          assert Reports(steps) == [ProgressSet(IntToString(p))] + Reports(steps[1..]);
          Progress(rest.fs, [ProgressSet(IntToString(p))] + rest.trace, rest.error)
      case Emit(text) =>
        match Append(fs, s.tmp, text)
        case Failure(e) => Progress(fs, [], Some(e))
        case Success(fs1) =>
          AppendKeepsResult(fs, root, uid, text);
          var rest := RunSteps(fs1, root, uid, s, steps[1..]);
          SameOutsideTrans(fs, fs1, rest.fs, Folder(root, uid));
          assert Reports(steps) == Reports(steps[1..]);
          rest
  }

  /** The events of an analysis body are the progress reports of its steps, in order, up to
      the first failing effect; the result is never installed from inside it. */
  lemma {:induction false} RunStepsTrace(fs: FS, root: Path, uid: string, s: Session, steps: seq<Step>)
    requires uid != ""
    requires s == Session(TmpPath(root, uid, ResultName), ArtifactPath(root, uid, ResultName))
    ensures RunSteps(fs, root, uid, s, steps).trace <= Reports(steps)
    ensures ResultInstalled !in RunSteps(fs, root, uid, s, steps).trace
    decreases |steps|
  {
    if steps != [] {
      match steps[0]
      case Report(p) =>
        var w := UpdatePercentage(fs, root, uid, IntToString(p));
        if w.result.Success? {
          RunStepsTrace(w.fs, root, uid, s, steps[1..]);
          var rest := RunSteps(w.fs, root, uid, s, steps[1..]);
          assert Reports(steps) == [ProgressSet(IntToString(p))] + Reports(steps[1..]);
          PrefixAfterSame(ProgressSet(IntToString(p)), rest.trace, Reports(steps[1..]));
        }
      case Emit(text) =>
        if Append(fs, s.tmp, text).Success? {
          RunStepsTrace(Append(fs, s.tmp, text).value, root, uid, s, steps[1..]);
          assert Reports(steps) == Reports(steps[1..]);
        }
    }
    ReportsAreProgress(steps);
  }

  lemma {:induction false} ReportsAreProgress(steps: seq<Step>)
    ensures forall e :: e in Reports(steps) ==> e.ProgressSet?
    decreases |steps|
  {
    if steps != [] {
      ReportsAreProgress(steps[1..]);
    }
  }

  lemma PrefixAfterSame<T>(x: T, a: seq<T>, b: seq<T>)
    requires a <= b
    ensures [x] + a <= [x] + b
  {
    assert forall i :: 0 <= i < |a| ==> ([x] + a)[i + 1] == a[i] && ([x] + b)[i + 1] == b[i];
  }

  /** The state a write scope on the result needs for the analysis to run undisturbed: the
      temporary file is a plain file and the user folder is a directory reached through
      directories. */
  ghost predicate ScopeReady(fs: FS, root: Path, uid: string)
  {
    && IsRegular(fs, TmpPath(root, uid, ResultName))
    && PrefixesAreDirs(fs, Folder(root, uid))
    && DirExists(fs, Folder(root, uid))
  }

  /** In a healthy user folder no store effect of the analysis fails: every report lands and
      the temporary result file ends up holding exactly the emitted text after what it held. */
  lemma {:induction false} RunStepsSucceeds(fs: FS, root: Path, uid: string, s: Session, steps: seq<Step>)
    requires uid != ""
    requires s == Session(TmpPath(root, uid, ResultName), ArtifactPath(root, uid, ResultName))
    requires ScopeReady(fs, root, uid)
    ensures var r := RunSteps(fs, root, uid, s, steps);
      && r.error.None?
      && ScopeReady(r.fs, root, uid)
      && r.fs.entries[s.tmp].content == fs.entries[s.tmp].content + Emitted(steps)
    decreases |steps|
  {
    if steps != [] {
      match steps[0]
      case Report(p) =>
        var w := ReportKeepsReady(fs, root, uid, p);
        var rest := RunSteps(w, root, uid, s, steps[1..]);
        assert RunSteps(fs, root, uid, s, steps).fs == rest.fs;
        assert RunSteps(fs, root, uid, s, steps).error == rest.error;
        RunStepsSucceeds(w, root, uid, s, steps[1..]);
        assert Emitted(steps) == Emitted(steps[1..]);
      case Emit(text) =>
        var fs1 := EmitKeepsReady(fs, root, uid, text);
        assert RunSteps(fs, root, uid, s, steps) == RunSteps(fs1, root, uid, s, steps[1..]);
        RunStepsSucceeds(fs1, root, uid, s, steps[1..]);
        assert Emitted(steps) == text + Emitted(steps[1..]);
        ConcatAssoc(fs.entries[s.tmp].content, text, Emitted(steps[1..]));
    }
  }

  lemma ReportKeepsReady(fs: FS, root: Path, uid: string, p: int) returns (fs': FS)
    requires uid != "" && ScopeReady(fs, root, uid)
    ensures UpdatePercentage(fs, root, uid, IntToString(p)).result.Success?
    ensures fs' == UpdatePercentage(fs, root, uid, IntToString(p)).fs
    ensures ScopeReady(fs', root, uid)
    ensures fs'.entries[TmpPath(root, uid, ResultName)] == fs.entries[TmpPath(root, uid, ResultName)]
  {
    fs' := UpdatePercentage(fs, root, uid, IntToString(p)).fs;
    PercentageKeepsResult(fs, root, uid, IntToString(p));
    StepKeepsFolder(fs, fs', root, uid, ArtifactPath(root, uid, PercentageName), TmpPath(root, uid, PercentageName));
  }

  lemma EmitKeepsReady(fs: FS, root: Path, uid: string, text: string) returns (fs': FS)
    requires uid != "" && ScopeReady(fs, root, uid)
    ensures Append(fs, TmpPath(root, uid, ResultName), text) == Success(fs')
    ensures ScopeReady(fs', root, uid)
    ensures fs'.entries[TmpPath(root, uid, ResultName)].content
         == fs.entries[TmpPath(root, uid, ResultName)].content + text
  {
    var tmp := TmpPath(root, uid, ResultName);
    fs' := Append(fs, tmp, text).value;
    assert ChangesOnly(fs, fs', tmp, tmp, Folder(root, uid)) by {
      assert IsPrefix(tmp, tmp);
    }
    StepKeepsFolder(fs, fs', root, uid, tmp, tmp);
  }

  /** A progress write leaves the result artifact and its temporary file as they were. */
  lemma PercentageKeepsResult(fs: FS, root: Path, uid: string, text: string)
    ensures var w := UpdatePercentage(fs, root, uid, text);
      && Lookup(w.fs, ArtifactPath(root, uid, ResultName)) == Lookup(fs, ArtifactPath(root, uid, ResultName))
      && Lookup(w.fs, TmpPath(root, uid, ResultName)) == Lookup(fs, TmpPath(root, uid, ResultName))
  {
    var w := UpdatePercentage(fs, root, uid, text);
    assert (PercentageName + ".tmp")[0] != (ResultName + ".tmp")[0];
    var a := ArtifactPath(root, uid, PercentageName);
    var b := TmpPath(root, uid, PercentageName);
    var final := ArtifactPath(root, uid, ResultName);
    var tmp := TmpPath(root, uid, ResultName);
    assert !IsPrefix(a, final) && !IsPrefix(b, final) && !IsPrefix(a, tmp) && !IsPrefix(b, tmp);
    assert !IsPrefix(final, Folder(root, uid)) && !IsPrefix(tmp, Folder(root, uid));
  }

  /** Writing result text changes only the temporary result file. */
  lemma AppendKeepsResult(fs: FS, root: Path, uid: string, text: string)
    requires uid != ""
    requires Append(fs, TmpPath(root, uid, ResultName), text).Success?
    ensures var fs1 := Append(fs, TmpPath(root, uid, ResultName), text).value;
      && Lookup(fs1, ArtifactPath(root, uid, ResultName)) == Lookup(fs, ArtifactPath(root, uid, ResultName))
      && SameOutside(fs, fs1, Folder(root, uid))
  {
    var tmp := TmpPath(root, uid, ResultName);
    assert ArtifactPath(root, uid, ResultName) != tmp by {
      assert |ResultName + ".tmp"| != |ResultName|;
    }
    assert !IsPrefix(tmp, Folder(root, uid));
  }

  /** Neither a progress write nor a chunk of result text disturbs the user folder. */
  lemma StepKeepsFolder(fs: FS, fs1: FS, root: Path, uid: string, a: Path, b: Path)
    requires ChangesOnly(fs, fs1, a, b, Folder(root, uid))
    requires IsPrefix(Folder(root, uid), a) && IsPrefix(Folder(root, uid), b)
    requires |a| > |Folder(root, uid)| && |b| > |Folder(root, uid)|
    ensures PrefixesAreDirs(fs, Folder(root, uid)) ==> PrefixesAreDirs(fs1, Folder(root, uid))
    ensures DirExists(fs, Folder(root, uid)) ==> DirExists(fs1, Folder(root, uid))
  {
    ChangesOnlyKeepsPath(fs, fs1, a, b, Folder(root, uid));
    assert !IsPrefix(a, Folder(root, uid)) && !IsPrefix(b, Folder(root, uid));
  }

  // ---------------------------------------------------------------- the task

  /** `_write_error(user_id, message)`: a failure of this write escapes the task. */
  function WriteError(fs: FS, root: Path, uid: string, msg: string, trace: seq<Event>): (r: TaskOutcome)
    ensures r.escaped.None? ==> r.trace == trace + [ProgressSet(msg)]
    ensures r.escaped.Some? ==> r.trace == trace
    ensures uid != "" && PrefixesAreDirs(fs, Folder(root, uid)) ==>
      r.escaped.None? && ReadUserFile(r.fs, root, uid, PercentageName).result == Success(msg)
    ensures Lookup(r.fs, ArtifactPath(root, uid, ResultName)) == Lookup(fs, ArtifactPath(root, uid, ResultName))
    ensures SameOutside(fs, r.fs, Folder(root, uid))
  {
    var w := UpdatePercentage(fs, root, uid, msg);
    PercentageKeepsResult(fs, root, uid, msg);
    if w.result.Success? then TaskOutcome(w.fs, trace + [ProgressSet(msg)], None)
    else TaskOutcome(w.fs, trace, Some(w.result.error))
  }

  /** `task_tension_analysis(user_id)`: read and parse the input, run the analysis inside a
      write scope on the result, and map every failure to a message in the percentage
      artifact. */
  function Task<I>(fs: FS, root: Path, uid: string, parse: string -> Option<I>, analyse: I -> JobRun)
    : TaskOutcome
  {
    var rd := ReadUserFile(fs, root, uid, InputName);
    match rd.result
    case Failure(e) =>
      WriteError(rd.fs, root, uid, if e == CannotOpen then OpenFailedMessage(uid) else ReadFailedMessage(uid), [])
    case Success(text) =>
      match parse(text)
      case None => WriteError(rd.fs, root, uid, ReadFailedMessage(uid), [])
      case Some(input) => Analyse(rd.fs, root, uid, analyse(input))
  }

  /** The second `try` of the task: the analysis inside a write scope on the result. A
      CannotSave from opening the scope or from a progress write is "Cannot initialize output
      file"; any other exception, including one from the installing rename, is "Unexpected
      error". */
  function Analyse(fs: FS, root: Path, uid: string, run: JobRun): TaskOutcome
  {
    var b := BeginWrite(fs, root, uid, ResultName);
    match b.result
    case Failure(e) => WriteError(b.fs, root, uid, ProcessingMessage(e, uid), [])
    case Success(s) => InScope(b.fs, root, uid, s, run)
  }

  /** The body of the result scope, its exit, and the `else: update_percentage(100)` that runs
      after the scope has installed the result. */
  function InScope(fs: FS, root: Path, uid: string, s: Session, run: JobRun): TaskOutcome
    requires uid != ""
    requires s == Session(TmpPath(root, uid, ResultName), ArtifactPath(root, uid, ResultName))
  {
    var p := RunSteps(fs, root, uid, s, run.steps);
    var err := if p.error.Some? then p.error else run.failure;
    if err.Some? then WriteError(p.fs, root, uid, ProcessingMessage(err.value, uid), p.trace)
    else
      match EndWrite(p.fs, s, true)
      case Failure(e) => WriteError(p.fs, root, uid, ProcessingMessage(e, uid), p.trace)
      case Success(fs2) =>
        var w := UpdatePercentage(fs2, root, uid, "100");
        if w.result.Success? then TaskOutcome(w.fs, p.trace + [ResultInstalled, ProgressSet("100")], None)
        else TaskOutcome(w.fs, p.trace + [ResultInstalled], Some(w.result.error))
  }

  // ---------------------------------------------------------------- task properties

  function InputContent(fs: FS, root: Path, uid: string): string
    requires IsRegular(fs, ArtifactPath(root, uid, InputName))
  {
    fs.entries[ArtifactPath(root, uid, InputName)].content
  }

  /** Reading the input changes nothing a later step of the task looks at. */
  lemma InputReadKeeps(fs: FS, root: Path, uid: string)
    requires uid != ""
    ensures var rd := ReadUserFile(fs, root, uid, InputName);
      && SameOutside(fs, rd.fs, Folder(root, uid))
      && Lookup(rd.fs, ArtifactPath(root, uid, ResultName)) == Lookup(fs, ArtifactPath(root, uid, ResultName))
      && (PrefixesAreDirs(fs, Folder(root, uid)) ==> PrefixesAreDirs(rd.fs, Folder(root, uid)))
      && (IsRegular(fs, ArtifactPath(root, uid, InputName)) ==> rd.fs == fs)
  {
    var input := ArtifactPath(root, uid, InputName);
    var rd := ReadUserFile(fs, root, uid, InputName);
    assert IsPrefix(Folder(root, uid), input);
    assert !IsPrefix(input, ArtifactPath(root, uid, ResultName));
    assert forall k :: 1 <= k <= |Folder(root, uid)| ==> !IsPrefix(input, Folder(root, uid)[..k]);
  }

  /** Opening the result scope in a healthy folder gives a scope the analysis can run in. */
  lemma ResultScopeReady(fs: FS, root: Path, uid: string)
    requires uid != "" && PrefixesAreDirs(fs, Folder(root, uid))
    ensures var b := BeginWrite(fs, root, uid, ResultName);
      && b.result == Success(Session(TmpPath(root, uid, ResultName), ArtifactPath(root, uid, ResultName)))
      && ScopeReady(b.fs, root, uid)
      && b.fs.entries[TmpPath(root, uid, ResultName)].content == ""
      && !(ArtifactPath(root, uid, ResultName) in b.fs.entries && b.fs.entries[ArtifactPath(root, uid, ResultName)].Dir?)
  {
    var b := BeginWrite(fs, root, uid, ResultName);
    BeginWriteChangesOnly(fs, root, uid, ResultName);
    ChangesOnlyKeepsPath(fs, b.fs, ArtifactPath(root, uid, ResultName), TmpPath(root, uid, ResultName), Folder(root, uid));
  }

  /** The clean exit of the result scope installs the temporary file and keeps the folder. */
  lemma ResultInstall(fs: FS, root: Path, uid: string)
    requires uid != "" && ScopeReady(fs, root, uid)
    requires !(ArtifactPath(root, uid, ResultName) in fs.entries && fs.entries[ArtifactPath(root, uid, ResultName)].Dir?)
    ensures var s := Session(TmpPath(root, uid, ResultName), ArtifactPath(root, uid, ResultName));
      && EndWrite(fs, s, true).Success?
      && IsRegular(EndWrite(fs, s, true).value, s.final)
      && EndWrite(fs, s, true).value.entries[s.final].content == fs.entries[s.tmp].content
      && PrefixesAreDirs(EndWrite(fs, s, true).value, Folder(root, uid))
  {
    var s := Session(TmpPath(root, uid, ResultName), ArtifactPath(root, uid, ResultName));
    assert s.tmp != s.final by {
      assert |ResultName + ".tmp"| != |ResultName|;
    }
    CleanExitInstalls(fs, s);
    var fs2 := EndWrite(fs, s, true).value;
    assert ChangesOnly(fs, fs2, s.final, s.tmp, Folder(root, uid)) by {
      assert IsPrefix(s.tmp, s.tmp) && IsPrefix(s.final, s.final);
    }
    ChangesOnlyKeepsPath(fs, fs2, s.final, s.tmp, Folder(root, uid));
  }

  /** A job whose analysis finishes cleanly, in a healthy folder: the progress sequence is the
      analysis's own reports, then the result is installed, then the progress becomes "100";
      the result artifact then reads as exactly the text the analysis wrote. */
  lemma TaskSuccess<I>(fs: FS, root: Path, uid: string, parse: string -> Option<I>, analyse: I -> JobRun)
    requires uid != "" && PrefixesAreDirs(fs, Folder(root, uid))
    requires IsRegular(fs, ArtifactPath(root, uid, InputName))
    requires parse(InputContent(fs, root, uid)).Some?
    requires analyse(parse(InputContent(fs, root, uid)).value).failure.None?
    ensures var run := analyse(parse(InputContent(fs, root, uid)).value);
      var r := Task(fs, root, uid, parse, analyse);
      && r.escaped.None?
      && r.trace == Reports(run.steps) + [ResultInstalled, ProgressSet("100")]
      && ReadUserFile(r.fs, root, uid, ResultName).result == Success(Emitted(run.steps))
      && ReadUserFile(r.fs, root, uid, PercentageName).result == Success("100")
  {
    var run := analyse(parse(InputContent(fs, root, uid)).value);
    InputReadKeeps(fs, root, uid);
    assert Task(fs, root, uid, parse, analyse) == Analyse(fs, root, uid, run);
    AnalyseSuccess(fs, root, uid, run);
  }

  lemma AnalyseSuccess(fs: FS, root: Path, uid: string, run: JobRun)
    requires uid != "" && PrefixesAreDirs(fs, Folder(root, uid))
    requires run.failure.None?
    ensures var r := Analyse(fs, root, uid, run);
      && r.escaped.None?
      && r.trace == Reports(run.steps) + [ResultInstalled, ProgressSet("100")]
      && ReadUserFile(r.fs, root, uid, ResultName).result == Success(Emitted(run.steps))
      && ReadUserFile(r.fs, root, uid, PercentageName).result == Success("100")
  {
    var s := Session(TmpPath(root, uid, ResultName), ArtifactPath(root, uid, ResultName));
    ResultScopeReady(fs, root, uid);
    var b := BeginWrite(fs, root, uid, ResultName);
    assert Analyse(fs, root, uid, run) == InScope(b.fs, root, uid, s, run);
    InScopeSuccess(b.fs, root, uid, run);
  }

  lemma InScopeSuccess(fs: FS, root: Path, uid: string, run: JobRun)
    requires uid != "" && ScopeReady(fs, root, uid) && run.failure.None?
    requires fs.entries[TmpPath(root, uid, ResultName)].content == ""
    requires !(ArtifactPath(root, uid, ResultName) in fs.entries && fs.entries[ArtifactPath(root, uid, ResultName)].Dir?)
    ensures var r := InScope(fs, root, uid, Session(TmpPath(root, uid, ResultName), ArtifactPath(root, uid, ResultName)), run);
      && r.escaped.None?
      && r.trace == Reports(run.steps) + [ResultInstalled, ProgressSet("100")]
      && ReadUserFile(r.fs, root, uid, ResultName).result == Success(Emitted(run.steps))
      && ReadUserFile(r.fs, root, uid, PercentageName).result == Success("100")
  {
    var s := Session(TmpPath(root, uid, ResultName), ArtifactPath(root, uid, ResultName));
    RunStepsSucceeds(fs, root, uid, s, run.steps);
    var p := RunSteps(fs, root, uid, s, run.steps);
    assert p.error.None? && p.trace == Reports(run.steps);
    assert Lookup(p.fs, s.final) == Lookup(fs, s.final);
    ResultInstall(p.fs, root, uid);
    var fs2 := EndWrite(p.fs, s, true).value;
    var w := UpdatePercentage(fs2, root, uid, "100");
    assert w.result.Success?;
    PercentageKeepsResult(fs2, root, uid, "100");
    var r := InScope(fs, root, uid, s, run);
    assert r == TaskOutcome(w.fs, p.trace + [ResultInstalled, ProgressSet("100")], None);
    assert p.fs.entries[s.tmp].content == Emitted(run.steps) by {
      assert "" + Emitted(run.steps) == Emitted(run.steps);
    }
    assert Lookup(w.fs, s.final) == Some(fs2.entries[s.final]);
    ResultReadsAs(w.fs, root, uid, Emitted(run.steps));
  }

  lemma ResultReadsAs(fs: FS, root: Path, uid: string, text: string)
    requires uid != "" && IsRegular(fs, ArtifactPath(root, uid, ResultName))
    requires fs.entries[ArtifactPath(root, uid, ResultName)].content == text
    ensures ReadUserFile(fs, root, uid, ResultName).result == Success(text)
  {
  }

  /** The shape every task run leaves in the progress trace: the result is installed at most
      once, as the last-but-one event before the final "100" (or as the last event when that
      write escapes); a run without an install that does not escape ends with an error
      message. */
  ghost predicate WellEnded(r: TaskOutcome, uid: string)
  {
    && (ResultInstalled in r.trace ==>
          if r.escaped.None? then |r.trace| >= 2 && r.trace[|r.trace| - 2..] == [ResultInstalled, ProgressSet("100")]
                                  && ResultInstalled !in r.trace[..|r.trace| - 2]
          else |r.trace| >= 1 && r.trace[|r.trace| - 1] == ResultInstalled && ResultInstalled !in r.trace[..|r.trace| - 1])
    && (ResultInstalled !in r.trace && r.escaped.None? ==>
          |r.trace| > 0 && r.trace[|r.trace| - 1].ProgressSet? && IsErrorMessage(r.trace[|r.trace| - 1].text, uid))
  }

  lemma WriteErrorWellEnded(fs: FS, root: Path, uid: string, msg: string, trace: seq<Event>)
    requires IsErrorMessage(msg, uid) && ResultInstalled !in trace
    ensures WellEnded(WriteError(fs, root, uid, msg, trace), uid)
  {
    var r := WriteError(fs, root, uid, msg, trace);
    if r.escaped.None? {
      assert r.trace[|r.trace| - 1] == ProgressSet(msg);
    }
  }

  lemma ProcessingMessageIsError(e: Error, uid: string)
    ensures IsErrorMessage(ProcessingMessage(e, uid), uid)
  {
    if e != CannotSave {
      assert ProcessingMessage(e, uid) == UnexpectedMessage(e, uid);
    }
  }

  lemma InScopeWellEnded(fs: FS, root: Path, uid: string, s: Session, run: JobRun)
    requires uid != ""
    requires s == Session(TmpPath(root, uid, ResultName), ArtifactPath(root, uid, ResultName))
    ensures WellEnded(InScope(fs, root, uid, s, run), uid)
  {
    var p := RunSteps(fs, root, uid, s, run.steps);
    RunStepsTrace(fs, root, uid, s, run.steps);
    var err := if p.error.Some? then p.error else run.failure;
    if err.Some? {
      ProcessingMessageIsError(err.value, uid);
      WriteErrorWellEnded(p.fs, root, uid, ProcessingMessage(err.value, uid), p.trace);
    } else if EndWrite(p.fs, s, true).Failure? {
      var e := EndWrite(p.fs, s, true).error;
      ProcessingMessageIsError(e, uid);
      WriteErrorWellEnded(p.fs, root, uid, ProcessingMessage(e, uid), p.trace);
    } else {
      var fs2 := EndWrite(p.fs, s, true).value;
      var w := UpdatePercentage(fs2, root, uid, "100");
      InstallEndsWell(p.trace, w.fs, if w.result.Success? then None else Some(w.result.error), uid);
    }
  }

  /** Installing the result after a run that did not install it, then setting "100" (or
      failing to), ends the task well. */
  lemma InstallEndsWell(trace: seq<Event>, fs: FS, escaped: Option<Error>, uid: string)
    requires ResultInstalled !in trace
    ensures escaped.None? ==> WellEnded(TaskOutcome(fs, trace + [ResultInstalled, ProgressSet("100")], None), uid)
    ensures escaped.Some? ==> WellEnded(TaskOutcome(fs, trace + [ResultInstalled], escaped), uid)
  {
    var t2 := trace + [ResultInstalled, ProgressSet("100")];
    assert t2[..|trace|] == trace && t2[|t2| - 2..] == [ResultInstalled, ProgressSet("100")];
    var t1 := trace + [ResultInstalled];
    assert t1[..|trace|] == trace;
  }

  /** Every task run is well ended: "100" is set by the task only right after the result has
      been installed, and a run that installs nothing ends with an error message. */
  lemma TaskWellEnded<I>(fs: FS, root: Path, uid: string, parse: string -> Option<I>, analyse: I -> JobRun)
    ensures WellEnded(Task(fs, root, uid, parse, analyse), uid)
  {
    var rd := ReadUserFile(fs, root, uid, InputName);
    match rd.result
    case Failure(e) =>
      WriteErrorWellEnded(rd.fs, root, uid, if e == CannotOpen then OpenFailedMessage(uid) else ReadFailedMessage(uid), []);
    case Success(text) =>
      match parse(text)
      case None => WriteErrorWellEnded(rd.fs, root, uid, ReadFailedMessage(uid), []);
      case Some(input) =>
        var b := BeginWrite(rd.fs, root, uid, ResultName);
        match b.result
        case Failure(e) =>
          ProcessingMessageIsError(e, uid);
          WriteErrorWellEnded(b.fs, root, uid, ProcessingMessage(e, uid), []);
        case Success(s) => InScopeWellEnded(b.fs, root, uid, s, analyse(input));
  }

  /** Equal entries at the artifact give equal reads of it. */
  lemma SameEntrySameRead(fs: FS, fs': FS, root: Path, uid: string, name: string)
    requires Lookup(fs', ArtifactPath(root, uid, name)) == Lookup(fs, ArtifactPath(root, uid, name))
    ensures ReadUserFile(fs', root, uid, name).result == ReadUserFile(fs, root, uid, name).result
  {
  }

  lemma InScopeKeepsResult(fs: FS, root: Path, uid: string, s: Session, run: JobRun)
    requires uid != ""
    requires s == Session(TmpPath(root, uid, ResultName), ArtifactPath(root, uid, ResultName))
    ensures var r := InScope(fs, root, uid, s, run);
      ResultInstalled !in r.trace ==>
        Lookup(r.fs, ArtifactPath(root, uid, ResultName)) == Lookup(fs, ArtifactPath(root, uid, ResultName))
  {
    var p := RunSteps(fs, root, uid, s, run.steps);
    var err := if p.error.Some? then p.error else run.failure;
    if err.None? && EndWrite(p.fs, s, true).Success? {
      var r := InScope(fs, root, uid, s, run);
      assert r.trace[|p.trace|] == ResultInstalled;
    }
  }

  /** Crash safety of the task: unless the trace records an install, a reader of the result
      artifact gets after the task exactly what it got before. */
  lemma TaskKeepsResultUnlessInstalled<I>(fs: FS, root: Path, uid: string, parse: string -> Option<I>, analyse: I -> JobRun)
    ensures var r := Task(fs, root, uid, parse, analyse);
      ResultInstalled !in r.trace ==>
        ReadUserFile(r.fs, root, uid, ResultName).result == ReadUserFile(fs, root, uid, ResultName).result
  {
    if uid != "" {
      var rd := ReadUserFile(fs, root, uid, InputName);
      InputReadKeeps(fs, root, uid);
      SameEntrySameRead(fs, rd.fs, root, uid, ResultName);
      match rd.result
      case Failure(e) =>
        var r := Task(fs, root, uid, parse, analyse);
        SameEntrySameRead(rd.fs, r.fs, root, uid, ResultName);
      case Success(text) =>
        match parse(text)
        case None =>
          var r := Task(fs, root, uid, parse, analyse);
          SameEntrySameRead(rd.fs, r.fs, root, uid, ResultName);
        case Some(input) =>
          var r := Task(fs, root, uid, parse, analyse);
          assert r == Analyse(rd.fs, root, uid, analyse(input));
          AnalyseKeepsResult(rd.fs, root, uid, analyse(input));
    }
  }

  /** After the scope is opened, nothing before the install touches the result artifact. */
  lemma AnalyseKeepsOpened(fs: FS, root: Path, uid: string, run: JobRun)
    requires uid != ""
    ensures var r := Analyse(fs, root, uid, run);
      ResultInstalled !in r.trace ==>
        Lookup(r.fs, ArtifactPath(root, uid, ResultName))
          == Lookup(BeginWrite(fs, root, uid, ResultName).fs, ArtifactPath(root, uid, ResultName))
  {
    var b := BeginWrite(fs, root, uid, ResultName);
    if b.result.Success? {
      InScopeKeepsResult(b.fs, root, uid, b.result.value, run);
    }
  }

  lemma AnalyseKeepsResult(fs: FS, root: Path, uid: string, run: JobRun)
    requires uid != ""
    ensures var r := Analyse(fs, root, uid, run);
      ResultInstalled !in r.trace ==>
        ReadUserFile(r.fs, root, uid, ResultName).result == ReadUserFile(fs, root, uid, ResultName).result
  {
    var r := Analyse(fs, root, uid, run);
    if ResultInstalled !in r.trace {
      AnalyseKeepsOpened(fs, root, uid, run);
      BeginWriteKeepsRead(fs, root, uid, ResultName);
      SameEntrySameRead(BeginWrite(fs, root, uid, ResultName).fs, r.fs, root, uid, ResultName);
    }
  }

  // ---------------------------------------------------------------- failure paths

  /** Without a user id the store's assertion fails on the read, again in `_write_error`,
      and escapes the task with nothing changed. */
  lemma TaskWithoutUserId<I>(fs: FS, root: Path, parse: string -> Option<I>, analyse: I -> JobRun)
    ensures Task(fs, root, "", parse, analyse) == TaskOutcome(fs, [], Some(EmptyUserId))
  {
  }

  /** An input that cannot be opened: the only progress is the "Cannot open" message, the
      analysis never starts and the result artifact reads as before. */
  lemma TaskOpenFailure<I>(fs: FS, root: Path, uid: string, parse: string -> Option<I>, analyse: I -> JobRun)
    requires uid != "" && PrefixesAreDirs(fs, Folder(root, uid))
    requires !IsRegular(fs, ArtifactPath(root, uid, InputName))
    ensures var r := Task(fs, root, uid, parse, analyse);
      && r.escaped.None?
      && r.trace == [ProgressSet(OpenFailedMessage(uid))]
      && ReadUserFile(r.fs, root, uid, PercentageName).result == Success(OpenFailedMessage(uid))
      && ReadUserFile(r.fs, root, uid, ResultName).result == ReadUserFile(fs, root, uid, ResultName).result
  {
    InputReadKeeps(fs, root, uid);
    TaskKeepsResultUnlessInstalled(fs, root, uid, parse, analyse);
  }

  /** An input that opens but does not parse: the only progress is the "Cannot read"
      message and the result artifact reads as before. */
  lemma TaskParseFailure<I>(fs: FS, root: Path, uid: string, parse: string -> Option<I>, analyse: I -> JobRun)
    requires uid != "" && PrefixesAreDirs(fs, Folder(root, uid))
    requires IsRegular(fs, ArtifactPath(root, uid, InputName))
    requires parse(InputContent(fs, root, uid)).None?
    ensures var r := Task(fs, root, uid, parse, analyse);
      && r.escaped.None?
      && r.trace == [ProgressSet(ReadFailedMessage(uid))]
      && ReadUserFile(r.fs, root, uid, PercentageName).result == Success(ReadFailedMessage(uid))
      && ReadUserFile(r.fs, root, uid, ResultName).result == ReadUserFile(fs, root, uid, ResultName).result
  {
    InputReadKeeps(fs, root, uid);
    TaskKeepsResultUnlessInstalled(fs, root, uid, parse, analyse);
  }

  /** An analysis that raises `e` in a healthy folder: the progress shows the analysis's own
      reports, then the message for `e`; nothing is installed and the result artifact reads
      as before. */
  lemma TaskAnalysisFailure<I>(fs: FS, root: Path, uid: string, parse: string -> Option<I>, analyse: I -> JobRun)
    requires uid != "" && PrefixesAreDirs(fs, Folder(root, uid))
    requires IsRegular(fs, ArtifactPath(root, uid, InputName))
    requires parse(InputContent(fs, root, uid)).Some?
    requires analyse(parse(InputContent(fs, root, uid)).value).failure.Some?
    ensures var run := analyse(parse(InputContent(fs, root, uid)).value);
      var r := Task(fs, root, uid, parse, analyse);
      && r.escaped.None?
      && r.trace == Reports(run.steps) + [ProgressSet(ProcessingMessage(run.failure.value, uid))]
      && ReadUserFile(r.fs, root, uid, PercentageName).result == Success(ProcessingMessage(run.failure.value, uid))
      && ReadUserFile(r.fs, root, uid, ResultName).result == ReadUserFile(fs, root, uid, ResultName).result
  {
    var run := analyse(parse(InputContent(fs, root, uid)).value);
    InputReadKeeps(fs, root, uid);
    assert Task(fs, root, uid, parse, analyse) == Analyse(fs, root, uid, run);
    AnalyseFailure(fs, root, uid, run);
    TaskKeepsResultUnlessInstalled(fs, root, uid, parse, analyse);
  }

  lemma AnalyseFailure(fs: FS, root: Path, uid: string, run: JobRun)
    requires uid != "" && PrefixesAreDirs(fs, Folder(root, uid))
    requires run.failure.Some?
    ensures var r := Analyse(fs, root, uid, run);
      && r.escaped.None?
      && r.trace == Reports(run.steps) + [ProgressSet(ProcessingMessage(run.failure.value, uid))]
      && ReadUserFile(r.fs, root, uid, PercentageName).result == Success(ProcessingMessage(run.failure.value, uid))
  {
    var s := Session(TmpPath(root, uid, ResultName), ArtifactPath(root, uid, ResultName));
    ResultScopeReady(fs, root, uid);
    var b := BeginWrite(fs, root, uid, ResultName);
    assert Analyse(fs, root, uid, run) == InScope(b.fs, root, uid, s, run);
    RunStepsSucceeds(b.fs, root, uid, s, run.steps);
    var p := RunSteps(b.fs, root, uid, s, run.steps);
    assert InScope(b.fs, root, uid, s, run)
        == WriteError(p.fs, root, uid, ProcessingMessage(run.failure.value, uid), p.trace);
  }

  // ---------------------------------------------------------------- frame

  /** Installing the result touches nothing outside the user folder. */
  lemma EndWriteFrame(fs: FS, root: Path, uid: string, s: Session)
    requires uid != ""
    requires s == Session(TmpPath(root, uid, ResultName), ArtifactPath(root, uid, ResultName))
    requires EndWrite(fs, s, true).Success?
    ensures SameOutside(fs, EndWrite(fs, s, true).value, Folder(root, uid))
  {
    assert !IsPrefix(s.tmp, Folder(root, uid)) && !IsPrefix(s.final, Folder(root, uid));
  }

  lemma InScopeFrame(fs: FS, root: Path, uid: string, s: Session, run: JobRun)
    requires uid != ""
    requires s == Session(TmpPath(root, uid, ResultName), ArtifactPath(root, uid, ResultName))
    ensures SameOutside(fs, InScope(fs, root, uid, s, run).fs, Folder(root, uid))
  {
    var p := RunSteps(fs, root, uid, s, run.steps);
    var err := if p.error.Some? then p.error else run.failure;
    if err.None? && EndWrite(p.fs, s, true).Success? {
      EndWriteFrame(p.fs, root, uid, s);
    }
  }

  /** The task of one user touches nothing outside that user's folder: no other user's
      artifacts and no queue marker. */
  lemma TaskFrame<I>(fs: FS, root: Path, uid: string, parse: string -> Option<I>, analyse: I -> JobRun)
    ensures SameOutside(fs, Task(fs, root, uid, parse, analyse).fs, Folder(root, uid))
  {
    if uid != "" {
      var rd := ReadUserFile(fs, root, uid, InputName);
      InputReadKeeps(fs, root, uid);
      if rd.result.Success? && parse(rd.result.value).Some? {
        var run := analyse(parse(rd.result.value).value);
        assert Task(fs, root, uid, parse, analyse) == Analyse(rd.fs, root, uid, run);
        var b := BeginWrite(rd.fs, root, uid, ResultName);
        if b.result.Success? {
          InScopeFrame(b.fs, root, uid, b.result.value, run);
        }
      }
    }
  }

  // ---------------------------------------------------------------- messages

  /** A reader of the percentage artifact can tell an error from progress: no error
      message reads as a number, and every progress report does. */
  lemma ErrorMessageIsNotPercentage(m: string, uid: string)
    requires IsErrorMessage(m, uid)
    ensures ParseInt(m) == None
    ensures forall p: int :: m != IntToString(p)
  {
    ErrorMessageHead(m, uid);
    assert !IsDigit(m[0]) && m[0] != '-';
    forall p: int ensures m != IntToString(p) {
      IntToStringRoundTrip(p);
    }
  }

  lemma ErrorMessageHead(m: string, uid: string)
    requires IsErrorMessage(m, uid)
    ensures |m| > 0 && (m[0] == 'C' || m[0] == 'U')
  {
    if m == OpenFailedMessage(uid) {
      CodedHead("Cannot open input file.", uid);
    } else if m == ReadFailedMessage(uid) {
      CodedHead("Cannot read input file.", uid);
    } else if m == InitFailedMessage(uid) {
      CodedHead("Cannot initialize output file.", uid);
    } else {
      var e :| m == UnexpectedMessage(e, uid);
      CodedHead("Unexpected error during processing: " + Describe(e) + ".", uid);
    }
  }

  lemma CodedHead(head: string, uid: string)
    requires head != []
    ensures |Coded(head, uid)| > 0 && Coded(head, uid)[0] == head[0]
  {
  }

  /** Error messages reveal the user id only through its first six characters: two ids that
      agree there get exactly the same messages, and each message ends with those characters. */
  lemma MessagesRevealOnlyReportCode(u1: string, u2: string, m: string)
    requires Prefix(u1, 6) == Prefix(u2, 6)
    ensures IsErrorMessage(m, u1) <==> IsErrorMessage(m, u2)
    ensures IsErrorMessage(m, u1) ==> |m| >= |ReportCode(u1)| && m[|m| - |ReportCode(u1)|..] == ReportCode(u1)
  {
    if IsErrorMessage(m, u1) && m != OpenFailedMessage(u1) && m != ReadFailedMessage(u1) && m != InitFailedMessage(u1) {
      var e :| m == UnexpectedMessage(e, u1);
      assert m == UnexpectedMessage(e, u2);
    }
    if IsErrorMessage(m, u2) && m != OpenFailedMessage(u2) && m != ReadFailedMessage(u2) && m != InitFailedMessage(u2) {
      var e :| m == UnexpectedMessage(e, u2);
      assert m == UnexpectedMessage(e, u1);
    }
  }
}
